=== FILE: README.md ===
# MidnightMiner in Dafny

A functional model of the parts of MidnightMiner that decide things: the challenge ledger and
its scheduler, the mining worker's acceptance rule, nonce buffer, preimage layout and settle
step, the supervisor's slot assignment, wallet-list management and its registration retry
policy, the dead-letter `solutions.csv` outbox and the offline resubmission pass, and the offline
utilities (`merge_wallets.py`, `check_earnings.py`, `redeem_check.py`, `plot_challenges.py`),
command-line parsing (`miner/config.py`) and the native-library locator (`ashmaize_loader.py`).

Everything the program gets from outside is a parameter: the clock (`now` as whole seconds,
deadlines and timestamps as already-parsed `Option<int>`), HTTP replies (`Http.Reply`: no
response, or a status with its text and decoded JSON body), hash digests, random buffer bytes,
donation draws, generated wallets, file contents (decoded JSON or raw text) and the order in
which threads complete. Each ledger or outbox call is one atomic update of an immutable value.

Modules follow the program:

- `Wrappers`, `Json` (with `Http`), `Text`, `Sorting`, `Striding`: Python's `Option`/exceptions,
  decoded JSON and `dict.get`, `str.strip`/`split`/`lower`/`int`, `list.sort` (stable,
  by key), and `s[i::n]` round-robin dealing.
- `Ledger`: `miner/challenge_tracker.py`. The challenge map is a sequence of keyed entries,
  so that dictionary order, which decides ties, is kept.
- `LegacyTracker`: the older selector in `miner.py`. `miner.py`'s own `main` builds this
  tracker, so the worker and the supervisor use it.
- `Mining`, `Outbox`, `Worker`, `Supervisor`: `miner.py`.
- `Wallets`: `miner/wallet_manager.py`.
- `Resubmit`, `Merge`, `Earnings`, `Redeem`, `Plots`, `Config`, `Loader`: one per script.

## Model

| member | source | states |
|---|---|---|
| Ledger.Register | miner/challenge_tracker.py:37-56 | Inserts only when the id is absent and then answers true; the new last entry copies the challenge's metadata with empty `solved_by` and `dev_solved_by`; otherwise answers false and leaves the ledger as it was. |
| Ledger.MarkSolved | miner/challenge_tracker.py:58-66 | True exactly when the challenge exists and the wallet is not yet among its solvers; then the wallet is appended and nothing else changes; otherwise nothing changes. |
| Ledger.MarkDevSolved | miner/challenge_tracker.py:150-161 | The same insert-once rule on `dev_solved_by`, which is created empty when missing; only that field of that record changes. |
| Ledger.IsDevSolved | miner/challenge_tracker.py:163-171 | An unknown challenge is never dev-solved. |
| Ledger.DevSolvedAfterMark | miner/challenge_tracker.py:150-171 | `is_dev_solved` is false for an unknown id and true after `mark_dev_solved` of a known one. |
| Ledger.UpdatesKeepShape | miner/challenge_tracker.py:17-66 | Register, mark-solved and mark-dev-solved keep the keys distinct and each record's `challenge_id` equal to its key. |
| Ledger.MarkingKeepsNoDup | miner/challenge_tracker.py:58-66 | Marking never makes a wallet appear twice in `solved_by` or `dev_solved_by`. |
| Ledger.RegisterTwice | miner/challenge_tracker.py:37-56 | Registering a known id again, even after it was solved, is refused and does not reset its solved list. |
| Ledger.MarkSolvedTwice | miner/challenge_tracker.py:58-66 | Marking is idempotent: the second call answers false, changes nothing, and the wallet is listed once. |
| Ledger.MarkAllKeepsEvery | miner/challenge_tracker.py:58-66 | Marking several wallets in turn keeps every earlier solver and adds all of them. |
| Ledger.DifficultyValue | miner/challenge_tracker.py:107-116 | A difficulty that parses is a non-empty string and its first eight digits give a value below 2^32. |
| Ledger.BestIndex | miner/challenge_tracker.py:118-131 | The scan's running best: none exactly when nothing is eligible; otherwise eligible, not beaten by any eligible record, and strictly better than every eligible record before it. |
| Ledger.GetUnsolvedChallenge | miner/challenge_tracker.py:68-135 | None exactly when no record is eligible; otherwise an eligible record that no eligible record beats on (difficulty, deadline), and strictly better than every eligible record before it in dictionary order. |
| Ledger.SelectionIsSafe | miner/challenge_tracker.py:85-116 | A selected challenge is not solved by the wallet and has a parseable deadline more than 120 seconds away. |
| Ledger.CountAfterMarkSolved | miner/challenge_tracker.py:137-148 | The completion count grows by one exactly when marking succeeds for a wallet in the counted set. |
| Ledger.CountUnchangedByOtherUpdates | miner/challenge_tracker.py:37-56 | Registering and dev-marking leave the completion count unchanged. |
| LegacyTracker.CandidatesFail | miner.py:220-243 | The legacy scan raises exactly when some unsolved record has no usable deadline: missing, unparseable, or without a UTC offset, so that subtracting the aware `now` raises TypeError. |
| LegacyTracker.CandidatesOrdered | miner.py:225-238 | The candidates are listed in dictionary order. |
| LegacyTracker.CandidatesComplete | miner.py:225-238 | Every unsolved record with time left is a candidate. |
| LegacyTracker.HeadOfSortedCandidates | miner.py:239-242 | The head of the descending stable sort has the most time left and is the first among equals. |
| LegacyTracker.LegacyPickCorrect | miner.py:220-243 | Raises exactly when an unsolved deadline is unusable (missing, unparseable, or naive); otherwise none exactly when no record qualifies, else a qualifying record with the latest deadline, the first such in dictionary order. |
| LegacyTracker.LegacyGetUnsolvedChallenge | miner.py:220-243 | A returned record is in the ledger, unsolved by the wallet, with its deadline still ahead. |
| LegacyTracker.NaiveDeadlineRaises | miner.py:226-228 | An unsolved record whose `latest_submission` parses without a UTC offset makes the selector raise. |
| LegacyTracker.SelectorsDisagreeOnMissingDeadline | miner.py:220-243 | A record without `latest_submission` is skipped by the package selector but makes the legacy one raise. |
| Mining.Accepts | miner.py:576-577 | `(h \| d) == d` holds exactly when `h` has no bit outside `d`. |
| Mining.ZeroAlwaysAccepted | miner.py:576-577 | The all-zero prefix is accepted under every difficulty. |
| Mining.AcceptedIsBelowMask | miner.py:576-577 | An accepted prefix is at most the difficulty, and stays accepted under any difficulty with more bits set. |
| Mining.StrayBitRejected | miner.py:576-577 | A prefix with a bit outside the difficulty is rejected (0x01ABCDEF against 0x01000000). |
| Mining.Prefix32 | miner.py:562 | A digest has a 32-bit prefix exactly when it is non-empty and its first eight characters are hex digits. |
| Mining.FindNonce | miner.py:568-586 | The search returns the first digest whose prefix is accepted, and none only when no digest is accepted. |
| Mining.FindNonceSucceedsWithZeroDigest | miner.py:568-586 | A zero-prefix digest among the candidates means a nonce is found. |
| Mining.HexRoundTrip | miner.py:486 | Hex-encoding bytes and decoding them gives the bytes back. |
| Mining.NewBuffer | miner.py:466-467 | A new worker's buffer holds 8192 bytes with its position at the end. |
| Mining.GetFastNonce | miner.py:478-486 | Refills exactly when the position has reached the end; returns 16 hex characters that decode to the eight bytes just taken; the position stays a multiple of 8 in [8, 8192]. |
| Mining.DrawPositions | miner.py:478-486 | After a refill the k-th draw ends at byte 8k, for every k up to 1024. |
| Mining.SubmissionAddress | miner.py:500 | The mining address when one is given and non-empty, the worker's own otherwise. |
| Mining.Preimage | miner.py:499-505 | The nonce comes first, followed by address, challenge id, difficulty, `no_pre_mine`, `latest_submission` and `no_pre_mine_hour`. |
| Mining.PreimagesShareStaticPart | miner.py:499-505 | Two 16-character nonces give preimages with the same tail, which are equal exactly when the nonces are. |
| Outbox.CsvLine | miner.py:125 | A dead-letter line is the comma-joined record followed by one newline. |
| Outbox.AppendSolution | miner.py:113-132 | Appending keeps the earlier content as a prefix. |
| Outbox.AppendAddsOneLine | miner.py:113-132 | Appending to a newline-terminated file adds exactly one line, the record. |
| Outbox.ReadLines | resubmit_solutions.py:172-187 | No line contains a newline; the file has no lines exactly when it is empty. |
| Outbox.ParseLine | resubmit_solutions.py:193-199 | A line parses exactly when it splits on commas into three fields, and joins back to itself. |
| Outbox.LineRoundTrip | miner.py:125 | A record with comma- and whitespace-free fields, written and then stripped, parses back to the same triple. |
| Outbox.Rewrite | resubmit_solutions.py:255-264 | The rewritten file is newline-terminated and empty exactly when no line is kept. |
| Outbox.RewriteReadsBack | resubmit_solutions.py:255-264 | Reading the rewritten file gives the kept lines back, in order. |
| Worker.SubmitSolution | miner.py:520-552 | One of the four triples; success exactly when a reply with a status outside 400–599 has a receipt; should-mark on any JSON reply with such a status, or on an HTTP error; already-exists only on an HTTP error whose text says so; the record is appended to the outbox only on a definitive rejection. |
| Worker.Cleared | miner.py:744-746 | Clearing forgets the nonce, the stored challenge and the retry count, and keeps the current id. |
| Worker.Begin | miner.py:609-640 | In retry mode the stored challenge is reused and nothing is read; otherwise the announced challenge is registered, the legacy pick is unsolved, in the ledger and not expired, and the retry state is reset exactly when the pick has a new id. |
| Worker.MarkOwn | miner.py:749 | Marking the own wallet keeps the keys and dev lists, and the wallet is then a solver. |
| Worker.MarkBoth | miner.py:714-717 | The duplicate-donation branch leaves both the developer and the own wallet marked. |
| Worker.SettleStatus | miner.py:710-733 | The pass waits for a new challenge exactly when a donation pass got an HTTP error saying the solution exists; a donation is reported exactly when a donation pass got a receipt. |
| Worker.SettleCreditsDeveloper | miner.py:710-746 | In both of those cases the developer is marked as having solved the challenge. |
| Worker.SettleKeepsShape | miner.py:710-775 | Settling never adds or removes challenges, and touches dev lists only on a donation pass. |
| Worker.SettleState | miner.py:735-775 | A transient error below the limit only increments the retry count; every other outcome clears the retry state. |
| Worker.SettleRetries | miner.py:755-775 | A transient error below the limit keeps the nonce, marks nothing and writes nothing. |
| Worker.SettleMarksOwn | miner.py:735-770 | Any outcome other than a retried transient error marks the own wallet. |
| Worker.SettleMarks | miner.py:735-770 | Such an outcome also clears the retry state. |
| Worker.SettleOutbox | miner.py:520-552 | The outbox gains one line, with the submission address, exactly on a definitive rejection or on the second transient error; otherwise it is unchanged. |
| Worker.EndWait | miner.py:726-732 | The wait ends exactly at a challenge with a different id, which is then registered. |
| Worker.InitialConsistent | miner.py:462-464 | A new worker is not in retry mode and its retry state is consistent. |
| Worker.PassKeepsConsistent | miner.py:607-790 | A stored nonce always comes with its challenge, a retry count of 1 and the matching current id; no nonce means a count of 0. Every pass keeps that. |
| Worker.WorkKeepsConsistent | miner.py:642-790 | The part of a pass after selection keeps the same invariant. |
| Worker.SettleKeepsConsistent | miner.py:735-790 | Settling from retry mode keeps it too. |
| Worker.MarkWithoutSubmitting | miner.py:642-651 | An expired challenge, or a search without a nonce, marks the own wallet solved without submitting or writing the outbox. |
| Worker.DonationOnlyWhenAllowed | miner.py:668-685 | A donation is reported, or a duplicate awaited, only when donations are on, the draw is below 5 % and the developer has not solved the challenge. |
| Worker.ExpiredRetryLivelock | miner.py:609-651 | As written: in retry mode, once the stored challenge has expired, every later pass leaves the worker state and the outbox exactly as they were. |
| Worker.ExpiryLeavesRetryMode | miner.py:642-651 | Corrected: the expiry branch also clears the retry state and marks the own wallet. |
| Worker.RegisterKeepsSolved | miner.py:620 | Registering a challenge never un-solves one. |
| Worker.NoReselectOfSolved | miner.py:616-633 | Outside retry mode, a challenge the wallet solved is never picked again. |
| Worker.SolvedNotListed | miner.py:220-243 | A record the wallet has not solved is not one that it has. |
| Worker.CorrectedExpiryMovesOn | miner.py:642-651 | Corrected: after an expired retry the next pass picks a different challenge, or none. |
| Supervisor.UsedAddresses | miner.py:1040-1046 | The used addresses are exactly those of live slots. |
| Supervisor.ScanFrom | miner.py:1054-1062 | The first wallet not in use whose challenge lookup finds one; every wallet before it fails that test; the scan raises exactly when a lookup before any match raises. |
| Supervisor.RaisesAtExtends | miner.py:1057-1062 | Skipping a wallet that does not qualify does not change whether a later lookup raises. |
| Supervisor.Launch | miner.py:1070-1077 | The slot's developer address is `dev_addresses[worker_id % len]`, and an empty list raises; on success exactly that slot gets a live worker. |
| Supervisor.Spawn | miner.py:1048-1077 | Only the asked slot changes. When the scan finds a free wallet with work left, that first one is started with the slot's developer address and nothing is created; a scan that raises leaves everything as it was; otherwise the generated wallet is appended and started. |
| Supervisor.SpawnCreatesOnlyWhenNeeded | miner.py:1064-1068 | The wallet list grows exactly when no free wallet has an unsolved challenge. |
| Supervisor.SpawnKeepsLiveDistinct | miner.py:1048-1077 | With fresh generated wallets, no two live slots share a wallet after a spawn. |
| Supervisor.SpawnWithInPlace | miner.py:1048-1077 | A spawn writes only the slot it was asked to fill. |
| Supervisor.TickKeepsLive | miner.py:1086-1096 | A manager pass never replaces a live worker. |
| Supervisor.TickTouchesOnly | miner.py:1086-1096 | A pass over slots `id .. n-1` changes no other slot. |
| Supervisor.TickDropsNone | miner.py:1086-1096 | A pass never removes a slot. |
| Supervisor.TickFills | miner.py:1086-1096 | A pass that does not raise leaves every slot it covers with a live worker. |
| Supervisor.TickRespawnsOnlyMissing | miner.py:1079-1100 | `worker_manager` respawns only missing or dead slots, touches no slot past `num_workers`, drops none, and without an error fills them all. |
| Supervisor.TickKeepsLiveDistinct | miner.py:1086-1096 | Live slots stay on distinct wallets through a pass. |
| Supervisor.TickDistinct | miner.py:1079-1100 | The same holds for a whole manager pass. |
| Wallets.AttemptOnce | miner/wallet_manager.py:81-118 | One attempt is accepted exactly on a reply with a status outside 400–599 or an HTTP 400 whose message contains "already" in any case; Ctrl-C, and only Ctrl-C, ends it with the re-raised KeyboardInterrupt. |
| Wallets.RegisterFrom | miner/wallet_manager.py:79-118 | The loop stops at the first accepted attempt, the first that raises (a Ctrl-C told apart from other exceptions), or gives up only in bounded mode once `max_retries` attempts are used; every attempt before the last failed. |
| Wallets.RetryPolicy | miner/wallet_manager.py:62-118 | Bounded mode makes at most `max(1, max_retries)` attempts and, given that many, always decides; indefinite mode never gives up; registration means some attempt was accepted. |
| Wallets.BoundedDecides | miner/wallet_manager.py:96-115 | With enough answers, bounded registration is never left pending. |
| Wallets.IndefiniteEndsRegisteredOrEscaped | miner/wallet_manager.py:62-118 | In indefinite mode the only ends are success, an exception that escapes, or Ctrl-C. |
| Wallets.ConsolidateResult | miner/wallet_manager.py:120-164 | True exactly when no destination is configured, on a reply with a status outside 400–599, or on HTTP 409. |
| Wallets.ToCreate | miner/wallet_manager.py:168-199 | Nothing is created when enough wallets are loaded, otherwise exactly the shortfall. |
| Wallets.LoadOrCreate | miner/wallet_manager.py:166-240 | A list that is long enough is returned unchanged and not written; otherwise start-up succeeds exactly when every new wallet registers, and the list is then the old one plus the new wallets, written once. The first failed registration ends it without writing: with exit code 1 after a refusal or an exception, and with the KeyboardInterrupt passing through `except Exception` after a Ctrl-C. |
| Wallets.CreateAll | miner/wallet_manager.py:199-236 | All generated wallets are kept, in order, exactly when each registers; otherwise the loop ends at the first wallet that does not, interrupted exactly when that one met Ctrl-C. |
| Wallets.StartUpCount | miner/wallet_manager.py:166-240 | On success the list has `num_wallets` entries, or more if more were loaded. |
| Wallets.AddWallet | miner/wallet_manager.py:249-253 | The list grows by one, the wallet is last, and the whole list is written. |
| Wallets.CreateNewWallet | miner/wallet_manager.py:269-291 | Exactly when indefinite registration succeeds, the wallet is appended last and the list written. |
| Wallets.WalletWithUnsolved | miner/wallet_manager.py:260-267 | The first wallet in list order with an unsolved challenge, or none when no wallet has one. |
| Wallets.FirstEligible | miner/wallet_manager.py:260-267 | The first position from `k` whose wallet passes the test, or none when none does. |
| Resubmit.IndexList | resubmit_solutions.py:26-36 | Indexing a wallet list fails exactly when an item makes the lookup raise. |
| Resubmit.IndexListLastWins | resubmit_solutions.py:26-36 | An address is indexed exactly when some item carries it truthily, and maps to the last such item. |
| Resubmit.IndexMembers | resubmit_solutions.py:37-38 | An object file is kept as it is, each key mapping to its last value. |
| Resubmit.LoadWallets | resubmit_solutions.py:17-42 | A missing, unopenable or invalid file, or one that is neither list nor object, gives the empty map; bytes that do not decode raise; an object is kept; a list is indexed. |
| Resubmit.RegisterAddress | resubmit_solutions.py:45-77 | Without wallet data or its signature and public key, no request is made and registration fails; success exactly on a reply with a status outside 400–599 or an HTTP 400 whose message contains "already". |
| Resubmit.NoRequestWithoutWalletData | resubmit_solutions.py:45-56 | Without a request the server's reply cannot matter, and registration is not reported ok. |
| Resubmit.Submit | resubmit_solutions.py:80-114 | Success exactly on a reply with a status outside 400–599 and a non-null receipt; already-exists and needs-registration only on HTTP errors, the latter when the message says "address" and "not registered"; no response means error. |
| Resubmit.ClassificationCases | resubmit_solutions.py:85-108 | A body saying "solution already exists" in any case gives already-exists; a reply with a status outside 400–599 and no receipt gives rejected. |
| Resubmit.Dispose | resubmit_solutions.py:217-235 | A line is dropped exactly on success, on already-exists, or when the message contains both "window" and "closed"; otherwise it is kept. |
| Resubmit.ProcessLine | resubmit_solutions.py:187-240 | Blank lines are skipped exactly when empty after stripping; a line is counted unparsed exactly when it does not split into three fields. |
| Resubmit.SubmitLine | resubmit_solutions.py:202-215 | A registration is attempted only after a needs-registration verdict. |
| Resubmit.RegistrationOnlyWhenAsked | resubmit_solutions.py:204-215 | The registration and second replies matter only after needs-registration, and a failed registration keeps the line as an error. |
| Resubmit.TallyPartition | resubmit_solutions.py:187-240 | The kept lines are exactly the rejected, errored and unparsed ones; every non-blank line is counted once. |
| Resubmit.Resubmit | resubmit_solutions.py:149-267 | A missing file exits with 1 and an empty one with 0, both without requests; a run crashes exactly when the wallet file does not decode or its list cannot be indexed; a rewritten file is newline-terminated. |
| Resubmit.RewriteOfKept | resubmit_solutions.py:255-264 | Reading back the rewritten file gives the kept lines; it is empty exactly when no line is kept. |
| Resubmit.RewriteKeepsExactly | resubmit_solutions.py:149-267 | A run over a non-empty file exits with 0 and rewrites exactly the kept lines in input order. |
| Resubmit.MinerLineIsSubmitted | resubmit_solutions.py:187-221 | A line the miner wrote parses back to its record and, when the server accepts it, is dropped as a success. |
| Resubmit.ParseArgsDefaults | resubmit_solutions.py:130-146 | Without a recognised option the wallets file and `--defensio` keep their defaults. |
| Resubmit.LastWalletsWins | resubmit_solutions.py:130-146 | A later `--wallets` or `--wallets-file` replaces an earlier one. |
| Merge.Step | merge_wallets.py:49-59 | An address not `==` to a seen one (Python's `True == 1`, `False == 0`) is appended and counted; a seen address only counts a duplicate; an entry without an address is skipped; an unhashable address raises. |
| Merge.OneAndTrueAreOneAddress | merge_wallets.py:53-59 | A list holding a wallet with address `1` and then one with `true` keeps the first and counts the second as a duplicate. |
| Merge.StepAllFinishes | merge_wallets.py:49-59 | The loop over a list stops early exactly when some entry's address is unhashable. |
| Merge.StepKeeps | merge_wallets.py:53-59 | Each step keeps the kept addresses pairwise unequal under Python's `==` and `total_wallets == len(all_wallets)`, and adds one to `total_wallets + duplicates` per accepted entry. |
| Merge.StepAllKeeps | merge_wallets.py:49-59 | Over one list, `total_wallets + duplicates` grows by the number of accepted entries. |
| Merge.StepAllCovers | merge_wallets.py:53-59 | Every address of a fully processed list is among the merged addresses. |
| Merge.MergeFileKeeps | merge_wallets.py:34-61 | One file adds its accepted entries to the counters, and counts as processed only when it holds a list. |
| Merge.MergeFilesKeeps | merge_wallets.py:29-61 | Over the folder, the counters grow by the accepted entries and processed files of all files. |
| Merge.MergeFilesCovers | merge_wallets.py:29-61 | Every address of every fully processed file is merged. |
| Merge.KeysExclusive | merge_wallets.py:71 | A list cannot have both all-string and all-number sort keys, since a missing key sorts as ''. |
| Merge.SortWallets | merge_wallets.py:70-73 | The sort is a permutation; with all-string or all-number keys it is ordered by `created_at` and keeps equal keys in their order; with any other keys the order is left as it was, as when the sort raises into the bare `except`. |
| Merge.MergeWallets | merge_wallets.py:12-91 | Output is written exactly when the folder has files, and holds the merged wallets, de-duplicated as Python's set compares addresses. |
| Merge.MergeWalletsCorrect | merge_wallets.py:12-91 | No two output addresses are `==` in Python (so not both `1` and `true`); the output has `total_wallets` equal to its length, `total_wallets + duplicates` equal to the accepted entries, the processed-file count, every accepted address, and a stable sort by `created_at`. |
| Earnings.Collect | check_earnings.py:37-47 | An object yields exactly its own qualifying address and those of the values it keeps for its keys; a list yields exactly its items' addresses; any other value yields none. |
| Earnings.CollectItems | check_earnings.py:44-46 | A list's addresses are exactly those of its items. |
| Earnings.CollectMembers | check_earnings.py:39-43 | An object's member addresses are exactly those of each key's last value: all of them, and no others. |
| Earnings.ExtractAddresses | check_earnings.py:28-49 | An unreadable or invalid file gives no address; otherwise exactly the addresses the reference reading reaches. |
| Earnings.CollectReaches | check_earnings.py:37-47 | The walk collects an address exactly when it is the own `address` of an object reached through list items and kept dictionary values. |
| Earnings.WalletListAddresses | check_earnings.py:28-49 | Every wallet object in a list file contributes its own address. |
| Earnings.Mask | check_earnings.py:80-83 | A short address is returned unchanged; a longer one becomes its first and last `visible` characters around "...", of length 2·visible+3. |
| Earnings.MaskWithZeroVisible | check_earnings.py:80-83 | With `visible = 0`, `address[-0:]` is the whole address, so the mask is "..." followed by all of it. |
| Earnings.AllocationField | check_earnings.py:64 | The allocation field is `dfo_allocation` exactly under `--defensio`. |
| Earnings.SolutionsCount | check_earnings.py:71-75 | An integer is kept; a string that is not an integer, or any non-number, counts 0. |
| Earnings.Fetch | check_earnings.py:52-77 | No response, an HTTP error or a non-JSON body gives no result; a result takes its allocation from the chosen field of `local`. |
| Earnings.SortedStrings | check_earnings.py:191 | The sorted addresses are the set's elements, each once, strictly ascending. |
| Earnings.SessionTarget | check_earnings.py:192 | `max(1, min(proxy_count, n))`. |
| Earnings.SessionCount | check_earnings.py:86-108 | At least one session and never more than the target. |
| Earnings.ProcessChunk | check_earnings.py:111-119 | A chunk's results are exactly its addresses whose fetch gave a result, each with that result; it raises exactly when some fetch raises. |
| Earnings.Gather | check_earnings.py:204-214 | The gathered results are exactly the fetched addresses of all chunks. |
| Earnings.CheckEarnings | check_earnings.py:122-233 | No address and no files exit with 1; otherwise the exit code is 0 exactly when some wallet was fetched, else 2. |
| Earnings.ChunksCover | check_earnings.py:196-202 | Dealing the sorted addresses to sessions loses none and invents none. |
| Earnings.ChunksHold | check_earnings.py:196-202 | Each chunked address is one of the list's. |
| Earnings.ReportCoversAddresses | check_earnings.py:171-233 | Results are exactly the discovered addresses that were fetched, `missing` is the rest, and the exit code is 0 exactly when one was fetched. |
| Earnings.ExitFromGather | check_earnings.py:191-233 | The report is the gathered results, and missing is the discovered addresses minus them. |
| Redeem.Decide | redeem_check.py:115-245 | One attempt retries exactly on a failed request, a 403, or an HTTP error with a JSON body other than 404 and "no redeemable thaws" 400, while attempts remain; it settles valid exactly on a 200 with a JSON body; it settles in a handler that prints `address[:20]` exactly on a failed request or a `raise_for_status` error with no retry left. |
| Redeem.CheckAllocation | redeem_check.py:101-248 | At most `retry_count + 1` attempts, none and invalid when `retry_count < 0`; valid exactly when the last attempt got a 200 with a JSON body; the address is printed exactly when all `retry_count + 1` attempts were made and the last failed as a request or with a `raise_for_status` error. |
| Redeem.NotFoundAtOnce | redeem_check.py:120-121 | A 404 settles invalid after one attempt. |
| Redeem.NoRedeemableAtOnce | redeem_check.py:145-147 | A 400 saying there is nothing to redeem settles invalid after one attempt. |
| Redeem.NotJsonAtOnce | redeem_check.py:135-142 | A reply that is not JSON, other than a 403, settles invalid after one attempt. |
| Redeem.OtherBadRequestRetried | redeem_check.py:148-155 | Any other 400 is retried while attempts remain. |
| Redeem.ForbiddenThroughout | redeem_check.py:124-133 | 403 on every attempt uses them all and ends invalid. |
| Redeem.DefaultBudget | redeem_check.py:101 | Under the default `retry_count = 2`, a wallet costs one to three requests. |
| Redeem.UnparseableAmountIgnored | redeem_check.py:168-179 | A thaw whose amount string does not parse contributes nothing, wherever it stands. |
| Redeem.ProcessChunk | redeem_check.py:283-304 | One result per wallet, in input order; the chunk's results are lost exactly when a wallet has no address, or its check prints an address that is neither a string nor a list. |
| Redeem.UnsliceableAddressLosesChunk | redeem_check.py:187-239 | A non-string, non-list address whose every attempt fails as a request or with a `raise_for_status` error raises in the handler and makes its chunk contribute nothing. |
| Redeem.UpdateSound | redeem_check.py:454-479 | A kept wallet had a valid result; a listed one had an invalid result and a string address. |
| Redeem.UpdateWellFormed | redeem_check.py:454-479 | When all addresses are strings, the valid wallets are kept and the invalid ones listed, in order. |
| Redeem.ChunkOutcomeSound | redeem_check.py:488-495 | What a chunk contributes comes from that chunk, on the side its validity puts it. |
| Redeem.GatherSound | redeem_check.py:483-495 | Every gathered wallet comes from some chunk, on its side. |
| Redeem.GatherPermutation | redeem_check.py:488-495 | The order in which threads complete changes only the order of the two lists, not what they hold. |
| Redeem.GatherInOrder | redeem_check.py:483-495 | Gathering in dealing order keeps and lists exactly the wallets of all chunks. |
| Redeem.Sessions | redeem_check.py:384-403 | At least one session, never more than the threads asked for unless a single direct one; with proxies, `min(proxies, threads)`. |
| Redeem.WalletList | redeem_check.py:441-447 | A list is dealt item by item; only a list or a string can be sliced. |
| Redeem.ClassifySound | redeem_check.py:441-495 | Each listed wallet is one of the file's, on the side its validity puts it. |
| Redeem.ClassifyComplete | redeem_check.py:441-495 | With string addresses and every thread completing once in any order, the two lists are the valid and the invalid wallets, up to order. |
| Redeem.InOrderClassifies | redeem_check.py:441-495 | The same in dealing order. |
| Redeem.KeepSplits | redeem_check.py:454-479 | Together the valid and invalid wallets are the whole list. |
| Redeem.Load | redeem_check.py:40-53 | Loading fails exactly on an unreadable file or a truthy value that cannot be sliced. |
| Redeem.Report | redeem_check.py:560-605 | The file is saved, holding only the valid wallets, exactly when some are invalid, removal is confirmed or automatic, and the write works; a failed write exits with 1. |
| Redeem.RedeemCheck | redeem_check.py:318-605 | A missing or empty file exits with 1; a saved file holds only valid wallets from the file. |
| Redeem.EveryWalletClassified | redeem_check.py:441-588 | Each wallet ends up in exactly one list, and a saved file holds exactly the valid ones, up to order. |
| Redeem.RunLists | redeem_check.py:441-588 | A loaded run finishes, reporting the two sides of the classification. |
| Plots.AddressesFrom | plot_challenges.py:19 | The user addresses are exactly the `address` values of the wallet objects; a missing key is caught, a non-object item or an unhashable address raises. |
| Plots.UserAddresses | plot_challenges.py:16-22 | A missing or non-JSON wallets file gives the empty set; an open error the handler does not name, such as a PermissionError or undecodable bytes, crashes. |
| Plots.SolutionPoint | plot_challenges.py:35-54 | A challenge without a truthy `discovered_at` is skipped; a point has a parsed time and a positive count. |
| Plots.CollectSource | plot_challenges.py:35-54 | Every collected point is the point of some item. |
| Plots.CollectKept | plot_challenges.py:35-54 | Every item that gives a point has it collected. |
| Plots.SolutionPointSource | plot_challenges.py:35-54 | Every solutions point comes from a challenge that gives it. |
| Plots.SolutionPointKept | plot_challenges.py:35-54 | Every challenge that gives a point has it plotted. |
| Plots.CountsWhoseSolutions | plot_challenges.py:40-47 | With no user addresses every `solved_by` entry counts, otherwise only those `in` the user set under Python's `==` (`1` is in a set holding `True`); a count is positive exactly when one entry counts. |
| Plots.TrueUserCountsOne | plot_challenges.py:40-43 | With user addresses `{True}`, a `solved_by` of `[1]` counts one solution. |
| Plots.AccumulateShape | plot_challenges.py:64-71 | Over time-ordered points, the cumulative list keeps the times, climbs by each count, starts at the first count and ends at the sum. |
| Plots.AccumulateClimbs | plot_challenges.py:67-71 | Times and running totals both never decrease. |
| Plots.AccumulateEnds | plot_challenges.py:67-71 | The first total is the first count and the last is the sum of all counts. |
| Plots.SortedByTime | plot_challenges.py:61 | Sorting by time is a permutation, ordered by time, with equal times in their order. |
| Plots.PlotPoints | plot_challenges.py:61-71 | Sorting and accumulating lays the points out. |
| Plots.SolvedOverTime | plot_challenges.py:11-72 | A missing or non-JSON challenges file gives no plot; any other open error crashes; a crash happens exactly where reading a file or a challenge raises. |
| Plots.SolvedPlotShape | plot_challenges.py:11-72 | A solutions plot lays out the points of the kept challenges, and has at least one. |
| Plots.Reading | plot_challenges.py:138-147 | A snapshot gives a point exactly when its timestamp is present, truthy and parses; the point pairs that time with its own balance, 0 when absent. |
| Plots.BalancePointSource | plot_challenges.py:137-147 | Every balance point is the reading of some snapshot. |
| Plots.BalancePointKept | plot_challenges.py:137-147 | Every snapshot with a reading has it plotted. |
| Plots.SnapshotsOf | plot_challenges.py:124-128 | A truthy object gives its `snapshots` entry. |
| Plots.BalancesOverTime | plot_challenges.py:106-157 | A missing or non-JSON file gives no plot, any other open error crashes, and a plot comes from a decoded file and has at least one point. |
| Plots.BalancePlotShape | plot_challenges.py:137-157 | The balance plot holds exactly the readable snapshots, each time still paired with its balance, in time order, with equal times in file order. |
| Config.FlagSpelling | miner/config.py:40-58 | An argument is read as a flag exactly when it is that flag's spelling. |
| Config.SpellingsDiffer | miner/config.py:40-58 | No two flags share a spelling. |
| Config.ClassifyClassifies | miner/config.py:40-58 | Every argument is read once, as its flag and its integer value. |
| Config.Visit | miner/config.py:40-58 | One turn fails exactly at `--workers` or `--wallets` followed by an argument that is not an integer. |
| Config.VisitText | miner/config.py:43-46 | A turn writes a file or address setting only at its own flag with an argument after it, and then writes that argument. |
| Config.VisitCount | miner/config.py:41-42 | A turn writes a count only at its own flag with an argument after it. |
| Config.VisitSwitch | miner/config.py:47-58 | A turn turns a switch on at its flag and never off. |
| Config.ScanFails | miner/config.py:40-58 | The loop fails exactly when some count flag is followed by a non-integer. |
| Config.ScanText | miner/config.py:43-56 | A file or address setting is the value after the last such flag that has one, or the default. |
| Config.ScanCount | miner/config.py:41-50 | A count is the value after the last such flag that has one, or the default. |
| Config.ScanSwitch | miner/config.py:47-58 | A switch is on exactly when its flag appears anywhere. |
| Config.ParseArgs | miner/config.py:28-81 | A result has at least one worker and one wallet; an unreadable count is reported as such; fewer than one worker, or an explicit wallet count below one, is an error. |
| Config.ParseArguments | miner/config.py:28-81 | A parsed configuration has at least one worker and at least one wallet. |
| Config.GivenSpelled | miner/config.py:47-58 | A switch is given exactly when its spelling is on the command line. |
| Config.ParseArgumentsErrors | miner/config.py:60-69 | The three errors: a non-integer count, `num_workers < 1`, and a wallet count below one (defaulting to the workers). |
| Config.ParseArgumentsSettings | miner/config.py:71-81 | The result holds exactly the nine parsed fields: last values win, switches are set wherever they appear, and the wallet count defaults to the worker count. |
| Config.ParsedSwitch | miner/config.py:47-58 | A switch of the result is on exactly when it is given. |
| Config.Defaults | miner/config.py:30-38 | Without flags: one worker, "wallets.json", "challenges.json", donation on, one wallet, all else off or none. |
| Config.Unflagged | miner/config.py:30-38 | The same defaults for already classified arguments. |
| Config.WorkersFlag | miner/config.py:41-42 | A trailing `--workers N` gives N workers and N wallets when N ≥ 1, and the workers error when N = 0. |
| Config.TrailingWorkers | miner/config.py:60-62 | A trailing `--workers` below one is an error. |
| Loader.Arch | ashmaize_loader.py:24-30 | x86_64, amd64 and x64 become x64; aarch64, arm64 and armv8 become arm64; any other name passes through. |
| Loader.ArchIdempotent | ashmaize_loader.py:24-30 | Normalising a normalised name changes nothing. |
| Loader.PlatformMapShape | ashmaize_loader.py:33-39 | Exactly five (system, arch) pairs map to a directory, named `<os>-<arch>` with macos for darwin. |
| Loader.JoinPlain | ashmaize_loader.py:53 | Joining onto a path that does not end in a separator inserts one. |
| Loader.LocateMeaning | ashmaize_loader.py:52-71 | On a supported platform the directory is `<here>/libs/<os>-<arch>`, the binary is `.pyd` on windows and `.so` elsewhere, and a missing binary raises. |
| Loader.PlatformPath | ashmaize_loader.py:11-71 | An unsupported platform raises exactly when the lowercased system and normalised machine are not in the table. |
| Loader.PlatformPathMeaning | ashmaize_loader.py:11-71 | For a supported platform, the directory is returned exactly when its binary exists. |
| Loader.Load | ashmaize_loader.py:74-99 | The library directory is put first on `sys.path` only when absent; the import's failure becomes the loader's error. |
| Loader.Init | ashmaize_loader.py:105-110 | A cached module is returned as it is; otherwise one load is made and kept only when it succeeds. |
| Loader.InitLoadsOnce | ashmaize_loader.py:103-110 | Over successive calls the module is loaded until the first success and never again. |
| Sorting.SortByCorrect | merge_wallets.py:71 | The stable sort used for `list.sort(key=...)`: ordered by key, a permutation, each key's elements in input order. |
| Sorting.SortedHeadIsFirstLeast | miner.py:239-242 | The head of a stable sort is the first of the least elements. |
| Striding.ChunksPartition | check_earnings.py:196-202 | Round-robin dealing of distinct elements puts each in exactly one chunk. |
| Striding.ChunksPermutation | redeem_check.py:441-447 | The chunks together are a permutation of the list. |
| Text.ParseIntRoundTrip | miner/config.py:42 | `int(str(n)) == n` for every natural number. |
| Text.SplitJoin | resubmit_solutions.py:193 | Splitting a comma join of comma-free parts gives the parts back. |
| Text.StripTrimmed | resubmit_solutions.py:188 | A string without surrounding whitespace is its own `strip()`. |
| Json.Get | resubmit_solutions.py:37-38 | `d.get(key)` finds the last binding of a repeated key, and none exactly when the key is absent. |

## Left out

- Locks, `fsync`, file truncation, processes, threads and the `Manager` status dict: each ledger, outbox and wallet-file call is one atomic update, and threads appear only as the order in which their results arrive.
- HTTP and proxies: every request is an injected `Reply`; `fetch_developer_addresses`, `report_donation`, `get_current_challenge`, API status checks and `create_sessions` are not modelled beyond the number of sessions they yield.
- Cryptography: key generation, CBOR/COSE signing and `consolidate.py`; wallets are opaque records with an address.
- The ashmaize ROM and `hash_batch`, `secrets.token_bytes` and `random.random`: digests, buffer bytes and donation draws are inputs.
- Wall-clock time and ISO-8601 parsing: deadlines and timestamps are already-parsed `Option<int>` seconds, a stored stamp also saying whether it was parsed without a UTC offset, and `Plots` takes the parser as a function. Float `time_left`, the mining time limit, sleeps and timeouts are left out.
- Ledger.GetUnsolvedChallenge: comparing a timezone-naive with an aware deadline raises TypeError at miner/challenge_tracker.py:96-103; this selector reads only the stamp's seconds, so that crash is not modelled (the legacy selector does model it).
- Plots.SolvedOverTime: sorting naive and aware timestamps together raises TypeError at plot_challenges.py:61; times are plain seconds here, so that crash is not modelled.
- Plots.BalancesOverTime: the same TypeError at plot_challenges.py:154 is not modelled.
- Floating point: hash rates, NIGHT balances and redeem token totals. JSON numbers are integers.
- Redeem.Lovelace: sums integer amounts only; a float amount or a string such as "1.5", which `float()` reads, is not counted.
- Ledger.DifficultyValue: reads plain hex digits only. `int(x, 16)` also accepts surrounding whitespace, a sign, `0x` and `_`; Python reads "-0000001" as −1, making that challenge the most preferred, while the model reads it as unparseable and ineligible.
- Text.ParseInt: rejects `_` between digits and non-ASCII digits, which `int()` accepts; Config and Resubmit use it.
- Text.Lower: folds ASCII letters only, while `str.lower()` folds all of Unicode.
- Outbox.ReadLines: splits on '\n' only; Python's universal newlines also split on a lone '\r' and on "\r\n".
- Earnings.ExtractAddresses: a file that is not UTF-8 raises UnicodeDecodeError, which is neither of the exceptions caught at check_earnings.py:32-33 and ends the script; the model only knows readable-and-decoded or not.
- Redeem.RedeemCheck: the server's answer is a function of the address, so two wallets with the same address always get the same verdict.
- Merge.SortWallets: when the keys mix strings and numbers the sort raises; CPython may then leave the list partly permuted, which the model does not reproduce (it keeps the input order).
- Merge.SortWallets: when every `created_at` is a list, Python compares the lists element by element and sorts the wallets; list comparison is not modelled, and such a list keeps its input order.
- UI and output: console printing, logging, the dashboard, matplotlib calls, `plot_combined`, report files and the detailed redeem statistics.
- Filesystem discovery (`discover_wallet_files`), backups and `save_wallets` beyond success or failure; interactive confirmation is an input string.
- Command-line parsing of `check_earnings.py`, `redeem_check.py` and `miner.py`'s own `main` (miner.py:958-970): their results are parameters.
- `miner.py`'s own `WalletManager.load_or_create_wallets` (miner.py:345-395): the package version is modelled in `Wallets`.
- Wallets.LoadOrCreate: `sign_terms` runs before each registration, outside the `try`. Its terms fetch cannot fail visibly, because `get_terms_and_conditions` falls back to the built-in message on any error. The key and address decoding that follows is not modelled.
- `Supervisor.SpawnWith`: a slot beyond the generated wallets given fails, as a bound on the inputs and not a program behaviour.
- Loader: `platform.system()`, `platform.machine()`, the loader's own directory, the file test and the import are inputs; Windows drive letters are not modelled in path joining.
- The `miner/worker.py` and `miner/worker_process.py` entry points.

## Findings

| source | as written | input that shows it | evidently intended | confidence | as-written member | corrected member |
|---|---|---|---|---|---|---|
| miner.py:609-651 | In retry mode (a stored nonce and challenge), when the stored challenge's deadline has passed, `run` marks it solved and `continue`s without clearing `current_nonce` and `current_challenge_data`; the next pass takes the retry branch again with the same challenge. | A worker whose submission failed once with a network error (retry count 1) and whose challenge then expires: every later pass marks and sleeps on that challenge forever. | Expiry leaves retry mode like the other terminal outcomes, so the worker moves on to another challenge. | not executed | Worker.RunPassAsWritten, Worker.ExpiredRetryLivelock | Worker.RunPass, Worker.ExpiryLeavesRetryMode, Worker.CorrectedExpiryMovesOn |

=== FILE: config.dfy ===
/**
 * `miner/config.py`: the miner's command line. `parse_arguments` walks the whole of `sys.argv`
 * (the program name included) once; value flags read the argument after them when there is one,
 * switches take effect wherever they appear, and the counts are checked at the end.
 */
module Config {
  import opened Wrappers
  import opened Text

  /** The nine settings `parse_arguments` returns. */
  datatype Settings = Settings(
    numWorkers: int,
    walletsFile: string,
    challengesFile: string,
    donationEnabled: bool,
    walletsCount: int,
    logApiRequests: bool,
    useDefensioApi: bool,
    consolidateAddress: Option<string>,
    useParallel: bool)

  /** The loop's variables; `walletsCount` stays None until `--wallets` is given. */
  datatype Scanned = Scanned(
    numWorkers: int,
    walletsFile: string,
    challengesFile: string,
    donationEnabled: bool,
    walletsCount: Option<int>,
    logApiRequests: bool,
    useDefensioApi: bool,
    consolidateAddress: Option<string>,
    useParallel: bool)

  /** Why no settings come back: `int()` raised on a value, or the program exits with status 1. */
  datatype ArgError = NotAnInteger(text: string) | TooFewWorkers | TooFewWallets

  const Initial := Scanned(1, "wallets.json", "challenges.json", true, None, false, false, None, false)

  /** The arguments the loop recognises, and everything else. */
  datatype Flag = Workers | WalletsFile | ChallengesFile | NoDonation | Wallets | LogApiRequests | Defensio | Consolidate | Parallel | Other

  /** How each flag is written on the command line. */
  function Spelling(f: Flag): string {
    match f
    case Workers => "--workers"
    case WalletsFile => "--wallets-file"
    case ChallengesFile => "--challenges-file"
    case NoDonation => "--no-donation"
    case Wallets => "--wallets"
    case LogApiRequests => "--log-api-requests"
    case Defensio => "--defensio"
    case Consolidate => "--consolidate"
    case Parallel => "--parallel"
    case Other => ""
  }

  /** The flags in the order the loop compares an argument with them. */
  const Recognised: seq<Flag> := [Workers, WalletsFile, ChallengesFile, NoDonation, Wallets, LogApiRequests, Defensio, Consolidate, Parallel]

  /** The first of `Recognised[k..]` that `arg` spells, or `Other`. */
  function LookupFrom(arg: string, k: nat): Flag
    requires k <= |Recognised|
    decreases |Recognised| - k
  {
    if k == |Recognised| then Other
    else if arg == Spelling(Recognised[k]) then Recognised[k]
    else LookupFrom(arg, k + 1)
  }

  /** The flag an argument is. */
  function FlagOf(arg: string): Flag {
    LookupFrom(arg, 0)
  }

  lemma {:induction false} LookupSpells(arg: string, k: nat)
    requires k <= |Recognised|
    ensures LookupFrom(arg, k) == Other || arg == Spelling(LookupFrom(arg, k))
    decreases |Recognised| - k
  {
    if k < |Recognised| && arg != Spelling(Recognised[k]) {
      LookupSpells(arg, k + 1);
    }
  }

  /** The spelling of the flag at `Recognised[j]` is not found before `j`, since no two spellings agree. */
  lemma {:induction false} LookupFinds(arg: string, k: nat, j: nat)
    requires k <= j < |Recognised| && arg == Spelling(Recognised[j])
    ensures LookupFrom(arg, k) == Recognised[j]
    decreases j - k
  {
    if k < j {
      SpellingsDiffer(k, j);
      LookupSkips(arg, k);
      LookupFinds(arg, k + 1, j);
    }
  }

  lemma LookupSkips(arg: string, k: nat)
    requires k < |Recognised| && arg != Spelling(Recognised[k])
    ensures LookupFrom(arg, k) == LookupFrom(arg, k + 1)
  {
  }

  /** Spellings are pairwise distinct: they differ in length or in their third or fourth letter. */
  lemma SpellingsDiffer(k: nat, j: nat)
    requires k < j < |Recognised|
    ensures Spelling(Recognised[k]) != Spelling(Recognised[j])
  {
    var a, b := Spelling(Recognised[k]), Spelling(Recognised[j]);
    assert |a| != |b| || a[2] != b[2] || a[3] != b[3];
  }

  /** Where a flag stands in `Recognised`. */
  function Position(f: Flag): (k: nat)
    requires f != Other
    ensures k < |Recognised| && Recognised[k] == f
  {
    match f
    case Workers => 0
    case WalletsFile => 1
    case ChallengesFile => 2
    case NoDonation => 3
    case Wallets => 4
    case LogApiRequests => 5
    case Defensio => 6
    case Consolidate => 7
    case Parallel => 8
  }

  /** An argument is recognised as a flag exactly when it is that flag's spelling. */
  lemma FlagSpelling(arg: string, f: Flag)
    requires f != Other
    ensures FlagOf(arg) == f <==> arg == Spelling(f)
  {
    LookupSpells(arg, 0);
    SpellingRecognised(f);
  }

  /** No spelling is shadowed by an earlier one. */
  lemma SpellingRecognised(f: Flag)
    requires f != Other
    ensures FlagOf(Spelling(f)) == f
  {
    LookupFinds(Spelling(f), 0, Position(f));
  }

  /** An argument as the loop sees it: its text, the flag it is, and what `int()` makes of it. */
  datatype Arg = Arg(text: string, flag: Flag, number: Option<int>)

  /** Each argument of `argv` read once. */
  function Classify(argv: seq<string>): (args: seq<Arg>)
    ensures |args| == |argv|
  {
    seq(|argv|, i requires 0 <= i < |argv| => Arg(argv[i], FlagOf(argv[i]), ParseInt(argv[i])))
  }

  /** `args` is `argv` read argument by argument. */
  predicate Classified(argv: seq<string>, args: seq<Arg>) {
    && |args| == |argv|
    && forall i {:trigger args[i]} :: 0 <= i < |argv| ==> args[i] == Arg(argv[i], FlagOf(argv[i]), ParseInt(argv[i]))
  }

  /** `Classify` reads every argument, and it is the only sequence that does: the lemmas below about a classified `args` are about `Classify(argv)`. */
  lemma ClassifyClassifies(argv: seq<string>, args: seq<Arg>)
    ensures Classified(argv, Classify(argv))
    ensures Classified(argv, args) ==> args == Classify(argv)
  {
    if Classified(argv, args) {
      assert forall i :: 0 <= i < |argv| ==> args[i] == Classify(argv)[i];
    }
  }

  /** The flags that turn a setting on. */
  predicate IsSwitch(f: Flag) {
    f == NoDonation || f == LogApiRequests || f == Defensio || f == Parallel
  }

  /** The flags that read an integer. */
  predicate TakesCount(f: Flag) {
    f == Workers || f == Wallets
  }

  /** One turn of the loop, at position `i`; a value flag without an argument after it does nothing. */
  function Visit(st: Scanned, args: seq<Arg>, i: nat): (r: Result<Scanned, ArgError>)
    requires i < |args|
    ensures r.Failure? <==> TakesCount(args[i].flag) && i + 1 < |args| && args[i + 1].number.None?
    ensures r.Failure? ==> r.error == NotAnInteger(args[i + 1].text)
  {
    var more := i + 1 < |args|;
    match args[i].flag
    case Workers =>
      if !more then Success(st)
      else if args[i + 1].number.None? then Failure(NotAnInteger(args[i + 1].text))
      else Success(st.(numWorkers := args[i + 1].number.value))
    case WalletsFile => if more then Success(st.(walletsFile := args[i + 1].text)) else Success(st)
    case ChallengesFile => if more then Success(st.(challengesFile := args[i + 1].text)) else Success(st)
    case NoDonation => Success(st.(donationEnabled := false))
    case Wallets =>
      if !more then Success(st)
      else if args[i + 1].number.None? then Failure(NotAnInteger(args[i + 1].text))
      else Success(st.(walletsCount := args[i + 1].number))
    case LogApiRequests => Success(st.(logApiRequests := true))
    case Defensio => Success(st.(useDefensioApi := true))
    case Consolidate => if more then Success(st.(consolidateAddress := Some(args[i + 1].text))) else Success(st)
    case Parallel => Success(st.(useParallel := true))
    case Other => Success(st)
  }

  /** The setting a flag that takes a path or an address writes: `--wallets-file`, `--challenges-file`, `--consolidate`. */
  function TextSetting(st: Scanned, f: Flag): Option<string> {
    match f
    case WalletsFile => Some(st.walletsFile)
    case ChallengesFile => Some(st.challengesFile)
    case Consolidate => st.consolidateAddress
    case _ => None
  }

  /** The setting a count flag writes: `--workers`, `--wallets`. */
  function CountSetting(st: Scanned, f: Flag): Option<int> {
    match f
    case Workers => Some(st.numWorkers)
    case Wallets => st.walletsCount
    case _ => None
  }

  /** The setting a switch turns on: `--no-donation` (turning donations off), `--log-api-requests`, `--defensio`, `--parallel`. */
  function SwitchSetting(st: Scanned, f: Flag): bool {
    match f
    case NoDonation => !st.donationEnabled
    case LogApiRequests => st.logApiRequests
    case Defensio => st.useDefensioApi
    case Parallel => st.useParallel
    case _ => false
  }

  /** A turn writes a text setting only at its own flag with an argument after it, and then writes that argument. */
  lemma VisitText(st: Scanned, args: seq<Arg>, i: nat, f: Flag)
    requires i < |args| && Visit(st, args, i).Success?
    ensures TextSetting(Visit(st, args, i).value, f) ==
      if args[i].flag == f && i + 1 < |args| && TextSetting(st, f).Some? then Some(args[i + 1].text)
      else if f == Consolidate && args[i].flag == f && i + 1 < |args| then Some(args[i + 1].text)
      else TextSetting(st, f)
  {
  }

  /** A turn writes a count only at its own flag with an argument after it, and then writes the integer it reads. */
  lemma VisitCount(st: Scanned, args: seq<Arg>, i: nat, f: Flag)
    requires i < |args| && Visit(st, args, i).Success? && TakesCount(f)
    ensures CountSetting(Visit(st, args, i).value, f) ==
      if args[i].flag == f && i + 1 < |args| then args[i + 1].number else CountSetting(st, f)
  {
    if f == Workers {
      VisitWorkers(st, args, i);
    } else {
      VisitWallets(st, args, i);
    }
  }

  lemma VisitWorkers(st: Scanned, args: seq<Arg>, i: nat)
    requires i < |args| && Visit(st, args, i).Success?
    ensures CountSetting(Visit(st, args, i).value, Workers) ==
      if args[i].flag == Workers && i + 1 < |args| then args[i + 1].number else CountSetting(st, Workers)
  {
  }

  lemma VisitWallets(st: Scanned, args: seq<Arg>, i: nat)
    requires i < |args| && Visit(st, args, i).Success?
    ensures CountSetting(Visit(st, args, i).value, Wallets) ==
      if args[i].flag == Wallets && i + 1 < |args| then args[i + 1].number else CountSetting(st, Wallets)
  {
  }

  /** A turn turns a switch on exactly at that switch, wherever it stands, and never off. */
  lemma VisitSwitch(st: Scanned, args: seq<Arg>, i: nat, f: Flag)
    requires i < |args| && Visit(st, args, i).Success? && IsSwitch(f)
    ensures SwitchSetting(Visit(st, args, i).value, f) == (SwitchSetting(st, f) || args[i].flag == f)
  {
    match f
    case NoDonation => VisitNoDonation(st, args, i);
    case LogApiRequests => VisitLogApiRequests(st, args, i);
    case Defensio => VisitDefensio(st, args, i);
    case Parallel => VisitParallel(st, args, i);
  }

  lemma VisitNoDonation(st: Scanned, args: seq<Arg>, i: nat)
    requires i < |args| && Visit(st, args, i).Success?
    ensures SwitchSetting(Visit(st, args, i).value, NoDonation) == (SwitchSetting(st, NoDonation) || args[i].flag == NoDonation)
  {
  }

  lemma VisitLogApiRequests(st: Scanned, args: seq<Arg>, i: nat)
    requires i < |args| && Visit(st, args, i).Success?
    ensures SwitchSetting(Visit(st, args, i).value, LogApiRequests) == (SwitchSetting(st, LogApiRequests) || args[i].flag == LogApiRequests)
  {
  }

  lemma VisitDefensio(st: Scanned, args: seq<Arg>, i: nat)
    requires i < |args| && Visit(st, args, i).Success?
    ensures SwitchSetting(Visit(st, args, i).value, Defensio) == (SwitchSetting(st, Defensio) || args[i].flag == Defensio)
  {
  }

  lemma VisitParallel(st: Scanned, args: seq<Arg>, i: nat)
    requires i < |args| && Visit(st, args, i).Success?
    ensures SwitchSetting(Visit(st, args, i).value, Parallel) == (SwitchSetting(st, Parallel) || args[i].flag == Parallel)
  {
  }

  /** The loop over the first `n` arguments; the first `int()` that raises ends it. */
  function Scan(args: seq<Arg>, n: nat): (r: Result<Scanned, ArgError>)
    requires n <= |args|
    ensures r.Failure? ==> r.error.NotAnInteger?
  {
    if n == 0 then Success(Initial)
    else
      match Scan(args, n - 1)
      case Failure(e) => Failure(e)
      case Success(st) => Visit(st, args, n - 1)
  }

  /** `parse_arguments` after recognition: the loop, then the two range checks. */
  function ParseArgs(args: seq<Arg>): (r: Result<Settings, ArgError>)
    ensures r.Success? ==> r.value.numWorkers >= 1 && r.value.walletsCount >= 1
    ensures Scan(args, |args|).Failure? ==> r == Failure(Scan(args, |args|).error)
    ensures r == Failure(TooFewWorkers) <==> Scan(args, |args|).Success? && Scan(args, |args|).value.numWorkers < 1
    ensures r == Failure(TooFewWallets) <==>
      && Scan(args, |args|).Success? && Scan(args, |args|).value.numWorkers >= 1
      && Scan(args, |args|).value.walletsCount.Some? && Scan(args, |args|).value.walletsCount.value < 1
    ensures r.Success? && Scan(args, |args|).value.walletsCount.None? ==> r.value.walletsCount == r.value.numWorkers
  {
    match Scan(args, |args|)
    case Failure(e) => Failure(e)
    case Success(st) =>
      if st.numWorkers < 1 then Failure(TooFewWorkers)
      else
        var count := if st.walletsCount.None? then st.numWorkers else st.walletsCount.value;
        if count < 1 then Failure(TooFewWallets)
        else
          Success(Settings(st.numWorkers, st.walletsFile, st.challengesFile, st.donationEnabled, count,
                           st.logApiRequests, st.useDefensioApi, st.consolidateAddress, st.useParallel))
  }

  // ---------------------------------------------------------------------------------------------
  // The command line read declaratively

  /** Position `i` holds `f` with an argument after it, and no later position among the first `n` does. */
  predicate LastAt(args: seq<Arg>, f: Flag, n: nat, i: nat) {
    && i < n && i + 1 < |args| && args[i].flag == f
    && forall j :: i < j < n && j + 1 < |args| ==> args[j].flag != f
  }

  /** The argument after the last `f` among the first `n` that has one: last wins. */
  function LastArg(args: seq<Arg>, f: Flag, n: nat): (r: Option<Arg>)
    requires n <= |args|
    ensures r.None? <==> forall i :: 0 <= i < n && i + 1 < |args| ==> args[i].flag != f
    ensures r.Some? ==> exists i :: LastAt(args, f, n, i) && args[i + 1] == r.value
  {
    if n == 0 then None
    else if args[n - 1].flag == f && n < |args| then
      assert LastAt(args, f, n, n - 1);
      Some(args[n])
    else
      var r := LastArg(args, f, n - 1);
      assert r.Some? ==> exists i :: LastAt(args, f, n, i) && args[i + 1] == r.value by {
        if r.Some? {
          var i :| LastAt(args, f, n - 1, i) && args[i + 1] == r.value;
          assert LastAt(args, f, n, i);
        }
      }
      r
  }

  /** The text of the argument after the last `f`, if any. */
  function LastValue(args: seq<Arg>, f: Flag, n: nat): (r: Option<string>)
    requires n <= |args|
  {
    match LastArg(args, f, n)
    case None => None
    case Some(a) => Some(a.text)
  }

  /** Some `f` is among the first `n` arguments. */
  predicate Given(args: seq<Arg>, f: Flag, n: nat)
    requires n <= |args|
  {
    exists i :: 0 <= i < n && args[i].flag == f
  }

  /** Position `i` holds `--workers` or `--wallets` followed by a non-integer. */
  predicate BadCountAt(args: seq<Arg>, i: nat) {
    i + 1 < |args| && TakesCount(args[i].flag) && args[i + 1].number.None?
  }

  /** Some count flag among the first `n` arguments is followed by a non-integer. */
  predicate BadCount(args: seq<Arg>, n: nat)
    requires n <= |args|
  {
    exists i :: 0 <= i < n && BadCountAt(args, i)
  }

  /** The integer a count flag ends up with, when its value parses. */
  function CountOf(last: Option<Arg>, default: int): int {
    match last
    case None => default
    case Some(a) => a.number.GetOr(default)
  }

  lemma BadCountStep(args: seq<Arg>, n: nat)
    requires 0 < n <= |args|
    ensures BadCount(args, n) <==> BadCount(args, n - 1) || BadCountAt(args, n - 1)
  {
    if BadCount(args, n) && !BadCount(args, n - 1) {
      var i :| 0 <= i < n && BadCountAt(args, i);
      assert i == n - 1;
    }
  }

  lemma GivenStep(args: seq<Arg>, f: Flag, n: nat)
    requires 0 < n <= |args|
    ensures Given(args, f, n) <==> Given(args, f, n - 1) || args[n - 1].flag == f
  {
    if Given(args, f, n) && !Given(args, f, n - 1) {
      var i :| 0 <= i < n && args[i].flag == f;
      assert i == n - 1;
    }
  }

  /** The loop fails exactly when some count flag is followed by a non-integer. */
  lemma {:induction false} ScanFails(args: seq<Arg>, n: nat)
    requires n <= |args|
    ensures Scan(args, n).Failure? <==> BadCount(args, n)
  {
    if n > 0 {
      ScanFails(args, n - 1);
      BadCountStep(args, n);
    }
  }

  /** Each path or address flag ends up with the argument after its last occurrence, or its default. */
  lemma {:induction false} ScanText(args: seq<Arg>, n: nat, f: Flag)
    requires n <= |args| && Scan(args, n).Success?
    requires f == WalletsFile || f == ChallengesFile || f == Consolidate
    ensures TextSetting(Scan(args, n).value, f) == if LastValue(args, f, n).Some? then LastValue(args, f, n) else TextSetting(Initial, f)
  {
    if n > 0 {
      ScanText(args, n - 1, f);
      VisitText(Scan(args, n - 1).value, args, n - 1, f);
    }
  }

  /** Each count flag ends up with the integer after its last occurrence, or its default. */
  lemma {:induction false} ScanCount(args: seq<Arg>, n: nat, f: Flag)
    requires n <= |args| && Scan(args, n).Success?
    requires TakesCount(f)
    ensures CountSetting(Scan(args, n).value, f) == if LastArg(args, f, n).Some? then LastArg(args, f, n).value.number else CountSetting(Initial, f)
  {
    if n > 0 {
      ScanCount(args, n - 1, f);
      VisitCount(Scan(args, n - 1).value, args, n - 1, f);
    }
  }

  /** Each switch is on exactly when it appears, wherever that is. */
  lemma {:induction false} ScanSwitch(args: seq<Arg>, n: nat, f: Flag)
    requires n <= |args| && Scan(args, n).Success?
    requires IsSwitch(f)
    ensures SwitchSetting(Scan(args, n).value, f) == Given(args, f, n)
  {
    if n > 0 {
      ScanSwitch(args, n - 1, f);
      VisitSwitch(Scan(args, n - 1).value, args, n - 1, f);
      GivenStep(args, f, n);
    }
  }

  /** After a clean loop, the workers count is the last `--workers` value (1 without one), and `--wallets` likewise. */
  lemma ScannedCounts(args: seq<Arg>)
    requires Scan(args, |args|).Success?
    ensures var st := Scan(args, |args|).value;
      && st.numWorkers == CountOf(LastArg(args, Workers, |args|), 1)
      && (st.walletsCount.None? <==> LastArg(args, Wallets, |args|).None?)
      && (st.walletsCount.Some? ==> st.walletsCount.value == CountOf(LastArg(args, Wallets, |args|), 0))
      && (LastArg(args, Workers, |args|).Some? ==> LastArg(args, Workers, |args|).value.number.Some?)
      && (LastArg(args, Wallets, |args|).Some? ==> LastArg(args, Wallets, |args|).value.number.Some?)
  {
    ScannedCount(args, Workers);
    ScannedCount(args, Wallets);
  }

  /** After a clean loop, a count flag holds the integer after its last occurrence, which parses. */
  lemma ScannedCount(args: seq<Arg>, f: Flag)
    requires Scan(args, |args|).Success? && TakesCount(f)
    ensures var last := LastArg(args, f, |args|);
      && CountSetting(Scan(args, |args|).value, f) == (if last.Some? then last.value.number else CountSetting(Initial, f))
      && (last.Some? ==> last.value.number.Some?)
  {
    var n := |args|;
    ScanCount(args, n, f);
    var last := LastArg(args, f, n);
    if last.Some? {
      ScanFails(args, n);
      var i :| LastAt(args, f, n, i) && args[i + 1] == last.value;
      assert !BadCountAt(args, i);
    }
  }

  /** `parse_arguments(argv)`: every argument is read once, then the loop runs over the result. */
  function ParseArguments(argv: seq<string>): (r: Result<Settings, ArgError>)
    ensures r.Success? ==> r.value.numWorkers >= 1 && r.value.walletsCount >= 1
  {
    ParseArgs(Classify(argv))
  }

  /** A flag is given exactly when its spelling is on the command line. */
  lemma GivenSpelled(argv: seq<string>, args: seq<Arg>, f: Flag)
    requires Classified(argv, args) && f != Other
    ensures Given(args, f, |args|) <==> Spelling(f) in argv
  {
    forall i | 0 <= i < |argv|
      ensures args[i].flag == f <==> argv[i] == Spelling(f)
    {
      FlagSpelling(argv[i], f);
    }
  }

  /**
   * How `parse_arguments` fails: a non-integer after a count flag raises; otherwise it exits when
   * the last `--workers` value (1 without one) is below 1, or when the wallet count (the last
   * `--wallets` value, the workers count without one) is.
   */
  lemma ParseArgumentsErrors(args: seq<Arg>)
    ensures var n := |args|;
      var workers := CountOf(LastArg(args, Workers, n), 1);
      var wallets := CountOf(LastArg(args, Wallets, n), workers);
      var r := ParseArgs(args);
      && (r.Failure? && r.error.NotAnInteger? <==> BadCount(args, n))
      && (r == Failure(TooFewWorkers) <==> !BadCount(args, n) && workers < 1)
      && (r == Failure(TooFewWallets) <==> !BadCount(args, n) && workers >= 1 && wallets < 1)
  {
    var n := |args|;
    ScanFails(args, n);
    var scan := Scan(args, n);
    if scan.Success? {
      ScannedCounts(args);
      var workers := CountOf(LastArg(args, Workers, n), 1);
      var wallets := CountOf(LastArg(args, Wallets, n), workers);
      assert scan.value.numWorkers == workers;
      assert scan.value.walletsCount.Some? ==> scan.value.walletsCount.value == wallets;
      assert scan.value.walletsCount.None? ==> wallets == workers;
    }
  }

  /**
   * What `parse_arguments` returns: the last value of each value flag (or its default), every
   * switch that appears anywhere (`GivenSpelled` says when that is), and the workers count as
   * wallet count when `--wallets` is absent.
   */
  lemma ParseArgumentsSettings(args: seq<Arg>)
    ensures var n := |args|;
      var workers := CountOf(LastArg(args, Workers, n), 1);
      var r := ParseArgs(args);
      r.Success? ==>
        && r.value.numWorkers == workers
        && r.value.walletsFile == LastValue(args, WalletsFile, n).GetOr("wallets.json")
        && r.value.challengesFile == LastValue(args, ChallengesFile, n).GetOr("challenges.json")
        && r.value.donationEnabled == !Given(args, NoDonation, n)
        && r.value.walletsCount == CountOf(LastArg(args, Wallets, n), workers)
        && r.value.logApiRequests == Given(args, LogApiRequests, n)
        && r.value.useDefensioApi == Given(args, Defensio, n)
        && r.value.consolidateAddress == LastValue(args, Consolidate, n)
        && r.value.useParallel == Given(args, Parallel, n)
  {
    ParsedCounts(args);
    ParsedFiles(args);
    ParsedSwitches(args);
  }

  lemma ParsedCounts(args: seq<Arg>)
    ensures var r := ParseArgs(args);
      var workers := CountOf(LastArg(args, Workers, |args|), 1);
      r.Success? ==>
        r.value.numWorkers == workers && r.value.walletsCount == CountOf(LastArg(args, Wallets, |args|), workers)
  {
    if ParseArgs(args).Success? {
      ScannedCounts(args);
    }
  }

  lemma ParsedFiles(args: seq<Arg>)
    ensures var r := ParseArgs(args);
      r.Success? ==>
        && r.value.walletsFile == LastValue(args, WalletsFile, |args|).GetOr("wallets.json")
        && r.value.challengesFile == LastValue(args, ChallengesFile, |args|).GetOr("challenges.json")
        && r.value.consolidateAddress == LastValue(args, Consolidate, |args|)
  {
    if ParseArgs(args).Success? {
      ScanText(args, |args|, WalletsFile);
      ScanText(args, |args|, ChallengesFile);
      ScanText(args, |args|, Consolidate);
    }
  }

  lemma ParsedSwitches(args: seq<Arg>)
    ensures var r, n := ParseArgs(args), |args|;
      r.Success? ==>
        && r.value.donationEnabled == !Given(args, NoDonation, n)
        && r.value.logApiRequests == Given(args, LogApiRequests, n)
        && r.value.useDefensioApi == Given(args, Defensio, n)
        && r.value.useParallel == Given(args, Parallel, n)
  {
    ParsedSwitch(args, NoDonation);
    ParsedSwitch(args, LogApiRequests);
    ParsedSwitch(args, Defensio);
    ParsedSwitch(args, Parallel);
  }

  /** The switch settings of the result, as `SwitchSetting` reads them from the loop's variables. */
  function SwitchOf(s: Settings, f: Flag): bool {
    match f
    case NoDonation => !s.donationEnabled
    case LogApiRequests => s.logApiRequests
    case Defensio => s.useDefensioApi
    case Parallel => s.useParallel
    case _ => false
  }

  /** A switch of the result is on exactly when it is given, wherever that is. */
  lemma ParsedSwitch(args: seq<Arg>, f: Flag)
    requires IsSwitch(f)
    ensures ParseArgs(args).Success? ==> SwitchOf(ParseArgs(args).value, f) == Given(args, f, |args|)
  {
    if ParseArgs(args).Success? {
      ScanSwitch(args, |args|, f);
    }
  }

  /** With no flag on the command line, the defaults: one worker, one wallet, donations on, the rest off. */
  lemma Defaults(argv: seq<string>, args: seq<Arg>)
    requires Classified(argv, args)
    requires forall i :: 0 <= i < |argv| ==> FlagOf(argv[i]) == Other
    ensures ParseArgs(args) == Success(Settings(1, "wallets.json", "challenges.json", true, 1, false, false, None, false))
  {
    assert forall i :: 0 <= i < |args| ==> args[i].flag == Other;
    Unflagged(args);
  }

  /** Arguments none of which is a flag leave every setting at its default. */
  lemma Unflagged(args: seq<Arg>)
    requires forall i :: 0 <= i < |args| ==> args[i].flag == Other
    ensures ParseArgs(args) == Success(Settings(1, "wallets.json", "challenges.json", true, 1, false, false, None, false))
  {
    var n := |args|;
    assert !BadCount(args, n);
    ParseArgumentsErrors(args);
    ParseArgumentsSettings(args);
  }

  /** `--workers N` at the end (N written in decimal) asks for N workers and, without `--wallets`, N wallets. */
  lemma WorkersFlag(argv: seq<string>, args: seq<Arg>, n: nat)
    requires Classified(argv, args)
    requires |argv| >= 2 && argv[|argv| - 2] == "--workers" && argv[|argv| - 1] == NatToString(n)
    requires forall i :: 0 <= i < |argv| - 2 ==> argv[i] != "--workers" && argv[i] != "--wallets"
    ensures n >= 1 ==> ParseArgs(args).Success?
    ensures n >= 1 ==> ParseArgs(args).value.numWorkers == n && ParseArgs(args).value.walletsCount == n
    ensures n == 0 ==> ParseArgs(args) == Failure(TooFewWorkers)
  {
    NoCountFlags(argv, args, |args| - 2);
    WorkersArgs(argv, args, n);
    TrailingWorkers(args, n);
  }

  /** The arguments before `k` that spell neither count option classify as neither. */
  lemma NoCountFlags(argv: seq<string>, args: seq<Arg>, k: int)
    requires Classified(argv, args) && k <= |argv|
    requires forall i :: 0 <= i < k ==> argv[i] != "--workers" && argv[i] != "--wallets"
    ensures forall i :: 0 <= i < k ==> !TakesCount(args[i].flag)
  {
    forall i | 0 <= i < k
      ensures !TakesCount(args[i].flag)
    {
      FlagSpelling(argv[i], Workers);
      FlagSpelling(argv[i], Wallets);
    }
  }

  /** `--workers N` at the end classifies as the option followed by the number `N`. */
  lemma WorkersArgs(argv: seq<string>, args: seq<Arg>, n: nat)
    requires Classified(argv, args)
    requires |argv| >= 2 && argv[|argv| - 2] == "--workers" && argv[|argv| - 1] == NatToString(n)
    ensures args[|args| - 2].flag == Workers && args[|args| - 1].number == Some(n)
  {
    FlagSpelling(argv[|argv| - 2], Workers);
    ParseIntRoundTrip(n);
  }


  /** A trailing `--workers` whose value reads as N, with no count flag before it. */
  lemma TrailingWorkers(args: seq<Arg>, n: int)
    requires |args| >= 2 && args[|args| - 2].flag == Workers && args[|args| - 1].number == Some(n)
    requires forall i :: 0 <= i < |args| - 2 ==> !TakesCount(args[i].flag)
    ensures n >= 1 ==> ParseArgs(args).Success?
    ensures n >= 1 ==> ParseArgs(args).value.numWorkers == n && ParseArgs(args).value.walletsCount == n
    ensures n < 1 ==> ParseArgs(args) == Failure(TooFewWorkers)
  {
    TrailingCount(args);
    ParseArgumentsErrors(args);
    ParsedCounts(args);
  }

  /** The last argument follows `--workers`, nothing before it reads a count, and the last argument is an integer. */
  lemma TrailingCount(args: seq<Arg>)
    requires |args| >= 2 && args[|args| - 2].flag == Workers && args[|args| - 1].number.Some?
    requires forall i :: 0 <= i < |args| - 2 ==> !TakesCount(args[i].flag)
    ensures LastArg(args, Workers, |args|) == Some(args[|args| - 1])
    ensures LastArg(args, Wallets, |args|).None?
    ensures !BadCount(args, |args|)
  {
    var m := |args|;
    assert LastArg(args, Workers, m - 1) == Some(args[m - 1]);
    forall i | 0 <= i < m
      ensures !BadCountAt(args, i)
    {
    }
  }
}

=== FILE: earnings.dfy ===
/**
 * `check_earnings.py`: the addresses found in wallet files, spread round-robin over sessions,
 * fetched chunk by chunk, and summarised. Statistics replies are inputs; the token amounts are
 * floats and are carried as the raw JSON value.
 */
module Earnings {
  import opened Wrappers
  import opened Text
  import opened Json
  import opened Http
  import opened Striding

  // ---------------------------------------------------------------------------------------------
  // `extract_addresses_from_json`

  /** The object's own `address`, when it is a string starting with "addr". */
  function OwnAddress(members: seq<(string, Json)>): (r: set<string>)
    ensures forall a :: a in r ==> StartsWith(a, "addr")
  {
    match Get(members, "address")
    case Some(JStr(a)) => if StartsWith(a, "addr") then {a} else {}
    case _ => {}
  }

  /** Member `i` is the binding `dict` keeps for its key: no later member repeats the key. */
  predicate LastBinding(members: seq<(string, Json)>, i: nat)
    requires i < |members|
  {
    forall k :: i < k < |members| ==> members[k].0 != members[i].0
  }

  /** The walk over a decoded file: every qualifying `address` of every object at any depth. */
  function Collect(j: Json): (r: set<string>)
    ensures forall a :: a in r ==> StartsWith(a, "addr")
    ensures j.JObj? ==> OwnAddress(j.members) <= r
    ensures j.JObj? ==> forall i :: 0 <= i < |j.members| && LastBinding(j.members, i) ==> Collect(j.members[i].1) <= r
    ensures j.JObj? ==> forall a :: a in r ==>
      a in OwnAddress(j.members) || exists i :: 0 <= i < |j.members| && LastBinding(j.members, i) && a in Collect(j.members[i].1)
    ensures j.JArr? ==> forall i :: 0 <= i < |j.items| ==> Collect(j.items[i]) <= r
    ensures j.JArr? ==> forall a :: a in r ==> exists i :: 0 <= i < |j.items| && a in Collect(j.items[i])
    ensures !j.JObj? && !j.JArr? ==> r == {}
    decreases j, 1
  {
    match j
    case JObj(members) => OwnAddress(members) + CollectMembers(j, members)
    case JArr(items) => CollectItems(j, items)
    case _ => {}
  }

  function CollectItems(parent: Json, items: seq<Json>): (r: set<string>)
    requires forall i :: 0 <= i < |items| ==> items[i] < parent
    ensures forall a :: a in r ==> StartsWith(a, "addr")
    ensures forall i :: 0 <= i < |items| ==> Collect(items[i]) <= r
    ensures forall a :: a in r ==> exists i :: 0 <= i < |items| && a in Collect(items[i])
    decreases parent, 0, |items|
  {
    if |items| == 0 then {}
    else
      var rest := CollectItems(parent, items[1..]);
      assert forall i :: 1 <= i < |items| ==> items[1..][i - 1] == items[i];
      Collect(items[0]) + rest
  }

  function CollectMembers(parent: Json, members: seq<(string, Json)>): (r: set<string>)
    requires forall i :: 0 <= i < |members| ==> members[i].1 < parent
    ensures forall a :: a in r ==> StartsWith(a, "addr")
    ensures forall i :: 0 <= i < |members| && LastBinding(members, i) ==> Collect(members[i].1) <= r
    ensures forall a :: a in r ==>
      exists i :: 0 <= i < |members| && LastBinding(members, i) && a in Collect(members[i].1)
    decreases parent, 0, |members|
  {
    if |members| == 0 then {}
    else
      var rest := CollectMembers(parent, members[1..]);
      assert forall i :: 1 <= i < |members| ==> members[1..][i - 1] == members[i];
      assert forall i :: 1 <= i < |members| ==> (LastBinding(members, i) <==> LastBinding(members[1..], i - 1));
      (if LastBinding(members, 0) then Collect(members[0].1) else {}) + rest
  }

  /**
   * The reference reading of the walk: `a` is the qualifying `address` of `j` itself, or is
   * reached through an item of a list or through a value the object keeps for its key.
   */
  predicate Reaches(j: Json, a: string)
    decreases j
  {
    match j
    case JObj(members) =>
      a in OwnAddress(members) ||
      exists i :: 0 <= i < |members| && LastBinding(members, i) && Reaches(members[i].1, a)
    case JArr(items) => exists i :: 0 <= i < |items| && Reaches(items[i], a)
    case _ => false
  }

  /** The walk collects exactly the addresses the reference reading reaches. */
  lemma {:induction false} CollectReaches(j: Json, a: string)
    ensures a in Collect(j) <==> Reaches(j, a)
    decreases j
  {
    match j
    case JObj(members) =>
      forall i | 0 <= i < |members|
        ensures a in Collect(members[i].1) <==> Reaches(members[i].1, a)
      {
        CollectReaches(members[i].1, a);
      }
    case JArr(items) =>
      forall i | 0 <= i < |items|
        ensures a in Collect(items[i]) <==> Reaches(items[i], a)
      {
        CollectReaches(items[i], a);
      }
    case _ =>
  }

  /** `extract_addresses_from_json(path)`: None stands for an unreadable or invalid file. */
  function ExtractAddresses(file: Option<Json>): (r: set<string>)
    ensures file.None? ==> r == {}
    ensures file.Some? ==> forall a :: a in r <==> Reaches(file.value, a)
  {
    if file.None? then {}
    else
      forall a ensures a in Collect(file.value) <==> Reaches(file.value, a) {
        CollectReaches(file.value, a);
      }
      Collect(file.value)
  }

  /** The usual wallet file, a list of wallet objects, yields at least every wallet's own address. */
  lemma WalletListAddresses(items: seq<Json>, i: nat)
    requires i < |items| && items[i].JObj?
    ensures OwnAddress(items[i].members) <= ExtractAddresses(Some(JArr(items)))
  {
  }

  // ---------------------------------------------------------------------------------------------
  // `mask_wallet_address`

  /** Where Python puts a slice bound `k` of a string of length `n`. */
  function SliceBound(n: nat, k: int): (r: nat)
    ensures r <= n
  {
    if k < 0 then (if n + k < 0 then 0 else n + k) else if k > n then n else k
  }

  /** `mask_wallet_address(address, visible)`. */
  function Mask(address: string, visible: int): (r: string)
    ensures |address| <= 2 * visible ==> r == address
    ensures |address| > 2 * visible && visible >= 1 ==>
      |r| == 2 * visible + 3 && r[..visible] == address[..visible]
      && r[visible..visible + 3] == "..." && r[visible + 3..] == address[|address| - visible..]
  {
    if |address| <= 2 * visible then address
    else address[..SliceBound(|address|, visible)] + "..." + address[SliceBound(|address|, -visible)..]
  }

  /** With nothing visible the negative slice `[-0:]` is the whole address, not an empty tail. */
  lemma MaskWithZeroVisible(address: string)
    requires |address| > 0
    ensures Mask(address, 0) == "..." + address
  {
  }

  // ---------------------------------------------------------------------------------------------
  // `fetch_wallet_statistics`

  /** The figures kept per wallet: the raw allocation value and the solution count. */
  datatype Stats = Stats(allocation: Json, solutions: int)

  /** The allocation field: `dfo_allocation` with the Defensio API, else `night_allocation`. */
  function AllocationField(defensio: bool): (f: string)
    ensures f == "dfo_allocation" <==> defensio
  {
    if defensio then "dfo_allocation" else "night_allocation"
  }

  /** `int(solutions)` with its fallback to 0 when the conversion raises. */
  function SolutionsCount(j: Json): (n: int)
    ensures j.JInt? ==> n == j.i
    ensures j.JStr? && ParseInt(j.s).None? ==> n == 0
    ensures j.JNull? || j.JArr? || j.JObj? ==> n == 0
  {
    match j
    case JInt(i) => i
    case JBool(b) => if b then 1 else 0
    case JStr(s) => ParseInt(s).GetOr(0)
    case _ => 0
  }

  /**
   * One wallet's statistics: None when the request, status or JSON decoding fails; Failure when
   * the payload or its `local` member is not an object, which raises outside the guarded part.
   */
  function Fetch(reply: Reply, defensio: bool): (r: Result<Option<Stats>, string>)
    ensures (!reply.Response? || IsHttpError(reply.status) || reply.body.None?) ==> r == Success(None)
    ensures r.Success? && r.value.Some? ==>
      reply.Response? && reply.body.Some? && reply.body.value.JObj?
      && GetOr(reply.body.value.members, "local", JObj([])).JObj?
      && r.value.value.allocation == GetOr(GetOr(reply.body.value.members, "local", JObj([])).members,
                                           AllocationField(defensio), JInt(0))
  {
    match reply
    case TimedOut => Success(None)
    case TransportError(_) => Success(None)
    case Response(status, _, body) =>
      if IsHttpError(status) || body.None? then Success(None)
      else if !body.value.JObj? then Failure("payload has no attribute 'get'")
      else
        var local := GetOr(body.value.members, "local", JObj([]));
        if !local.JObj? then Failure("local statistics have no attribute 'get'")
        else Success(Some(Stats(GetOr(local.members, AllocationField(defensio), JInt(0)),
                                SolutionsCount(GetOr(local.members, "crypto_receipts", JInt(0))))))
  }

  // ---------------------------------------------------------------------------------------------
  // Sorting the addresses and dealing them out

  lemma StrLeAntisymmetric(a: string, b: string)
    requires StrLe(a, b) && StrLe(b, a)
    ensures a == b
    decreases |a|
  {
    if |a| > 0 && |b| > 0 && a[0] == b[0] {
      StrLeAntisymmetric(a[1..], b[1..]);
      assert a == [a[0]] + a[1..] && b == [b[0]] + b[1..];
    }
  }

  lemma StrLeAntisymmetricAll()
    ensures forall a, b :: StrLe(a, b) && StrLe(b, a) ==> a == b
  {
    forall a, b | StrLe(a, b) && StrLe(b, a) ensures a == b {
      StrLeAntisymmetric(a, b);
    }
  }

  lemma {:induction false} LeastExists(s: set<string>)
    requires s != {}
    ensures exists m :: m in s && forall y :: y in s ==> StrLe(m, y)
    decreases |s|
  {
    var x :| x in s;
    if s == {x} {
      StrLeTotal(x, x);
      assert forall y :: y in s ==> y == x;
    } else {
      LeastExists(s - {x});
      var m :| m in s - {x} && forall y :: y in s - {x} ==> StrLe(m, y);
      LeastWith(s, x, m);
    }
  }

  /** The least of `s` without `x`, compared with `x`, gives the least of `s`. */
  lemma LeastWith(s: set<string>, x: string, m: string)
    requires x in s && m in s && forall y :: y in s - {x} ==> StrLe(m, y)
    ensures exists k :: k in s && forall y :: y in s ==> StrLe(k, y)
  {
    StrLeTotal(x, m);
    if StrLe(x, m) {
      forall y | y in s
        ensures StrLe(x, y)
      {
        if y != x {
          StrLeTransitive(x, m, y);
        } else {
          StrLeTotal(x, x);
        }
      }
    } else {
      assert forall y :: y in s ==> y == x || y in s - {x};
    }
  }

  /** The least string of a non-empty set. */
  function Least(s: set<string>): (m: string)
    requires s != {}
    ensures m in s && forall y :: y in s ==> StrLe(m, y)
  {
    LeastExists(s);
    StrLeAntisymmetricAll();
    var m :| m in s && forall y :: y in s ==> StrLe(m, y);
    m
  }

  /** `sorted(addresses)`: the set's elements in increasing order, each once. */
  function SortedStrings(s: set<string>): (r: seq<string>)
    ensures |r| == |s|
    ensures forall x :: x in s <==> x in r
    ensures forall i, j :: 0 <= i < j < |r| ==> StrLe(r[i], r[j]) && r[i] != r[j]
    decreases |s|
  {
    if s == {} then []
    else
      var m := Least(s);
      var rest := SortedStrings(s - {m});
      LeastFirst(s, m, rest);
      [m] + rest
  }

  /** Putting the least element in front of the sorted rest sorts the whole set. */
  lemma LeastFirst(s: set<string>, m: string, rest: seq<string>)
    requires m in s && forall y :: y in s ==> StrLe(m, y)
    requires |rest| == |s - {m}| && forall x :: x in s - {m} <==> x in rest
    requires forall i, j :: 0 <= i < j < |rest| ==> StrLe(rest[i], rest[j]) && rest[i] != rest[j]
    ensures var r := [m] + rest;
      && |r| == |s|
      && (forall x :: x in s <==> x in r)
      && (forall i, j :: 0 <= i < j < |r| ==> StrLe(r[i], r[j]) && r[i] != r[j])
  {
    LeastFirstSorted(s, m, rest);
    assert forall x :: x in s <==> x == m || x in s - {m};
  }

  /** The least element in front of a strictly ascending list of the others is strictly ascending. */
  lemma LeastFirstSorted(s: set<string>, m: string, rest: seq<string>)
    requires forall y :: y in s ==> StrLe(m, y)
    requires forall x :: x in rest ==> x in s - {m}
    requires forall i, j :: 0 <= i < j < |rest| ==> StrLe(rest[i], rest[j]) && rest[i] != rest[j]
    ensures var r := [m] + rest;
      forall i, j :: 0 <= i < j < |r| ==> StrLe(r[i], r[j]) && r[i] != r[j]
  {
    var r := [m] + rest;
    assert forall j :: 0 <= j < |rest| ==> rest[j] in s - {m};
    forall i, j | 0 <= i < j < |r|
      ensures StrLe(r[i], r[j]) && r[i] != r[j]
    {
      if i > 0 {
        assert r[i] == rest[i - 1] && r[j] == rest[j - 1];
      } else {
        assert r[j] == rest[j - 1] && r[j] in s - {m};
      }
    }
  }


  /** `max(1, min(proxy_count, n))`. */
  function SessionTarget(proxyCount: int, n: nat): (t: nat)
    ensures t >= 1 && (n >= 1 ==> t <= n)
    ensures proxyCount >= 1 && n >= 1 ==> t == (if proxyCount < n then proxyCount else n)
  {
    var m := if proxyCount < n then proxyCount else n;
    if m < 1 then 1 else m
  }

  /** `create_sessions`: the first `target` proxies when any are configured, else `target` direct sessions. */
  function SessionCount(proxies: nat, target: nat): (c: nat)
    ensures target >= 1 ==> c >= 1
    ensures c <= target
  {
    if proxies > 0 then (if proxies < target then proxies else target) else target
  }

  // ---------------------------------------------------------------------------------------------
  // `process_chunk` and `main`

  /** `process_chunk`: the wallets whose statistics were fetched, in a map; Failure when a fetch raises. */
  function ProcessChunk(chunk: seq<string>, replies: string -> Reply, defensio: bool): (r: Result<map<string, Stats>, string>)
    ensures r.Success? ==> forall a :: a in r.value ==> a in chunk && Fetch(replies(a), defensio) == Success(Some(r.value[a]))
    ensures r.Success? ==> forall a :: a in chunk && Fetched(a, replies, defensio) ==> a in r.value
    ensures r.Failure? <==> exists a :: a in chunk && Fetch(replies(a), defensio).Failure?
  {
    if |chunk| == 0 then Success(map[])
    else
      var init := chunk[..|chunk| - 1];
      var a := chunk[|chunk| - 1];
      assert forall x :: x in chunk <==> x in init || x == a;
      match ProcessChunk(init, replies, defensio)
      case Failure(e) => Failure(e)
      case Success(m) =>
        match Fetch(replies(a), defensio)
        case Failure(e) => Failure(e)
        case Success(None) => Success(m)
        case Success(Some(st)) => Success(m[a := st])
  }

  /** How the script ends: an exit code with the wallets it reported and those it could not fetch, or an exception. */
  datatype Outcome = Exit(code: int, perWallet: map<string, Stats>, missing: set<string>) | Raised(error: string)

  /** The fetched wallet of an address, as a predicate. */
  predicate Fetched(a: string, replies: string -> Reply, defensio: bool) {
    Fetch(replies(a), defensio).Success? && Fetch(replies(a), defensio).value.Some?
  }

  /** The addresses of all chunks. */
  function Union(chunks: seq<seq<string>>): (u: set<string>)
    ensures forall a :: a in u <==> exists i :: 0 <= i < |chunks| && a in chunks[i]
  {
    if |chunks| == 0 then {}
    else
      var n := |chunks| - 1;
      assert forall i :: 0 <= i < n ==> chunks[..n][i] == chunks[i];
      Union(chunks[..n]) + set a | a in chunks[n]
  }

  /** Merging the chunk results in order; the first chunk that raised makes `future.result()` raise. */
  function Gather(chunks: seq<seq<string>>, replies: string -> Reply, defensio: bool): (r: Result<map<string, Stats>, string>)
    ensures r.Success? ==> forall a :: a in r.value <==> a in Union(chunks) && Fetched(a, replies, defensio)
    ensures r.Failure? <==> exists a :: a in Union(chunks) && Fetch(replies(a), defensio).Failure?
  {
    if |chunks| == 0 then Success(map[])
    else
      var n := |chunks| - 1;
      assert Union(chunks) == Union(chunks[..n]) + set a | a in chunks[n];
      match Gather(chunks[..n], replies, defensio)
      case Failure(e) => Failure(e)
      case Success(m) =>
        match ProcessChunk(chunks[n], replies, defensio)
        case Failure(e) => Failure(e)
        case Success(m2) => Success(m + m2)
  }

  /**
   * `main`: `address` is `--address` ("" when absent), `files` the decoded wallet files found,
   * `proxies` the number of configured proxies and `replies` what each statistics request gets.
   */
  function CheckEarnings(address: string, files: seq<Option<Json>>, proxyCount: int, proxies: nat,
                         replies: string -> Reply, defensio: bool): (r: Outcome)
    ensures address == "" && |files| == 0 ==> r == Exit(1, map[], {})
    ensures r.Exit? && r.code != 1 ==> (r.code == 0 <==> |r.perWallet| > 0) && (r.code == 0 || r.code == 2)
  {
    var addresses := if address != "" then {address} else AllAddresses(files);
    if address == "" && (|files| == 0 || addresses == {}) then Exit(1, map[], {})
    else
      var sorted := SortedStrings(addresses);
      var count := SessionCount(proxies, SessionTarget(proxyCount, |sorted|));
      match Gather(Chunks(sorted, count), replies, defensio)
      case Failure(e) => Raised(e)
      case Success(perWallet) =>
        Exit(if |perWallet| > 0 then 0 else 2, perWallet, addresses - perWallet.Keys)
  }

  function AllAddresses(files: seq<Option<Json>>): set<string> {
    if |files| == 0 then {} else AllAddresses(files[..|files| - 1]) + ExtractAddresses(files[|files| - 1])
  }

  /** Dealing the sorted addresses out loses none and invents none. */
  lemma ChunksCover(addresses: set<string>, count: nat)
    requires count >= 1
    ensures Union(Chunks(SortedStrings(addresses), count)) == addresses
  {
    var sorted := SortedStrings(addresses);
    ChunksHold(sorted, count);
    assert forall a :: a in addresses <==> a in sorted;
  }

  /** The chunks of a list without repetitions hold exactly its elements. */
  lemma ChunksHold(s: seq<string>, count: nat)
    requires count >= 1 && forall a, b :: 0 <= a < b < |s| ==> s[a] != s[b]
    ensures forall a :: a in Union(Chunks(s, count)) <==> a in s
  {
    var cs := Chunks(s, count);
    forall a | a in s ensures a in Union(cs) {
      var p :| 0 <= p < |s| && s[p] == a;
      ChunkIndexBelow(p, count);
      ChunksPartition(s, count, p, ChunkIndex(p, count));
    }
    forall a | a in Union(cs) ensures a in s {
      var i :| 0 <= i < |cs| && a in cs[i];
      StrideOnly(s, i, count, a);
    }
  }


  /**
   * The report covers exactly the discovered addresses whose statistics came back; the rest are
   * missing, and the exit code is 0 exactly when at least one wallet was fetched.
   */
  lemma ReportCoversAddresses(address: string, files: seq<Option<Json>>, proxyCount: int, proxies: nat,
                              replies: string -> Reply, defensio: bool)
    ensures var addresses := if address != "" then {address} else AllAddresses(files);
      var r := CheckEarnings(address, files, proxyCount, proxies, replies, defensio);
      r.Exit? && addresses != {} ==>
        && (forall a :: a in r.perWallet <==> a in addresses && Fetched(a, replies, defensio))
        && r.missing == addresses - r.perWallet.Keys
        && (r.code == 0 <==> exists a :: a in addresses && Fetched(a, replies, defensio))
  {
    var addresses := if address != "" then {address} else AllAddresses(files);
    if addresses != {} {
      var sorted := SortedStrings(addresses);
      var cs := Chunks(sorted, SessionCount(proxies, SessionTarget(proxyCount, |sorted|)));
      ChunksCover(addresses, SessionCount(proxies, SessionTarget(proxyCount, |sorted|)));
      ExitFromGather(address, files, proxyCount, proxies, replies, defensio);
      var g := Gather(cs, replies, defensio);
      if g.Success? {
        MapNonEmpty(g.value);
      }
    }
  }

  /** When some address was found, an exit reports what gathering the sorted, dealt-out addresses returned. */
  lemma ExitFromGather(address: string, files: seq<Option<Json>>, proxyCount: int, proxies: nat,
                       replies: string -> Reply, defensio: bool)
    requires (if address != "" then {address} else AllAddresses(files)) != {}
    ensures var addresses := if address != "" then {address} else AllAddresses(files);
      var sorted := SortedStrings(addresses);
      var g := Gather(Chunks(sorted, SessionCount(proxies, SessionTarget(proxyCount, |sorted|))), replies, defensio);
      var r := CheckEarnings(address, files, proxyCount, proxies, replies, defensio);
      r.Exit? ==>
        (g.Success? && r.perWallet == g.value && r.missing == addresses - g.value.Keys
         && r.code == (if |g.value| > 0 then 0 else 2))
  {
    var addresses := if address != "" then {address} else AllAddresses(files);
    var sorted := SortedStrings(addresses);
    var g := Gather(Chunks(sorted, SessionCount(proxies, SessionTarget(proxyCount, |sorted|))), replies, defensio);
    var r := CheckEarnings(address, files, proxyCount, proxies, replies, defensio);
    assert |files| == 0 ==> AllAddresses(files) == {};
    if g.Success? {
      assert r == Exit(if |g.value| > 0 then 0 else 2, g.value, addresses - g.value.Keys);
    } else {
      assert r.Raised?;
    }
  }

  lemma MapNonEmpty<K, V>(m: map<K, V>)
    ensures |m| > 0 <==> exists k :: k in m
  {
    if k :| k in m {
      assert k in m.Keys;
      assert |m.Keys| > 0;
    } else {
      assert m.Keys == {};
    }
  }
}

=== FILE: json.dfy ===
/**
 * Decoded JSON values as `json.loads` returns them, with the Python operations the source applies
 * to them: truthiness, `dict.get` and `str()`.
 */
module Json {
  import opened Wrappers
  import opened Text

  /** A decoded JSON value; numbers are the integral ones the source inspects. */
  datatype Json =
    | JNull
    | JBool(b: bool)
    | JInt(i: int)
    | JStr(s: string)
    | JArr(items: seq<Json>)
    | JObj(members: seq<(string, Json)>)

  /** Python truthiness of the decoded value. */
  predicate Truthy(j: Json) {
    match j
    case JNull => false
    case JBool(b) => b
    case JInt(i) => i != 0
    case JStr(s) => s != ""
    case JArr(items) => |items| > 0
    case JObj(members) => |members| > 0
  }

  /**
   * The value Python's `==` and `hash` see in a hashable decoded value: `True` and `False` are the
   * integers 1 and 0, so `True == 1`, and a set holding `1` holds `True`.
   */
  function PyKey(j: Json): Json {
    if j.JBool? then JInt(if j.b then 1 else 0) else j
  }

  /** The elements of a Python set of hashable values, as `in` compares them. */
  function PyKeys(s: set<Json>): set<Json> {
    set x | x in s :: PyKey(x)
  }

  /** `d.get(key)` on a decoded object; a repeated key keeps its last value, as `json.loads` does. */
  function Get(members: seq<(string, Json)>, key: string): (r: Option<Json>)
    ensures r.None? <==> forall i :: 0 <= i < |members| ==> members[i].0 != key
    ensures r.Some? ==> exists i :: 0 <= i < |members| && members[i] == (key, r.value)
                         && forall k :: i < k < |members| ==> members[k].0 != key
  {
    if |members| == 0 then None
    else if members[|members| - 1].0 == key then Some(members[|members| - 1].1)
    else Get(members[..|members| - 1], key)
  }

  /** The keys of a decoded object, as iterating it yields them: each once, where it first appears. */
  function DictKeys(members: seq<(string, Json)>): (r: seq<string>)
    ensures forall k :: k in r <==> Get(members, k).Some?
    ensures forall i, j :: 0 <= i < j < |r| ==> r[i] != r[j]
    ensures |r| <= |members|
  {
    if |members| == 0 then []
    else
      var n := |members| - 1;
      var ks := DictKeys(members[..n]);
      assert forall k :: Get(members, k).Some? <==> Get(members[..n], k).Some? || k == members[n].0;
      if members[n].0 in ks then ks else ks + [members[n].0]
  }

  /** `d.get(key, default)`. */
  function GetOr(members: seq<(string, Json)>, key: string, default: Json): Json {
    Get(members, key).GetOr(default)
  }

  /** `str(n)` for an integer. */
  function IntToString(n: int): (r: string)
    ensures |r| > 0
  {
    if n < 0 then "-" + NatToString(-n) else NatToString(n)
  }

  /** `str(v)`: a string is itself, anything else its `repr` (string escapes are not modelled). */
  function Str(j: Json): string {
    if j.JStr? then j.s else Repr(j)
  }

  /** `repr(v)` with strings in single quotes. */
  function Repr(j: Json): string
    decreases j, 1
  {
    match j
    case JNull => "None"
    case JBool(b) => if b then "True" else "False"
    case JInt(i) => IntToString(i)
    case JStr(s) => "'" + s + "'"
    case JArr(items) => "[" + ReprItems(j, items) + "]"
    case JObj(members) => "{" + ReprMembers(j, members) + "}"
  }

  function ReprItems(parent: Json, items: seq<Json>): string
    requires forall i :: 0 <= i < |items| ==> items[i] < parent
    decreases parent, 0, |items|
  {
    if |items| == 0 then ""
    else if |items| == 1 then Repr(items[0])
    else Repr(items[0]) + ", " + ReprItems(parent, items[1..])
  }

  function ReprMembers(parent: Json, members: seq<(string, Json)>): string
    requires forall i :: 0 <= i < |members| ==> members[i].1 < parent
    decreases parent, 0, |members|
  {
    if |members| == 0 then ""
    else
      var first := "'" + members[0].0 + "': " + Repr(members[0].1);
      if |members| == 1 then first else first + ", " + ReprMembers(parent, members[1..])
  }
}

/**
 * What an HTTP call hands back to the code, as injected outcomes: a response (whose JSON body is
 * None when `response.json()` raises), a timeout, or another transport failure.
 */
module Http {
  import opened Wrappers
  import opened Json

  datatype Reply =
    | Response(status: int, text: string, body: Option<Json>)
    | TimedOut
    | TransportError(message: string)

  /** `response.raise_for_status()` raises exactly for client and server errors. */
  predicate IsHttpError(status: int) {
    400 <= status < 600
  }
}

=== FILE: ledger.dfy ===
/**
 * The challenge ledger of `miner/challenge_tracker.py`: a JSON object mapping `challenge_id` to a
 * record, read, changed and written back whole under an exclusive file lock by every operation.
 * Each operation is modelled as one atomic function from the ledger before to the ledger after
 * (and its result); dictionary order (insertion order) is kept because the selector's tie-break
 * depends on it.
 */
module Ledger {
  import opened Wrappers
  import opened Text

  /**
   * A timestamp as stored (ISO-8601 text) with what `datetime.fromisoformat` makes of it, in
   * seconds, and whether the parsed time is naive: the text carries no UTC offset.
   */
  datatype Stamp = Stamp(text: string, seconds: Option<int>, naive: bool)

  /** A challenge as announced by the service. */
  datatype Challenge = Challenge(
    challengeId: string,
    day: Option<int>,
    challengeNumber: Option<int>,
    difficulty: string,
    noPreMine: string,
    noPreMineHour: string,
    latestSubmission: Stamp)

  /**
   * One ledger record. Optional fields are those the reading code tolerates as missing
   * (`data.get(...)`); `devSolvedBy` may be absent in files written by older versions.
   */
  datatype ChallengeRecord = ChallengeRecord(
    challengeId: string,
    day: Option<int>,
    challengeNumber: Option<int>,
    difficulty: Option<string>,
    noPreMine: string,
    noPreMineHour: string,
    latestSubmission: Option<Stamp>,
    discoveredAt: Option<Stamp>,
    solvedBy: seq<string>,
    devSolvedBy: Option<seq<string>>)

  datatype Entry = Entry(key: string, rec: ChallengeRecord)

  /** The whole store, in dictionary order. */
  type Ledger = seq<Entry>

  /** What a locked read-modify-write hands back: the store written back and the operation's result. */
  datatype Outcome<T> = Outcome(ledger: Ledger, value: T)

  /** Dictionary keys are unique. */
  ghost predicate Keyed(l: Ledger) {
    forall i, j :: 0 <= i < j < |l| ==> l[i].key != l[j].key
  }

  function Keys(l: Ledger): set<string> {
    set i | 0 <= i < |l| :: l[i].key
  }

  predicate NoDup(xs: seq<string>) {
    forall i, j :: 0 <= i < j < |xs| ==> xs[i] != xs[j]
  }

  /** Every record lists each solver and each donation target at most once. */
  ghost predicate NoDupSolvers(l: Ledger) {
    forall i :: 0 <= i < |l| ==>
      NoDup(l[i].rec.solvedBy) && (l[i].rec.devSolvedBy.Some? ==> NoDup(l[i].rec.devSolvedBy.value))
  }

  /** Position of `id` among the keys. */
  function Find(l: Ledger, id: string): (r: Option<nat>)
    ensures r.None? <==> id !in Keys(l)
    ensures r.Some? ==> r.value < |l| && l[r.value].key == id
    ensures r.Some? ==> forall j :: 0 <= j < r.value ==> l[j].key != id
  {
    if |l| == 0 then None
    else if l[0].key == id then Some(0)
    else match Find(l[1..], id)
      case None =>
        assert Keys(l) == {l[0].key} + Keys(l[1..]);
        None
      case Some(i) => Some(i + 1)
  }

  lemma FindKeyed(l: Ledger, i: nat)
    requires Keyed(l) && i < |l|
    ensures Find(l, l[i].key) == Some(i)
  {
  }

  /** The record a freshly registered challenge gets: metadata copied, nobody has solved it yet. */
  function NewRecord(c: Challenge, now: Stamp): ChallengeRecord {
    ChallengeRecord(c.challengeId, c.day, c.challengeNumber, Some(c.difficulty), c.noPreMine,
                    c.noPreMineHour, Some(c.latestSubmission), Some(now), [], Some([]))
  }

  /** `register_challenge`: insert-if-absent; true exactly when the id was new. */
  function Register(l: Ledger, c: Challenge, now: Stamp): (r: Outcome<bool>)
    ensures r.value <==> c.challengeId !in Keys(l)
    ensures !r.value ==> r.ledger == l
    ensures r.value ==> |r.ledger| == |l| + 1 && r.ledger[..|l|] == l
    ensures r.value ==> var e := r.ledger[|l|];
      && e.key == c.challengeId && e.rec.challengeId == c.challengeId
      && e.rec.day == c.day && e.rec.challengeNumber == c.challengeNumber
      && e.rec.difficulty == Some(c.difficulty) && e.rec.noPreMine == c.noPreMine
      && e.rec.noPreMineHour == c.noPreMineHour && e.rec.latestSubmission == Some(c.latestSubmission)
      && e.rec.discoveredAt == Some(now)
      && e.rec.solvedBy == [] && e.rec.devSolvedBy == Some([])
    ensures Keys(r.ledger) == Keys(l) + {c.challengeId}
  {
    if Find(l, c.challengeId).None? then
      var l' := l + [Entry(c.challengeId, NewRecord(c, now))];
      assert Keys(l') == Keys(l) + {c.challengeId} by {
        assert forall i :: 0 <= i < |l| ==> l'[i] == l[i];
        assert l'[|l|].key == c.challengeId;
        assert forall k :: k in Keys(l') ==> k in Keys(l) || k == c.challengeId;
      }
      Outcome(l', true)
    else
      Outcome(l, false)
  }

  /** `mark_solved`: append `wallet` to the record's `solved_by` unless the id is unknown or it is already there. */
  function MarkSolved(l: Ledger, id: string, wallet: string): (r: Outcome<bool>)
    ensures r.value <==> Find(l, id).Some? && wallet !in l[Find(l, id).value].rec.solvedBy
    ensures !r.value ==> r.ledger == l
    ensures |r.ledger| == |l| && Keys(r.ledger) == Keys(l)
    ensures forall j :: 0 <= j < |l| ==> r.ledger[j].key == l[j].key
    ensures forall j :: 0 <= j < |l| && Some(j) != Find(l, id) ==> r.ledger[j] == l[j]
    ensures Find(l, id).Some? ==> var i := Find(l, id).value;
      && wallet in r.ledger[i].rec.solvedBy
      && r.ledger[i].rec == l[i].rec.(solvedBy := r.ledger[i].rec.solvedBy)
      && r.ledger[i].rec.solvedBy == (if r.value then l[i].rec.solvedBy + [wallet] else l[i].rec.solvedBy)
  {
    match Find(l, id)
    case None => Outcome(l, false)
    case Some(i) =>
      if wallet in l[i].rec.solvedBy then Outcome(l, false)
      else
        var l' := l[i := Entry(l[i].key, l[i].rec.(solvedBy := l[i].rec.solvedBy + [wallet]))];
        assert Keys(l') == Keys(l) by {
          assert forall j :: 0 <= j < |l| ==> l'[j].key == l[j].key;
        }
        Outcome(l', true)
  }

  /** `mark_dev_solved`: as `MarkSolved` on `dev_solved_by`, creating that list first when it is missing. */
  function MarkDevSolved(l: Ledger, id: string, dev: string): (r: Outcome<bool>)
    ensures r.value <==> Find(l, id).Some? && dev !in l[Find(l, id).value].rec.devSolvedBy.GetOr([])
    ensures Find(l, id).None? ==> r.ledger == l
    ensures |r.ledger| == |l| && Keys(r.ledger) == Keys(l)
    ensures forall j :: 0 <= j < |l| ==> r.ledger[j].key == l[j].key
    ensures forall j :: 0 <= j < |l| && Some(j) != Find(l, id) ==> r.ledger[j] == l[j]
    ensures Find(l, id).Some? ==> var i := Find(l, id).value;
      && r.ledger[i].rec.devSolvedBy.Some?
      && dev in r.ledger[i].rec.devSolvedBy.value
      && r.ledger[i].rec == l[i].rec.(devSolvedBy := r.ledger[i].rec.devSolvedBy)
      && r.ledger[i].rec.devSolvedBy.value
         == l[i].rec.devSolvedBy.GetOr([]) + (if r.value then [dev] else [])
  {
    match Find(l, id)
    case None => Outcome(l, false)
    case Some(i) =>
      var current := l[i].rec.devSolvedBy.GetOr([]);
      var updated := if dev in current then current else current + [dev];
      var l' := l[i := Entry(l[i].key, l[i].rec.(devSolvedBy := Some(updated)))];
      assert Keys(l') == Keys(l) by {
        assert forall j :: 0 <= j < |l| ==> l'[j].key == l[j].key;
      }
      Outcome(l', dev !in current)
  }

  /** `is_dev_solved`: false for an unknown id, else membership in the (possibly missing) `dev_solved_by`. */
  function IsDevSolved(l: Ledger, id: string, dev: string): (r: bool)
    ensures r ==> id in Keys(l)
  {
    match Find(l, id)
    case None => false
    case Some(i) => dev in l[i].rec.devSolvedBy.GetOr([])
  }

  /** `wallet` is listed in the `solved_by` of the record stored under `id`. */
  predicate SolvedBy(l: Ledger, id: string, wallet: string) {
    Find(l, id).Some? && wallet in l[Find(l, id).value].rec.solvedBy
  }

  /** Every record sits under its own `challenge_id`, as `register_challenge` stores it. */
  ghost predicate KeysMatch(l: Ledger) {
    forall i :: 0 <= i < |l| ==> l[i].rec.challengeId == l[i].key
  }

  /** The ledger's shape invariant survives every update. */
  lemma UpdatesKeepShape(l: Ledger, c: Challenge, now: Stamp, id: string, w: string)
    requires Keyed(l) && KeysMatch(l)
    ensures Keyed(Register(l, c, now).ledger) && KeysMatch(Register(l, c, now).ledger)
    ensures Keyed(MarkSolved(l, id, w).ledger) && KeysMatch(MarkSolved(l, id, w).ledger)
    ensures Keyed(MarkDevSolved(l, id, w).ledger) && KeysMatch(MarkDevSolved(l, id, w).ledger)
  {
    RegisterKeepsShape(l, c, now);
    MarkSolvedKeepsShape(l, id, w);
    MarkDevSolvedKeepsShape(l, id, w);
  }

  /** A new key goes after the old ones, under its own challenge id. */
  lemma RegisterKeepsShape(l: Ledger, c: Challenge, now: Stamp)
    requires Keyed(l) && KeysMatch(l)
    ensures Keyed(Register(l, c, now).ledger) && KeysMatch(Register(l, c, now).ledger)
  {
    RegisterKeepsKeyed(l, c, now);
    var r := Register(l, c, now);
    if r.value {
      assert forall i :: 0 <= i < |l| ==> r.ledger[i] == l[i] by {
        assert r.ledger[..|l|] == l;
      }
    }
  }

  /** A new key is one not yet present, so the keys stay distinct. */
  lemma RegisterKeepsKeyed(l: Ledger, c: Challenge, now: Stamp)
    requires Keyed(l)
    ensures Keyed(Register(l, c, now).ledger)
  {
    var r := Register(l, c, now);
    if r.value {
      var l' := r.ledger;
      assert forall i :: 0 <= i < |l| ==> l'[i] == l[i] by {
        assert l'[..|l|] == l;
      }
      forall i, j | 0 <= i < j < |l'|
        ensures l'[i].key != l'[j].key
      {
        if j == |l| {
          assert l[i].key in Keys(l);
        }
      }
    }
  }

  lemma MarkSolvedKeepsShape(l: Ledger, id: string, w: string)
    requires Keyed(l) && KeysMatch(l)
    ensures Keyed(MarkSolved(l, id, w).ledger) && KeysMatch(MarkSolved(l, id, w).ledger)
  {
    var l' := MarkSolved(l, id, w).ledger;
    forall i | 0 <= i < |l'|
      ensures l'[i].rec.challengeId == l[i].rec.challengeId
    {
      if Some(i) == Find(l, id) {
        assert l'[i].rec == l[i].rec.(solvedBy := l'[i].rec.solvedBy);
      }
    }
  }

  lemma MarkDevSolvedKeepsShape(l: Ledger, id: string, w: string)
    requires Keyed(l) && KeysMatch(l)
    ensures Keyed(MarkDevSolved(l, id, w).ledger) && KeysMatch(MarkDevSolved(l, id, w).ledger)
  {
    var l' := MarkDevSolved(l, id, w).ledger;
    forall i | 0 <= i < |l'|
      ensures l'[i].rec.challengeId == l[i].rec.challengeId
    {
      if Some(i) == Find(l, id) {
        assert l'[i].rec == l[i].rec.(devSolvedBy := l'[i].rec.devSolvedBy);
      }
    }
  }

  /** Marking never produces a duplicate solver or donation target. */
  lemma MarkingKeepsNoDup(l: Ledger, id: string, w: string)
    requires NoDupSolvers(l)
    ensures NoDupSolvers(MarkSolved(l, id, w).ledger)
    ensures NoDupSolvers(MarkDevSolved(l, id, w).ledger)
  {
    MarkSolvedNoDup(l, id, w);
    MarkDevSolvedNoDup(l, id, w);
  }

  lemma NoDupAppend(xs: seq<string>, w: string)
    requires NoDup(xs) && w !in xs
    ensures NoDup(xs + [w])
  {
    var ys := xs + [w];
    forall i, j | 0 <= i < j < |ys|
      ensures ys[i] != ys[j]
    {
      if j == |xs| {
        assert ys[i] == xs[i];
      }
    }
  }

  lemma MarkSolvedNoDup(l: Ledger, id: string, w: string)
    requires NoDupSolvers(l)
    ensures NoDupSolvers(MarkSolved(l, id, w).ledger)
  {
    var r := MarkSolved(l, id, w);
    if r.value {
      var i := Find(l, id).value;
      NoDupAppend(l[i].rec.solvedBy, w);
      forall j | 0 <= j < |l|
        ensures NoDup(r.ledger[j].rec.solvedBy)
        ensures r.ledger[j].rec.devSolvedBy == l[j].rec.devSolvedBy
      {
      }
    }
  }

  lemma MarkDevSolvedNoDup(l: Ledger, id: string, w: string)
    requires NoDupSolvers(l)
    ensures NoDupSolvers(MarkDevSolved(l, id, w).ledger)
  {
    var r := MarkDevSolved(l, id, w);
    if Find(l, id).Some? {
      var i := Find(l, id).value;
      if r.value {
        NoDupAppend(l[i].rec.devSolvedBy.GetOr([]), w);
      }
      forall j | 0 <= j < |l|
        ensures r.ledger[j].rec.solvedBy == l[j].rec.solvedBy
        ensures r.ledger[j].rec.devSolvedBy.Some? ==> NoDup(r.ledger[j].rec.devSolvedBy.value)
      {
      }
    }
  }

  /** A second registration of the same id reports false and leaves the first one's record, solvers included, alone. */
  lemma RegisterTwice(l: Ledger, c: Challenge, c2: Challenge, now: Stamp, now2: Stamp, id: string, w: string)
    requires c.challengeId !in Keys(l) && c2.challengeId == c.challengeId
    ensures var l1 := Register(l, c, now).ledger;
            var l2 := MarkSolved(l1, c.challengeId, w).ledger;
            && Register(l, c, now).value
            && !Register(l2, c2, now2).value
            && Register(l2, c2, now2).ledger == l2
  {
  }

  /** `mark_solved` is idempotent: true then false, and the wallet is listed once. */
  lemma MarkSolvedTwice(l: Ledger, id: string, w: string)
    requires id in Keys(l) && NoDupSolvers(l)
    requires w !in l[Find(l, id).value].rec.solvedBy
    ensures var r1 := MarkSolved(l, id, w);
            var r2 := MarkSolved(r1.ledger, id, w);
            && r1.value && !r2.value && r2.ledger == r1.ledger
            && NoDupSolvers(r2.ledger)
            && multiset(r2.ledger[Find(l, id).value].rec.solvedBy)[w] == 1
  {
    var i := Find(l, id).value;
    var r1 := MarkSolved(l, id, w);
    MarkingKeepsNoDup(l, id, w);
    assert Find(r1.ledger, id) == Some(i) by {
      FindSameKeys(l, r1.ledger, id);
    }
    var xs := r1.ledger[i].rec.solvedBy;
    assert xs == l[i].rec.solvedBy + [w];
    assert multiset(xs)[w] == multiset(l[i].rec.solvedBy)[w] + 1;
  }

  /** `Find` only looks at keys. */
  lemma {:induction false} FindSameKeys(l: Ledger, l': Ledger, id: string)
    requires |l| == |l'| && forall j :: 0 <= j < |l| ==> l'[j].key == l[j].key
    ensures Find(l', id) == Find(l, id)
    decreases |l|
  {
    if |l| > 0 && l[0].key != id {
      FindSameKeys(l[1..], l'[1..], id);
    }
  }

  /** `is_dev_solved` holds after `mark_dev_solved` on a known id, and never for an unknown id. */
  lemma DevSolvedAfterMark(l: Ledger, id: string, dev: string)
    ensures id !in Keys(l) ==> !IsDevSolved(l, id, dev)
    ensures id in Keys(l) ==> IsDevSolved(MarkDevSolved(l, id, dev).ledger, id, dev)
  {
    var r := MarkDevSolved(l, id, dev);
    FindSameKeys(l, r.ledger, id);
  }

  /** Marks for several wallets one after another (the linearised effect of concurrent calls). */
  function MarkAll(l: Ledger, id: string, ws: seq<string>): Ledger
    decreases |ws|
  {
    if |ws| == 0 then l else MarkAll(MarkSolved(l, id, ws[0]).ledger, id, ws[1..])
  }

  /** No update is lost: after marking a batch of wallets on one challenge, every one of them is listed. */
  lemma {:induction false} MarkAllKeepsEvery(l: Ledger, id: string, ws: seq<string>, before: set<string>)
    requires id in Keys(l)
    requires forall x :: x in before ==> x in l[Find(l, id).value].rec.solvedBy
    ensures Find(MarkAll(l, id, ws), id) == Find(l, id)
    ensures forall x :: x in before || x in ws ==> x in MarkAll(l, id, ws)[Find(l, id).value].rec.solvedBy
    decreases |ws|
  {
    if |ws| > 0 {
      var l1 := MarkSolved(l, id, ws[0]).ledger;
      FindSameKeys(l, l1, id);
      var i := Find(l, id).value;
      assert l1[i].rec.solvedBy == l[i].rec.solvedBy || l1[i].rec.solvedBy == l[i].rec.solvedBy + [ws[0]];
      MarkAllKeepsEvery(l1, id, ws[1..], before + {ws[0]});
      assert forall x :: x in ws ==> x == ws[0] || x in ws[1..];
    }
  }

  // ---------------------------------------------------------------------------------------------
  // Scheduling: `get_unsolved_challenge`

  /** Seconds a challenge must still have left to be handed out. */
  const MinSecondsLeft: int := 120

  function Min(a: int, b: int): int {
    if a <= b then a else b
  }

  lemma {:induction false} PowMonotone(b: nat, m: nat, n: nat)
    requires 1 <= b && m <= n
    ensures Pow(b, m) <= Pow(b, n)
    decreases n
  {
    if m < n {
      PowMonotone(b, m, n - 1);
      MulGrows(b, Pow(b, n - 1));
    }
  }

  lemma MulGrows(b: nat, x: nat)
    requires 1 <= b
    ensures x <= b * x
  {
    assert b * x == x + (b - 1) * x;
  }

  /** `int(difficulty[:8], 16)`: None for a missing, empty or non-hexadecimal difficulty. */
  function DifficultyValue(d: Option<string>): (v: Option<nat>)
    ensures v.Some? ==> d.Some? && d.value != "" && v.value < 0x1_0000_0000
  {
    if d.None? || d.value == "" then None
    else
      var prefix := d.value[..Min(8, |d.value|)];
      var v := ParseHex(prefix);
      if v.Some? then
        PowMonotone(16, |prefix|, 8);
        assert Pow(16, 8) == 0x1_0000_0000;
        v
      else None
  }

  /** The deadline in seconds: None when `latest_submission` is missing, empty or unparseable. */
  function Deadline(r: ChallengeRecord): Option<int> {
    if r.latestSubmission.None? || r.latestSubmission.value.text == "" then None
    else r.latestSubmission.value.seconds
  }

  /** A record the scheduler may hand to `wallet` at time `now`. */
  predicate Eligible(r: ChallengeRecord, wallet: string, now: int) {
    && wallet !in r.solvedBy
    && Deadline(r).Some? && Deadline(r).value - now > MinSecondsLeft
    && DifficultyValue(r.difficulty).Some?
  }

  /** Strictly preferred: numerically lower difficulty, then earlier deadline. */
  predicate Better(a: ChallengeRecord, b: ChallengeRecord)
    requires Deadline(a).Some? && DifficultyValue(a.difficulty).Some?
    requires Deadline(b).Some? && DifficultyValue(b.difficulty).Some?
  {
    var da := DifficultyValue(a.difficulty).value;
    var db := DifficultyValue(b.difficulty).value;
    da < db || (da == db && Deadline(a).value < Deadline(b).value)
  }

  /** The selector's scan over the first `n` records: the position of its current best. */
  function BestIndex(l: Ledger, wallet: string, now: int, n: nat): (r: Option<nat>)
    requires n <= |l|
    ensures r.None? <==> forall j :: 0 <= j < n ==> !Eligible(l[j].rec, wallet, now)
    ensures r.Some? ==> r.value < n && Eligible(l[r.value].rec, wallet, now)
    ensures r.Some? ==> forall j :: 0 <= j < n && Eligible(l[j].rec, wallet, now) ==>
      !Better(l[j].rec, l[r.value].rec)
    ensures r.Some? ==> forall j :: 0 <= j < r.value && Eligible(l[j].rec, wallet, now) ==>
      Better(l[r.value].rec, l[j].rec)
  {
    if n == 0 then None
    else
      var b := BestIndex(l, wallet, now, n - 1);
      var r := if Eligible(l[n - 1].rec, wallet, now) && (b.None? || Better(l[n - 1].rec, l[b.value].rec))
               then Some(n - 1) else b;
      BestStep(l, wallet, now, n, b, r);
      r
  }

  /** The four facts `BestIndex` states about the first `n` records. */
  ghost predicate IsBest(l: Ledger, wallet: string, now: int, n: nat, r: Option<nat>)
    requires n <= |l|
  {
    && (r.None? <==> forall j :: 0 <= j < n ==> !Eligible(l[j].rec, wallet, now))
    && (r.Some? ==> r.value < n && Eligible(l[r.value].rec, wallet, now))
    && (r.Some? ==> forall j :: 0 <= j < n && Eligible(l[j].rec, wallet, now) ==> !Better(l[j].rec, l[r.value].rec))
    && (r.Some? ==> forall j :: 0 <= j < r.value && Eligible(l[j].rec, wallet, now) ==> Better(l[r.value].rec, l[j].rec))
  }

  /** One step of the scan: the new record replaces the best only when it is strictly better. */
  lemma BestStep(l: Ledger, wallet: string, now: int, n: nat, b: Option<nat>, r: Option<nat>)
    requires 0 < n <= |l| && IsBest(l, wallet, now, n - 1, b)
    requires r == if Eligible(l[n - 1].rec, wallet, now) && (b.None? || Better(l[n - 1].rec, l[b.value].rec))
                  then Some(n - 1) else b
    ensures IsBest(l, wallet, now, n, r)
  {
    if r == Some(n - 1) {
      if b.Some? {
        NewBest(l, wallet, now, n, b.value);
      } else {
        FirstEligible(l, wallet, now, n);
      }
    } else {
      KeptBest(l, wallet, now, n, b);
    }
  }

  /** With nothing eligible before it, an eligible last record is the best of the first `n`. */
  lemma FirstEligible(l: Ledger, wallet: string, now: int, n: nat)
    requires 0 < n <= |l| && Eligible(l[n - 1].rec, wallet, now)
    requires forall j :: 0 <= j < n - 1 ==> !Eligible(l[j].rec, wallet, now)
    ensures IsBest(l, wallet, now, n, Some(n - 1))
  {
    assert forall j :: 0 <= j < n && Eligible(l[j].rec, wallet, now) ==> j == n - 1;
  }

  /** A last record that is not strictly better leaves the best where it was. */
  lemma KeptBest(l: Ledger, wallet: string, now: int, n: nat, b: Option<nat>)
    requires 0 < n <= |l| && IsBest(l, wallet, now, n - 1, b)
    requires !(Eligible(l[n - 1].rec, wallet, now) && (b.None? || Better(l[n - 1].rec, l[b.value].rec)))
    ensures IsBest(l, wallet, now, n, b)
  {
    if b.Some? {
      assert Eligible(l[n - 1].rec, wallet, now) ==> !Better(l[n - 1].rec, l[b.value].rec);
    } else {
      assert !Eligible(l[n - 1].rec, wallet, now);
    }
  }

  /** `Better` is a strict order: what is not better than `b` is not better than anything better than `b`. */
  lemma BetterThrough(a: ChallengeRecord, b: ChallengeRecord, c: ChallengeRecord)
    requires Deadline(a).Some? && DifficultyValue(a.difficulty).Some?
    requires Deadline(b).Some? && DifficultyValue(b.difficulty).Some?
    requires Deadline(c).Some? && DifficultyValue(c.difficulty).Some?
    requires Better(a, b) && !Better(c, b)
    ensures !Better(c, a)
  {
  }

  /** `Better` is transitive through a record that is not better than the middle one. */
  lemma BetterBefore(a: ChallengeRecord, b: ChallengeRecord, c: ChallengeRecord)
    requires Deadline(a).Some? && DifficultyValue(a.difficulty).Some?
    requires Deadline(b).Some? && DifficultyValue(b.difficulty).Some?
    requires Deadline(c).Some? && DifficultyValue(c.difficulty).Some?
    requires Better(a, b) && !Better(c, b)
    ensures Better(a, c)
  {
  }

  /** A record better than the best of the first `n - 1` is the best of the first `n`. */
  lemma NewBest(l: Ledger, wallet: string, now: int, n: nat, b: nat)
    requires 0 < n <= |l| && b < n - 1
    requires Eligible(l[n - 1].rec, wallet, now)
    requires IsBest(l, wallet, now, n - 1, Some(b)) && Better(l[n - 1].rec, l[b].rec)
    ensures IsBest(l, wallet, now, n, Some(n - 1))
  {
    forall j | 0 <= j < n && Eligible(l[j].rec, wallet, now)
      ensures !Better(l[j].rec, l[n - 1].rec)
    {
      if j < n - 1 {
        BetterThrough(l[n - 1].rec, l[b].rec, l[j].rec);
      }
    }
    forall j | 0 <= j < n - 1 && Eligible(l[j].rec, wallet, now)
      ensures Better(l[n - 1].rec, l[j].rec)
    {
      BetterBefore(l[n - 1].rec, l[b].rec, l[j].rec);
    }
  }

  /**
   * `get_unsolved_challenge`: the eligible record with the lowest difficulty, then the earliest
   * deadline; the first such in dictionary order; None exactly when nothing is eligible.
   */
  function GetUnsolvedChallenge(l: Ledger, wallet: string, now: int): (r: Option<ChallengeRecord>)
    ensures r.None? <==> forall j :: 0 <= j < |l| ==> !Eligible(l[j].rec, wallet, now)
    ensures r.Some? ==> Eligible(r.value, wallet, now)
    ensures r.Some? ==> forall j :: 0 <= j < |l| && Eligible(l[j].rec, wallet, now) ==>
      !Better(l[j].rec, r.value)
    ensures r.Some? ==> exists i :: (0 <= i < |l| && l[i].rec == r.value
      && forall j :: 0 <= j < i && Eligible(l[j].rec, wallet, now) ==> Better(r.value, l[j].rec))
  {
    match BestIndex(l, wallet, now, |l|)
    case None => None
    case Some(i) =>
      assert forall j :: 0 <= j < i && Eligible(l[j].rec, wallet, now) ==> Better(l[i].rec, l[j].rec);
      Some(l[i].rec)
  }

  /** What the scheduler never hands out: a challenge already solved by the wallet or with 120 s or less left. */
  lemma SelectionIsSafe(l: Ledger, wallet: string, now: int)
    ensures var r := GetUnsolvedChallenge(l, wallet, now);
      r.Some? ==> wallet !in r.value.solvedBy && Deadline(r.value).Some? && Deadline(r.value).value > now + 120
  {
  }

  // ---------------------------------------------------------------------------------------------
  // `count_wallet_completions`

  /** Number of entries of `xs` that lie in `ws`. */
  function CountIn(xs: seq<string>, ws: set<string>): nat {
    if |xs| == 0 then 0 else (if xs[0] in ws then 1 else 0) + CountIn(xs[1..], ws)
  }

  /** `count_wallet_completions`: (record, solver) pairs whose solver is in `ws`. */
  function CountCompletions(l: Ledger, ws: set<string>): nat {
    if |l| == 0 then 0 else CountIn(l[0].rec.solvedBy, ws) + CountCompletions(l[1..], ws)
  }

  lemma {:induction false} CountInAppend(xs: seq<string>, w: string, ws: set<string>)
    ensures CountIn(xs + [w], ws) == CountIn(xs, ws) + (if w in ws then 1 else 0)
    decreases |xs|
  {
    if |xs| > 0 {
      assert (xs + [w])[1..] == xs[1..] + [w];
      CountInAppend(xs[1..], w, ws);
    }
  }

  lemma {:induction false} CountUpdate(l: Ledger, i: nat, e: Entry, ws: set<string>)
    requires i < |l|
    ensures CountCompletions(l[i := e], ws) + CountIn(l[i].rec.solvedBy, ws)
         == CountCompletions(l, ws) + CountIn(e.rec.solvedBy, ws)
    decreases |l|
  {
    if i > 0 {
      assert l[i := e][1..] == l[1..][i - 1 := e];
      CountUpdate(l[1..], i - 1, e, ws);
    } else {
      assert l[i := e][1..] == l[1..];
    }
  }

  /** Each successful `mark_solved` of a counted wallet adds exactly one completion; nothing else changes the count. */
  lemma CountAfterMarkSolved(l: Ledger, id: string, w: string, ws: set<string>)
    ensures var r := MarkSolved(l, id, w);
      CountCompletions(r.ledger, ws) == CountCompletions(l, ws) + (if r.value && w in ws then 1 else 0)
  {
    var r := MarkSolved(l, id, w);
    if r.value {
      var i := Find(l, id).value;
      assert r.ledger == l[i := r.ledger[i]];
      CountUpdate(l, i, r.ledger[i], ws);
      CountInAppend(l[i].rec.solvedBy, w, ws);
    }
  }

  /** Registration and donation marks do not change the count. */
  lemma CountUnchangedByOtherUpdates(l: Ledger, c: Challenge, now: Stamp, id: string, dev: string, ws: set<string>)
    ensures CountCompletions(Register(l, c, now).ledger, ws) == CountCompletions(l, ws)
    ensures CountCompletions(MarkDevSolved(l, id, dev).ledger, ws) == CountCompletions(l, ws)
  {
    var r := Register(l, c, now);
    if r.value {
      CountAppend(l, r.ledger[|l|], ws);
      assert r.ledger == l + [r.ledger[|l|]];
    }
    var d := MarkDevSolved(l, id, dev);
    if Find(l, id).Some? {
      var i := Find(l, id).value;
      assert d.ledger == l[i := d.ledger[i]];
      CountUpdate(l, i, d.ledger[i], ws);
    }
  }

  lemma {:induction false} CountAppend(l: Ledger, e: Entry, ws: set<string>)
    requires e.rec.solvedBy == []
    ensures CountCompletions(l + [e], ws) == CountCompletions(l, ws)
    decreases |l|
  {
    if |l| > 0 {
      assert (l + [e])[1..] == l[1..] + [e];
      CountAppend(l[1..], e, ws);
    }
  }
}

=== FILE: legacy.dfy ===
/**
 * The older challenge selector kept in `miner.py`'s own `ChallengeTracker`, which is the one the
 * supervisor and workers started from `miner.py` use. Its registration, marking and counting code
 * is the same as the package's (modelled in `Ledger`); only the selector differs: it prefers the
 * challenge with the most time left and does not tolerate a malformed deadline.
 */
module LegacyTracker {
  import opened Wrappers
  import opened Ledger
  import opened Sorting

  /**
   * `datetime.fromisoformat(data['latest_submission'])` as the scan can use it: None when that
   * raises (missing key or bad text), and None for a naive time, which `deadline - now` rejects
   * with a TypeError because `now` is timezone-aware.
   */
  function LegacyDeadline(r: ChallengeRecord): Option<int> {
    if r.latestSubmission.None? || r.latestSubmission.value.naive then None else r.latestSubmission.value.seconds
  }

  /** A selectable record: position in the ledger and seconds left. */
  datatype Candidate = Candidate(pos: nat, timeLeft: int)

  function TimeLeft(c: Candidate): int {
    c.timeLeft
  }

  /** Not yet solved by `wallet`. */
  predicate Unsolved(l: Ledger, wallet: string, j: nat)
    requires j < |l|
  {
    wallet !in l[j].rec.solvedBy
  }

  /** Unsolved with a deadline still in the future. */
  predicate Qualifies(l: Ledger, wallet: string, now: int, j: nat)
    requires j < |l|
  {
    Unsolved(l, wallet, j) && LegacyDeadline(l[j].rec).Some? && LegacyDeadline(l[j].rec).value > now
  }

  /** The candidate list built by the scan of records `from..`, or the error the scan raises. */
  function Candidates(l: Ledger, wallet: string, now: int, from: nat): (r: Result<seq<Candidate>, string>)
    requires from <= |l|
    ensures r.Success? ==> forall k :: 0 <= k < |r.value| ==> Listed(l, wallet, now, from, r.value[k])
    decreases |l| - from
  {
    if from == |l| then Success([])
    else
      var rest := Candidates(l, wallet, now, from + 1);
      if !Unsolved(l, wallet, from) then rest
      else if LegacyDeadline(l[from].rec).None? then
        Failure(if l[from].rec.latestSubmission.Some? && l[from].rec.latestSubmission.value.naive
                then "TypeError: can't subtract offset-naive and offset-aware datetimes"
                else "invalid isoformat string")
      else if rest.Failure? then rest
      else
        var left := LegacyDeadline(l[from].rec).value - now;
        if left > 0 then Success([Candidate(from, left)] + rest.value) else rest
  }

  /** `c` stands for a qualifying record at or after `from`, with its true time left. */
  predicate Listed(l: Ledger, wallet: string, now: int, from: nat, c: Candidate) {
    && from <= c.pos < |l| && Qualifies(l, wallet, now, c.pos)
    && c.timeLeft == LegacyDeadline(l[c.pos].rec).value - now
  }

  predicate Increasing(cs: seq<Candidate>) {
    forall a, b :: 0 <= a < b < |cs| ==> cs[a].pos < cs[b].pos
  }

  /** The scan raises exactly when an unsolved record has an unusable deadline. */
  lemma {:induction false} CandidatesFail(l: Ledger, wallet: string, now: int, from: nat)
    requires from <= |l|
    ensures Candidates(l, wallet, now, from).Failure?
        <==> exists j :: from <= j < |l| && Unsolved(l, wallet, j) && LegacyDeadline(l[j].rec).None?
    decreases |l| - from
  {
    if from < |l| {
      CandidatesFail(l, wallet, now, from + 1);
    }
  }

  /** Candidates come in ledger order. */
  lemma {:induction false} CandidatesOrdered(l: Ledger, wallet: string, now: int, from: nat)
    requires from <= |l| && Candidates(l, wallet, now, from).Success?
    ensures Increasing(Candidates(l, wallet, now, from).value)
    decreases |l| - from
  {
    if from < |l| {
      CandidatesOrdered(l, wallet, now, from + 1);
      var rest := Candidates(l, wallet, now, from + 1);
      if rest.Success? {
        assert forall k :: 0 <= k < |rest.value| ==> Listed(l, wallet, now, from + 1, rest.value[k]);
      }
    }
  }

  /** Every qualifying record is among the candidates. */
  lemma {:induction false} CandidatesComplete(l: Ledger, wallet: string, now: int, from: nat, j: nat)
    requires from <= j < |l| && Qualifies(l, wallet, now, j)
    requires Candidates(l, wallet, now, from).Success?
    ensures exists k :: 0 <= k < |Candidates(l, wallet, now, from).value|
                        && Candidates(l, wallet, now, from).value[k].pos == j
    decreases |l| - from
  {
    var cs := Candidates(l, wallet, now, from).value;
    if j == from {
      assert cs[0].pos == j;
    } else {
      CandidatesComplete(l, wallet, now, from + 1, j);
      var rest := Candidates(l, wallet, now, from + 1).value;
      var k :| 0 <= k < |rest| && rest[k].pos == j;
      if cs == rest {
      } else {
        assert cs == [Candidate(from, LegacyDeadline(l[from].rec).value - now)] + rest;
        assert cs[k + 1].pos == j;
      }
    }
  }

  /**
   * `get_unsolved_challenge` in `miner.py`: sort the candidates by time left, largest first (a
   * stable sort), and take the head; None when there is no candidate.
   */
  function LegacyPick(l: Ledger, wallet: string, now: int): Result<Option<nat>, string> {
    match Candidates(l, wallet, now, 0)
    case Failure(e) => Failure(e)
    case Success(cs) =>
      if |cs| == 0 then Success(None)
      else Success(Some(SortBy(cs, TimeLeft, IntGe)[0].pos))
  }

  /** The head of the descending stable sort of an ordered candidate list: most time left, earliest among equals. */
  lemma HeadOfSortedCandidates(cs: seq<Candidate>) returns (hk: nat)
    requires |cs| > 0 && Increasing(cs)
    ensures hk < |cs| && SortBy(cs, TimeLeft, IntGe)[0] == cs[hk]
    ensures forall k :: 0 <= k < |cs| ==> cs[k].timeLeft <= cs[hk].timeLeft
    ensures forall k :: 0 <= k < hk ==> cs[k].timeLeft < cs[hk].timeLeft
  {
    IntGeIsTotalPreorder();
    SortedHeadIsLeast(cs, TimeLeft, IntGe);
    var head := SortBy(cs, TimeLeft, IntGe)[0];
    hk :| 0 <= hk < |cs| && cs[hk] == head;
    forall k | 0 <= k < |cs|
      ensures cs[k].timeLeft <= head.timeLeft
    {
      assert cs[k] in cs;
    }
    var m := FirstWithTimeLeft(cs, head.timeLeft, hk);
    SortedHeadIsFirstLeast(cs, TimeLeft, IntGe, m);
    assert cs[m].pos == cs[hk].pos;
    assert m == hk;
  }

  /**
   * What the legacy selector returns: an error exactly when some unsolved record has an
   * unusable deadline; otherwise the qualifying record with the latest deadline, the first one
   * in ledger order among equals; None exactly when nothing qualifies.
   */
  lemma LegacyPickCorrect(l: Ledger, wallet: string, now: int)
    ensures var r := LegacyPick(l, wallet, now);
      r.Failure? <==> exists j :: 0 <= j < |l| && Unsolved(l, wallet, j) && LegacyDeadline(l[j].rec).None?
    ensures var r := LegacyPick(l, wallet, now);
      r.Success? ==> (r.value.None? <==> forall j :: 0 <= j < |l| ==> !Qualifies(l, wallet, now, j))
    ensures var r := LegacyPick(l, wallet, now);
      r.Success? && r.value.Some? ==> var i := r.value.value;
        && i < |l| && Qualifies(l, wallet, now, i)
        && (forall j :: 0 <= j < |l| && Qualifies(l, wallet, now, j) ==>
              LegacyDeadline(l[j].rec).value <= LegacyDeadline(l[i].rec).value)
        && (forall j :: 0 <= j < i && Qualifies(l, wallet, now, j) ==>
              LegacyDeadline(l[j].rec).value < LegacyDeadline(l[i].rec).value)
  {
    CandidatesFail(l, wallet, now, 0);
    var cr := Candidates(l, wallet, now, 0);
    if cr.Success? {
      var cs := cr.value;
      CandidatesOrdered(l, wallet, now, 0);
      if |cs| > 0 {
        var hk := HeadOfSortedCandidates(cs);
        var i := cs[hk].pos;
        assert Listed(l, wallet, now, 0, cs[hk]);
        forall j | 0 <= j < |l| && Qualifies(l, wallet, now, j)
          ensures LegacyDeadline(l[j].rec).value <= LegacyDeadline(l[i].rec).value
          ensures j < i ==> LegacyDeadline(l[j].rec).value < LegacyDeadline(l[i].rec).value
        {
          CandidatesComplete(l, wallet, now, 0, j);
          var k :| 0 <= k < |cs| && cs[k].pos == j;
          assert Listed(l, wallet, now, 0, cs[k]);
          if j < i {
            assert k < hk;
          }
        }
      } else {
        forall j | 0 <= j < |l|
          ensures !Qualifies(l, wallet, now, j)
        {
          if Qualifies(l, wallet, now, j) {
            CandidatesComplete(l, wallet, now, 0, j);
          }
        }
      }
    }
  }

  /** The least index whose time left is `t`, given that index `hk` has it. */
  function FirstWithTimeLeft(cs: seq<Candidate>, t: int, hk: nat): (m: nat)
    requires hk < |cs| && cs[hk].timeLeft == t
    ensures m <= hk && cs[m].timeLeft == t
    ensures forall j :: 0 <= j < m ==> cs[j].timeLeft != t
    decreases hk
  {
    if hk == 0 then 0
    else if exists j :: 0 <= j < hk && cs[j].timeLeft == t then
      var j :| 0 <= j < hk && cs[j].timeLeft == t;
      FirstWithTimeLeft(cs, t, j)
    else hk
  }

  /** The record the legacy selector hands out. */
  function LegacyGetUnsolvedChallenge(l: Ledger, wallet: string, now: int): (r: Result<Option<ChallengeRecord>, string>)
    ensures r.Success? && r.value.Some? ==>
      wallet !in r.value.value.solvedBy && LegacyDeadline(r.value.value).Some? && LegacyDeadline(r.value.value).value > now
    ensures r.Success? && r.value.Some? ==> exists i :: 0 <= i < |l| && l[i].rec == r.value.value
    ensures r.Failure? <==> exists j :: 0 <= j < |l| && Unsolved(l, wallet, j) && LegacyDeadline(l[j].rec).None?
  {
    LegacyPickCorrect(l, wallet, now);
    match LegacyPick(l, wallet, now)
    case Failure(e) => Failure(e)
    case Success(None) => Success(None)
    case Success(Some(i)) => Success(Some(l[i].rec))
  }

  /** An unsolved record whose deadline has no UTC offset makes the legacy selector raise. */
  lemma NaiveDeadlineRaises(l: Ledger, wallet: string, now: int, j: nat)
    requires j < |l| && Unsolved(l, wallet, j)
    requires l[j].rec.latestSubmission.Some? && l[j].rec.latestSubmission.value.naive
    ensures LegacyGetUnsolvedChallenge(l, wallet, now).Failure?
  {
    assert LegacyDeadline(l[j].rec).None?;
  }

  /** Where the two selectors differ: a record with a missing deadline is skipped by one and fatal to the other. */
  lemma SelectorsDisagreeOnMissingDeadline(rec: ChallengeRecord, wallet: string, now: int)
    requires rec.latestSubmission.None? && wallet !in rec.solvedBy
    ensures GetUnsolvedChallenge([Entry("c", rec)], wallet, now) == None
    ensures LegacyGetUnsolvedChallenge([Entry("c", rec)], wallet, now).Failure?
  {
    var l := [Entry("c", rec)];
    assert Unsolved(l, wallet, 0);
  }
}

=== FILE: loader.dfy ===
/**
 * `ashmaize_loader.py`: finding the native hashing library for the running platform and loading
 * it once. The platform names, the file-existence test and the import itself are inputs; what the
 * import yields is a value of the type parameter `M`.
 */
module Loader {
  import opened Wrappers
  import opened Text

  /** Why the loader raises `RuntimeError`. */
  datatype LoadError =
    | Unsupported(system: string, arch: string, machine: string)
    | BinaryMissing(system: string, arch: string, binaryPath: string)
    | ImportFailed(libPath: string, message: string)

  /** The architecture name the table uses for an already lowercased machine name. */
  function Arch(machine: string): (arch: string)
    ensures machine == "x86_64" || machine == "amd64" || machine == "x64" ==> arch == "x64"
    ensures machine == "aarch64" || machine == "arm64" || machine == "armv8" ==> arch == "arm64"
    ensures arch != machine ==> arch == "x64" || arch == "arm64"
    ensures machine !in ["x86_64", "amd64", "x64", "aarch64", "arm64", "armv8"] ==> arch == machine
  {
    if machine == "x86_64" || machine == "amd64" || machine == "x64" then "x64"
    else if machine == "aarch64" || machine == "arm64" || machine == "armv8" then "arm64"
    else machine
  }

  /** Normalising is idempotent: the names it produces are already normal. */
  lemma ArchIdempotent(machine: string)
    ensures Arch(Arch(machine)) == Arch(machine)
  {
  }

  /** The library directories, by (system, architecture). */
  const PlatformMap: map<(string, string), string> := map[
    ("windows", "x64") := "windows-x64",
    ("linux", "x64") := "linux-x64",
    ("linux", "arm64") := "linux-arm64",
    ("darwin", "x64") := "macos-x64",
    ("darwin", "arm64") := "macos-arm64"
  ]

  /** The systems and architectures the library is built for, described without the table. */
  predicate Supported(system: string, arch: string) {
    || (system == "windows" && arch == "x64")
    || (system == "linux" && (arch == "x64" || arch == "arm64"))
    || (system == "darwin" && (arch == "x64" || arch == "arm64"))
  }

  /** What the directories are called after: macOS for Darwin, the system's own name otherwise. */
  function OsName(system: string): string {
    if system == "darwin" then "macos" else system
  }

  /** The table has exactly the supported pairs, and names each directory `<os>-<arch>`. */
  lemma PlatformMapShape(system: string, arch: string)
    ensures (system, arch) in PlatformMap <==> Supported(system, arch)
    ensures (system, arch) in PlatformMap ==> PlatformMap[(system, arch)] == OsName(system) + "-" + arch
    ensures |PlatformMap| == 5
  {
    var keys := {("windows", "x64"), ("linux", "x64"), ("linux", "arm64"), ("darwin", "x64"), ("darwin", "arm64")};
    assert PlatformMap.Keys == keys;
  }

  /** The character `os.path` joins with: `\` for Windows, `/` elsewhere. */
  function Separator(system: string): char {
    if system == "windows" then '\\' else '/'
  }

  /** A character `os.path.join` treats as already separating: Windows accepts both slashes. */
  predicate EndsInSeparator(path: string, system: string) {
    |path| > 0 && (path[|path| - 1] == Separator(system) || (system == "windows" && path[|path| - 1] == '/'))
  }

  /** `os.path.join(a, b)` for a relative `b` without a drive. */
  function PathJoin(a: string, b: string, system: string): (r: string)
    ensures a == "" ==> r == b
    ensures |r| >= |a| && r[..|a|] == a
    ensures |r| >= |b| && r[|r| - |b|..] == b
  {
    if a == "" then b
    else if EndsInSeparator(a, system) then a + b
    else a + [Separator(system)] + b
  }

  /** The binary inside the library directory: a `.pyd` on Windows, a `.so` elsewhere. */
  function BinaryName(system: string): string {
    if system == "windows" then "ashmaize_py.pyd" else "ashmaize_py.so"
  }

  /** Joining onto a non-empty path that does not end in a separator inserts one. */
  lemma JoinPlain(a: string, b: string, system: string)
    requires a != "" && !EndsInSeparator(a, system)
    ensures PathJoin(a, b, system) == a + [Separator(system)] + b
    ensures |b| > 0 ==> !EndsInSeparator(PathJoin(a, b, system), system) <==> !EndsInSeparator(b, system)
  {
    var r := a + [Separator(system)] + b;
    if |b| > 0 {
      assert r[|r| - 1] == b[|b| - 1];
    }
  }

  /** The library directory for a lowercased system and normalised architecture, checked for its binary. */
  function Locate(s: string, a: string, m: string, here: string, isFile: string -> bool): (r: Result<string, LoadError>)
    ensures r.Failure? && r.error.Unsupported? <==> !Supported(s, a)
    ensures r.Failure? ==> !r.error.ImportFailed?
  {
    PlatformMapShape(s, a);
    if (s, a) !in PlatformMap then Failure(Unsupported(s, a, m))
    else
      var libPath := PathJoin(PathJoin(here, "libs", s), PlatformMap[(s, a)], s);
      var binaryPath := PathJoin(libPath, BinaryName(s), s);
      if !isFile(binaryPath) then Failure(BinaryMissing(s, a, binaryPath)) else Success(libPath)
  }

  /** `get_platform_path`: `here` is the loader's own directory, `isFile` the file-system test. */
  function PlatformPath(system: string, machine: string, here: string, isFile: string -> bool): (r: Result<string, LoadError>)
    ensures r.Failure? && r.error.Unsupported? <==> !Supported(Lower(system), Arch(Lower(machine)))
    ensures r.Failure? ==> !r.error.ImportFailed?
  {
    Locate(Lower(system), Arch(Lower(machine)), Lower(machine), here, isFile)
  }

  /**
   * Where the library is looked for: on a supported platform the directory is
   * `<here>/libs/<os>-<arch>`, the binary checked is inside it, and the result is that directory
   * exactly when the binary exists.
   */
  lemma LocateMeaning(s: string, a: string, m: string, here: string, isFile: string -> bool)
    requires here != "" && !EndsInSeparator(here, s)
    requires Supported(s, a)
    ensures var sep := [Separator(s)];
      var libPath := here + sep + "libs" + sep + (OsName(s) + "-" + a);
      var binaryPath := libPath + sep + BinaryName(s);
      && (isFile(binaryPath) ==> Locate(s, a, m, here, isFile) == Success(libPath))
      && (!isFile(binaryPath) ==> Locate(s, a, m, here, isFile) == Failure(BinaryMissing(s, a, binaryPath)))
  {
    PlatformMapShape(s, a);
    var dir := OsName(s) + "-" + a;
    DirIsPlain(s, a);
    JoinTwice(here, "libs", dir, s);
    var libPath := here + [Separator(s)] + "libs" + [Separator(s)] + dir;
    JoinPlain(libPath, BinaryName(s), s);
  }

  /** A directory name from the table ends in the architecture's last digit, not a separator. */
  lemma DirIsPlain(s: string, a: string)
    requires Supported(s, a)
    ensures OsName(s) + "-" + a != "" && !EndsInSeparator(OsName(s) + "-" + a, s)
  {
    assert a == "x64" || a == "arm64";
    var dir := OsName(s) + "-" + a;
    assert dir[|dir| - 1] == a[|a| - 1];
  }

  /** Joining two plain components in turn separates each by one separator. */
  lemma JoinTwice(here: string, b: string, c: string, system: string)
    requires here != "" && !EndsInSeparator(here, system)
    requires b != "" && !EndsInSeparator(b, system) && c != "" && !EndsInSeparator(c, system)
    ensures PathJoin(PathJoin(here, b, system), c, system) == here + [Separator(system)] + b + [Separator(system)] + c
    ensures !EndsInSeparator(PathJoin(PathJoin(here, b, system), c, system), system)
  {
    JoinPlain(here, b, system);
    JoinPlain(here + [Separator(system)] + b, c, system);
  }

  lemma PlatformPathMeaning(system: string, machine: string, here: string, isFile: string -> bool)
    requires here != "" && !EndsInSeparator(here, Lower(system))
    requires Supported(Lower(system), Arch(Lower(machine)))
    ensures var s := Lower(system);
      var a := Arch(Lower(machine));
      var sep := [Separator(s)];
      var libPath := here + sep + "libs" + sep + (OsName(s) + "-" + a);
      var binaryPath := libPath + sep + BinaryName(s);
      && (isFile(binaryPath) ==> PlatformPath(system, machine, here, isFile) == Success(libPath))
      && (!isFile(binaryPath) ==> PlatformPath(system, machine, here, isFile) == Failure(BinaryMissing(s, a, binaryPath)))
  {
    LocateMeaning(Lower(system), Arch(Lower(machine)), Lower(machine), here, isFile);
  }

  /**
   * `load_ashmaize`: `path` is `sys.path` before the call and `importFrom` what importing the module
   * from a search path gives. Returns the outcome and `sys.path` after the call.
   */
  function Load<M>(system: string, machine: string, here: string, isFile: string -> bool,
                   path: seq<string>, importFrom: seq<string> -> Result<M, string>): (r: (Result<M, LoadError>, seq<string>))
    ensures PlatformPath(system, machine, here, isFile).Failure? ==> r == (Failure(PlatformPath(system, machine, here, isFile).error), path)
    ensures PlatformPath(system, machine, here, isFile).Success? ==>
      var lib := PlatformPath(system, machine, here, isFile).value;
      && lib in r.1
      && (lib in path ==> r.1 == path)
      && (lib !in path ==> r.1 == [lib] + path)
      && (r.0.Success? <==> importFrom(r.1).Success?)
      && (r.0.Failure? ==> r.0.error == ImportFailed(lib, importFrom(r.1).error))
  {
    match PlatformPath(system, machine, here, isFile)
    case Failure(e) => (Failure(e), path)
    case Success(lib) =>
      var searched := if lib in path then path else [lib] + path;
      match importFrom(searched)
      case Success(m) => (Success(m), searched)
      case Failure(message) => (Failure(ImportFailed(lib, message)), searched)
  }

  /** `init`: the cached module is returned as is; otherwise one load is made, and kept if it succeeds. */
  function Init<M>(cached: Option<M>, load: Result<M, LoadError>): (r: (Result<M, LoadError>, Option<M>))
    ensures cached.Some? ==> r == (Success(cached.value), cached)
    ensures cached.None? && load.Success? ==> r == (load, Some(load.value))
    ensures cached.None? && load.Failure? ==> r == (load, None)
  {
    match cached
    case Some(m) => (Success(m), cached)
    case None =>
      match load
      case Success(m) => (Success(m), Some(m))
      case Failure(e) => (Failure(e), None)
  }

  /**
   * Successive `init` calls: `loads[k]` is what loading would give at call `k`. Returns each call's
   * outcome, the final cache and the number of loads made.
   */
  function InitCalls<M>(cached: Option<M>, loads: seq<Result<M, LoadError>>): (r: (seq<Result<M, LoadError>>, Option<M>, nat))
    ensures |r.0| == |loads| && r.2 <= |loads|
    ensures cached.Some? ==> r.1 == cached
  {
    if |loads| == 0 then ([], cached, 0)
    else
      var n := |loads| - 1;
      var (outs, c, count) := InitCalls(cached, loads[..n]);
      var (out, c') := Init(c, loads[n]);
      (outs + [out], c', count + (if c.None? then 1 else 0))
  }

  /** Index of the first load that succeeds, or `|loads|`. */
  function FirstSuccess<M>(loads: seq<Result<M, LoadError>>): (k: nat)
    ensures k <= |loads|
    ensures forall j :: 0 <= j < k ==> loads[j].Failure?
    ensures k < |loads| ==> loads[k].Success?
  {
    if |loads| == 0 then 0
    else if loads[0].Success? then 0
    else 1 + FirstSuccess(loads[1..])
  }

  /**
   * The module is loaded at most once: from an empty cache, calls load until one succeeds, and
   * every later call returns that module without loading again; from a full cache nothing loads.
   */
  lemma {:induction false} InitLoadsOnce<M>(cached: Option<M>, loads: seq<Result<M, LoadError>>)
    ensures var (outs, c, count) := InitCalls(cached, loads);
      var k := FirstSuccess(loads);
      && (cached.Some? ==> count == 0 && forall j :: 0 <= j < |outs| ==> outs[j] == Success(cached.value))
      && (cached.None? ==> count == (if k < |loads| then k + 1 else |loads|))
      && (cached.None? ==> forall j :: 0 <= j < |outs| && j <= k ==> outs[j] == loads[j])
      && (cached.None? && k < |loads| ==> c == Some(loads[k].value) && forall j :: k <= j < |outs| ==> outs[j] == loads[k])
      && (cached.None? && k == |loads| ==> c.None?)
  {
    if |loads| > 0 {
      var n := |loads| - 1;
      InitLoadsOnce(cached, loads[..n]);
      FirstSuccessPrefix(loads);
    }
  }

  /** The first success of a list is that of the list without its last element, unless none is there. */
  lemma {:induction false} FirstSuccessPrefix<M>(loads: seq<Result<M, LoadError>>)
    requires |loads| > 0
    ensures var n := |loads| - 1;
      FirstSuccess(loads[..n]) < n ==> FirstSuccess(loads) == FirstSuccess(loads[..n])
    ensures var n := |loads| - 1;
      FirstSuccess(loads[..n]) == n ==> FirstSuccess(loads) == if loads[n].Success? then n else |loads|
  {
    var n := |loads| - 1;
    if n > 0 && loads[0].Failure? {
      FirstSuccessPrefix(loads[1..]);
      assert loads[1..][..n - 1] == loads[..n][1..];
    }
  }
}

=== FILE: merge.dfy ===
/**
 * `merge_wallets.py`: every wallet list in a folder merged into one, the first entry for each
 * address kept, then sorted by creation time.
 */
module Merge {
  import opened Wrappers
  import opened Text
  import opened Json
  import opened Sorting

  /** One `*.json` file of the folder, in sorted name order: unreadable or invalid, or the decoded value. */
  datatype File = Unreadable | Parsed(data: Json)

  /** The merge so far: the kept wallets in order, and the counters the script reports. */
  datatype State = State(wallets: seq<Json>, processedFiles: nat, totalWallets: nat, duplicates: nat)

  /** The address of an entry the merge accepts: an object with an `address` key. */
  function AddressOf(w: Json): Option<Json> {
    if w.JObj? then Get(w.members, "address") else None
  }

  /** A list or object cannot be put in a set: the membership test raises. */
  predicate Unhashable(a: Json) {
    a.JArr? || a.JObj?
  }

  /** The addresses of the kept wallets, in order, as the set of seen addresses compares them. */
  function Addresses(ws: seq<Json>): (r: seq<Json>)
    ensures |r| == |ws|
    ensures forall i :: 0 <= i < |ws| ==> r[i] == PyKey(AddressOf(ws[i]).GetOr(JNull))
  {
    if |ws| == 0 then [] else Addresses(ws[..|ws| - 1]) + [PyKey(AddressOf(ws[|ws| - 1]).GetOr(JNull))]
  }

  /** One entry of a list: skipped, counted as a duplicate, or kept; None when its address raises. */
  function Step(st: State, w: Json): (r: Option<State>)
    ensures r.None? <==> AddressOf(w).Some? && Unhashable(AddressOf(w).value)
    ensures r.Some? && AddressOf(w).Some? && PyKey(AddressOf(w).value) !in Addresses(st.wallets) ==>
      r.value == st.(wallets := st.wallets + [w], totalWallets := st.totalWallets + 1)
    ensures r.Some? && AddressOf(w).Some? && PyKey(AddressOf(w).value) in Addresses(st.wallets) ==>
      r.value == st.(duplicates := st.duplicates + 1)
    ensures r.Some? && AddressOf(w).None? ==> r.value == st
  {
    match AddressOf(w)
    case None => Some(st)
    case Some(a) =>
      if Unhashable(a) then None
      else if PyKey(a) in Addresses(st.wallets) then Some(st.(duplicates := st.duplicates + 1))
      else Some(st.(wallets := st.wallets + [w], totalWallets := st.totalWallets + 1))
  }

  /** The entries of one list in order; the first that raises stops the rest of the file. */
  function StepAll(st: State, items: seq<Json>): (r: (State, bool))
    decreases |items|
  {
    if |items| == 0 then (st, true)
    else match Step(st, items[0])
      case None => (st, false)
      case Some(st') => StepAll(st', items[1..])
  }

  /** One file: only a list contributes, and it counts as processed only if no entry raised. */
  function MergeFile(st: State, f: File): State {
    match f
    case Unreadable => st
    case Parsed(data) =>
      if !data.JArr? then st
      else
        var (st', finished) := StepAll(st, data.items);
        if finished then st'.(processedFiles := st'.processedFiles + 1) else st'
  }

  function MergeFiles(st: State, files: seq<File>): State
    decreases |files|
  {
    if |files| == 0 then st else MergeFiles(MergeFile(st, files[0]), files[1..])
  }

  /** Python's set takes `1` and `true` for one address: the second wallet is a duplicate. */
  lemma OneAndTrueAreOneAddress()
    ensures var w1 := JObj([("address", JInt(1))]);
            var w2 := JObj([("address", JBool(true))]);
      MergeFiles(State([], 0, 0, 0), [Parsed(JArr([w1, w2]))]) == State([w1], 1, 1, 1)
  {
    var w1 := JObj([("address", JInt(1))]);
    var w2 := JObj([("address", JBool(true))]);
    var st1 := State([w1], 0, 1, 0);
    assert AddressOf(w1) == Some(JInt(1)) && AddressOf(w2) == Some(JBool(true));
    assert Addresses([]) == [] && [] + [w1] == [w1];
    assert Step(State([], 0, 0, 0), w1) == Some(st1);
    assert Addresses([w1]) == [JInt(1)];
    assert Step(st1, w2) == Some(st1.(duplicates := 1));
    assert StepAll(st1, [w2]) == StepAll(st1.(duplicates := 1), []);
    assert [w1, w2][1..] == [w2];
    assert StepAll(State([], 0, 0, 0), [w1, w2]) == (State([w1], 0, 1, 1), true);
  }

  // ---------------------------------------------------------------------------------------------
  // What the merge keeps

  /** The kept wallets carry pairwise different addresses: no two are `==` in Python. */
  predicate DistinctAddresses(ws: seq<Json>) {
    (forall i :: 0 <= i < |ws| ==> AddressOf(ws[i]).Some?)
    && forall i, j :: 0 <= i < j < |ws| ==> PyKey(AddressOf(ws[i]).value) != PyKey(AddressOf(ws[j]).value)
  }

  /** The counters agree with the list: every kept wallet is counted once. */
  predicate Counted(st: State) {
    st.totalWallets == |st.wallets|
  }

  /** The number of entries of a list the merge looks at before stopping, that carry an address. */
  function Accepted(items: seq<Json>): nat {
    if |items| == 0 then 0
    else match AddressOf(items[0])
      case None => Accepted(items[1..])
      case Some(a) => if Unhashable(a) then 0 else 1 + Accepted(items[1..])
  }

  lemma AddressesAppend(ws: seq<Json>, w: Json)
    requires AddressOf(w).Some?
    ensures Addresses(ws + [w]) == Addresses(ws) + [PyKey(AddressOf(w).value)]
  {
    assert (ws + [w])[..|ws|] == ws;
  }

  /** A wallet with a new address keeps the kept addresses distinct. */
  lemma DistinctAppend(ws: seq<Json>, w: Json)
    requires DistinctAddresses(ws) && AddressOf(w).Some? && PyKey(AddressOf(w).value) !in Addresses(ws)
    ensures DistinctAddresses(ws + [w])
  {
    var ws' := ws + [w];
    forall i, j | 0 <= i < j < |ws'| ensures AddressOf(ws'[i]).value != AddressOf(ws'[j]).value {
      if j == |ws| {
        assert Addresses(ws)[i] == PyKey(AddressOf(ws[i]).value);
      } else {
        assert ws'[i] == ws[i] && ws'[j] == ws[j];
      }
    }
  }

  /** One entry extends the kept wallets, and an entry with an address leaves it among them. */
  lemma StepExtends(st: State, w: Json)
    requires Step(st, w).Some?
    ensures var r := Step(st, w).value;
      && |r.wallets| >= |st.wallets| && r.wallets[..|st.wallets|] == st.wallets
      && r.processedFiles == st.processedFiles
      && (AddressOf(w).Some? ==> PyKey(AddressOf(w).value) in Addresses(r.wallets))
  {
    var r := Step(st, w).value;
    if AddressOf(w).Some? && PyKey(AddressOf(w).value) !in Addresses(st.wallets) {
      AddressesAppend(st.wallets, w);
      assert Addresses(r.wallets)[|st.wallets|] == PyKey(AddressOf(w).value);
    }
    assert r.wallets[..|st.wallets|] == st.wallets;
  }

  /** One entry keeps the kept wallets distinct and counted, and extends them. */
  lemma StepKeeps(st: State, w: Json)
    requires DistinctAddresses(st.wallets) && Counted(st) && Step(st, w).Some?
    ensures var r := Step(st, w).value;
      && DistinctAddresses(r.wallets) && Counted(r)
      && r.totalWallets + r.duplicates == st.totalWallets + st.duplicates + (if AddressOf(w).Some? then 1 else 0)
      && |r.wallets| >= |st.wallets| && r.wallets[..|st.wallets|] == st.wallets
      && r.processedFiles == st.processedFiles
  {
    if AddressOf(w).Some? && PyKey(AddressOf(w).value) !in Addresses(st.wallets) {
      DistinctAppend(st.wallets, w);
    }
    StepExtends(st, w);
  }

  /** A list that extends another carries all its addresses. */
  lemma PrefixAddresses(ws: seq<Json>, longer: seq<Json>, a: Json)
    requires |longer| >= |ws| && longer[..|ws|] == ws && a in Addresses(ws)
    ensures a in Addresses(longer)
  {
    var i :| 0 <= i < |ws| && Addresses(ws)[i] == a;
    assert longer[i] == ws[i];
    assert Addresses(longer)[i] == a;
  }

  /** Over one list the wallets kept before stay, in order, at the front. */
  lemma {:induction false} StepAllExtends(st: State, items: seq<Json>)
    ensures var r := StepAll(st, items).0;
      |r.wallets| >= |st.wallets| && r.wallets[..|st.wallets|] == st.wallets
    decreases |items|
  {
    if |items| > 0 && Step(st, items[0]).Some? {
      var st' := Step(st, items[0]).value;
      StepExtends(st, items[0]);
      StepAllExtends(st', items[1..]);
      var r := StepAll(st', items[1..]).0;
      assert r.wallets[..|st.wallets|] == r.wallets[..|st'.wallets|][..|st.wallets|];
    }
  }

  /**
   * Over one list: the kept wallets stay distinct by address, every accepted entry is either
   * kept or counted as a duplicate, and the wallets kept before are kept unchanged.
   */
  lemma {:induction false} StepAllKeeps(st: State, items: seq<Json>)
    requires DistinctAddresses(st.wallets) && Counted(st)
    ensures var r := StepAll(st, items).0;
      && DistinctAddresses(r.wallets) && Counted(r)
      && r.totalWallets + r.duplicates == st.totalWallets + st.duplicates + Accepted(items)
      && r.processedFiles == st.processedFiles
    decreases |items|
  {
    if |items| > 0 {
      match Step(st, items[0])
      case None =>
      case Some(st') =>
        StepKeeps(st, items[0]);
        StepAllKeeps(st', items[1..]);
    }
  }

  /** Every address of a list the merge finished is among the kept addresses. */
  lemma {:induction false} StepAllCovers(st: State, items: seq<Json>, k: nat)
    requires k < |items| && StepAll(st, items).1 && AddressOf(items[k]).Some?
    ensures PyKey(AddressOf(items[k]).value) in Addresses(StepAll(st, items).0.wallets)
    decreases |items|
  {
    var st' := Step(st, items[0]).value;
    assert StepAll(st, items) == StepAll(st', items[1..]);
    if k == 0 {
      StepExtends(st, items[0]);
      StepAllExtends(st', items[1..]);
      PrefixAddresses(st'.wallets, StepAll(st', items[1..]).0.wallets, PyKey(AddressOf(items[0]).value));
    } else {
      StepAllCovers(st', items[1..], k - 1);
      assert items[1..][k - 1] == items[k];
    }
  }

  /** Whether the merge gets through a list: no entry carries an address that raises. */
  predicate Finishes(items: seq<Json>) {
    forall i :: 0 <= i < |items| ==> !(AddressOf(items[i]).Some? && Unhashable(AddressOf(items[i]).value))
  }

  /** The loop over a list stops early exactly when some entry's address raises. */
  lemma {:induction false} StepAllFinishes(st: State, items: seq<Json>)
    ensures StepAll(st, items).1 <==> Finishes(items)
    decreases |items|
  {
    if |items| > 0 {
      match Step(st, items[0])
      case None =>
      case Some(st') =>
        StepAllFinishes(st', items[1..]);
        assert Finishes(items) <==> Finishes(items[1..]) by {
          assert forall i :: 0 < i < |items| ==> items[i] == items[1..][i - 1];
        }
    }
  }

  /** A file the loop counts as processed: a list the merge gets through. */
  predicate Processed(f: File) {
    f.Parsed? && f.data.JArr? && Finishes(f.data.items)
  }

  /** The entries with an address in the list files, up to the first that raises in each. */
  function AcceptedIn(files: seq<File>): nat {
    if |files| == 0 then 0
    else (if files[0].Parsed? && files[0].data.JArr? then Accepted(files[0].data.items) else 0) + AcceptedIn(files[1..])
  }

  /** The number of processed files. */
  function ProcessedIn(files: seq<File>): nat {
    if |files| == 0 then 0 else (if Processed(files[0]) then 1 else 0) + ProcessedIn(files[1..])
  }

  /** The address of entry `k` of a processed file, when it has one. */
  predicate AddressAt(files: seq<File>, f: int, k: int) {
    0 <= f < |files| && Processed(files[f]) && 0 <= k < |files[f].data.items|
    && AddressOf(files[f].data.items[k]).Some?
  }

  /** One file: what it adds to the counters. */
  lemma MergeFileKeeps(st: State, f: File)
    requires DistinctAddresses(st.wallets) && Counted(st)
    ensures var r := MergeFile(st, f);
      && DistinctAddresses(r.wallets) && Counted(r)
      && |r.wallets| >= |st.wallets| && r.wallets[..|st.wallets|] == st.wallets
      && r.totalWallets + r.duplicates
         == st.totalWallets + st.duplicates + (if f.Parsed? && f.data.JArr? then Accepted(f.data.items) else 0)
      && r.processedFiles == st.processedFiles + (if Processed(f) then 1 else 0)
  {
    if f.Parsed? && f.data.JArr? {
      StepAllKeeps(st, f.data.items);
      StepAllExtends(st, f.data.items);
      StepAllFinishes(st, f.data.items);
    }
  }

  /**
   * The result of the whole loop keeps distinct addresses and consistent counters: every
   * accepted entry is kept or counted as a duplicate, and the processed files are counted.
   */
  lemma {:induction false} MergeFilesKeeps(st: State, files: seq<File>)
    requires DistinctAddresses(st.wallets) && Counted(st)
    ensures var r := MergeFiles(st, files);
      && DistinctAddresses(r.wallets) && Counted(r)
      && |r.wallets| >= |st.wallets| && r.wallets[..|st.wallets|] == st.wallets
      && r.totalWallets + r.duplicates == st.totalWallets + st.duplicates + AcceptedIn(files)
      && r.processedFiles == st.processedFiles + ProcessedIn(files)
    decreases |files|
  {
    if |files| > 0 {
      var st1 := MergeFile(st, files[0]);
      MergeFileKeeps(st, files[0]);
      MergeFilesKeeps(st1, files[1..]);
      var r := MergeFiles(st1, files[1..]);
      assert r.wallets[..|st.wallets|] == r.wallets[..|st1.wallets|][..|st.wallets|];
    }
  }

  /** The addresses of a processed file stay among the kept ones through the files after it. */
  lemma FirstFileCovers(st: State, files: seq<File>, k: nat)
    requires DistinctAddresses(st.wallets) && Counted(st) && AddressAt(files, 0, k)
    ensures PyKey(AddressOf(files[0].data.items[k]).value) in Addresses(MergeFiles(st, files).wallets)
  {
    var items := files[0].data.items;
    var st1 := MergeFile(st, files[0]);
    assert st1 == StepAll(st, items).0.(processedFiles := StepAll(st, items).0.processedFiles + 1) by {
      StepAllFinishes(st, items);
    }
    StepAllFinishes(st, items);
    StepAllCovers(st, items, k);
    MergeFileKeeps(st, files[0]);
    MergeFilesKeeps(st1, files[1..]);
    PrefixAddresses(st1.wallets, MergeFiles(st1, files[1..]).wallets, PyKey(AddressOf(items[k]).value));
  }

  /** Every address of a processed file ends up among the kept addresses. */
  lemma {:induction false} MergeFilesCovers(st: State, files: seq<File>, f: nat, k: nat)
    requires DistinctAddresses(st.wallets) && Counted(st) && AddressAt(files, f, k)
    ensures PyKey(AddressOf(files[f].data.items[k]).value) in Addresses(MergeFiles(st, files).wallets)
    decreases |files|
  {
    if f == 0 {
      FirstFileCovers(st, files, k);
    } else {
      MergeFileKeeps(st, files[0]);
      assert files[1..][f - 1] == files[f];
      MergeFilesCovers(MergeFile(st, files[0]), files[1..], f - 1, k);
    }
  }

  // ---------------------------------------------------------------------------------------------
  // The sort and the script

  /** `x.get('created_at', '')` when it is a string. */
  function CreatedAt(w: Json): string {
    if w.JObj? && Get(w.members, "created_at").Some? && Get(w.members, "created_at").value.JStr? then
      Get(w.members, "created_at").value.s
    else ""
  }

  /** Every sort key is a string, so the comparisons cannot raise. */
  predicate StringKeys(ws: seq<Json>) {
    forall i :: 0 <= i < |ws| ==>
      ws[i].JObj? && (Get(ws[i].members, "created_at").None? || Get(ws[i].members, "created_at").value.JStr?)
  }

  lemma StrLeIsTotalPreorder()
    ensures TotalPreorder(StrLe)
  {
    forall a, b ensures StrLe(a, b) || StrLe(b, a) {
      StrLeTotal(a, b);
    }
    forall a, b, c | StrLe(a, b) && StrLe(b, c) ensures StrLe(a, c) {
      StrLeTransitive(a, b, c);
    }
  }

  /** `x.get('created_at')` as a number; Python compares `True` and `False` as 1 and 0. */
  function CreatedNumber(w: Json): int {
    if w.JObj? && Get(w.members, "created_at").Some? then
      match Get(w.members, "created_at").value
      case JInt(i) => i
      case JBool(b) => if b then 1 else 0
      case _ => 0
    else 0
  }

  /** Every wallet carries a numeric `created_at`, so the comparisons cannot raise. */
  predicate NumberKeys(ws: seq<Json>) {
    forall i :: 0 <= i < |ws| ==>
      && ws[i].JObj? && Get(ws[i].members, "created_at").Some?
      && (Get(ws[i].members, "created_at").value.JInt? || Get(ws[i].members, "created_at").value.JBool?)
  }

  /** A missing key sorts as the empty string, so a list cannot have both kinds of key. */
  lemma KeysExclusive(ws: seq<Json>)
    requires StringKeys(ws) && |ws| > 0
    ensures !NumberKeys(ws)
  {
    assert ws[0].JObj?;
  }

  /**
   * `all_wallets.sort(key=lambda x: x.get('created_at', ''))`: by the `created_at` strings, or by
   * their numbers when every key is numeric, stably; any other mix of keys makes the sort raise,
   * and the merge order stays.
   */
  function SortWallets(ws: seq<Json>): (r: seq<Json>)
    ensures multiset(r) == multiset(ws)
    ensures StringKeys(ws) ==>
      SortedBy(r, CreatedAt, StrLe) && forall k :: KeyClass(r, CreatedAt, StrLe, k) == KeyClass(ws, CreatedAt, StrLe, k)
    ensures NumberKeys(ws) ==>
      SortedBy(r, CreatedNumber, IntLe) && forall k :: KeyClass(r, CreatedNumber, IntLe, k) == KeyClass(ws, CreatedNumber, IntLe, k)
    ensures !StringKeys(ws) && !NumberKeys(ws) ==> r == ws
  {
    if StringKeys(ws) then
      StrLeIsTotalPreorder();
      SortByCorrect(ws, CreatedAt, StrLe);
      if |ws| > 0 then KeysExclusive(ws); SortBy(ws, CreatedAt, StrLe) else ws
    else if NumberKeys(ws) then
      IntLeIsTotalPreorder();
      SortByCorrect(ws, CreatedNumber, IntLe);
      SortBy(ws, CreatedNumber, IntLe)
    else ws
  }

  /** How the script ends: nothing written, or the merged list and its counters. */
  datatype Outcome = NotWritten | Written(wallets: seq<Json>, counts: State)

  /**
   * `merge_wallets()`: `folder` is None when `json/` is missing, else its `*.json` files in
   * sorted order; the merged wallets are written sorted.
   */
  function MergeWallets(folder: Option<seq<File>>): (r: Outcome)
    ensures r.Written? <==> folder.Some? && |folder.value| > 0
    ensures r.Written? ==> multiset(r.wallets) == multiset(r.counts.wallets)
  {
    if folder.None? || |folder.value| == 0 then NotWritten
    else
      var st := MergeFiles(State([], 0, 0, 0), folder.value);
      Written(SortWallets(st.wallets), st)
  }

  /** The written list holds the same addresses as the merged one. */
  lemma PermutationKeepsAddress(a: seq<Json>, b: seq<Json>, x: Json)
    requires multiset(a) == multiset(b) && x in Addresses(a)
    ensures x in Addresses(b)
  {
    var i :| 0 <= i < |a| && Addresses(a)[i] == x;
    assert a[i] in multiset(b);
    var j :| 0 <= j < |b| && b[j] == a[i];
    assert Addresses(b)[j] == x;
  }

  /**
   * The written list: wallets with pairwise different addresses, as many as counted, holding
   * every address of every processed file; the counters add up to the entries seen. It is
   * ordered by creation time, wallets with equal times keeping the order they were first met,
   * when the keys are all strings or all numbers.
   */
  lemma MergeWalletsCorrect(files: seq<File>)
    requires |files| > 0
    ensures var r := MergeWallets(Some(files));
      && r.Written? && DistinctAddresses(r.wallets) && r.counts.totalWallets == |r.wallets|
      && r.counts.totalWallets + r.counts.duplicates == AcceptedIn(files)
      && r.counts.processedFiles == ProcessedIn(files)
      && (forall f, k :: AddressAt(files, f, k) ==> PyKey(AddressOf(files[f].data.items[k]).value) in Addresses(r.wallets))
      && (StringKeys(r.counts.wallets) ==>
            SortedBy(r.wallets, CreatedAt, StrLe)
            && forall k :: KeyClass(r.wallets, CreatedAt, StrLe, k) == KeyClass(r.counts.wallets, CreatedAt, StrLe, k))
      && (NumberKeys(r.counts.wallets) ==>
            SortedBy(r.wallets, CreatedNumber, IntLe)
            && forall k :: KeyClass(r.wallets, CreatedNumber, IntLe, k) == KeyClass(r.counts.wallets, CreatedNumber, IntLe, k))
  {
    var st0 := State([], 0, 0, 0);
    var st := MergeFiles(st0, files);
    MergeFilesKeeps(st0, files);
    var r := MergeWallets(Some(files));
    PermutationKeepsDistinct(st.wallets, r.wallets);
    forall f, k | AddressAt(files, f, k)
      ensures PyKey(AddressOf(files[f].data.items[k]).value) in Addresses(r.wallets)
    {
      MergeFilesCovers(st0, files, f, k);
      PermutationKeepsAddress(st.wallets, r.wallets, PyKey(AddressOf(files[f].data.items[k]).value));
    }
  }

  lemma PermutationKeepsDistinct(a: seq<Json>, b: seq<Json>)
    requires DistinctAddresses(a) && multiset(a) == multiset(b)
    ensures DistinctAddresses(b) && |b| == |a|
  {
    assert |multiset(a)| == |multiset(b)|;
    forall i | 0 <= i < |b| ensures AddressOf(b[i]).Some? {
      assert b[i] in multiset(b);
      assert b[i] in a;
    }
    forall i, j | 0 <= i < j < |b| ensures PyKey(AddressOf(b[i]).value) != PyKey(AddressOf(b[j]).value) {
      assert b[i] in multiset(a) && b[j] in multiset(a);
      var i' :| 0 <= i' < |a| && a[i'] == b[i];
      var j' :| 0 <= j' < |a| && a[j'] == b[j];
      if i' == j' {
        MultisetTwice(b, i, j);
        assert multiset(a)[a[i']] >= 2;
        MultisetOnce(a, i');
      }
    }
  }

  lemma MultisetTwice(s: seq<Json>, i: nat, j: nat)
    requires i < j < |s| && s[i] == s[j]
    ensures multiset(s)[s[i]] >= 2
  {
    assert s == s[..i] + [s[i]] + s[i + 1..j] + [s[j]] + s[j + 1..];
  }

  lemma MultisetOnce(a: seq<Json>, i: nat)
    requires DistinctAddresses(a) && i < |a|
    ensures multiset(a)[a[i]] == 1
  {
    assert a == a[..i] + [a[i]] + a[i + 1..];
    assert a[i] !in a[..i] by {
      forall k | 0 <= k < i ensures a[..i][k] != a[i] {
        assert PyKey(AddressOf(a[k]).value) != PyKey(AddressOf(a[i]).value);
      }
    }
    assert a[i] !in a[i + 1..] by {
      forall j | i + 1 <= j < |a| ensures a[j] != a[i] {
        assert PyKey(AddressOf(a[j]).value) != PyKey(AddressOf(a[i]).value);
      }
    }
  }
}

=== FILE: mining.dfy ===
/**
 * The arithmetic core of `MinerWorker` in `miner.py`: the 32-bit acceptance test, the nonce
 * search over a batch of injected digests, the buffered nonce generator and the preimage layout.
 * Digests, random bytes and the clock are inputs.
 */
module Mining {
  import opened Wrappers
  import opened Text
  import opened Ledger

  // ---------------------------------------------------------------------------------------------
  // Acceptance

  /**
   * `(hash_value | difficulty_value) == difficulty_value` on the first eight hex digits of the
   * digest and of the difficulty: accepted exactly when every bit set in the digest prefix is
   * also set in the difficulty mask.
   */
  function Accepts(h: bv32, d: bv32): (r: bool)
    ensures r <==> (h & !d) == 0
  {
    (h | d) == d
  }

  /** The all-zero prefix is accepted under any difficulty. */
  lemma ZeroAlwaysAccepted(d: bv32)
    ensures Accepts(0, d)
  {
  }

  /** An accepted prefix is numerically at most the difficulty, so a larger mask accepts more. */
  lemma AcceptedIsBelowMask(h: bv32, d: bv32, d': bv32)
    ensures Accepts(h, d) ==> h <= d
    ensures Accepts(h, d) && (d | d') == d' ==> Accepts(h, d')
  {
  }

  /** A prefix with a bit outside the mask is rejected: 0x01ABCDEF under 0x01000000. */
  lemma StrayBitRejected()
    ensures !Accepts(0x01AB_CDEF, 0x0100_0000)
    ensures Accepts(0x0100_0000, 0x0100_0000) && Accepts(0, 0x0100_0000)
  {
  }

  /** Value of the first eight hex digits, as `int(s[:8], 16)`: None when that raises. */
  function Prefix32(s: string): (r: Option<bv32>)
    ensures r.Some? <==> |s| > 0 && AllHex(s[..Min(8, |s|)])
  {
    match DifficultyValue(Some(s))
    case None => None
    case Some(v) => Some(v as bv32)
  }

  /**
   * One batch of `mine_challenge_native`: `digests[i]` is the digest of the i-th candidate
   * preimage. The first candidate whose digest prefix is accepted wins; None when none is.
   */
  method FindNonce(digests: seq<string>, d: bv32) returns (found: Option<nat>)
    requires forall i :: 0 <= i < |digests| ==> Prefix32(digests[i]).Some?
    ensures found.Some? ==> found.value < |digests| && Accepts(Prefix32(digests[found.value]).value, d)
    ensures found.Some? ==> forall j :: 0 <= j < found.value ==> !Accepts(Prefix32(digests[j]).value, d)
    ensures found.None? ==> forall j :: 0 <= j < |digests| ==> !Accepts(Prefix32(digests[j]).value, d)
  {
    var i := 0;
    while i < |digests|
      invariant 0 <= i <= |digests|
      invariant forall j :: 0 <= j < i ==> !Accepts(Prefix32(digests[j]).value, d)
    {
      var h := Prefix32(digests[i]).value;
      if Accepts(h, d) {
        return Some(i);
      }
      i := i + 1;
    }
    return None;
  }

  /** A batch holding a digest with a zero prefix always holds an acceptable one, so the search succeeds. */
  lemma FindNonceSucceedsWithZeroDigest(digests: seq<string>, d: bv32, k: nat)
    requires forall i :: 0 <= i < |digests| ==> Prefix32(digests[i]).Some?
    requires k < |digests| && Prefix32(digests[k]).value == 0
    ensures exists j :: 0 <= j < |digests| && Accepts(Prefix32(digests[j]).value, d)
  {
    ZeroAlwaysAccepted(d);
  }

  // ---------------------------------------------------------------------------------------------
  // Lower-case hexadecimal (`bytes.hex()`)

  newtype Byte = b: int | 0 <= b < 256

  function HexChar(n: nat): (c: char)
    requires n < 16
    ensures HexDigit(c) == Some(n)
    ensures '0' <= c <= '9' || 'a' <= c <= 'f'
  {
    if n < 10 then ('0' as int + n) as char else ('a' as int + n - 10) as char
  }

  /** `bytes.hex()`: two lower-case digits per byte, high nibble first. */
  function HexEncode(bs: seq<Byte>): (s: string)
    ensures |s| == 2 * |bs|
    ensures forall i :: 0 <= i < |s| ==> '0' <= s[i] <= '9' || 'a' <= s[i] <= 'f'
  {
    if |bs| == 0 then ""
    else [HexChar(bs[0] as int / 16), HexChar(bs[0] as int % 16)] + HexEncode(bs[1..])
  }

  /** `bytes.fromhex(s)` for digit pairs without spaces: None on odd length or a non-hex digit. */
  function HexDecode(s: string): Option<seq<Byte>>
    decreases |s|
  {
    if |s| == 0 then Some([])
    else if |s| == 1 || HexDigit(s[0]).None? || HexDigit(s[1]).None? then None
    else match HexDecode(s[2..])
      case None => None
      case Some(rest) => Some([(16 * HexDigit(s[0]).value + HexDigit(s[1]).value) as Byte] + rest)
  }

  /** A nonce's hex text decodes back to the buffer bytes it was taken from. */
  lemma {:induction false} HexRoundTrip(bs: seq<Byte>)
    ensures HexDecode(HexEncode(bs)) == Some(bs)
    decreases |bs|
  {
    if |bs| > 0 {
      var s := HexEncode(bs);
      assert s[2..] == HexEncode(bs[1..]);
      HexRoundTrip(bs[1..]);
      var n := bs[0] as int;
      assert 16 * (n / 16) + n % 16 == n;
      assert bs == [bs[0]] + bs[1..];
    }
  }

  // ---------------------------------------------------------------------------------------------
  // The nonce buffer (`get_fast_nonce`)

  /** Size of the random buffer a worker refills at once. */
  const BufferSize: nat := 8192
  /** Bytes per nonce (sixteen hex characters). */
  const NonceBytes: nat := 8

  datatype NonceBuffer = NonceBuffer(bytes: seq<Byte>, pos: nat)

  /** The states a worker's buffer can be in: full size, position on a nonce boundary. */
  predicate WellFormed(b: NonceBuffer) {
    |b.bytes| == BufferSize && b.pos % NonceBytes == 0 && b.pos <= BufferSize
  }

  /** A new worker's buffer: 8192 zero bytes with the position at the end, so the first draw refills. */
  function NewBuffer(): (b: NonceBuffer)
    ensures WellFormed(b) && b.pos == |b.bytes|
  {
    NonceBuffer(seq(BufferSize, _ => 0), BufferSize)
  }

  datatype Draw = Draw(nonce: string, buffer: NonceBuffer, refilled: bool)

  /**
   * `get_fast_nonce`, with `random` standing for `secrets.token_bytes(8192)`: refill exactly when the
   * position has reached the end, then hand out the next eight bytes as sixteen hex characters.
   */
  function GetFastNonce(b: NonceBuffer, random: seq<Byte>): (r: Draw)
    requires WellFormed(b) && |random| == BufferSize
    ensures r.refilled <==> b.pos >= |b.bytes|
    ensures WellFormed(r.buffer) && NonceBytes <= r.buffer.pos
    ensures r.buffer.bytes == (if r.refilled then random else b.bytes)
    ensures r.buffer.pos == (if r.refilled then 0 else b.pos) + NonceBytes
    ensures |r.nonce| == 16
    ensures HexDecode(r.nonce) == Some(r.buffer.bytes[r.buffer.pos - NonceBytes..r.buffer.pos])
  {
    var refill := b.pos >= |b.bytes|;
    var bytes := if refill then random else b.bytes;
    var pos := if refill then 0 else b.pos;
    HexRoundTrip(bytes[pos..pos + NonceBytes]);
    Draw(HexEncode(bytes[pos..pos + NonceBytes]), NonceBuffer(bytes, pos + NonceBytes), refill)
  }

  /** Draws after a refill: each `random` block is used for 1024 consecutive nonces. */
  function DrawMany(b: NonceBuffer, random: seq<Byte>, k: nat): (r: NonceBuffer)
    requires WellFormed(b) && |random| == BufferSize
    ensures WellFormed(r)
    decreases k
  {
    if k == 0 then b else DrawMany(GetFastNonce(b, random).buffer, random, k - 1)
  }

  /** From a new worker's buffer, after `k` draws (1 <= k <= 1024) the position is `8 * k`: one refill, then no other. */
  lemma {:induction false} DrawPositions(random: seq<Byte>, k: nat)
    requires |random| == BufferSize && 1 <= k <= BufferSize / NonceBytes
    ensures DrawMany(NewBuffer(), random, k) == NonceBuffer(random, NonceBytes * k)
  {
    var b1 := GetFastNonce(NewBuffer(), random).buffer;
    assert b1 == NonceBuffer(random, NonceBytes);
    DrawTail(b1, random, k - 1);
  }

  lemma {:induction false} DrawTail(b: NonceBuffer, random: seq<Byte>, k: nat)
    requires |random| == BufferSize && b.bytes == random && WellFormed(b)
    requires b.pos + NonceBytes * k <= BufferSize
    ensures DrawMany(b, random, k) == NonceBuffer(random, b.pos + NonceBytes * k)
    decreases k
  {
    if k > 0 {
      DrawTail(GetFastNonce(b, random).buffer, random, k - 1);
    }
  }

  // ---------------------------------------------------------------------------------------------
  // Preimage

  /** `mining_address if mining_address else self.address`: an empty mining address counts as absent. */
  function SubmissionAddress(own: string, mining: Option<string>): (a: string)
    ensures a == own <==> mining.None? || mining.value == "" || mining.value == own
    ensures a != own ==> mining.Some? && a == mining.value
  {
    if mining.Some? && mining.value != "" then mining.value else own
  }

  /**
   * `build_preimage_static_part`: the six fields concatenated with no separator, in the order
   * address, challenge id, difficulty, no_pre_mine, latest_submission, no_pre_mine_hour.
   */
  function StaticPart(address: string, c: Challenge): string
  {
    address + c.challengeId + c.difficulty + c.noPreMine + c.latestSubmission.text + c.noPreMineHour
  }

  /** The hashed preimage: the nonce in front of the static part. */
  function Preimage(nonce: string, address: string, c: Challenge): (p: string)
    ensures |p| == |nonce| + |StaticPart(address, c)|
    ensures SliceAt(p, nonce, 0) && SliceAt(p, StaticPart(address, c), |nonce|)
  {
    nonce + StaticPart(address, c)
  }

  /** Two preimages for the same challenge and address differ only in their sixteen nonce characters. */
  lemma PreimagesShareStaticPart(n1: string, n2: string, address: string, c: Challenge)
    requires |n1| == |n2| == 16
    ensures Preimage(n1, address, c)[16..] == Preimage(n2, address, c)[16..]
    ensures Preimage(n1, address, c) == Preimage(n2, address, c) <==> n1 == n2
  {
    var p1 := Preimage(n1, address, c);
    var p2 := Preimage(n2, address, c);
    if p1 == p2 {
      assert n1 == p1[..16] == p2[..16] == n2;
    }
  }
}

=== FILE: outbox.dfy ===
/**
 * The dead-letter file `solutions.csv`: the miner appends one `address,challenge_id,nonce` line per
 * definitively rejected or abandoned solution, and the offline resubmission pass reads it back.
 * The file is its text content; appends are atomic.
 */
module Outbox {
  import opened Wrappers
  import opened Text

  /** One dead-letter record. */
  datatype Record = Record(address: string, challengeId: string, nonce: string)

  /** The text of a record without its line end: the three fields joined by commas. */
  function RecordText(r: Record): string {
    Join([r.address, r.challengeId, r.nonce], ',')
  }

  /** The line `append_solution_to_csv` writes. */
  function CsvLine(r: Record): (line: string)
    ensures |line| > 0 && line[|line| - 1] == '\n' && line[..|line| - 1] == RecordText(r)
  {
    RecordTextLayout(r);
    r.address + "," + r.challengeId + "," + r.nonce + "\n"
  }

  /** `append_solution_to_csv`: the file grows by exactly one line at its end. */
  function AppendSolution(content: string, r: Record): (c: string)
    ensures |c| > |content| && c[..|content|] == content
  {
    content + CsvLine(r)
  }

  /** `f.readlines()` with the line end dropped from each line (the reader strips it anyway). */
  function ReadLines(content: string): (lines: seq<string>)
    ensures forall i :: 0 <= i < |lines| ==> '\n' !in lines[i]
    ensures lines == [] <==> content == ""
  {
    var parts := Split(content, '\n');
    if parts[|parts| - 1] == "" then
      assert |parts| == 1 ==> content == "";
      parts[..|parts| - 1]
    else parts
  }

  /** A line as the resubmission pass reads it: exactly three comma-separated fields, none stripped. */
  function ParseLine(line: string): (r: Option<Record>)
    ensures r.Some? <==> |Split(line, ',')| == 3
    ensures r.Some? ==> RecordText(r.value) == line
  {
    var parts := Split(line, ',');
    if |parts| == 3 then
      assert parts == [parts[0], parts[1], parts[2]];
      Some(Record(parts[0], parts[1], parts[2]))
    else None
  }

  /** The file contents as written by whole lines. */
  predicate LineTerminated(content: string) {
    content == "" || content[|content| - 1] == '\n'
  }

  /** Fields with no comma and no whitespace (a hex nonce, a bech32 address, a challenge id). */
  predicate PlainField(f: string) {
    forall i :: 0 <= i < |f| ==> f[i] != ',' && !IsSpace(f[i])
  }

  predicate PlainRecord(r: Record) {
    PlainField(r.address) && PlainField(r.challengeId) && PlainField(r.nonce)
  }

  /** `readlines` drops the empty tail `split` leaves after a final line end. */
  lemma ReadLinesOfSplit(c: string, ps: seq<string>)
    requires Split(c, '\n') == ps + [""]
    ensures ReadLines(c) == ps
  {
  }

  /** What `split` sees in a line-terminated file: the lines, then an empty tail. */
  lemma SplitTerminated(c: string)
    requires LineTerminated(c)
    ensures Split(c, '\n') == ReadLines(c) + [""]
  {
    if c != "" {
      var c' := c[..|c| - 1];
      assert c == c' + ['\n'] + "";
      SplitConcat(c', "", '\n');
      ReadLinesOfSplit(c, Split(c', '\n'));
    }
  }

  /** One newline-free line followed by a line end splits into the line and an empty tail. */
  lemma SplitOneLine(x: string)
    requires '\n' !in x
    ensures Split(x + "\n", '\n') == [x, ""]
  {
    assert x + "\n" == x + ['\n'] + "";
    SplitConcat(x, "", '\n');
  }

  /** Adding one newline-free line to a line-terminated file adds it to what `readlines` returns. */
  lemma ReadLinesAppendLine(c: string, x: string)
    requires LineTerminated(c) && '\n' !in x
    ensures LineTerminated(c + x + "\n")
    ensures ReadLines(c + x + "\n") == ReadLines(c) + [x]
  {
    var c2 := c + x + "\n";
    assert c2[|c2| - 1] == '\n';
    if c == "" {
      assert c2 == x + "\n";
      SplitOneLine(x);
      ReadLinesOfSplit(c2, [x]);
    } else {
      SplitAppendLine(c, x);
      ReadLinesOfSplit(c2, ReadLines(c) + [x]);
    }
  }

  /** What `split` sees once a line is added to a non-empty line-terminated file. */
  lemma SplitAppendLine(c: string, x: string)
    requires LineTerminated(c) && c != "" && '\n' !in x
    ensures Split(c + x + "\n", '\n') == ReadLines(c) + [x] + [""]
  {
    var c' := c[..|c| - 1];
    AppendAfterLineEnd(c, x);
    SplitConcat(c', x + "\n", '\n');
    SplitOneLine(x);
    WithoutLastLineEnd(c);
    AppendTwo(ReadLines(c), x, "");
  }

  /** A line appended to terminated content sits after the content's last line end. */
  lemma AppendAfterLineEnd(c: string, x: string)
    requires LineTerminated(c) && c != ""
    ensures c + x + "\n" == c[..|c| - 1] + ['\n'] + (x + "\n")
  {
    assert c == c[..|c| - 1] + ['\n'];
  }

  lemma AppendTwo<T>(a: seq<T>, x: T, y: T)
    ensures a + [x] + [y] == a + [x, y]
  {
  }


  /** Without its final line end, a non-empty line-terminated file splits into exactly its lines. */
  lemma WithoutLastLineEnd(c: string)
    requires LineTerminated(c) && c != ""
    ensures Split(c[..|c| - 1], '\n') == ReadLines(c)
  {
    var c' := c[..|c| - 1];
    assert c == c' + ['\n'] + "";
    SplitConcat(c', "", '\n');
    assert Split(c, '\n') == Split(c', '\n') + [""];
    SplitTerminated(c);
    assert Split(c', '\n') + [""] == ReadLines(c) + [""];
    assert Split(c', '\n') == (Split(c', '\n') + [""])[..|Split(c', '\n')|];
  }

  /** Appending a record to a line-terminated file adds exactly its text to what `readlines` returns. */
  lemma AppendAddsOneLine(content: string, r: Record)
    requires LineTerminated(content) && PlainRecord(r)
    ensures LineTerminated(AppendSolution(content, r))
    ensures ReadLines(AppendSolution(content, r)) == ReadLines(content) + [RecordText(r)]
  {
    var x := RecordText(r);
    RecordTextLayout(r);
    assert AppendSolution(content, r) == content + x + "\n";
    PlainTextHasNoSpace(r);
    assert '\n' !in x by {
      assert IsSpace('\n');
    }
    ReadLinesAppendLine(content, x);
  }

  lemma RecordTextLayout(r: Record)
    ensures RecordText(r) == r.address + [','] + (r.challengeId + [','] + r.nonce)
  {
    var ps := [r.address, r.challengeId, r.nonce];
    assert ps[1..] == [r.challengeId, r.nonce];
    assert ps[1..][1..] == [r.nonce];
    assert Join(ps[1..][1..], ',') == r.nonce;
    assert Join(ps[1..], ',') == r.challengeId + [','] + r.nonce;
  }

  lemma PlainTextHasNoSpace(r: Record)
    requires PlainRecord(r)
    ensures forall i :: 0 <= i < |RecordText(r)| ==> !IsSpace(RecordText(r)[i])
  {
    var t := RecordText(r);
    RecordTextLayout(r);
    forall i | 0 <= i < |t|
      ensures !IsSpace(t[i])
    {
      if i < |r.address| {
        assert t[i] == r.address[i];
      } else if i == |r.address| {
      } else if i < |r.address| + 1 + |r.challengeId| {
        assert t[i] == r.challengeId[i - |r.address| - 1];
      } else if i == |r.address| + 1 + |r.challengeId| {
      } else {
        assert t[i] == r.nonce[i - |r.address| - 2 - |r.challengeId|];
      }
    }
  }

  /** A written line, read back and stripped, parses to the record that was written. */
  lemma LineRoundTrip(r: Record)
    requires PlainRecord(r)
    ensures ParseLine(Strip(RecordText(r))) == Some(r)
  {
    var t := RecordText(r);
    PlainTextHasNoSpace(r);
    StripTrimmed(t);
    SplitJoin([r.address, r.challengeId, r.nonce], ',');
  }

  /** The rewrite of the resubmission pass: each kept line followed by a line end. */
  function Rewrite(kept: seq<string>): (content: string)
    ensures LineTerminated(content)
    ensures content == "" <==> kept == []
  {
    if |kept| == 0 then "" else Rewrite(kept[..|kept| - 1]) + kept[|kept| - 1] + "\n"
  }

  /** Reading a rewritten file gives back exactly the lines that were kept, in order. */
  lemma {:induction false} RewriteReadsBack(kept: seq<string>)
    requires forall i :: 0 <= i < |kept| ==> '\n' !in kept[i]
    ensures ReadLines(Rewrite(kept)) == kept
    decreases |kept|
  {
    if |kept| > 0 {
      var init := kept[..|kept| - 1];
      RewriteReadsBack(init);
      ReadLinesAppendLine(Rewrite(init), kept[|kept| - 1]);
      assert kept == init + [kept[|kept| - 1]];
    }
  }
}

=== FILE: plots.dfy ===
/**
 * `plot_challenges.py`, without the drawing: the points of the cumulative-solutions plot (which
 * challenges count, how many solutions each adds, in time order) and of the balance plot
 * (snapshots with a timestamp, in time order). Decoded files and the timestamp parser are inputs;
 * a timestamp is the instant it parses to, as an integer.
 */
module Plots {
  import opened Wrappers
  import opened Text
  import opened Json
  import opened Sorting

  /**
   * A JSON file as `open` and `json.load` leave it: missing (FileNotFoundError), not JSON
   * (JSONDecodeError), failing in another way that no handler here names (a PermissionError, a
   * directory, bytes that are not text), or decoded.
   */
  datatype Source = Absent | NotJson | Unopenable(error: string) | Loaded(data: Json)

  /** What a plot function ends with: no plot, the points it plots, or an exception. */
  datatype Plot<V> = NoPlot | Plotted(points: seq<(int, V)>) | Crash(error: string)

  /** The sort key of a plotted point: its instant. */
  function TimeOf<V>(p: (int, V)): int {
    p.0
  }

  /** A value Python cannot put in a set or look up in one. */
  predicate Unhashable(j: Json) {
    j.JArr? || j.JObj?
  }

  /** What `for x in value` visits: list items, object keys, string characters; anything else raises. */
  function Members(j: Json): (r: Result<seq<Json>, string>)
    ensures j.JArr? ==> r == Success(j.items)
    ensures r.Success? <==> j.JArr? || j.JObj? || j.JStr?
    ensures r.Success? && j.JObj? ==> |r.value| == |DictKeys(j.members)|
    ensures r.Success? && j.JStr? ==> |r.value| == |j.s|
  {
    match j
    case JArr(items) => Success(items)
    case JObj(members) =>
      var ks := DictKeys(members);
      Success(seq(|ks|, i requires 0 <= i < |ks| => JStr(ks[i])))
    case JStr(s) => Success(seq(|s|, i requires 0 <= i < |s| => JStr([s[i]])))
    case _ => Failure("TypeError: object is not iterable")
  }

  // ---------------------------------------------------------------------------------------------
  // The user's addresses

  /**
   * `{wallet['address'] for wallet in wallets}` over list items: Some(addresses), None when an
   * object lacks the key (a KeyError, which is caught), or the TypeError a non-object item or an
   * unhashable address raises.
   */
  function AddressesFrom(items: seq<Json>): (r: Result<Option<set<Json>>, string>)
    ensures r == Success(None) ==> exists i :: 0 <= i < |items| && items[i].JObj? && Get(items[i].members, "address").None?
    ensures r.Success? && r.value.Some? ==>
      forall a :: a in r.value.value <==>
        exists i :: 0 <= i < |items| && items[i].JObj? && Get(items[i].members, "address") == Some(a)
    ensures r.Failure? ==> exists i :: (0 <= i < |items| &&
      (!items[i].JObj? || (Get(items[i].members, "address").Some? && Unhashable(Get(items[i].members, "address").value))))
  {
    if |items| == 0 then Success(Some({}))
    else if !items[0].JObj? then Failure("TypeError: indices must be integers")
    else
      var a := Get(items[0].members, "address");
      if a.None? then Success(None)
      else if Unhashable(a.value) then Failure("TypeError: unhashable type")
      else
        var rest := AddressesFrom(items[1..]);
        assert forall i :: 0 <= i < |items| - 1 ==> items[1..][i] == items[i + 1];
        match rest
        case Success(Some(s)) => Success(Some({a.value} + s))
        case _ => rest
  }

  /**
   * The wallets file's addresses: empty when the file is missing or not JSON or an object lacks
   * its address; a crash on the other open errors and on the TypeErrors, which are not caught.
   */
  function UserAddresses(wallets: Source): (r: Result<set<Json>, string>)
    ensures wallets.Absent? || wallets.NotJson? ==> r == Success({})
    ensures wallets.Unopenable? ==> r == Failure(wallets.error)
    ensures r.Success? && r.value != {} ==>
      && wallets.Loaded? && wallets.data.JArr?
      && forall a :: a in r.value <==>
           exists i :: 0 <= i < |wallets.data.items| && wallets.data.items[i].JObj?
                       && Get(wallets.data.items[i].members, "address") == Some(a)
  {
    match wallets
    case Absent => Success({})
    case NotJson => Success({})
    case Unopenable(e) => Failure(e)
    case Loaded(JArr(items)) =>
      (match AddressesFrom(items)
       case Success(Some(s)) => Success(s)
       case Success(None) => Success({})
       case Failure(e) => Failure(e))
    case Loaded(j) =>
      match Members(j)
      case Success(ms) => if |ms| == 0 then Success({}) else Failure("TypeError: string indices must be integers")
      case Failure(e) => Failure(e)
  }

  // ---------------------------------------------------------------------------------------------
  // `plot_solved_challenges_over_time`

  /** The entries of `xs` that are `in users`, in order; `True` is in a set holding `1`. */
  function InUsers(xs: seq<Json>, users: set<Json>): (r: seq<Json>)
    ensures forall x :: x in r <==> x in xs && PyKey(x) in PyKeys(users)
    ensures |r| <= |xs|
  {
    if |xs| == 0 then []
    else
      assert forall x :: x in xs <==> x in xs[..|xs| - 1] || x == xs[|xs| - 1];
      InUsers(xs[..|xs| - 1], users) + (if PyKey(xs[|xs| - 1]) in PyKeys(users) then [xs[|xs| - 1]] else [])
  }

  /**
   * The solutions a challenge adds: with user addresses, the `solved_by` entries that are among
   * them (an unhashable entry raises); without, all entries.
   */
  function SolutionCount(solvedBy: Json, users: set<Json>): (r: Result<nat, string>)
    ensures r.Failure? <==> (Members(solvedBy).Failure? ||
      (users != {} && exists i :: 0 <= i < |Members(solvedBy).value| && Unhashable(Members(solvedBy).value[i])))
    ensures r.Success? && users == {} ==> r.value == |Members(solvedBy).value|
    ensures r.Success? && users != {} ==> r.value == |InUsers(Members(solvedBy).value, users)|
  {
    match Members(solvedBy)
    case Failure(e) => Failure(e)
    case Success(xs) =>
      if users == {} then Success(|xs|)
      else if exists i :: 0 <= i < |xs| && Unhashable(xs[i]) then Failure("TypeError: unhashable type")
      else Success(|InUsers(xs, users)|)
  }

  /** A challenge with a truthy `discovered_at`. */
  predicate Discovered(challenge: Json) {
    challenge.JObj? && Get(challenge.members, "discovered_at").Some? && Truthy(Get(challenge.members, "discovered_at").value)
  }

  /** The instant `datetime.fromisoformat` gives a time value; None when it raises (a non-string or a bad format). */
  function ParseTime(time: Json, parse: string -> Option<int>): Option<int> {
    if time.JStr? then parse(time.s) else None
  }

  /**
   * What one challenge contributes: a non-object raises on `.get`; one without a truthy
   * `discovered_at` is skipped before its solutions are counted; one with solutions whose time
   * parses gives a point (time, solutions).
   */
  function SolutionPoint(challenge: Json, users: set<Json>, parse: string -> Option<int>): (r: Result<Option<(int, nat)>, string>)
    ensures r.Failure? ==> !challenge.JObj? || SolutionCount(GetOr(challenge.members, "solved_by", JArr([])), users).Failure?
    ensures r.Success? && r.value.Some? ==>
      && Discovered(challenge)
      && ParseTime(Get(challenge.members, "discovered_at").value, parse) == Some(r.value.value.0)
      && SolutionCount(GetOr(challenge.members, "solved_by", JArr([])), users) == Success(r.value.value.1)
      && r.value.value.1 > 0
    ensures challenge.JObj? && !Discovered(challenge) ==> r == Success(None)
  {
    if !challenge.JObj? then Failure("AttributeError: object has no attribute 'get'")
    else if !Discovered(challenge) then Success(None)
    else
      match SolutionCount(GetOr(challenge.members, "solved_by", JArr([])), users)
      case Failure(e) => Failure(e)
      case Success(k) =>
        var t := ParseTime(Get(challenge.members, "discovered_at").value, parse);
        if k > 0 && t.Some? then Success(Some((t.value, k))) else Success(None)
  }

  /** A loop that adds each item's point, if it gives one, in order; the first item that raises ends it. */
  function Collect<P>(items: seq<Json>, point: Json -> Result<Option<P>, string>): (r: Result<seq<P>, string>)
    ensures r.Failure? <==> exists i :: 0 <= i < |items| && point(items[i]).Failure?
    ensures r.Success? ==> |r.value| <= |items|
  {
    if |items| == 0 then Success([])
    else
      var n := |items| - 1;
      assert forall i :: 0 <= i < n ==> items[..n][i] == items[i];
      match Collect(items[..n], point)
      case Failure(e) => Failure(e)
      case Success(ps) =>
        match point(items[n])
        case Failure(e) => Failure(e)
        case Success(None) => Success(ps)
        case Success(Some(q)) => Success(ps + [q])
  }

  /** Every collected point is the point of some item. */
  lemma {:induction false} CollectSource<P>(items: seq<Json>, point: Json -> Result<Option<P>, string>, p: P)
    returns (i: nat)
    requires Collect(items, point).Success? && p in Collect(items, point).value
    ensures i < |items| && point(items[i]) == Success(Some(p))
    decreases |items|
  {
    var n := |items| - 1;
    var prev := Collect(items[..n], point);
    var q := point(items[n]);
    assert prev.Success? && q.Success?;
    assert Collect(items, point).value == prev.value + (if q.value.Some? then [q.value.value] else []);
    if p in prev.value {
      i := CollectSource(items[..n], point, p);
      assert items[..n][i] == items[i];
    } else {
      i := n;
    }
  }

  /** Every item that gives a point has it collected. */
  lemma {:induction false} CollectKept<P>(items: seq<Json>, point: Json -> Result<Option<P>, string>, i: nat)
    requires Collect(items, point).Success?
    requires i < |items| && point(items[i]).Success? && point(items[i]).value.Some?
    ensures point(items[i]).value.value in Collect(items, point).value
    decreases |items|
  {
    var n := |items| - 1;
    var prev := Collect(items[..n], point);
    var q := point(items[n]);
    assert prev.Success? && q.Success?;
    assert Collect(items, point).value == prev.value + (if q.value.Some? then [q.value.value] else []);
    if i < n {
      assert items[..n][i] == items[i];
      CollectKept(items[..n], point, i);
    }
  }

  /** The loop over `challenges.values()`: the first challenge that raises ends it; the others add their points in order. */
  function SolutionPoints(challenges: seq<Json>, users: set<Json>, parse: string -> Option<int>): (r: Result<seq<(int, nat)>, string>)
    ensures r.Failure? <==> exists i :: 0 <= i < |challenges| && SolutionPoint(challenges[i], users, parse).Failure?
    ensures r.Success? ==> |r.value| <= |challenges|
  {
    Collect(challenges, c => SolutionPoint(c, users, parse))
  }

  /** Every point comes from a challenge that gives it. */
  lemma SolutionPointSource(challenges: seq<Json>, users: set<Json>, parse: string -> Option<int>, p: (int, nat))
    returns (i: nat)
    requires SolutionPoints(challenges, users, parse).Success?
    requires p in SolutionPoints(challenges, users, parse).value
    ensures i < |challenges| && SolutionPoint(challenges[i], users, parse) == Success(Some(p))
  {
    i := CollectSource(challenges, c => SolutionPoint(c, users, parse), p);
  }

  /** Every challenge that gives a point has it plotted. */
  lemma SolutionPointKept(challenges: seq<Json>, users: set<Json>, parse: string -> Option<int>, i: nat)
    requires SolutionPoints(challenges, users, parse).Success?
    requires i < |challenges| && SolutionPoint(challenges[i], users, parse).Success?
    requires SolutionPoint(challenges[i], users, parse).value.Some?
    ensures SolutionPoint(challenges[i], users, parse).value.value in SolutionPoints(challenges, users, parse).value
  {
    CollectKept(challenges, c => SolutionPoint(c, users, parse), i);
  }

  function Sum(counts: seq<nat>): nat {
    if |counts| == 0 then 0 else Sum(counts[..|counts| - 1]) + counts[|counts| - 1]
  }

  /** The running totals of `counts`: the last is the sum of all of them. */
  function Cumulative(counts: seq<nat>): (r: seq<nat>)
    ensures |r| == |counts|
  {
    if |counts| == 0 then [] else Cumulative(counts[..|counts| - 1]) + [Sum(counts)]
  }

  lemma {:induction false} CumulativeAt(counts: seq<nat>, i: nat)
    requires i < |counts|
    ensures Cumulative(counts)[i] == Sum(counts[..i + 1])
    decreases |counts|
  {
    var n := |counts| - 1;
    if i == n {
      assert counts[..i + 1] == counts;
    } else {
      CumulativeAt(counts[..n], i);
      assert counts[..n][..i + 1] == counts[..i + 1];
    }
  }

  lemma SumStep(counts: seq<nat>, i: nat)
    requires i < |counts|
    ensures Sum(counts[..i + 1]) == Sum(counts[..i]) + counts[i]
  {
    assert counts[..i + 1][..i] == counts[..i];
  }

  lemma {:induction false} SumMonotone(counts: seq<nat>, a: nat, b: nat)
    requires a <= b <= |counts|
    ensures Sum(counts[..a]) <= Sum(counts[..b])
    decreases b
  {
    if a < b {
      SumMonotone(counts, a, b - 1);
      SumStep(counts, b - 1);
    }
  }

  /** Each running total is the one before it plus the count at its position. */
  lemma CumulativeStep(counts: seq<nat>, i: nat)
    requires 0 < i < |counts|
    ensures Cumulative(counts)[i] == Cumulative(counts)[i - 1] + counts[i]
  {
    CumulativeAt(counts, i);
    CumulativeAt(counts, i - 1);
    SumStep(counts, i);
  }

  /** The running totals never decrease. */
  lemma CumulativeMonotone(counts: seq<nat>, i: nat, j: nat)
    requires i <= j < |counts|
    ensures Cumulative(counts)[i] <= Cumulative(counts)[j]
  {
    CumulativeAt(counts, i);
    CumulativeAt(counts, j);
    SumMonotone(counts, i + 1, j + 1);
  }

  /** The running totals start at the first count and end at the total. */
  lemma CumulativeEnds(counts: seq<nat>)
    requires |counts| > 0
    ensures Cumulative(counts)[0] == counts[0]
    ensures Cumulative(counts)[|counts| - 1] == Sum(counts)
  {
    CumulativeAt(counts, 0);
    SumStep(counts, 0);
    CumulativeAt(counts, |counts| - 1);
    assert counts[..|counts|] == counts;
  }

  /** The counts of the points, in order. */
  function Counts(points: seq<(int, nat)>): (r: seq<nat>)
    ensures |r| == |points| && forall i :: 0 <= i < |points| ==> r[i] == points[i].1
  {
    if |points| == 0 then [] else Counts(points[..|points| - 1]) + [points[|points| - 1].1]
  }

  /** Pairs each point's time with the running total of the counts. */
  function Accumulate(points: seq<(int, nat)>): (r: seq<(int, nat)>)
    ensures |r| == |points|
  {
    var totals := Cumulative(Counts(points));
    seq(|points|, i requires 0 <= i < |points| => (points[i].0, totals[i]))
  }

  /** Over points in time order, the accumulated plot keeps the times and climbs by each point's count. */
  lemma AccumulateShape(points: seq<(int, nat)>)
    requires forall i, j :: 0 <= i < j < |points| ==> points[i].0 <= points[j].0
    ensures var r := Accumulate(points);
      && (forall i :: 0 <= i < |r| ==> r[i].0 == points[i].0)
      && (forall i, j :: 0 <= i <= j < |r| ==> r[i].0 <= r[j].0 && r[i].1 <= r[j].1)
      && (forall i :: 0 < i < |r| ==> r[i].1 == r[i - 1].1 + points[i].1)
      && (|r| > 0 ==> r[0].1 == points[0].1 && r[|r| - 1].1 == Sum(Counts(points)))
  {
    AccumulateSteps(points);
    AccumulateClimbs(points);
    AccumulateEnds(points);
  }

  /** Each accumulated total is the one before it plus the point's count. */
  lemma AccumulateSteps(points: seq<(int, nat)>)
    ensures var r := Accumulate(points);
      forall i :: 0 < i < |r| ==> r[i].1 == r[i - 1].1 + points[i].1
  {
    var r := Accumulate(points);
    var c := Counts(points);
    forall i | 0 < i < |r|
      ensures r[i].1 == r[i - 1].1 + points[i].1
    {
      CumulativeStep(c, i);
    }
  }

  /** Over points in time order, times and totals both climb. */
  lemma AccumulateClimbs(points: seq<(int, nat)>)
    requires forall i, j :: 0 <= i < j < |points| ==> points[i].0 <= points[j].0
    ensures var r := Accumulate(points);
      forall i, j :: 0 <= i <= j < |r| ==> r[i].0 <= r[j].0 && r[i].1 <= r[j].1
  {
    var r := Accumulate(points);
    var c := Counts(points);
    forall i, j | 0 <= i <= j < |r|
      ensures r[i].0 <= r[j].0 && r[i].1 <= r[j].1
    {
      CumulativeMonotone(c, i, j);
    }
  }

  /** The first total is the first count and the last is the sum of all counts. */
  lemma AccumulateEnds(points: seq<(int, nat)>)
    ensures var r := Accumulate(points);
      |r| > 0 ==> r[0].1 == points[0].1 && r[|r| - 1].1 == Sum(Counts(points))
  {
    if |points| > 0 {
      CumulativeEnds(Counts(points));
    }
  }

  /** The challenges of the decoded file, as `challenges_data.values()` lists them: one per key, the value it ends up with. */
  function ChallengeList(data: Json): (r: Result<seq<Json>, string>)
    ensures r.Success? <==> data.JObj?
    ensures r.Success? ==> |r.value| == |DictKeys(data.members)|
    ensures r.Success? ==> forall i :: 0 <= i < |r.value| ==> Get(data.members, DictKeys(data.members)[i]) == Some(r.value[i])
  {
    if data.JObj? then
      var ks := DictKeys(data.members);
      Success(seq(|ks|, i requires 0 <= i < |ks| => assert ks[i] in ks; Get(data.members, ks[i]).value))
    else Failure("AttributeError: object has no attribute 'values'")
  }

  /**
   * `plot_solved_challenges_over_time`: `wallets` and `challenges` are the two files. The points
   * are sorted by time and paired with running totals.
   */
  function SolvedOverTime(wallets: Source, challenges: Source, parse: string -> Option<int>): (r: Plot<nat>)
    ensures (challenges.Absent? || challenges.NotJson?) && UserAddresses(wallets).Success? ==> r == NoPlot
    ensures challenges.Unopenable? && UserAddresses(wallets).Success? ==> r == Crash(challenges.error)
    ensures r.Crash? <==> (UserAddresses(wallets).Failure? || challenges.Unopenable? || (challenges.Loaded? &&
      (ChallengeList(challenges.data).Failure? ||
       SolutionPoints(ChallengeList(challenges.data).value, UserAddresses(wallets).value, parse).Failure?)))
  {
    match UserAddresses(wallets)
    case Failure(e) => Crash(e)
    case Success(users) =>
      match challenges
      case Absent => NoPlot
      case NotJson => NoPlot
      case Unopenable(e) => Crash(e)
      case Loaded(data) =>
        match ChallengeList(data)
        case Failure(e) => Crash(e)
        case Success(cs) =>
          match SolutionPoints(cs, users, parse)
          case Failure(e) => Crash(e)
          case Success(ps) =>
            if |ps| == 0 then NoPlot
            else Plotted(Accumulate(SortBy(ps, TimeOf, IntLe)))
  }

  /**
   * `plot` lays out `ps`: one plotted point per point, at the times of `ps` sorted (ties in their
   * original order), climbing by each point's count from the first and ending at the total.
   */
  ghost predicate LaysOut(plot: seq<(int, nat)>, ps: seq<(int, nat)>) {
    var sorted := SortBy(ps, TimeOf, IntLe);
    && multiset(sorted) == multiset(ps)
    && (forall t :: KeyClass(sorted, TimeOf, IntLe, t) == KeyClass(ps, TimeOf, IntLe, t))
    && |plot| == |ps|
    && (forall i :: 0 <= i < |plot| ==> plot[i].0 == sorted[i].0)
    && (forall i, j :: 0 <= i <= j < |plot| ==> plot[i].0 <= plot[j].0 && plot[i].1 <= plot[j].1)
    && (forall i :: 0 < i < |plot| ==> plot[i].1 == plot[i - 1].1 + sorted[i].1)
    && (|plot| > 0 ==> plot[0].1 == sorted[0].1 && plot[|plot| - 1].1 == Sum(Counts(sorted)))
  }

  /** Sorting points by time keeps them, orders them by time and keeps equal times in their order. */
  lemma SortedByTime<V>(ps: seq<(int, V)>)
    ensures var sorted := SortBy(ps, TimeOf, IntLe);
      && |sorted| == |ps| && multiset(sorted) == multiset(ps)
      && (forall t :: KeyClass(sorted, TimeOf, IntLe, t) == KeyClass(ps, TimeOf, IntLe, t))
      && (forall i, j :: 0 <= i < j < |sorted| ==> sorted[i].0 <= sorted[j].0)
  {
    IntLeIsTotalPreorder();
    SortByCorrect(ps, TimeOf, IntLe);
    var sorted := SortBy(ps, TimeOf, IntLe);
    forall i, j | 0 <= i < j < |sorted|
      ensures sorted[i].0 <= sorted[j].0
    {
      assert IntLe(TimeOf(sorted[i]), TimeOf(sorted[j]));
    }
  }

  /** Sorting points by time and accumulating their counts lays them out. */
  lemma PlotPoints(ps: seq<(int, nat)>)
    ensures LaysOut(Accumulate(SortBy(ps, TimeOf, IntLe)), ps)
  {
    SortedByTime(ps);
    AccumulateShape(SortBy(ps, TimeOf, IntLe));
  }

  /** A solutions plot lays out the points of the kept challenges, and there is at least one. */
  lemma SolvedPlotShape(wallets: Source, challenges: Source, parse: string -> Option<int>)
    ensures var r := SolvedOverTime(wallets, challenges, parse);
      r.Plotted? ==>
        && challenges.Loaded? && UserAddresses(wallets).Success? && ChallengeList(challenges.data).Success?
        && SolutionPoints(ChallengeList(challenges.data).value, UserAddresses(wallets).value, parse).Success?
        && var ps := SolutionPoints(ChallengeList(challenges.data).value, UserAddresses(wallets).value, parse).value;
           |ps| > 0 && LaysOut(r.points, ps)
  {
    var r := SolvedOverTime(wallets, challenges, parse);
    if r.Plotted? {
      var ps := SolutionPoints(ChallengeList(challenges.data).value, UserAddresses(wallets).value, parse).value;
      PlotPoints(ps);
    }
  }

  /**
   * Without user addresses every `solved_by` entry counts; with them, only the entries Python finds
   * `in` the set, where `True` and `1` are one value.
   */
  lemma CountsWhoseSolutions(solvedBy: seq<Json>, users: set<Json>)
    requires forall i :: 0 <= i < |solvedBy| ==> !Unhashable(solvedBy[i])
    ensures users == {} ==> SolutionCount(JArr(solvedBy), users) == Success(|solvedBy|)
    ensures users != {} ==> SolutionCount(JArr(solvedBy), users).Success?
    ensures SolutionCount(JArr(solvedBy), users).value <= |solvedBy|
    ensures SolutionCount(JArr(solvedBy), users).value > 0 <==>
      exists i :: 0 <= i < |solvedBy| && (users == {} || PyKey(solvedBy[i]) in PyKeys(users))
  {
    var r := SolutionCount(JArr(solvedBy), users).value;
    if users == {} && r > 0 {
      assert solvedBy[0] == solvedBy[0];
    } else if users != {} && r > 0 {
      var x := InUsers(solvedBy, users)[0];
      assert x in solvedBy && PyKey(x) in PyKeys(users);
      var i :| 0 <= i < |solvedBy| && solvedBy[i] == x;
    }
    if users != {} && exists i :: 0 <= i < |solvedBy| && PyKey(solvedBy[i]) in PyKeys(users) {
      var i :| 0 <= i < |solvedBy| && PyKey(solvedBy[i]) in PyKeys(users);
      assert solvedBy[i] in InUsers(solvedBy, users);
    }
  }

  /** A wallet address `true` makes a solution by `1` count, as `1 in {True}` holds in Python. */
  lemma TrueUserCountsOne()
    ensures SolutionCount(JArr([JInt(1)]), {JBool(true)}) == Success(1)
  {
    var xs, users := [JInt(1)], {JBool(true)};
    assert PyKey(xs[0]) in PyKeys(users);
    CountsWhoseSolutions(xs, users);
  }

  // ---------------------------------------------------------------------------------------------
  // `plot_balances_over_time`

  /** The point a snapshot gives: its parsed timestamp and its `balance` (0 when absent), or None when the timestamp is missing, falsy or unparseable. */
  function Reading(snapshot: Json, parse: string -> Option<int>): (r: Option<(int, Json)>)
    requires snapshot.JObj?
    ensures r.Some? <==> (
      && Get(snapshot.members, "timestamp").Some?
      && Truthy(Get(snapshot.members, "timestamp").value)
      && ParseTime(Get(snapshot.members, "timestamp").value, parse).Some?)
    ensures r.Some? ==>
      && r.value.0 == ParseTime(Get(snapshot.members, "timestamp").value, parse).value
      && (Get(snapshot.members, "balance").Some? ==> r.value.1 == Get(snapshot.members, "balance").value)
      && (Get(snapshot.members, "balance").None? ==> r.value.1 == JInt(0))
  {
    var t := Get(snapshot.members, "timestamp");
    if t.Some? && Truthy(t.value) && ParseTime(t.value, parse).Some? then
      Some((ParseTime(t.value, parse).value, GetOr(snapshot.members, "balance", JInt(0))))
    else None
  }

  /** What the loop body does with one snapshot: a non-object raises on `.get`, an object gives its reading. */
  function SnapshotPoint(snapshot: Json, parse: string -> Option<int>): (r: Result<Option<(int, Json)>, string>)
    ensures r.Failure? <==> !snapshot.JObj?
    ensures r.Success? ==> r.value == Reading(snapshot, parse)
  {
    if snapshot.JObj? then Success(Reading(snapshot, parse)) else Failure("AttributeError: object has no attribute 'get'")
  }

  /** The loop over `snapshots`: a non-object raises on `.get`; the others add their readings in order. */
  function BalancePoints(snapshots: seq<Json>, parse: string -> Option<int>): (r: Result<seq<(int, Json)>, string>)
    ensures r.Failure? <==> exists i :: 0 <= i < |snapshots| && !snapshots[i].JObj?
    ensures r.Success? ==> |r.value| <= |snapshots|
  {
    var r := Collect(snapshots, s => SnapshotPoint(s, parse));
    assert r.Failure? ==> exists i :: 0 <= i < |snapshots| && !snapshots[i].JObj?;
    r
  }

  /** Every balance point is the reading of some snapshot. */
  lemma BalancePointSource(snapshots: seq<Json>, parse: string -> Option<int>, p: (int, Json))
    returns (i: nat)
    requires BalancePoints(snapshots, parse).Success?
    requires p in BalancePoints(snapshots, parse).value
    ensures i < |snapshots| && snapshots[i].JObj? && Reading(snapshots[i], parse) == Some(p)
  {
    i := CollectSource(snapshots, s => SnapshotPoint(s, parse), p);
  }

  /** Every snapshot with a reading has it plotted. */
  lemma BalancePointKept(snapshots: seq<Json>, parse: string -> Option<int>, i: nat)
    requires BalancePoints(snapshots, parse).Success?
    requires i < |snapshots| && snapshots[i].JObj? && Reading(snapshots[i], parse).Some?
    ensures Reading(snapshots[i], parse).value in BalancePoints(snapshots, parse).value
  {
    CollectKept(snapshots, s => SnapshotPoint(s, parse), i);
  }

  /**
   * The guard `not data or 'snapshots' not in data` and the lookup after it: None when the plot is
   * skipped, the snapshots value otherwise, or a crash where `in` or the lookup raises.
   */
  function SnapshotsOf(data: Json): (r: Result<Option<Json>, string>)
    ensures data.JObj? && Truthy(data) ==> r == Success(Get(data.members, "snapshots"))
    ensures r.Success? && r.value.Some? ==> data.JObj?
  {
    if !Truthy(data) then Success(None)
    else
      match data
      case JObj(members) => Success(Get(members, "snapshots"))
      case JArr(items) => if JStr("snapshots") in items then Failure("TypeError: list indices must be integers") else Success(None)
      case JStr(s) => if Contains(s, "snapshots") then Failure("TypeError: string indices must be integers") else Success(None)
      case _ => Failure("TypeError: argument is not iterable")
  }

  /** `plot_balances_over_time`: `file` is the balances file. */
  function BalancesOverTime(file: Source, parse: string -> Option<int>): (r: Plot<Json>)
    ensures file.Absent? || file.NotJson? ==> r == NoPlot
    ensures file.Unopenable? ==> r == Crash(file.error)
    ensures r.Plotted? ==> file.Loaded? && |r.points| > 0
  {
    match file
    case Absent => NoPlot
    case NotJson => NoPlot
    case Unopenable(e) => Crash(e)
    case Loaded(data) =>
      match SnapshotsOf(data)
      case Failure(e) => Crash(e)
      case Success(None) => NoPlot
      case Success(Some(snaps)) =>
        if !Truthy(snaps) then NoPlot
        else
          match Members(snaps)
          case Failure(e) => Crash(e)
          case Success(items) =>
            match BalancePoints(items, parse)
            case Failure(e) => Crash(e)
            case Success(ps) =>
              if |ps| == 0 then NoPlot else Plotted(SortBy(ps, TimeOf, IntLe))
  }

  /**
   * The balance plot holds exactly the snapshots that have a parseable timestamp, each time still
   * paired with its own balance, in time order, snapshots with equal times keeping file order.
   */
  lemma BalancePlotShape(file: Source, parse: string -> Option<int>)
    ensures var r := BalancesOverTime(file, parse);
      r.Plotted? ==>
        var ps := BalancePoints(Members(SnapshotsOf(file.data).value.value).value, parse).value;
        var items := Members(SnapshotsOf(file.data).value.value).value;
        && SortedBy(r.points, TimeOf, IntLe)
        && multiset(r.points) == multiset(ps)
        && (forall t :: KeyClass(r.points, TimeOf, IntLe, t) == KeyClass(ps, TimeOf, IntLe, t))
        && (forall p :: p in r.points <==> exists i :: 0 <= i < |items| && items[i].JObj? && Reading(items[i], parse) == Some(p))
  {
    var r := BalancesOverTime(file, parse);
    if r.Plotted? {
      var items := Members(SnapshotsOf(file.data).value.value).value;
      var ps := BalancePoints(items, parse).value;
      IntLeIsTotalPreorder();
      SortByCorrect(ps, TimeOf, IntLe);
      forall p
        ensures p in r.points <==> exists i :: 0 <= i < |items| && items[i].JObj? && Reading(items[i], parse) == Some(p)
      {
        assert p in r.points <==> p in ps by {
          assert p in r.points <==> p in multiset(r.points);
        }
        if p in ps {
          var i := BalancePointSource(items, parse, p);
        }
        if exists i :: 0 <= i < |items| && items[i].JObj? && Reading(items[i], parse) == Some(p) {
          var i :| 0 <= i < |items| && items[i].JObj? && Reading(items[i], parse) == Some(p);
          BalancePointKept(items, parse, i);
        }
      }
    }
  }
}

=== FILE: redeem.dfy ===
/**
 * `redeem_check.py`: each wallet's thaw schedule is fetched with a per-status retry policy, the
 * wallets are dealt round-robin over sessions, and the answers split the wallets into valid ones
 * and invalid addresses; the valid ones may be written back. Replies, the completion order of
 * the threads, the confirmation answer and whether the write succeeds are inputs.
 */
module Redeem {
  import opened Wrappers
  import opened Text
  import opened Json
  import opened Http
  import opened Striding

  // ---------------------------------------------------------------------------------------------
  // Thaw amounts

  /** How `float(amount)` reads a thaw amount, in lovelace; None for an unparseable string or a non-number. */
  function Amount(v: Json): Option<int> {
    match v
    case JInt(i) => Some(i)
    case JBool(b) => Some(if b then 1 else 0)
    case JStr(s) => ParseInt(s)
    case _ => None
  }

  /** What one entry of `thaws` adds: its `amount` when it is an object that has one that reads as a number. */
  function ThawLovelace(thaw: Json): int {
    if thaw.JObj? && Get(thaw.members, "amount").Some? then Amount(Get(thaw.members, "amount").value).GetOr(0) else 0
  }

  function SumThaws(thaws: seq<Json>): int {
    if |thaws| == 0 then 0 else SumThaws(thaws[..|thaws| - 1]) + ThawLovelace(thaws[|thaws| - 1])
  }

  /** The amounts of the `thaws` list of a decoded object; anything else holds none. */
  function Lovelace(data: Json): int {
    if data.JObj? && Get(data.members, "thaws").Some? && Get(data.members, "thaws").value.JArr? then
      SumThaws(Get(data.members, "thaws").value.items)
    else 0
  }

  lemma {:induction false} SumThawsAppend(a: seq<Json>, b: seq<Json>)
    ensures SumThaws(a + b) == SumThaws(a) + SumThaws(b)
    decreases |b|
  {
    if |b| == 0 {
      assert a + b == a;
    } else {
      var n := |b| - 1;
      assert (a + b)[..|a + b| - 1] == a + b[..n];
      assert (a + b)[|a + b| - 1] == b[n];
      SumThawsAppend(a, b[..n]);
    }
  }

  /** A thaw whose amount is a string that does not parse contributes nothing, wherever it stands. */
  lemma UnparseableAmountIgnored(before: seq<Json>, s: string, others: seq<(string, Json)>, after: seq<Json>)
    requires ParseInt(s).None?
    ensures var thaw := JObj(others + [("amount", JStr(s))]);
      SumThaws(before + [thaw] + after) == SumThaws(before + after)
  {
    var thaw := JObj(others + [("amount", JStr(s))]);
    assert ThawLovelace(thaw) == 0;
    SumThawsAppend(before + [thaw], after);
    SumThawsAppend(before, [thaw]);
    assert SumThaws([thaw]) == SumThaws([]) + ThawLovelace(thaw);
    SumThawsAppend(before, after);
  }

  // ---------------------------------------------------------------------------------------------
  // `check_redeem_allocation`

  /**
   * What `check_redeem_allocation` returns: validity, the thawed amount in lovelace, and the
   * decoded reply; and whether it returned from one of the handlers that print `address[:20]`.
   */
  datatype Check = Check(valid: bool, lovelace: int, data: Option<Json>, slicesAddress: bool)

  /** `(False, 0.0, None)`, returned without printing the address. */
  const Invalid := Check(false, 0, None, false)

  /** `(False, 0.0, None)`, returned after printing `address[:20]`. */
  const Reported := Check(false, 0, None, true)

  /** One attempt either settles the answer or leads to another attempt. */
  datatype Step = Settle(check: Check) | Retry

  /** A 400 reply saying that the address has nothing to redeem. */
  predicate NoRedeemable(data: Json) {
    data.JObj? && Get(data.members, "type") == Some(JStr("no_redeemable_thaws"))
  }

  /**
   * A reply that, with no retry left, ends in one of the handlers that print `address[:20]`: a
   * failed request, or an HTTP error that `raise_for_status` raises (the 400s, 403s and 404s are
   * answered before it is called).
   */
  predicate HandledByPrinter(reply: Reply) {
    || !reply.Response?
    || (reply.status != 400 && reply.status != 403 && reply.status != 404 && reply.body.Some?
        && IsHttpError(reply.status))
  }

  /**
   * One pass of the loop body, `canRetry` being `attempt < retry_count`. A 403 or a failed request
   * is retried; a 404, a body that is not JSON, and a "no redeemable thaws" 400 settle as invalid;
   * any other 400 and any other client or server error is retried; a remaining status settles
   * with the decoded reply, valid only for 200.
   */
  function Decide(reply: Reply, canRetry: bool): (s: Step)
    ensures s.Retry? <==> (canRetry && (
                            || !reply.Response?
                            || reply.status == 403
                            || (reply.status != 404 && reply.body.Some? && IsHttpError(reply.status)
                                && !(reply.status == 400 && NoRedeemable(reply.body.value)))))
    ensures (s.Settle? && s.check.valid) <==> (reply.Response? && reply.status == 200 && reply.body.Some?)
    ensures s.Settle? && s.check.data.Some? ==>
      && reply.Response? && !IsHttpError(reply.status) && s.check.data == reply.body
      && s.check.lovelace == Lovelace(reply.body.value)
    ensures s.Settle? && s.check.data.None? ==> s.check == Check(false, 0, None, s.check.slicesAddress)
    ensures s.Settle? ==> (s.check.slicesAddress <==> !canRetry && HandledByPrinter(reply))
  {
    match reply
    case TimedOut => if canRetry then Retry else Settle(Reported)
    case TransportError(_) => if canRetry then Retry else Settle(Reported)
    case Response(status, _, body) =>
      if status == 404 then Settle(Invalid)
      else if status == 403 then (if canRetry then Retry else Settle(Invalid))
      else if body.None? then Settle(Invalid)
      else if status == 400 then
        if NoRedeemable(body.value) then Settle(Invalid)
        else if canRetry then Retry
        else Settle(Invalid)
      else if IsHttpError(status) then (if canRetry then Retry else Settle(Reported))
      else Settle(Check(status == 200, Lovelace(body.value), body, false))
  }

  /**
   * The loop from `attempt` on, `replies(k)` being the reply to attempt `k`: the result and the
   * number of attempts made so far.
   */
  function CheckFrom(replies: nat -> Reply, attempt: nat, retryCount: int): (r: (Check, nat))
    ensures attempt <= r.1 && (r.1 == attempt || r.1 <= retryCount + 1)
    ensures r.1 == attempt <==> attempt > retryCount
    ensures r.1 == attempt ==> r.0 == Invalid
    ensures r.1 > attempt ==> Decide(replies(r.1 - 1), r.1 - 1 < retryCount) == Settle(r.0)
    ensures forall k :: attempt <= k < r.1 - 1 ==> k < retryCount && Decide(replies(k), true) == Retry
    decreases retryCount + 1 - attempt
  {
    if attempt > retryCount then (Invalid, attempt)
    else
      match Decide(replies(attempt), attempt < retryCount)
      case Settle(c) => (c, attempt + 1)
      case Retry => CheckFrom(replies, attempt + 1, retryCount)
  }

  /**
   * `check_redeem_allocation`: at most `retry_count + 1` attempts, `(False, 0.0, None)` when there
   * are none, and a valid answer exactly when the last attempt got a 200 with a JSON body; the
   * address is printed exactly when the last of all allowed attempts failed in a printing handler.
   */
  function CheckAllocation(replies: nat -> Reply, retryCount: int): (r: (Check, nat))
    ensures retryCount < 0 ==> r == (Invalid, 0)
    ensures retryCount >= 0 ==> 1 <= r.1 <= retryCount + 1
    ensures r.0.valid <==>
      (r.1 >= 1 && replies(r.1 - 1).Response? && replies(r.1 - 1).status == 200 && replies(r.1 - 1).body.Some?)
    ensures r.0.data.Some? ==> r.1 >= 1 && replies(r.1 - 1).Response? && r.0.data == replies(r.1 - 1).body
    ensures r.0.slicesAddress <==> r.1 >= 1 && r.1 == retryCount + 1 && HandledByPrinter(replies(r.1 - 1))
  {
    CheckFrom(replies, 0, retryCount)
  }

  /** A 404 answers at once: invalid, with no retry. */
  lemma NotFoundAtOnce(replies: nat -> Reply, retryCount: int)
    requires retryCount >= 0 && replies(0).Response? && replies(0).status == 404
    ensures CheckAllocation(replies, retryCount) == (Invalid, 1)
  {
  }

  /** A 400 saying there is nothing to redeem answers at once: invalid, with no retry. */
  lemma NoRedeemableAtOnce(replies: nat -> Reply, retryCount: int)
    requires retryCount >= 0 && replies(0).Response? && replies(0).status == 400
    requires replies(0).body.Some? && NoRedeemable(replies(0).body.value)
    ensures CheckAllocation(replies, retryCount) == (Invalid, 1)
  {
  }

  /** A reply that is not JSON answers at once unless it is a 403 or a 404: invalid, with no retry. */
  lemma NotJsonAtOnce(replies: nat -> Reply, retryCount: int)
    requires retryCount >= 0 && replies(0).Response? && replies(0).body.None?
    requires replies(0).status != 403
    ensures CheckAllocation(replies, retryCount) == (Invalid, 1)
  {
  }

  /** Any other 400 is retried while attempts remain. */
  lemma OtherBadRequestRetried(replies: nat -> Reply, retryCount: int)
    requires retryCount >= 1 && replies(0).Response? && replies(0).status == 400
    requires replies(0).body.Some? && !NoRedeemable(replies(0).body.value)
    ensures CheckAllocation(replies, retryCount) == CheckFrom(replies, 1, retryCount)
  {
  }

  /** 403 on every attempt uses them all and ends invalid. */
  lemma {:induction false} ForbiddenThroughout(replies: nat -> Reply, attempt: nat, retryCount: int)
    requires attempt <= retryCount + 1
    requires forall k :: attempt <= k <= retryCount ==> replies(k).Response? && replies(k).status == 403
    ensures CheckFrom(replies, attempt, retryCount) == (Invalid, retryCount + 1)
    decreases retryCount + 1 - attempt
  {
    if attempt <= retryCount {
      assert replies(attempt).Response? && replies(attempt).status == 403;
      if attempt < retryCount {
        ForbiddenThroughout(replies, attempt + 1, retryCount);
      }
    }
  }

  /** Under the default `retry_count` of 2, a wallet costs at most three requests. */
  lemma DefaultBudget(replies: nat -> Reply)
    ensures 1 <= CheckAllocation(replies, 2).1 <= 3
  {
  }

  // ---------------------------------------------------------------------------------------------
  // `process_wallet_chunk`

  /** `wallet['address']`: None when the wallet is not an object or has no such key (the lookup raises). */
  function Address(wallet: Json): (r: Option<Json>)
    ensures r.Some? ==> wallet.JObj? && Get(wallet.members, "address") == r
  {
    if wallet.JObj? then Get(wallet.members, "address") else None
  }

  /** `process_wallet_chunk` leaves `retry_count` at its default. */
  const DefaultRetries: int := 2

  /** What `check_redeem_allocation` returns for each address, `replies(a)` being the replies to the requests for `a`. */
  function Answers(replies: Json -> nat -> Reply): Json -> Check {
    a => CheckAllocation(replies(a), DefaultRetries).0
  }

  /** What the server says about a wallet, `server(a)` being the result of checking address `a`. */
  function Verdict(wallet: Json, server: Json -> Check): Check
    requires Address(wallet).Some?
  {
    server(Address(wallet).value)
  }

  /** `address[:20]` works on a string or a list; on anything else it raises. */
  predicate Sliceable(a: Json) {
    a.JStr? || a.JArr?
  }

  /**
   * Checking a wallet raises: its address cannot be looked up, or the handler that answers prints
   * an address that cannot be sliced. Neither exception is caught inside the thread.
   */
  predicate CheckRaises(wallet: Json, server: Json -> Check) {
    Address(wallet).None? || (Verdict(wallet, server).slicesAddress && !Sliceable(Address(wallet).value))
  }

  /**
   * `process_wallet_chunk`: one `(wallet, result)` pair per wallet, in input order; a wallet
   * whose check raises loses the chunk's results.
   */
  function ProcessChunk(chunk: seq<Json>, server: Json -> Check): (r: Result<seq<(Json, Check)>, string>)
    ensures r.Failure? <==> exists i :: 0 <= i < |chunk| && CheckRaises(chunk[i], server)
    ensures r.Success? ==> |r.value| == |chunk|
    ensures r.Success? ==> forall i :: 0 <= i < |chunk| ==> r.value[i] == (chunk[i], Verdict(chunk[i], server))
  {
    if |chunk| == 0 then Success([])
    else
      var n := |chunk| - 1;
      match ProcessChunk(chunk[..n], server)
      case Failure(e) => Failure(e)
      case Success(rs) =>
        if Address(chunk[n]).None? then Failure("KeyError: 'address'")
        else if CheckRaises(chunk[n], server) then Failure("TypeError: object is not subscriptable")
        else Success(rs + [(chunk[n], Verdict(chunk[n], server))])
  }

  // ---------------------------------------------------------------------------------------------
  // `update_progress`

  /** `address[:20] + "..."` only succeeds for a string address. */
  predicate StringAddress(wallet: Json) {
    Address(wallet).Some? && Address(wallet).value.JStr?
  }

  /** Every wallet of the list has a string address. */
  predicate WellFormed(wallets: seq<Json>) {
    forall i :: 0 <= i < |wallets| ==> StringAddress(wallets[i])
  }

  /** The validity a wallet ends up with, when its address can be looked up. */
  predicate IsValid(wallet: Json, server: Json -> Check) {
    Address(wallet).Some? && Verdict(wallet, server).valid
  }

  /**
   * `update_progress` over one chunk's results in order: a valid wallet is kept, an invalid one
   * goes to the invalid list; the first wallet whose address is not a string raises, and the
   * rest of that chunk is not looked at.
   */
  function Update(results: seq<(Json, Check)>): (r: (seq<Json>, seq<Json>))
    ensures |r.0| + |r.1| <= |results|
    ensures (forall i :: 0 <= i < |results| ==> StringAddress(results[i].0)) ==> |r.0| + |r.1| == |results|
  {
    if |results| == 0 || !StringAddress(results[0].0) then ([], [])
    else
      var rest := Update(results[1..]);
      if results[0].1.valid then ([results[0].0] + rest.0, rest.1) else (rest.0, [results[0].0] + rest.1)
  }

  /** A kept wallet comes with a valid result, a listed one with an invalid result and a string address. */
  lemma {:induction false} UpdateSound(results: seq<(Json, Check)>)
    ensures forall w :: w in Update(results).0 ==>
      exists i :: 0 <= i < |results| && results[i].0 == w && results[i].1.valid
    ensures forall w :: w in Update(results).1 ==>
      exists i :: 0 <= i < |results| && results[i].0 == w && !results[i].1.valid && StringAddress(w)
  {
    if |results| > 0 && StringAddress(results[0].0) {
      UpdateSound(results[1..]);
      assert forall i :: 0 <= i < |results| - 1 ==> results[1..][i] == results[i + 1];
    }
  }

  /** The wallets of a list whose validity is `valid`, in order. */
  function Keep(wallets: seq<Json>, server: Json -> Check, valid: bool): (r: seq<Json>)
  {
    if |wallets| == 0 then []
    else (if IsValid(wallets[0], server) == valid then [wallets[0]] else []) + Keep(wallets[1..], server, valid)
  }

  lemma {:induction false} KeepCounts(wallets: seq<Json>, server: Json -> Check, valid: bool, w: Json)
    ensures multiset(Keep(wallets, server, valid))[w] ==
      if IsValid(w, server) == valid then multiset(wallets)[w] else 0
  {
    if |wallets| > 0 {
      var head := if IsValid(wallets[0], server) == valid then [wallets[0]] else [];
      assert wallets == [wallets[0]] + wallets[1..];
      assert multiset(wallets) == multiset{wallets[0]} + multiset(wallets[1..]);
      KeepCounts(wallets[1..], server, valid, w);
      assert Keep(wallets, server, valid) == head + Keep(wallets[1..], server, valid);
      assert multiset(Keep(wallets, server, valid)) == multiset(head) + multiset(Keep(wallets[1..], server, valid));
    }
  }

  lemma {:induction false} KeepAppend(a: seq<Json>, b: seq<Json>, server: Json -> Check, valid: bool)
    ensures Keep(a + b, server, valid) == Keep(a, server, valid) + Keep(b, server, valid)
  {
    if |a| == 0 {
      assert a + b == b;
    } else {
      var head := if IsValid(a[0], server) == valid then [a[0]] else [];
      assert (a + b)[1..] == a[1..] + b;
      assert (a + b)[0] == a[0];
      assert Keep(a + b, server, valid) == head + Keep(a[1..] + b, server, valid);
      KeepAppend(a[1..], b, server, valid);
      assert Keep(a, server, valid) == head + Keep(a[1..], server, valid);
      assert head + (Keep(a[1..], server, valid) + Keep(b, server, valid))
          == (head + Keep(a[1..], server, valid)) + Keep(b, server, valid);
    }
  }

  /** On a chunk whose wallets all have string addresses, `Update` keeps exactly the valid ones and lists exactly the invalid ones. */
  lemma {:induction false} UpdateWellFormed(chunk: seq<Json>, server: Json -> Check)
    requires WellFormed(chunk)
    ensures ProcessChunk(chunk, server).Success?
    ensures Update(ProcessChunk(chunk, server).value) == (Keep(chunk, server, true), Keep(chunk, server, false))
  {
    var rs := ProcessChunk(chunk, server).value;
    UpdatePaired(chunk, rs, server);
  }

  lemma {:induction false} UpdatePaired(chunk: seq<Json>, rs: seq<(Json, Check)>, server: Json -> Check)
    requires WellFormed(chunk) && |rs| == |chunk|
    requires forall i :: 0 <= i < |chunk| ==> rs[i] == (chunk[i], Verdict(chunk[i], server))
    ensures Update(rs) == (Keep(chunk, server, true), Keep(chunk, server, false))
  {
    if |chunk| > 0 {
      var w := chunk[0];
      assert rs[0] == (w, Verdict(w, server));
      assert StringAddress(w);
      assert IsValid(w, server) == rs[0].1.valid;
      assert WellFormed(chunk[1..]) by {
        assert forall i :: 0 <= i < |chunk| - 1 ==> chunk[1..][i] == chunk[i + 1];
      }
      assert forall i :: 0 <= i < |chunk| - 1 ==> rs[1..][i] == (chunk[1..][i], Verdict(chunk[1..][i], server)) by {
        assert forall i :: 0 <= i < |chunk| - 1 ==> rs[1..][i] == rs[i + 1] && chunk[1..][i] == chunk[i + 1];
      }
      UpdatePaired(chunk[1..], rs[1..], server);
      var rest := Update(rs[1..]);
      assert [] + rest.0 == rest.0 && [] + rest.1 == rest.1;
      assert Update(rs) == (if rs[0].1.valid then ([w] + rest.0, rest.1) else (rest.0, [w] + rest.1));
      assert Keep(chunk, server, true) == (if IsValid(w, server) then [w] else []) + Keep(chunk[1..], server, true);
      assert Keep(chunk, server, false) == (if !IsValid(w, server) then [w] else []) + Keep(chunk[1..], server, false);
    } else {
      assert Update(rs) == ([], []);
      assert Keep(chunk, server, true) == [];
      assert Keep(chunk, server, false) == [];
    }
  }

  /**
   * A wallet whose address is neither a string nor a list, and whose every allowed attempt fails
   * in a printing handler (a timeout, say, or a 500), loses its whole chunk.
   */
  lemma UnsliceableAddressLosesChunk(chunk: seq<Json>, replies: Json -> nat -> Reply, i: nat)
    requires i < |chunk| && Address(chunk[i]).Some? && !Sliceable(Address(chunk[i]).value)
    requires forall k :: 0 <= k <= DefaultRetries ==> HandledByPrinter(replies(Address(chunk[i]).value)(k))
    ensures ProcessChunk(chunk, Answers(replies)).Failure?
    ensures ChunkOutcome(chunk, Answers(replies)) == ([], [])
  {
    var c := CheckAllocation(replies(Address(chunk[i]).value), DefaultRetries);
    assert Verdict(chunk[i], Answers(replies)) == c.0;
    assert CheckRaises(chunk[i], Answers(replies));
  }

  // ---------------------------------------------------------------------------------------------
  // Gathering the chunks as their threads complete

  /** What one chunk adds to the two lists: nothing if its thread raised. */
  function ChunkOutcome(chunk: seq<Json>, server: Json -> Check): (r: (seq<Json>, seq<Json>))
    ensures WellFormed(chunk) ==> r == (Keep(chunk, server, true), Keep(chunk, server, false))
  {
    match ProcessChunk(chunk, server)
    case Failure(_) => ([], [])
    case Success(rs) =>
      assert WellFormed(chunk) ==> Update(rs) == (Keep(chunk, server, true), Keep(chunk, server, false)) by {
        if WellFormed(chunk) {
          UpdateWellFormed(chunk, server);
        }
      }
      Update(rs)
  }

  /** Whatever a chunk contributes is one of its wallets, on the side its validity puts it. */
  lemma ChunkOutcomeSound(chunk: seq<Json>, server: Json -> Check)
    ensures forall w :: w in ChunkOutcome(chunk, server).0 ==> w in chunk && IsValid(w, server)
    ensures forall w :: w in ChunkOutcome(chunk, server).1 ==> w in chunk && !IsValid(w, server) && StringAddress(w)
  {
    var p := ProcessChunk(chunk, server);
    if p.Success? {
      UpdateSound(p.value);
    }
  }

  /** The `as_completed` loop: the chunks' outcomes appended in completion order `order`. */
  function Gather(cs: seq<seq<Json>>, order: seq<nat>, server: Json -> Check): (r: (seq<Json>, seq<Json>))
  {
    if |order| == 0 then ([], [])
    else
      var n := |order| - 1;
      var prev := Gather(cs, order[..n], server);
      if order[n] < |cs| then
        var out := ChunkOutcome(cs[order[n]], server);
        (prev.0 + out.0, prev.1 + out.1)
      else prev
  }

  /** Every gathered wallet comes from some chunk, on the side its validity puts it. */
  lemma {:induction false} GatherSound(cs: seq<seq<Json>>, order: seq<nat>, server: Json -> Check)
    ensures forall w :: w in Gather(cs, order, server).0 ==> (exists i :: 0 <= i < |cs| && w in cs[i]) && IsValid(w, server)
    ensures forall w :: w in Gather(cs, order, server).1 ==>
      (exists i :: 0 <= i < |cs| && w in cs[i]) && !IsValid(w, server) && StringAddress(w)
  {
    if |order| > 0 {
      var n := |order| - 1;
      GatherSound(cs, order[..n], server);
      if order[n] < |cs| {
        ChunkOutcomeSound(cs[order[n]], server);
      }
    }
  }

  lemma AppendAssoc<T>(a: seq<T>, b: seq<T>, c: seq<T>)
    ensures (a + b) + c == a + (b + c)
  {
  }

  lemma {:induction false} GatherAppend(cs: seq<seq<Json>>, a: seq<nat>, b: seq<nat>, server: Json -> Check)
    ensures Gather(cs, a + b, server).0 == Gather(cs, a, server).0 + Gather(cs, b, server).0
    ensures Gather(cs, a + b, server).1 == Gather(cs, a, server).1 + Gather(cs, b, server).1
    decreases |b|
  {
    var ga := Gather(cs, a, server);
    if |b| == 0 {
      assert a + b == a;
      assert ga.0 + [] == ga.0 && ga.1 + [] == ga.1;
    } else {
      var n := |b| - 1;
      var x := b[n];
      assert (a + b)[..|a + b| - 1] == a + b[..n];
      assert (a + b)[|a + b| - 1] == x;
      GatherAppend(cs, a, b[..n], server);
      var pre := Gather(cs, b[..n], server);
      if x < |cs| {
        var out := ChunkOutcome(cs[x], server);
        assert Gather(cs, a + b, server) == ((ga.0 + pre.0) + out.0, (ga.1 + pre.1) + out.1);
        assert Gather(cs, b, server) == (pre.0 + out.0, pre.1 + out.1);
        AppendAssoc(ga.0, pre.0, out.0);
        AppendAssoc(ga.1, pre.1, out.1);
      }
    }
  }

  /** The order in which the threads complete does not change what the lists hold, only their order. */
  lemma {:induction false} GatherPermutation(cs: seq<seq<Json>>, order: seq<nat>, other: seq<nat>, server: Json -> Check)
    requires multiset(order) == multiset(other)
    ensures multiset(Gather(cs, order, server).0) == multiset(Gather(cs, other, server).0)
    ensures multiset(Gather(cs, order, server).1) == multiset(Gather(cs, other, server).1)
    decreases |order|
  {
    if |order| == 0 {
      assert |other| == |multiset(other)| == 0;
    } else {
      var n := |order| - 1;
      assert order == order[..n] + [order[n]];
      var j := PickOut(order, other);
      var rest := other[..j] + other[j + 1..];
      GatherPermutation(cs, order[..n], rest, server);
      GatherTakeOut(cs, other, j, server);
      GatherAppend(cs, order[..n], [order[n]], server);
      var one := Gather(cs, [order[n]], server);
      var prefix := Gather(cs, order[..n], server);
      var left := Gather(cs, rest, server);
      var whole := Gather(cs, order, server);
      var all := Gather(cs, other, server);
      SumRegroup(all.0, left.0, one.0, whole.0, prefix.0);
      SumRegroup(all.1, left.1, one.1, whole.1, prefix.1);
    }
  }

  lemma SumRegroup<T>(all: seq<T>, left: seq<T>, one: seq<T>, whole: seq<T>, prefix: seq<T>)
    requires multiset(all) == multiset(left) + multiset(one)
    requires whole == prefix + one && multiset(prefix) == multiset(left)
    ensures multiset(whole) == multiset(all)
  {
  }

  /** Where the last index of `order` sits in its rearrangement `other`, and what is left around it. */
  lemma PickOut(order: seq<nat>, other: seq<nat>) returns (j: nat)
    requires |order| > 0 && multiset(order) == multiset(other)
    ensures j < |other| && other[j] == order[|order| - 1]
    ensures multiset(other[..j] + other[j + 1..]) == multiset(order[..|order| - 1])
  {
    var n := |order| - 1;
    var x := order[n];
    assert order == order[..n] + [x];
    assert x in multiset(other);
    j :| 0 <= j < |other| && other[j] == x;
    assert other == other[..j] + [x] + other[j + 1..];
    var rest := other[..j] + other[j + 1..];
    assert multiset(other) == multiset(rest) + multiset{x};
    assert multiset(order) == multiset(order[..n]) + multiset{x};
    forall y ensures multiset(rest)[y] == multiset(order[..n])[y] {
      assert multiset(order)[y] == multiset(other)[y];
    }
    assert multiset(rest) == multiset(order[..n]);
  }

  /** Gathering `other` is gathering it without position `j`, then chunk `other[j]`, up to order. */
  lemma GatherTakeOut(cs: seq<seq<Json>>, other: seq<nat>, j: nat, server: Json -> Check)
    requires j < |other|
    ensures var rest := Gather(cs, other[..j] + other[j + 1..], server);
      var one := Gather(cs, [other[j]], server);
      var all := Gather(cs, other, server);
      multiset(all.0) == multiset(rest.0) + multiset(one.0) && multiset(all.1) == multiset(rest.1) + multiset(one.1)
  {
    var x := other[j];
    assert other == (other[..j] + [x]) + other[j + 1..];
    GatherAppend(cs, other[..j] + [x], other[j + 1..], server);
    GatherAppend(cs, other[..j], [x], server);
    GatherAppend(cs, other[..j], other[j + 1..], server);
  }

  /** `0, 1, …, n - 1`: each chunk once, in dealing order. */
  function Indices(n: nat): (r: seq<nat>)
    ensures |r| == n && forall i :: 0 <= i < n ==> r[i] == i
  {
    if n == 0 then [] else Indices(n - 1) + [n - 1]
  }

  /** Gathering every chunk once in dealing order keeps and lists exactly the wallets of all chunks. */
  lemma {:induction false} GatherInOrder(cs: seq<seq<Json>>, n: nat, server: Json -> Check)
    requires n <= |cs| && forall i :: 0 <= i < |cs| ==> WellFormed(cs[i])
    ensures Gather(cs, Indices(n), server) == (Keep(Flatten(cs[..n]), server, true), Keep(Flatten(cs[..n]), server, false))
  {
    if n > 0 {
      var prev := Flatten(cs[..n - 1]);
      var last := cs[n - 1];
      assert Gather(cs, Indices(n), server) == (Keep(prev, server, true) + Keep(last, server, true),
                                                Keep(prev, server, false) + Keep(last, server, false)) by {
        GatherInOrder(cs, n - 1, server);
        assert Indices(n)[..n - 1] == Indices(n - 1);
        assert ChunkOutcome(last, server) == (Keep(last, server, true), Keep(last, server, false));
      }
      assert Flatten(cs[..n]) == prev + last by {
        assert cs[..n][..n - 1] == cs[..n - 1];
      }
      KeepAppend(prev, last, server, true);
      KeepAppend(prev, last, server, false);
    }
  }

  // ---------------------------------------------------------------------------------------------
  // `main`

  /** Where the proxy list comes from: no proxy module, a module that raised, or the configured proxies. */
  datatype Proxies = NoProxyModule | ProxyLoadFailed | ProxyList(count: nat)

  /** The number of sessions: one direct session without proxies, else `create_sessions`, or one when that is empty or raised. */
  function Sessions(useProxy: bool, proxies: Proxies, threads: nat): (n: nat)
    ensures n >= 1 && (n == 1 || n <= threads)
    ensures useProxy && proxies.ProxyList? && proxies.count >= 1 && threads >= 1 ==>
      n == (if proxies.count < threads then proxies.count else threads)
  {
    if !useProxy then 1
    else
      match proxies
      case ProxyLoadFailed => 1
      case NoProxyModule => if threads == 0 then 1 else threads
      case ProxyList(c) =>
        var made := if c > 0 then (if c < threads then c else threads) else threads;
        if made == 0 then 1 else made
  }

  /** The wallets file: absent, not JSON, or decoded. */
  datatype WalletsFile = Missing | Unreadable | Parsed(data: Json)

  /** What `wallets[index::n]` deals out: the items of a list, the characters of a string, or a TypeError. */
  function WalletList(data: Json): (r: Result<seq<Json>, string>)
    ensures data.JArr? ==> r == Success(data.items)
    ensures r.Success? ==> data.JArr? || data.JStr?
  {
    match data
    case JArr(items) => Success(items)
    case JStr(s) => Success(seq(|s|, i requires 0 <= i < |s| => JStr([s[i]])))
    case _ => Failure("TypeError: object is not subscriptable")
  }

  /** `input().strip().lower() in ['yes', 'y']`. */
  predicate Confirmed(answer: string) {
    Lower(Strip(answer)) == "yes" || Lower(Strip(answer)) == "y"
  }

  /** The address text of a wallet that reached `update_progress`. */
  function AddressText(wallet: Json): string {
    if StringAddress(wallet) then Address(wallet).value.s else ""
  }

  function AddressTexts(wallets: seq<Json>): (r: seq<string>)
    ensures |r| == |wallets| && forall i :: 0 <= i < |wallets| ==> r[i] == AddressText(wallets[i])
  {
    if |wallets| == 0 then [] else AddressTexts(wallets[..|wallets| - 1]) + [AddressText(wallets[|wallets| - 1])]
  }

  /**
   * How the script ends: an exit code, the valid wallets, the invalid addresses and what was
   * written back to the wallets file, or an exception.
   */
  datatype Run =
    | Finished(code: int, valid: seq<Json>, invalid: seq<string>, saved: Option<seq<Json>>)
    | Crashed(error: string)

  /** The wallets that were dealt to sessions, when the script gets that far. */
  function Loaded(file: WalletsFile): Option<seq<Json>> {
    if file.Parsed? && Truthy(file.data) && WalletList(file.data).Success? then Some(WalletList(file.data).value) else None
  }

  /** The two lists `main` ends up with: the valid wallets and the invalid ones, whose addresses it lists. */
  function Classify(wallets: seq<Json>, count: nat, order: seq<nat>, server: Json -> Check): (seq<Json>, seq<Json>)
    requires count >= 1
  {
    Gather(Chunks(wallets, count), order, server)
  }

  /** Each listed wallet is one of the file's wallets, on the side its validity puts it. */
  lemma ClassifySound(wallets: seq<Json>, count: nat, order: seq<nat>, server: Json -> Check)
    requires count >= 1
    ensures forall w :: w in Classify(wallets, count, order, server).0 ==> w in wallets && IsValid(w, server)
    ensures forall w :: w in Classify(wallets, count, order, server).1 ==>
      w in wallets && !IsValid(w, server) && StringAddress(w)
  {
    var cs := Chunks(wallets, count);
    GatherSound(cs, order, server);
    forall w | w in Classify(wallets, count, order, server).0 + Classify(wallets, count, order, server).1
      ensures w in wallets
    {
      var i :| 0 <= i < |cs| && w in cs[i];
      StrideOnly(wallets, i, count, w);
    }
  }

  /** Dealing keeps every chunk free of wallets without a string address when the whole list is. */
  lemma ChunksWellFormed(wallets: seq<Json>, count: nat)
    requires count >= 1 && WellFormed(wallets)
    ensures forall i :: 0 <= i < |Chunks(wallets, count)| ==> WellFormed(Chunks(wallets, count)[i])
  {
    var cs := Chunks(wallets, count);
    forall i | 0 <= i < |cs| ensures WellFormed(cs[i]) {
      forall k | 0 <= k < |cs[i]| ensures StringAddress(cs[i][k]) {
        assert cs[i][k] in cs[i];
        StrideOnly(wallets, i, count, cs[i][k]);
      }
    }
  }

  /**
   * When every wallet has a string address and every chunk's thread completes once, each wallet
   * ends up in exactly one list: the valid ones in the first and the others in the second,
   * counted with repetitions and in whatever order the threads finish.
   */
  lemma {:induction false} ClassifyComplete(wallets: seq<Json>, count: nat, order: seq<nat>, server: Json -> Check)
    requires count >= 1 && WellFormed(wallets)
    requires multiset(order) == multiset(Indices(|Chunks(wallets, count)|))
    ensures multiset(Classify(wallets, count, order, server).0) == multiset(Keep(wallets, server, true))
    ensures multiset(Classify(wallets, count, order, server).1) == multiset(Keep(wallets, server, false))
  {
    var cs := Chunks(wallets, count);
    GatherPermutation(cs, order, Indices(|cs|), server);
    InOrderClassifies(wallets, count, server);
  }

  /** With the threads completing in dealing order, each list holds the wallets of its side. */
  lemma InOrderClassifies(wallets: seq<Json>, count: nat, server: Json -> Check)
    requires count >= 1 && WellFormed(wallets)
    ensures var h := Gather(Chunks(wallets, count), Indices(|Chunks(wallets, count)|), server);
      && multiset(h.0) == multiset(Keep(wallets, server, true))
      && multiset(h.1) == multiset(Keep(wallets, server, false))
  {
    var cs := Chunks(wallets, count);
    var flat := Flatten(cs);
    var h := Gather(cs, Indices(|cs|), server);
    assert h == (Keep(flat, server, true), Keep(flat, server, false)) by {
      ChunksWellFormed(wallets, count);
      GatherInOrder(cs, |cs|, server);
      assert cs[..|cs|] == cs;
    }
    assert multiset(flat) == multiset(wallets) by {
      ChunksPermutation(wallets, count);
    }
    KeepPermutation(flat, wallets, server, true);
    KeepPermutation(flat, wallets, server, false);
  }


  /** Filtering two permutations of a list gives permutations of each other. */
  lemma KeepPermutation(a: seq<Json>, b: seq<Json>, server: Json -> Check, valid: bool)
    requires multiset(a) == multiset(b)
    ensures multiset(Keep(a, server, valid)) == multiset(Keep(b, server, valid))
  {
    forall w ensures multiset(Keep(a, server, valid))[w] == multiset(Keep(b, server, valid))[w] {
      KeepCounts(a, server, valid, w);
      KeepCounts(b, server, valid, w);
    }
  }

  /** Each wallet is either valid or invalid: the two kept lists together are the whole list. */
  lemma KeepSplits(wallets: seq<Json>, server: Json -> Check)
    ensures multiset(Keep(wallets, server, true)) + multiset(Keep(wallets, server, false)) == multiset(wallets)
  {
    forall w ensures (multiset(Keep(wallets, server, true)) + multiset(Keep(wallets, server, false)))[w]
                  == multiset(wallets)[w] {
      KeepCounts(wallets, server, true, w);
      KeepCounts(wallets, server, false, w);
    }
  }

  /**
   * `main` from loading the wallets on: `order` is the order in which the chunk threads complete,
   * `answer` the confirmation typed in, `written` whether `save_wallets` succeeds.
   */
  function RedeemCheck(file: WalletsFile, useProxy: bool, proxies: Proxies, threads: nat, order: seq<nat>,
                       replies: Json -> nat -> Reply, autoRemove: bool, answer: string, written: bool): (r: Run)
    ensures file.Missing? || (file.Parsed? && !Truthy(file.data)) ==> r == Finished(1, [], [], None)
    ensures r.Crashed? <==> file.Unreadable? || (file.Parsed? && Truthy(file.data) && WalletList(file.data).Failure?)
    ensures r.Finished? && r.saved.Some? ==>
      r.saved.value == r.valid && |r.invalid| > 0 && (autoRemove || Confirmed(answer)) && r.code == 0
    ensures r.Finished? && Loaded(file).Some? ==>
      (r.saved.None? && r.code == 1 <==> |r.invalid| > 0 && (autoRemove || Confirmed(answer)) && !written)
    ensures r.Finished? && Loaded(file).Some? && |r.invalid| > 0 && (autoRemove || Confirmed(answer)) && written ==>
      r.saved == Some(r.valid)
    ensures r.Finished? ==> forall w :: w in r.valid ==>
      Loaded(file).Some? && w in Loaded(file).value && IsValid(w, Answers(replies))
  {
    match Load(file)
    case Failure(e) => Crashed(e)
    case Success(None) => Finished(1, [], [], None)
    case Success(Some(wallets)) =>
      var g := Classify(wallets, Sessions(useProxy, proxies, threads), order, Answers(replies));
      ClassifySound(wallets, Sessions(useProxy, proxies, threads), order, Answers(replies));
      Report(g, autoRemove, answer, written)
  }

  /**
   * `load_wallets` and the checks after it: None when the file is missing or holds a falsy value
   * (`main` returns 1), the wallet list otherwise; an unreadable file or a value that is not
   * subscriptable raises.
   */
  function Load(file: WalletsFile): (r: Result<Option<seq<Json>>, string>)
    ensures r.Failure? <==> file.Unreadable? || (file.Parsed? && Truthy(file.data) && WalletList(file.data).Failure?)
    ensures r.Success? ==> r.value == Loaded(file)
  {
    match file
    case Missing => Success(None)
    case Unreadable => Failure("JSONDecodeError")
    case Parsed(data) =>
      if !Truthy(data) then Success(None)
      else
        match WalletList(data)
        case Failure(e) => Failure(e)
        case Success(wallets) => Success(Some(wallets))
  }

  /**
   * The end of `main`: the invalid addresses are listed, and the valid wallets are saved when there
   * are invalid ones, removal is confirmed (or automatic) and the file can be written.
   */
  function Report(g: (seq<Json>, seq<Json>), autoRemove: bool, answer: string, written: bool): (r: Run)
    ensures r.Finished? && r.valid == g.0 && r.invalid == AddressTexts(g.1)
    ensures r.saved.Some? ==> r.saved.value == g.0 && |r.invalid| > 0 && (autoRemove || Confirmed(answer)) && r.code == 0
    ensures r.saved.None? && r.code == 1 <==> |r.invalid| > 0 && (autoRemove || Confirmed(answer)) && !written
    ensures |r.invalid| > 0 && (autoRemove || Confirmed(answer)) && written ==> r.saved == Some(g.0)
  {
    var invalid := AddressTexts(g.1);
    if |invalid| == 0 then Finished(0, g.0, invalid, None)
    else if autoRemove || Confirmed(answer) then
      if written then Finished(0, g.0, invalid, Some(g.0)) else Finished(1, g.0, invalid, None)
    else Finished(0, g.0, invalid, None)
  }

  /**
   * The run's lists when every wallet has a string address and every thread completes once: the
   * valid list and the invalid addresses split the file's wallets between them, and a saved file
   * holds exactly the valid wallets.
   */
  lemma EveryWalletClassified(file: WalletsFile, useProxy: bool, proxies: Proxies, threads: nat, order: seq<nat>,
                              replies: Json -> nat -> Reply, autoRemove: bool, answer: string, written: bool)
    requires Loaded(file).Some? && WellFormed(Loaded(file).value)
    requires multiset(order) == multiset(Indices(|Chunks(Loaded(file).value, Sessions(useProxy, proxies, threads))|))
    ensures var wallets := Loaded(file).value;
      var server := Answers(replies);
      var r := RedeemCheck(file, useProxy, proxies, threads, order, replies, autoRemove, answer, written);
      var bad := Classify(wallets, Sessions(useProxy, proxies, threads), order, server).1;
      && r.Finished?
      && multiset(r.valid) == multiset(Keep(wallets, server, true))
      && r.invalid == AddressTexts(bad)
      && multiset(bad) == multiset(Keep(wallets, server, false))
      && multiset(r.valid) + multiset(bad) == multiset(wallets)
      && (r.saved.Some? ==> multiset(r.saved.value) == multiset(Keep(wallets, server, true)))
  {
    var wallets := Loaded(file).value;
    var server := Answers(replies);
    RunLists(file, useProxy, proxies, threads, order, replies, autoRemove, answer, written);
    ClassifyComplete(wallets, Sessions(useProxy, proxies, threads), order, server);
    KeepSplits(wallets, server);
  }

  /** With a loaded wallet list the run finishes, reporting the two sides of `Classify`. */
  lemma RunLists(file: WalletsFile, useProxy: bool, proxies: Proxies, threads: nat, order: seq<nat>,
                 replies: Json -> nat -> Reply, autoRemove: bool, answer: string, written: bool)
    requires Loaded(file).Some?
    ensures var g := Classify(Loaded(file).value, Sessions(useProxy, proxies, threads), order, Answers(replies));
      var r := RedeemCheck(file, useProxy, proxies, threads, order, replies, autoRemove, answer, written);
      && r.Finished? && r.valid == g.0 && r.invalid == AddressTexts(g.1)
      && (r.saved.Some? ==> r.saved.value == g.0)
  {
  }
}

=== FILE: resubmit.dfy ===
/**
 * The offline pass of `resubmit_solutions.py` over the dead-letter file: loading the wallet
 * file, re-registering an address the server does not know, classifying each submission,
 * deciding which lines to keep and rewriting the file with exactly those lines.
 */
module Resubmit {
  import opened Wrappers
  import opened Text
  import opened Json
  import opened Http
  import opened Outbox

  // ---------------------------------------------------------------------------------------------
  // `load_wallets`

  /**
   * The wallet file as `load_wallets` finds it: missing, failing to open or not JSON (an OSError or
   * JSONDecodeError, both caught), holding bytes that do not decode as text (a UnicodeDecodeError,
   * which the handler does not name), or decoded.
   */
  datatype WalletFile = Missing | Unreadable | Undecodable | Parsed(data: Json)

  /** The non-empty string address of a list entry, the only kind a CSV address can ever look up. */
  function AddressOf(item: Json): Option<string> {
    if item.JObj? then
      match Get(item.members, "address")
      case Some(JStr(a)) => if a != "" then Some(a) else None
      case _ => None
    else None
  }

  /** A list entry that makes the indexing raise: not an object, or a non-empty list or object as address. */
  predicate BadItem(item: Json) {
    || !item.JObj?
    || (Get(item.members, "address").Some? && Truthy(Get(item.members, "address").value)
        && (Get(item.members, "address").value.JArr? || Get(item.members, "address").value.JObj?))
  }

  /** The position of the last list entry with address `a`, the one indexing keeps. */
  function LastWith(items: seq<Json>, a: string): (r: Option<nat>)
    ensures r.None? <==> forall i :: 0 <= i < |items| ==> AddressOf(items[i]) != Some(a)
    ensures r.Some? ==>
      (r.value < |items| && AddressOf(items[r.value]) == Some(a)
       && forall k :: r.value < k < |items| ==> AddressOf(items[k]) != Some(a))
  {
    if |items| == 0 then None
    else if AddressOf(items[|items| - 1]) == Some(a) then Some(|items| - 1)
    else LastWith(items[..|items| - 1], a)
  }

  /** Indexing a list by address; a later entry for the same address replaces an earlier one. */
  function IndexList(items: seq<Json>): (r: Result<map<string, Json>, string>)
    ensures r.Failure? <==> exists i :: 0 <= i < |items| && BadItem(items[i])
  {
    if |items| == 0 then Success(map[])
    else
      var init := items[..|items| - 1];
      var last := items[|items| - 1];
      match IndexList(init)
      case Failure(e) =>
        var i :| 0 <= i < |init| && BadItem(init[i]);
        assert items[i] == init[i];
        Failure(e)
      case Success(m) =>
        if BadItem(last) then Failure("entry cannot be indexed")
        else
          assert forall i :: 0 <= i < |items| - 1 ==> items[i] == init[i];
          match AddressOf(last)
          case None => Success(m)
          case Some(a) => Success(m[a := last])
  }

  /** Every address a list entry carries is indexed, to the last entry that carries it. */
  lemma {:induction false} IndexListLastWins(items: seq<Json>, a: string)
    requires IndexList(items).Success?
    ensures a in IndexList(items).value <==> LastWith(items, a).Some?
    ensures a in IndexList(items).value ==> IndexList(items).value[a] == items[LastWith(items, a).value]
  {
    if |items| > 0 {
      var init := items[..|items| - 1];
      assert IndexList(init).Success?;
      IndexListLastWins(init, a);
    }
  }

  /** Indexing an object: its members as they are, a repeated key keeping its last value. */
  function IndexMembers(members: seq<(string, Json)>): (r: map<string, Json>)
    ensures forall a :: a in r <==> Get(members, a).Some?
    ensures forall a :: a in r ==> r[a] == Get(members, a).value
  {
    if |members| == 0 then map[]
    else IndexMembers(members[..|members| - 1])[members[|members| - 1].0 := members[|members| - 1].1]
  }

  /**
   * `load_wallets`: a missing or unreadable file, or one holding neither a list nor an object, gives
   * an empty map; undecodable bytes raise out of the function.
   */
  function LoadWallets(f: WalletFile): (r: Result<map<string, Json>, string>)
    ensures f.Missing? || f.Unreadable? || (f.Parsed? && !(f.data.JArr? || f.data.JObj?)) ==> r == Success(map[])
    ensures f.Undecodable? ==> r.Failure?
    ensures f.Parsed? && f.data.JObj? ==> r == Success(IndexMembers(f.data.members))
    ensures f.Parsed? && f.data.JArr? ==> r == IndexList(f.data.items)
  {
    match f
    case Missing => Success(map[])
    case Unreadable => Success(map[])
    case Undecodable => Failure("UnicodeDecodeError")
    case Parsed(data) =>
      if data.JArr? then IndexList(data.items)
      else if data.JObj? then Success(IndexMembers(data.members))
      else Success(map[])
  }

  // ---------------------------------------------------------------------------------------------
  // `register_wallet_with_api`

  datatype Registration = RegisterOk(message: string) | RegisterFailed(message: string) | RegisterRaised

  /** The stored wallet is usable: present, truthy, an object, with truthy signature and public key. */
  predicate WillRequest(address: string, wm: map<string, Json>) {
    && address in wm && Truthy(wm[address]) && wm[address].JObj?
    && Truthy(GetOr(wm[address].members, "signature", JNull))
    && Truthy(GetOr(wm[address].members, "pubkey", JNull))
  }

  /** The error message of a failed call: the JSON `message` when the body is an object, else the text; None when reading it raises. */
  function ErrorMessage(text: string, body: Option<Json>): Option<Json> {
    match body
    case None => Some(JStr(text))
    case Some(JObj(m)) => Some(GetOr(m, "message", JStr(text)))
    case Some(_) => None
  }

  /** `register_wallet_with_api(address, wallet_map)` with the reply its request would get. */
  function RegisterAddress(address: string, wm: map<string, Json>, reply: Reply): (r: Registration)
    ensures !WillRequest(address, wm) && (address !in wm || !wm[address].JObj? || !Truthy(wm[address])) ==>
      r.RegisterFailed? || r.RegisterRaised?
    ensures r.RegisterOk? <==>
      (WillRequest(address, wm) && reply.Response? &&
       (!IsHttpError(reply.status) ||
        (reply.status == 400 && ErrorMessage(reply.text, reply.body).Some?
         && ErrorMessage(reply.text, reply.body).value.JStr?
         && Contains(Lower(ErrorMessage(reply.text, reply.body).value.s), "already"))))
  {
    if address !in wm || !Truthy(wm[address]) then RegisterFailed("No wallet data found for address " + address)
    else if !wm[address].JObj? then RegisterRaised
    else if !WillRequest(address, wm) then RegisterFailed("Wallet data for " + address + " missing signature or pubkey")
    else match reply
      case TimedOut => RegisterFailed("Registration request timed out")
      case TransportError(m) => RegisterFailed(m)
      case Response(status, text, body) =>
        if !IsHttpError(status) then RegisterOk("Registered successfully")
        else match ErrorMessage(text, body)
          case None => RegisterRaised
          case Some(msg) =>
            if status == 400 && Truthy(msg) then
              if !msg.JStr? then RegisterRaised
              else if Contains(Lower(msg.s), "already") then RegisterOk(msg.s)
              else RegisterFailed("HTTP 400: " + msg.s)
            else RegisterFailed("HTTP " + IntToString(status) + ": " + Str(msg))
  }

  /** Without usable wallet data no request is made: the reply cannot change the outcome. */
  lemma NoRequestWithoutWalletData(address: string, wm: map<string, Json>, r1: Reply, r2: Reply)
    requires !WillRequest(address, wm)
    ensures RegisterAddress(address, wm, r1) == RegisterAddress(address, wm, r2)
    ensures !RegisterAddress(address, wm, r1).RegisterOk?
  {
  }

  // ---------------------------------------------------------------------------------------------
  // `submit_solution`

  datatype SubmitStatus = Solved | Rejected | AlreadyExists | NeedsRegistration | Errored

  /** How one submission ends: a status and message, or an exception that leaves `submit_solution`. */
  datatype Submission = Submitted(status: SubmitStatus, message: string) | SubmitRaised

  const ExistsMarker: string := "solution already exists"

  /** The lower-cased message used for the checks: empty unless the message is a string. */
  function LowerMessage(msg: Json): string {
    if msg.JStr? then Lower(msg.s) else ""
  }

  /** `submit_solution(address, challenge_id, nonce)` with the reply its request gets. */
  function Submit(reply: Reply): (r: Submission)
    ensures r == Submitted(Solved, "Solution accepted") <==>
      reply.Response? && !IsHttpError(reply.status) && reply.body.Some? && reply.body.value.JObj?
      && Get(reply.body.value.members, "crypto_receipt").Some?
      && Get(reply.body.value.members, "crypto_receipt").value != JNull
    ensures r.Submitted? && r.status == AlreadyExists ==> reply.Response? && IsHttpError(reply.status)
    ensures r.Submitted? && r.status == NeedsRegistration ==>
      reply.Response? && IsHttpError(reply.status) && Contains(Lower(r.message), "address")
      && Contains(Lower(r.message), "not registered")
    ensures r.SubmitRaised? <==> reply.Response? && IsHttpError(reply.status) && ErrorMessage(reply.text, reply.body).None?
    ensures !reply.Response? ==> r.Submitted? && r.status == Errored
  {
    match reply
    case TimedOut => Submitted(Errored, "Request timed out")
    case TransportError(m) => Submitted(Errored, m)
    case Response(status, text, body) =>
      if !IsHttpError(status) then
        match body
        case None => Submitted(Errored, "response body is not valid JSON")
        case Some(JObj(m)) =>
          var receipt := Get(m, "crypto_receipt");
          if receipt.Some? && receipt.value != JNull then Submitted(Solved, "Solution accepted")
          else Submitted(Rejected, "No crypto receipt in response")
        case Some(_) => Submitted(Errored, "response body has no attribute 'get'")
      else match ErrorMessage(text, body)
        case None => SubmitRaised
        case Some(msg) =>
          var lowerMessage := LowerMessage(msg);
          if Contains(Lower(text), ExistsMarker) || Contains(lowerMessage, ExistsMarker) then
            Submitted(AlreadyExists, "Solution already exists")
          else if lowerMessage != "" && Contains(lowerMessage, "address") && Contains(lowerMessage, "not registered") then
            LowerOfStringMessage(msg);
            Submitted(NeedsRegistration, msg.s)
          else Submitted(Errored, "HTTP " + IntToString(status) + ": " + Str(msg))
  }

  lemma LowerOfStringMessage(msg: Json)
    requires LowerMessage(msg) != ""
    ensures msg.JStr? && Lower(msg.s) == LowerMessage(msg)
  {
  }

  /** The three success conditions of the classification, stated on the reply. */
  lemma ClassificationCases(reply: Reply)
    ensures (reply.Response? && IsHttpError(reply.status) && ErrorMessage(reply.text, reply.body).Some?
      && Contains(Lower(reply.text), ExistsMarker)) ==>
      Submit(reply) == Submitted(AlreadyExists, "Solution already exists")
    ensures (reply.Response? && !IsHttpError(reply.status) && reply.body.Some? && reply.body.value.JObj?
      && Get(reply.body.value.members, "crypto_receipt").GetOr(JNull) == JNull) ==>
      Submit(reply) == Submitted(Rejected, "No crypto receipt in response")
  {
  }

  // ---------------------------------------------------------------------------------------------
  // One line of the file

  /** The replies one line would get: the submission, and the registration and second submission if asked for. */
  datatype LineReplies = LineReplies(first: Reply, registration: Reply, second: Reply)

  /** The counter a line ends up in; `Unparsed` lines are kept but counted nowhere, blank lines are skipped. */
  datatype Category = CountSuccess | CountAlreadyExists | CountWindowClosed | CountRejected | CountError | Unparsed | Blank

  datatype LineResult = LineResult(category: Category, registered: bool)

  /** A line is kept in the file exactly when it was rejected, failed, or could not be parsed. */
  predicate KeptCategory(c: Category) {
    c == CountRejected || c == CountError || c == Unparsed
  }

  /** The disposition of a finished submission, in the order the script tests it. */
  function Dispose(status: SubmitStatus, message: string): (c: Category)
    ensures c == CountSuccess || c == CountAlreadyExists || c == CountWindowClosed || c == CountRejected || c == CountError
    ensures !KeptCategory(c) <==>
      status == Solved || status == AlreadyExists || (Contains(Lower(message), "window") && Contains(Lower(message), "closed"))
  {
    if status == Solved then CountSuccess
    else if status == AlreadyExists then CountAlreadyExists
    else if Contains(Lower(message), "window") && Contains(Lower(message), "closed") then CountWindowClosed
    else if status == Rejected then CountRejected
    else CountError
  }

  /** The body of the per-line loop, including its catch-all that keeps the line on an exception. */
  function ProcessLine(line: string, wm: map<string, Json>, rs: LineReplies): (r: LineResult)
    ensures r.category == Blank <==> Strip(line) == ""
    ensures r.category == Unparsed <==> Strip(line) != "" && |Split(Strip(line), ',')| != 3
  {
    var s := Strip(line);
    if s == "" then LineResult(Blank, false)
    else
      var parts := Split(s, ',');
      if |parts| != 3 then LineResult(Unparsed, false)
      else SubmitLine(parts[0], wm, rs)
  }

  /** A parsed line: submit, register and resubmit once if the address is unknown, then dispose. */
  function SubmitLine(address: string, wm: map<string, Json>, rs: LineReplies): (r: LineResult)
    ensures r.category != Blank && r.category != Unparsed
    ensures r.registered ==> Submit(rs.first).Submitted? && Submit(rs.first).status == NeedsRegistration
  {
    match Submit(rs.first)
    case SubmitRaised => LineResult(CountError, false)
    case Submitted(status, message) =>
      if status != NeedsRegistration then LineResult(Dispose(status, message), false)
      else match RegisterAddress(address, wm, rs.registration)
        case RegisterRaised => LineResult(CountError, false)
        case RegisterFailed(_) => LineResult(CountError, false)
        case RegisterOk(_) =>
          match Submit(rs.second)
          case SubmitRaised => LineResult(CountError, true)
          case Submitted(status2, message2) => LineResult(Dispose(status2, message2), true)
  }

  /** Registration and the second submission happen only after a "not registered" answer; a failed registration keeps the line. */
  lemma RegistrationOnlyWhenAsked(line: string, wm: map<string, Json>, rs: LineReplies, reg: Reply, second: Reply)
    ensures !(Submit(rs.first).Submitted? && Submit(rs.first).status == NeedsRegistration) ==>
      ProcessLine(line, wm, rs) == ProcessLine(line, wm, LineReplies(rs.first, reg, second))
    ensures var parts := Split(Strip(line), ',');
      Strip(line) != "" && |parts| == 3 && Submit(rs.first).Submitted? && Submit(rs.first).status == NeedsRegistration
      && !RegisterAddress(parts[0], wm, rs.registration).RegisterOk? ==>
      ProcessLine(line, wm, rs) == LineResult(CountError, false)
  {
  }

  // ---------------------------------------------------------------------------------------------
  // The whole pass

  datatype Tally = Tally(success: nat, alreadyExists: nat, rejected: nat, error: nat, registered: nat,
                         windowClosed: nat, unparsed: nat)

  function Count(t: Tally, r: LineResult): Tally {
    var t := if r.registered then t.(registered := t.registered + 1) else t;
    match r.category
    case CountSuccess => t.(success := t.success + 1)
    case CountAlreadyExists => t.(alreadyExists := t.alreadyExists + 1)
    case CountWindowClosed => t.(windowClosed := t.windowClosed + 1)
    case CountRejected => t.(rejected := t.rejected + 1)
    case CountError => t.(error := t.error + 1)
    case Unparsed => t.(unparsed := t.unparsed + 1)
    case Blank => t
  }

  /** The number of lines a tally has put in a counter other than `registered`. */
  function Settled(t: Tally): nat {
    t.success + t.alreadyExists + t.windowClosed + t.rejected + t.error + t.unparsed
  }

  /** What the loop does with each line, in order. */
  function Results(lines: seq<string>, wm: map<string, Json>, rs: seq<LineReplies>): (results: seq<LineResult>)
    requires |rs| >= |lines|
    ensures |results| == |lines|
    ensures forall i :: 0 <= i < |lines| ==> results[i] == ProcessLine(lines[i], wm, rs[i])
  {
    seq(|lines|, i requires 0 <= i < |lines| => ProcessLine(lines[i], wm, rs[i]))
  }

  /** The positions of the kept lines, in input order. */
  function KeptIndices(results: seq<LineResult>): (kept: seq<nat>)
    ensures forall k :: 0 <= k < |kept| ==> kept[k] < |results|
    ensures forall k, m :: 0 <= k < m < |kept| ==> kept[k] < kept[m]
    ensures forall i :: 0 <= i < |results| ==> (i in kept <==> KeptCategory(results[i].category))
  {
    if |results| == 0 then []
    else
      var n := |results| - 1;
      var kept := KeptIndices(results[..n]);
      assert forall i :: 0 <= i < n ==> results[..n][i] == results[i];
      if KeptCategory(results[n].category) then kept + [n] else kept
  }

  /** The loop's counters. */
  function TallyAll(results: seq<LineResult>): Tally {
    if |results| == 0 then Tally(0, 0, 0, 0, 0, 0, 0)
    else Count(TallyAll(results[..|results| - 1]), results[|results| - 1])
  }

  /** The number of blank lines. */
  function Blanks(results: seq<LineResult>): (n: nat)
    ensures n <= |results|
  {
    if |results| == 0 then 0
    else Blanks(results[..|results| - 1]) + (if results[|results| - 1].category == Blank then 1 else 0)
  }

  /**
   * Every non-blank line lands in exactly one counter, and the kept lines are exactly those
   * counted as rejected, failed or unparsed.
   */
  lemma {:induction false} TallyPartition(results: seq<LineResult>)
    ensures |KeptIndices(results)| == TallyAll(results).rejected + TallyAll(results).error + TallyAll(results).unparsed
    ensures Settled(TallyAll(results)) == |results| - Blanks(results)
  {
    if |results| > 0 {
      TallyPartition(results[..|results| - 1]);
    }
  }

  /** How the script ends: an exit code with the new file contents if it rewrote the file, or a crash. */
  datatype Run = Done(code: int, rewritten: Option<string>, tally: Tally) | Crashed(error: string)

  /** The kept lines, stripped, in input order. */
  function KeptLines(lines: seq<string>, kept: seq<nat>): seq<string>
    requires forall k :: 0 <= k < |kept| ==> kept[k] < |lines|
  {
    seq(|kept|, k requires 0 <= k < |kept| => Strip(lines[kept[k]]))
  }

  /**
   * `main` after argument parsing: `solutions` is the dead-letter file if it exists, `wf` the
   * wallet file, and `rs[i]` the replies for line i.
   */
  function Resubmit(solutions: Option<string>, wf: WalletFile, rs: seq<LineReplies>): (r: Run)
    requires solutions.Some? ==> |rs| >= |ReadLines(solutions.value)|
    ensures solutions.None? ==> r == Done(1, None, Tally(0, 0, 0, 0, 0, 0, 0))
    ensures solutions == Some("") ==> r == Done(0, None, Tally(0, 0, 0, 0, 0, 0, 0))
    ensures r.Crashed? <==> solutions.Some? && solutions.value != "" && LoadWallets(wf).Failure?
    ensures r.Done? && r.rewritten.Some? ==> LineTerminated(r.rewritten.value)
  {
    match solutions
    case None => Done(1, None, Tally(0, 0, 0, 0, 0, 0, 0))
    case Some(content) =>
      var lines := ReadLines(content);
      if lines == [] then Done(0, None, Tally(0, 0, 0, 0, 0, 0, 0))
      else match LoadWallets(wf)
        case Failure(e) => Crashed(e)
        case Success(wm) =>
          var results := Results(lines, wm, rs);
          Done(0, Some(Rewrite(KeptLines(lines, KeptIndices(results)))), TallyAll(results))
  }

  /** Stripping cannot bring in a character the line does not contain. */
  lemma StripKeepsOut(line: string, c: char)
    requires c !in line
    ensures c !in Strip(line)
  {
    var k: nat :| SliceAt(line, Strip(line), k);
    assert forall j :: 0 <= j < |Strip(line)| ==> Strip(line)[j] == line[k + j];
  }

  /** Rewriting the kept lines: they read back in order, and the file is empty exactly when none is kept. */
  lemma RewriteOfKept(lines: seq<string>, results: seq<LineResult>)
    requires |results| == |lines| && forall i :: 0 <= i < |lines| ==> '\n' !in lines[i]
    ensures ReadLines(Rewrite(KeptLines(lines, KeptIndices(results)))) == KeptLines(lines, KeptIndices(results))
    ensures Rewrite(KeptLines(lines, KeptIndices(results))) == "" <==>
      forall i :: 0 <= i < |results| ==> !KeptCategory(results[i].category)
  {
    var kept := KeptIndices(results);
    var out := KeptLines(lines, kept);
    forall k | 0 <= k < |out|
      ensures '\n' !in out[k]
    {
      StripKeepsOut(lines[kept[k]], '\n');
    }
    RewriteReadsBack(out);
    if kept != [] {
      assert kept[0] in kept;
    }
  }

  /**
   * The rewritten file reads back as exactly the kept lines, stripped, in input order; it is
   * empty exactly when no line is kept.
   */
  lemma RewriteKeepsExactly(content: string, wf: WalletFile, rs: seq<LineReplies>)
    requires |rs| >= |ReadLines(content)| && content != "" && LoadWallets(wf).Success?
    ensures var lines := ReadLines(content);
      var results := Results(lines, LoadWallets(wf).value, rs);
      var r := Resubmit(Some(content), wf, rs);
      && r == Done(0, Some(Rewrite(KeptLines(lines, KeptIndices(results)))), TallyAll(results))
      && ReadLines(r.rewritten.value) == KeptLines(lines, KeptIndices(results))
      && (r.rewritten.value == "" <==> forall i :: 0 <= i < |lines| ==> !KeptCategory(results[i].category))
  {
    var lines := ReadLines(content);
    RewriteOfKept(lines, Results(lines, LoadWallets(wf).value, rs));
  }

  /** A line the miner wrote with plain fields is submitted as the same record; once accepted it is dropped. */
  lemma MinerLineIsSubmitted(rec: Record, wm: map<string, Json>, rs: LineReplies)
    requires PlainRecord(rec)
    requires Submit(rs.first) == Submitted(Solved, "Solution accepted")
    ensures ParseLine(Strip(RecordText(rec))) == Some(rec)
    ensures ProcessLine(RecordText(rec), wm, rs) == LineResult(CountSuccess, false)
  {
    LineRoundTrip(rec);
    var s := Strip(RecordText(rec));
    assert s == RecordText(rec);
    assert |Split(s, ',')| == 3;
  }

  // ---------------------------------------------------------------------------------------------
  // `parse_args`

  const DefaultWalletsFile: string := "wallets.json"

  /** The scan from position `i` with the choices made so far. */
  function ParseFrom(args: seq<string>, i: nat, walletsFile: string, defensio: bool): (r: (string, bool))
    requires i <= |args|
    ensures defensio ==> r.1
    decreases |args| - i
  {
    if i == |args| then (walletsFile, defensio)
    else if (args[i] == "--wallets" || args[i] == "--wallets-file") && i + 1 < |args| then
      ParseFrom(args, i + 2, args[i + 1], defensio)
    else if args[i] == "--defensio" then ParseFrom(args, i + 1, walletsFile, true)
    else ParseFrom(args, i + 1, walletsFile, defensio)
  }

  /** `parse_args()` over `sys.argv[1:]`. */
  function ParseArgs(args: seq<string>): (string, bool) {
    ParseFrom(args, 0, DefaultWalletsFile, false)
  }

  /** No recognised option leaves the defaults. */
  lemma {:induction false} ParseArgsDefaults(args: seq<string>, i: nat, w: string, d: bool)
    requires i <= |args|
    requires forall k :: i <= k < |args| ==> args[k] != "--wallets" && args[k] != "--wallets-file" && args[k] != "--defensio"
    ensures ParseFrom(args, i, w, d) == (w, d)
    decreases |args| - i
  {
    if i < |args| {
      ParseArgsDefaults(args, i + 1, w, d);
    }
  }

  /** A trailing `--wallets <file>` wins over everything before it, when the scan of the prefix ends on its last element. */
  lemma {:induction false} LastWalletsWins(args: seq<string>, i: nat, w: string, d: bool, flag: string, file: string)
    requires i <= |args| && (flag == "--wallets" || flag == "--wallets-file")
    requires Lands(args, i)
    ensures ParseFrom(args + [flag, file], i, w, d) == (file, ParseFrom(args, i, w, d).1)
    decreases |args| - i
  {
    var all := args + [flag, file];
    if i == |args| {
      assert all[i] == flag && all[i + 1] == file;
      assert ParseFrom(all, i + 2, file, d) == (file, d);
    } else {
      assert all[i] == args[i];
      if (args[i] == "--wallets" || args[i] == "--wallets-file") && i + 1 < |args| {
        assert all[i + 1] == args[i + 1];
        LastWalletsWins(args, i + 2, args[i + 1], d, flag, file);
      } else if args[i] == "--defensio" {
        LastWalletsWins(args, i + 1, w, true, flag, file);
      } else {
        LastWalletsWins(args, i + 1, w, d, flag, file);
      }
    }
  }

  /** The scan from `i` never takes the element after the end as a value: no option name is left dangling last. */
  predicate Lands(args: seq<string>, i: nat)
    requires i <= |args|
    decreases |args| - i
  {
    if i == |args| then true
    else if (args[i] == "--wallets" || args[i] == "--wallets-file") then
      i + 1 < |args| && Lands(args, i + 2)
    else Lands(args, i + 1)
  }
}

=== FILE: sorting.dfy ===
/**
 * A stable sort by key, with the guarantees Python's `list.sort(key=...)` and `sorted(..., key=...)`
 * give: the output is ordered by key, and elements with equivalent keys keep their input order.
 */
module Sorting {

  /** `le` is total and transitive: the shape of Python's `<=` on keys of one type. */
  ghost predicate TotalPreorder<K(!new)>(le: (K, K) -> bool) {
    && (forall a, b :: le(a, b) || le(b, a))
    && (forall a, b, c :: le(a, b) && le(b, c) ==> le(a, c))
  }

  /** Two keys that neither sorts before the other. */
  predicate Equiv<K>(le: (K, K) -> bool, a: K, b: K) {
    le(a, b) && le(b, a)
  }

  ghost predicate SortedBy<T, K>(s: seq<T>, key: T -> K, le: (K, K) -> bool) {
    forall i, j :: 0 <= i < j < |s| ==> le(key(s[i]), key(s[j]))
  }

  /** The elements of `s` whose key is equivalent to `k`, in their order in `s`. */
  function KeyClass<T, K>(s: seq<T>, key: T -> K, le: (K, K) -> bool, k: K): seq<T> {
    if |s| == 0 then []
    else (if Equiv(le, key(s[0]), k) then [s[0]] else []) + KeyClass(s[1..], key, le, k)
  }

  /** Puts `x` in front of the first element whose key is not below `x`'s. */
  function InsertBy<T, K>(x: T, s: seq<T>, key: T -> K, le: (K, K) -> bool): (r: seq<T>)
    ensures |r| == |s| + 1
  {
    if |s| == 0 then [x]
    else if le(key(x), key(s[0])) then [x] + s
    else [s[0]] + InsertBy(x, s[1..], key, le)
  }

  /** Insertion sort from the back: every element lands before later elements with an equivalent key. */
  function SortBy<T, K>(s: seq<T>, key: T -> K, le: (K, K) -> bool): (r: seq<T>)
    ensures |r| == |s|
  {
    if |s| == 0 then [] else InsertBy(s[0], SortBy(s[1..], key, le), key, le)
  }

  lemma {:induction false} InsertSorted<T, K(!new)>(x: T, s: seq<T>, key: T -> K, le: (K, K) -> bool)
    requires TotalPreorder(le)
    requires SortedBy(s, key, le)
    ensures SortedBy(InsertBy(x, s, key, le), key, le)
    ensures multiset(InsertBy(x, s, key, le)) == multiset(s) + multiset{x}
    decreases |s|
  {
    InsertMultiset(x, s, key, le);
    if |s| > 0 && !le(key(x), key(s[0])) {
      var r := InsertBy(x, s[1..], key, le);
      InsertSorted(x, s[1..], key, le);
      InsertMembers(x, s[1..], key, le);
      forall j | 0 <= j < |r|
        ensures le(key(s[0]), key(r[j]))
      {
        assert r[j] in r;
        if r[j] != x {
          var m :| 0 <= m < |s[1..]| && s[1..][m] == r[j];
          assert s[1 + m] == r[j];
        }
      }
      SortedCons(s[0], r, key, le);
    }
  }

  /** Everything in the result of `InsertBy` is `x` or came from `s`. */
  lemma {:induction false} InsertMembers<T, K>(x: T, s: seq<T>, key: T -> K, le: (K, K) -> bool)
    ensures forall y :: y in InsertBy(x, s, key, le) ==> y == x || y in s
    decreases |s|
  {
    if |s| > 0 && !le(key(x), key(s[0])) {
      InsertMembers(x, s[1..], key, le);
      assert s == [s[0]] + s[1..];
    }
  }

  lemma {:induction false} InsertMultiset<T, K>(x: T, s: seq<T>, key: T -> K, le: (K, K) -> bool)
    ensures multiset(InsertBy(x, s, key, le)) == multiset(s) + multiset{x}
    decreases |s|
  {
    if |s| > 0 && !le(key(x), key(s[0])) {
      InsertMultiset(x, s[1..], key, le);
      assert s == [s[0]] + s[1..];
    }
  }

  /** A sorted sequence stays sorted under a new head no greater than any of its keys. */
  lemma SortedCons<T, K>(y: T, r: seq<T>, key: T -> K, le: (K, K) -> bool)
    requires SortedBy(r, key, le)
    requires forall j :: 0 <= j < |r| ==> le(key(y), key(r[j]))
    ensures SortedBy([y] + r, key, le)
  {
    forall i, j | 0 <= i < j < |[y] + r|
      ensures le(key(([y] + r)[i]), key(([y] + r)[j]))
    {
      if i > 0 {
        assert ([y] + r)[i] == r[i - 1];
      }
      assert ([y] + r)[j] == r[j - 1];
    }
  }

  lemma InsertKeyClass<T, K(!new)>(x: T, s: seq<T>, key: T -> K, le: (K, K) -> bool, k: K)
    requires TotalPreorder(le)
    ensures KeyClass(InsertBy(x, s, key, le), key, le, k)
         == (if Equiv(le, key(x), k) then [x] else []) + KeyClass(s, key, le, k)
  {
    if Equiv(le, key(x), k) {
      PassesOutsideClass(x, s, key, le, k);
      InsertInClass(x, s, key, le, k);
    } else {
      InsertOutsideClass(x, s, key, le, k);
    }
  }

  /** Every element `InsertBy` moves `x` past lies outside class `k`. */
  predicate PassesOutside<T, K>(x: T, s: seq<T>, key: T -> K, le: (K, K) -> bool, k: K) {
    |s| == 0 || le(key(x), key(s[0])) || (!Equiv(le, key(s[0]), k) && PassesOutside(x, s[1..], key, le, k))
  }

  lemma {:induction false} PassesOutsideClass<T, K(!new)>(x: T, s: seq<T>, key: T -> K, le: (K, K) -> bool, k: K)
    requires TotalPreorder(le) && Equiv(le, key(x), k)
    ensures PassesOutside(x, s, key, le, k)
    decreases |s|
  {
    if |s| > 0 && !le(key(x), key(s[0])) {
      BelowClass(le, key(x), key(s[0]), k);
      PassesOutsideClass(x, s[1..], key, le, k);
    }
  }

  /** Inserting an element of another class leaves class `k` as it was. */
  lemma {:induction false} InsertOutsideClass<T, K>(x: T, s: seq<T>, key: T -> K, le: (K, K) -> bool, k: K)
    requires !Equiv(le, key(x), k)
    ensures KeyClass(InsertBy(x, s, key, le), key, le, k) == KeyClass(s, key, le, k)
    decreases |s|
  {
    if |s| > 0 {
      if le(key(x), key(s[0])) {
        KeyClassCons(x, s, key, le, k);
      } else {
        InsertOutsideClass(x, s[1..], key, le, k);
        KeyClassCons(s[0], InsertBy(x, s[1..], key, le), key, le, k);
      }
    }
  }

  /** Inserting an element of class `k` that only passes other classes puts it first in the class. */
  lemma {:induction false} InsertInClass<T, K>(x: T, s: seq<T>, key: T -> K, le: (K, K) -> bool, k: K)
    requires Equiv(le, key(x), k) && PassesOutside(x, s, key, le, k)
    ensures KeyClass(InsertBy(x, s, key, le), key, le, k) == [x] + KeyClass(s, key, le, k)
    decreases |s|
  {
    if |s| == 0 {
      KeyClassCons(x, s, key, le, k);
    } else if le(key(x), key(s[0])) {
      KeyClassCons(x, s, key, le, k);
    } else {
      InsertInClass(x, s[1..], key, le, k);
      PassOutsideStep(x, s, key, le, k);
    }
  }

  lemma PassOutsideStep<T, K>(x: T, s: seq<T>, key: T -> K, le: (K, K) -> bool, k: K)
    requires |s| > 0 && !le(key(x), key(s[0])) && !Equiv(le, key(s[0]), k)
    requires KeyClass(InsertBy(x, s[1..], key, le), key, le, k) == [x] + KeyClass(s[1..], key, le, k)
    ensures KeyClass(InsertBy(x, s, key, le), key, le, k) == [x] + KeyClass(s, key, le, k)
  {
    var r := InsertBy(x, s[1..], key, le);
    assert InsertBy(x, s, key, le) == [s[0]] + r;
    assert KeyClass([s[0]] + r, key, le, k) == KeyClass(r, key, le, k) by {
      KeyClassCons(s[0], r, key, le, k);
    }
    assert KeyClass(s, key, le, k) == KeyClass(s[1..], key, le, k);
  }

  lemma KeyClassCons<T, K>(y: T, r: seq<T>, key: T -> K, le: (K, K) -> bool, k: K)
    ensures KeyClass([y] + r, key, le, k) == (if Equiv(le, key(y), k) then [y] else []) + KeyClass(r, key, le, k)
  {
    assert ([y] + r)[1..] == r;
  }

  /** A key strictly below an element of a class is outside the class. */
  lemma BelowClass<K(!new)>(le: (K, K) -> bool, a: K, b: K, k: K)
    requires TotalPreorder(le) && !le(a, b) && Equiv(le, a, k)
    ensures !Equiv(le, b, k)
  {
  }

  /** The stable-sort contract: ordered by key, same elements, each key class in input order. */
  lemma {:induction false} SortByCorrect<T, K(!new)>(s: seq<T>, key: T -> K, le: (K, K) -> bool)
    requires TotalPreorder(le)
    ensures SortedBy(SortBy(s, key, le), key, le)
    ensures multiset(SortBy(s, key, le)) == multiset(s)
    ensures forall k :: KeyClass(SortBy(s, key, le), key, le, k) == KeyClass(s, key, le, k)
    decreases |s|
  {
    if |s| > 0 {
      var t := SortBy(s[1..], key, le);
      SortByCorrect(s[1..], key, le);
      InsertSorted(s[0], t, key, le);
      assert s == [s[0]] + s[1..];
      forall k
        ensures KeyClass(SortBy(s, key, le), key, le, k) == KeyClass(s, key, le, k)
      {
        InsertKeyClass(s[0], t, key, le, k);
      }
    }
  }

  /** Python's `<=` on integers (used for parsed timestamps). */
  predicate IntLe(a: int, b: int) {
    a <= b
  }

  lemma IntLeIsTotalPreorder()
    ensures TotalPreorder(IntLe)
  {
  }

  /** Python's `>=` on integers: sorting with it is `sort(..., reverse=True)`, which is still stable. */
  predicate IntGe(a: int, b: int) {
    a >= b
  }

  lemma IntGeIsTotalPreorder()
    ensures TotalPreorder(IntGe)
  {
  }

  /** The first element of a key class is the first element of `s` with that key. */
  lemma {:induction false} KeyClassHead<T, K>(s: seq<T>, key: T -> K, le: (K, K) -> bool, k: K, m: nat)
    requires m < |s| && Equiv(le, key(s[m]), k)
    requires forall j :: 0 <= j < m ==> !Equiv(le, key(s[j]), k)
    ensures |KeyClass(s, key, le, k)| > 0 && KeyClass(s, key, le, k)[0] == s[m]
    decreases m
  {
    if m > 0 {
      KeyClassHead(s[1..], key, le, k, m - 1);
    }
  }

  /** The head of a sorted permutation is a least element of the input. */
  lemma SortedHeadIsLeast<T, K(!new)>(s: seq<T>, key: T -> K, le: (K, K) -> bool)
    requires TotalPreorder(le) && |s| > 0
    ensures |SortBy(s, key, le)| == |s|
    ensures SortBy(s, key, le)[0] in s
    ensures forall x :: x in s ==> le(key(SortBy(s, key, le)[0]), key(x))
  {
    var t := SortBy(s, key, le);
    SortByCorrect(s, key, le);
    assert |t| == |multiset(t)| == |multiset(s)| == |s|;
    assert t[0] in multiset(t);
    forall x | x in s
      ensures le(key(t[0]), key(x))
    {
      assert x in multiset(s);
      var j :| 0 <= j < |t| && t[j] == x;
      if j > 0 {
        assert le(key(t[0]), key(t[j]));
      } else {
        assert TotalPreorder(le);
        assert le(key(x), key(x)) || le(key(x), key(x));
      }
    }
  }

  /** The head of a stable sort is the first input element among the least ones. */
  lemma SortedHeadIsFirstLeast<T, K(!new)>(s: seq<T>, key: T -> K, le: (K, K) -> bool, m: nat)
    requires TotalPreorder(le)
    requires m < |s| && |s| == |SortBy(s, key, le)|
    requires Equiv(le, key(s[m]), key(SortBy(s, key, le)[0]))
    requires forall j :: 0 <= j < m ==> !Equiv(le, key(s[j]), key(SortBy(s, key, le)[0]))
    ensures SortBy(s, key, le)[0] == s[m]
  {
    var t := SortBy(s, key, le);
    var k := key(t[0]);
    SortByCorrect(s, key, le);
    KeyClassHead(s, key, le, k, m);
    assert TotalPreorder(le);
    assert le(k, k) || le(k, k);
    KeyClassHead(t, key, le, k, 0);
  }
}

=== FILE: striding.dfy ===
/**
 * Round-robin dealing of a list over `count` sessions, as both `check_earnings.py` and
 * `redeem_check.py` do it: session `i` gets the extended slice `s[i::count]`, and only sessions
 * that get something form a chunk.
 */
module Striding {

  /** `s[start::step]`. */
  function Stride<T>(s: seq<T>, start: nat, step: nat): (r: seq<T>)
    requires step >= 1
    ensures start < |s| <==> |r| > 0
    decreases |s| - start
  {
    if start >= |s| then [] else [s[start]] + Stride(s, start + step, step)
  }

  /** Position `p` is `start` plus a whole number of strides. */
  predicate OnStride(p: nat, start: nat, step: nat)
    requires step >= 1
    decreases p - start
  {
    p == start || (p >= start + step && OnStride(p, start + step, step))
  }

  /** The remainder of `p` divided by `step`, by repeated subtraction: the chunk position `p` is dealt to. */
  function ChunkIndex(p: nat, step: nat): (i: nat)
    requires step >= 1
    ensures i < step
  {
    if p < step then p else ChunkIndex(p - step, step)
  }

  lemma {:induction false} StrideHas<T>(s: seq<T>, start: nat, step: nat, p: nat)
    requires step >= 1 && p < |s| && OnStride(p, start, step)
    ensures s[p] in Stride(s, start, step)
    decreases p - start
  {
    if p == start {
      assert Stride(s, start, step)[0] == s[p];
    } else {
      assert p >= start + step && OnStride(p, start + step, step);
      StrideHas(s, start + step, step, p);
      assert Stride(s, start, step) == [s[start]] + Stride(s, start + step, step);
    }
  }

  lemma {:induction false} StrideOnly<T>(s: seq<T>, start: nat, step: nat, x: T)
    requires step >= 1 && x in Stride(s, start, step)
    ensures exists p :: start <= p < |s| && s[p] == x && OnStride(p, start, step)
    decreases |s| - start
  {
    if x != s[start] {
      StrideOnly(s, start + step, step, x);
    }
  }

  lemma {:induction false} OnStrideShift(p: nat, start: nat, step: nat)
    requires step >= 1 && p >= step
    ensures OnStride(p, start + step, step) <==> OnStride(p - step, start, step)
    decreases p - start
  {
    if p >= start + step + step {
      OnStrideShift(p, start + step, step);
    }
  }

  lemma {:induction false} OnStrideChunk(p: nat, i: nat, step: nat)
    requires step >= 1 && i < step
    ensures OnStride(p, i, step) <==> ChunkIndex(p, step) == i
    decreases p
  {
    if p >= step {
      OnStrideShift(p, i, step);
      OnStrideChunk(p - step, i, step);
    }
  }

  lemma {:induction false} ChunkIndexBelow(p: nat, step: nat)
    requires step >= 1
    ensures ChunkIndex(p, step) <= p
    decreases p
  {
    if p >= step {
      ChunkIndexBelow(p - step, step);
    }
  }

  /** The non-empty chunks, one per session that gets an element. */
  function Chunks<T>(s: seq<T>, count: nat): (cs: seq<seq<T>>)
    requires count >= 1
    ensures |cs| == (if count < |s| then count else |s|)
    ensures forall i :: 0 <= i < |cs| ==> cs[i] == Stride(s, i, count) && |cs[i]| > 0
  {
    var m := if count < |s| then count else |s|;
    seq(m, i requires 0 <= i < m => Stride(s, i, count))
  }

  /** Round-robin dealing of distinct elements: each is in exactly one chunk, the one its position is dealt to. */
  lemma ChunksPartition<T>(s: seq<T>, count: nat, p: nat, i: nat)
    requires count >= 1 && p < |s| && i < |Chunks(s, count)|
    requires forall a, b :: 0 <= a < b < |s| ==> s[a] != s[b]
    ensures ChunkIndex(p, count) < |Chunks(s, count)|
    ensures s[p] in Chunks(s, count)[i] <==> i == ChunkIndex(p, count)
  {
    var cs := Chunks(s, count);
    ChunkIndexBelow(p, count);
    OnStrideChunk(p, i, count);
    if i == ChunkIndex(p, count) {
      StrideHas(s, i, count, p);
    }
    if s[p] in cs[i] {
      StrideOnly(s, i, count, s[p]);
      var q :| i <= q < |s| && s[q] == s[p] && OnStride(q, i, count);
      assert q == p;
    }
  }

  // ---------------------------------------------------------------------------------------------
  // Dealing as a permutation: with repeated elements, the chunks together hold exactly the list.

  /** The chunks, one after the other. */
  function Flatten<T>(cs: seq<seq<T>>): (r: seq<T>)
    ensures |cs| == 0 ==> r == []
  {
    if |cs| == 0 then [] else Flatten(cs[..|cs| - 1]) + cs[|cs| - 1]
  }

  /** How many times `x` occurs in `s`. */
  ghost function Occurrences<T>(s: seq<T>, x: T): nat
  {
    if |s| == 0 then 0 else Occurrences(s[..|s| - 1], x) + (if s[|s| - 1] == x then 1 else 0)
  }

  lemma {:induction false} OccurrencesAppend<T>(a: seq<T>, b: seq<T>, x: T)
    ensures Occurrences(a + b, x) == Occurrences(a, x) + Occurrences(b, x)
  {
    if |b| == 0 {
      assert a + b == a;
    } else {
      var n := |b| - 1;
      OccurrencesAppend(a, b[..n], x);
      assert (a + b)[..|a + b| - 1] == a + b[..n];
    }
  }

  lemma OccurrencesCons<T>(y: T, s: seq<T>, x: T)
    ensures Occurrences([y] + s, x) == (if y == x then 1 else 0) + Occurrences(s, x)
  {
    OccurrencesAppend([y], s, x);
    assert [y][..0] == [];
  }

  lemma {:induction false} OccurrencesMultiset<T>(s: seq<T>, x: T)
    ensures Occurrences(s, x) == multiset(s)[x]
  {
    if |s| > 0 {
      var n := |s| - 1;
      OccurrencesMultiset(s[..n], x);
      assert s == s[..n] + [s[n]];
    }
  }

  /** `f(0) + … + f(m - 1)`. */
  ghost function SumTo(f: nat -> int, m: nat): int {
    if m == 0 then 0 else SumTo(f, m - 1) + f(m - 1)
  }

  /** Sums split term by term. */
  lemma {:induction false} SumSplit(f: nat -> int, g: nat -> int, h: nat -> int, m: nat)
    requires forall i: nat :: i < m ==> f(i) == g(i) + h(i)
    ensures SumTo(f, m) == SumTo(g, m) + SumTo(h, m)
  {
    if m > 0 {
      SumSplit(f, g, h, m - 1);
    }
  }

  /** Whether position `i` of `s` holds `x`, as 1 or 0. */
  ghost function Hits<T>(s: seq<T>, x: T): nat -> int {
    (i: nat) => if i < |s| && s[i] == x then 1 else 0
  }

  /** How many times `x` occurs among the first `m` elements of `s`. */
  ghost function Firsts<T>(s: seq<T>, m: nat, x: T): int {
    SumTo(Hits(s, x), m)
  }

  lemma {:induction false} FirstsTake<T>(s: seq<T>, m: nat, x: T)
    requires m <= |s|
    ensures Firsts(s, m, x) == Occurrences(s[..m], x)
  {
    if m > 0 {
      FirstsTake(s, m - 1, x);
      assert s[..m][..m - 1] == s[..m - 1];
    }
  }

  /** How many copies of `x` session `i` is dealt, for each `i`. */
  ghost function Shares<T>(s: seq<T>, count: nat, x: T): nat -> int
    requires count >= 1
  {
    (i: nat) => Occurrences(Stride(s, i, count), x)
  }

  /** How many copies of `x` the first `m` sessions are dealt. */
  ghost function Dealt<T>(s: seq<T>, count: nat, m: nat, x: T): int
    requires count >= 1
  {
    SumTo(Shares(s, count, x), m)
  }

  /** Skipping the first round: from `i + count` on, `s` strides like `s[count..]` from `i`. */
  lemma {:induction false} StrideDrop<T>(s: seq<T>, i: nat, count: nat)
    requires count >= 1 && count <= |s|
    ensures Stride(s, i + count, count) == Stride(s[count..], i, count)
    decreases |s| - i
  {
    if i + count < |s| {
      StrideDrop(s, i + count, count);
    }
  }

  /** Session `i` takes `s[i]` from the first round and then strides through the rest. */
  lemma StrideFirstRound<T>(s: seq<T>, i: nat, count: nat, x: T)
    requires count >= 1 && i < count < |s|
    ensures Occurrences(Stride(s, i, count), x) == (if s[i] == x then 1 else 0) + Occurrences(Stride(s[count..], i, count), x)
  {
    StrideDrop(s, i, count);
    assert Stride(s, i, count) == [s[i]] + Stride(s[count..], i, count);
    OccurrencesCons(s[i], Stride(s[count..], i, count), x);
  }

  /** When there are more elements than sessions, each of the first `m` sessions takes one from the first round. */
  lemma DealtRound<T>(s: seq<T>, count: nat, m: nat, x: T)
    requires count >= 1 && count < |s| && m <= count
    ensures Dealt(s, count, m, x) == Firsts(s, m, x) + Dealt(s[count..], count, m, x)
  {
    forall i: nat | i < m
      ensures Shares(s, count, x)(i) == Hits(s, x)(i) + Shares(s[count..], count, x)(i)
    {
      StrideFirstRound(s, i, count, x);
    }
    SumSplit(Shares(s, count, x), Hits(s, x), Shares(s[count..], count, x), m);
  }

  /** With no more elements than sessions, each session gets at most one element. */
  lemma {:induction false} DealtShort<T>(s: seq<T>, count: nat, m: nat, x: T)
    requires count >= 1 && |s| <= count && m <= count
    ensures Dealt(s, count, m, x) == Firsts(s, if m < |s| then m else |s|, x)
  {
    if m > 0 {
      DealtShort(s, count, m - 1, x);
      if m - 1 < |s| {
        assert Stride(s, m - 1, count) == [s[m - 1]] + [];
        OccurrencesCons(s[m - 1], [], x);
      }
    }
  }

  lemma {:induction false} DealtAll<T>(s: seq<T>, count: nat, x: T)
    requires count >= 1
    ensures Dealt(s, count, count, x) == Occurrences(s, x)
    decreases |s|
  {
    if |s| <= count {
      DealtShort(s, count, count, x);
      FirstsTake(s, |s|, x);
      assert s[..|s|] == s;
    } else {
      DealtRound(s, count, count, x);
      DealtAll(s[count..], count, x);
      FirstsTake(s, count, x);
      OccurrencesAppend(s[..count], s[count..], x);
      assert s == s[..count] + s[count..];
    }
  }

  /** Sessions past the end of the list get nothing. */
  lemma {:induction false} DealtPastEnd<T>(s: seq<T>, count: nat, m: nat, x: T)
    requires count >= 1 && |s| <= m
    ensures Dealt(s, count, m, x) == Dealt(s, count, |s|, x)
  {
    if m > |s| {
      DealtPastEnd(s, count, m - 1, x);
    }
  }

  lemma {:induction false} FlattenDealt<T>(s: seq<T>, count: nat, m: nat, x: T)
    requires count >= 1 && m <= |Chunks(s, count)|
    ensures Occurrences(Flatten(Chunks(s, count)[..m]), x) == Dealt(s, count, m, x)
  {
    if m > 0 {
      var cs := Chunks(s, count);
      FlattenDealt(s, count, m - 1, x);
      assert cs[..m][..m - 1] == cs[..m - 1];
      OccurrencesAppend(Flatten(cs[..m - 1]), cs[m - 1], x);
    }
  }

  /** Every value is dealt as many times as it occurs in the list. */
  lemma ChunksCount<T>(s: seq<T>, count: nat, x: T)
    requires count >= 1
    ensures Occurrences(Flatten(Chunks(s, count)), x) == Occurrences(s, x)
  {
    var cs := Chunks(s, count);
    assert cs[..|cs|] == cs;
    FlattenDealt(s, count, |cs|, x);
    DealtAll(s, count, x);
    if |s| < count {
      DealtPastEnd(s, count, count, x);
    }
  }

  /** Lists in which every value occurs equally often are permutations of each other. */
  lemma SameOccurrences<T>(a: seq<T>, b: seq<T>)
    requires forall x :: Occurrences(a, x) == Occurrences(b, x)
    ensures multiset(a) == multiset(b)
  {
    var ma, mb := multiset(a), multiset(b);
    forall x: T ensures ma[x] == mb[x] {
      OccurrencesMultiset(a, x);
      OccurrencesMultiset(b, x);
    }
    assert ma == mb;
  }

  /** Dealing loses no element and duplicates none: the chunks together are a permutation of the list. */
  lemma ChunksPermutation<T>(s: seq<T>, count: nat)
    requires count >= 1
    ensures multiset(Flatten(Chunks(s, count))) == multiset(s)
  {
    forall x: T ensures Occurrences(Flatten(Chunks(s, count)), x) == Occurrences(s, x) {
      ChunksCount(s, count, x);
    }
    SameOccurrences(Flatten(Chunks(s, count)), s);
  }
}

=== FILE: supervisor.dfy ===
/**
 * The supervisor of `miner.py`: worker slots, the wallets live workers hold, `spawn_worker`'s
 * choice of wallet and donation address, and one pass of `worker_manager` that respawns the
 * missing or exited slots. Process liveness, generated wallets and registration replies are inputs.
 */
module Supervisor {
  import opened Wrappers
  import opened Http
  import opened Ledger
  import opened LegacyTracker
  import opened Wallets

  /** `workers[worker_id] = (process, wallet)`, with whether the process was alive when observed. */
  datatype Slot = Slot(alive: bool, wallet: Wallet)
  type Slots = map<nat, Slot>

  /** The supervisor's state: its slots and the wallet list of `miner.py`'s own wallet manager. */
  datatype World = World(slots: Slots, store: Store)

  /** `get_currently_used_wallets`: the addresses held by live workers. */
  function UsedAddresses(slots: Slots): (used: set<string>)
    ensures forall id :: id in slots && slots[id].alive ==> slots[id].wallet.address in used
    ensures forall a :: a in used ==> exists id :: id in slots && slots[id].alive && slots[id].wallet.address == a
  {
    set id | id in slots && slots[id].alive :: slots[id].wallet.address
  }

  /** No two live workers hold the same wallet. */
  predicate LiveDistinct(slots: Slots) {
    forall a, b :: a in slots && b in slots && a != b && slots[a].alive && slots[b].alive ==>
      slots[a].wallet.address != slots[b].wallet.address
  }

  /** A wallet the scan may hand out: not held by a live worker, and the tracker has a challenge for it. */
  predicate Reusable(w: Wallet, used: set<string>, l: Ledger, now: int) {
    w.address !in used && LegacyGetUnsolvedChallenge(l, w.address, now) != Success(None)
  }

  /**
   * The scan of `spawn_worker` over the wallet list from position `from`: the first wallet not
   * in use whose challenge lookup returns one; Failure when a lookup raises before any wallet qualifies.
   */
  function ScanFrom(ws: seq<Wallet>, used: set<string>, l: Ledger, now: int, from: nat): (r: Result<Option<nat>, string>)
    requires from <= |ws|
    ensures r.Success? && r.value.Some? ==>
      (from <= r.value.value < |ws| && ws[r.value.value].address !in used
       && LegacyGetUnsolvedChallenge(l, ws[r.value.value].address, now).Success?
       && LegacyGetUnsolvedChallenge(l, ws[r.value.value].address, now).value.Some?)
    ensures r.Success? ==> forall j :: from <= j < (if r.value.Some? then r.value.value else |ws|) ==>
      !Reusable(ws[j], used, l, now)
    ensures r.Failure? <==> exists i :: from <= i < |ws| && RaisesAt(ws, used, l, now, from, i)
    decreases |ws| - from
  {
    if from == |ws| then Success(None)
    else if ws[from].address in used then
      RaisesAtExtends(ws, used, l, now, from, from + 1);
      ScanFrom(ws, used, l, now, from + 1)
    else match LegacyGetUnsolvedChallenge(l, ws[from].address, now)
      case Failure(e) => assert RaisesAt(ws, used, l, now, from, from); Failure(e)
      case Success(Some(_)) => Success(Some(from))
      case Success(None) =>
        RaisesAtExtends(ws, used, l, now, from, from + 1);
        ScanFrom(ws, used, l, now, from + 1)
  }

  /** The lookup for the free wallet at `i` raises, and no free wallet between `from` and `i` had work left. */
  predicate RaisesAt(ws: seq<Wallet>, used: set<string>, l: Ledger, now: int, from: nat, i: nat)
    requires from <= i < |ws|
  {
    && ws[i].address !in used
    && LegacyGetUnsolvedChallenge(l, ws[i].address, now).Failure?
    && forall j :: from <= j < i ==> !Reusable(ws[j], used, l, now)
  }

  /** Past a wallet without work, the scan raises from `from` exactly when it raises from the next position. */
  lemma RaisesAtExtends(ws: seq<Wallet>, used: set<string>, l: Ledger, now: int, from: nat, next: nat)
    requires from < |ws| && next == from + 1 && !Reusable(ws[from], used, l, now)
    ensures (exists i :: next <= i < |ws| && RaisesAt(ws, used, l, now, next, i)) <==>
            (exists i :: from <= i < |ws| && RaisesAt(ws, used, l, now, from, i))
  {
    if exists i :: next <= i < |ws| && RaisesAt(ws, used, l, now, next, i) {
      var i :| next <= i < |ws| && RaisesAt(ws, used, l, now, next, i);
      assert RaisesAt(ws, used, l, now, from, i);
    }
    if exists i :: from <= i < |ws| && RaisesAt(ws, used, l, now, from, i) {
      var i :| from <= i < |ws| && RaisesAt(ws, used, l, now, from, i);
      assert i != from;
      assert RaisesAt(ws, used, l, now, next, i);
    }
  }

  function FindReusable(ws: seq<Wallet>, used: set<string>, l: Ledger, now: int): Result<Option<nat>, string> {
    ScanFrom(ws, used, l, now, 0)
  }

  /** What `spawn_worker` leaves behind: the new state and the wallet and donation address it started, or the error it raised. */
  datatype Spawned = Spawned(world: World, started: Result<(Wallet, string), string>)

  /** Start the worker: the donation address is fixed by the slot number; an empty address list divides by zero. */
  function Launch(id: nat, w: World, wallet: Wallet, devs: seq<string>): (r: Spawned)
    ensures r.started.Success? <==> |devs| > 0
    ensures r.started.Success? ==>
      (r.started.value == (wallet, devs[id % |devs|]) && r.world == World(w.slots[id := Slot(true, wallet)], w.store))
    ensures r.started.Failure? ==> r.world == w
  {
    if |devs| == 0 then Spawned(w, Failure("integer modulo by zero"))
    else Spawned(World(w.slots[id := Slot(true, wallet)], w.store), Success((wallet, devs[id % |devs|])))
  }

  /**
   * `spawn_worker(worker_id)`: reuse the first free wallet with work left, otherwise create one
   * (`generated`) and append it whatever its single registration attempt (`reply`) answered,
   * unless reading that answer raised.
   */
  function Spawn(id: nat, w: World, l: Ledger, now: int, generated: Wallet, reply: Reply, devs: seq<string>)
    : (r: Spawned)
    ensures r.started.Success? ==>
      (r.world.slots == w.slots[id := Slot(true, r.started.value.0)] && |devs| > 0
       && r.started.value.1 == devs[id % |devs|])
    ensures r.started.Failure? ==> r.world.slots == w.slots
    ensures r.started.Success? && r.started.value.0 != generated ==>
      (exists i :: 0 <= i < |w.store.wallets| && w.store.wallets[i] == r.started.value.0
         && r.started.value.0.address !in UsedAddresses(w.slots))
    ensures r.world.store == w.store || r.world.store == AddWallet(w.store, generated)
    ensures r.world.store != w.store ==>
      FindReusable(w.store.wallets, UsedAddresses(w.slots), l, now) == Success(None)
      && AttemptOnce(Answered(reply)) != Raised
    ensures var f := FindReusable(w.store.wallets, UsedAddresses(w.slots), l, now);
      f.Success? && f.value.Some? ==>
        r.world.store == w.store
        && (|devs| > 0 ==> r.started == Success((w.store.wallets[f.value.value], devs[id % |devs|])))
    ensures var f := FindReusable(w.store.wallets, UsedAddresses(w.slots), l, now);
      f.Failure? ==> r == Spawned(w, Failure(f.error))
    ensures var f := FindReusable(w.store.wallets, UsedAddresses(w.slots), l, now);
      f == Success(None) && |devs| > 0 && AttemptOnce(Answered(reply)) != Raised ==>
        r.world.store == AddWallet(w.store, generated) && r.started == Success((generated, devs[id % |devs|]))
  {
    var used := UsedAddresses(w.slots);
    match FindReusable(w.store.wallets, used, l, now)
    case Failure(e) => Spawned(w, Failure(e))
    case Success(Some(i)) => Launch(id, w, w.store.wallets[i], devs)
    case Success(None) =>
      if AttemptOnce(Answered(reply)) == Raised then Spawned(w, Failure("registration reply could not be read"))
      else Launch(id, World(w.slots, AddWallet(w.store, generated)), generated, devs)
  }

  /** A new wallet is created exactly when no free wallet has work left and the lookups did not raise. */
  lemma SpawnCreatesOnlyWhenNeeded(id: nat, w: World, l: Ledger, now: int, generated: Wallet, reply: Reply, devs: seq<string>)
    requires |devs| > 0 && AttemptOnce(Answered(reply)) != Raised
    ensures var r := Spawn(id, w, l, now, generated, reply, devs);
      (|r.world.store.wallets| == |w.store.wallets| + 1) <==>
        (forall j :: 0 <= j < |w.store.wallets| ==> !Reusable(w.store.wallets[j], UsedAddresses(w.slots), l, now))
  {
    var used := UsedAddresses(w.slots);
    var f := FindReusable(w.store.wallets, used, l, now);
    if f.Failure? {
      var i :| 0 <= i < |w.store.wallets| && RaisesAt(w.store.wallets, used, l, now, 0, i);
      assert Reusable(w.store.wallets[i], used, l, now);
    } else if f.value.Some? {
      assert Reusable(w.store.wallets[f.value.value], used, l, now);
    }
  }

  /** Generated wallets are new: none is held by a live worker or already listed, and they differ from each other. */
  predicate FreshFrom(gen: seq<Wallet>, from: nat, w: World) {
    && (forall i :: from <= i < |gen| ==> gen[i].address !in UsedAddresses(w.slots))
    && (forall i, k :: from <= i < |gen| && 0 <= k < |w.store.wallets| ==> gen[i].address != w.store.wallets[k].address)
    && (forall i, j :: from <= i < j < |gen| ==> gen[i].address != gen[j].address)
  }

  /** Respawning a slot whose worker is gone keeps live wallets distinct when the generated wallet is new. */
  lemma SpawnKeepsLiveDistinct(id: nat, w: World, l: Ledger, now: int, gen: seq<Wallet>, reply: Reply, devs: seq<string>)
    requires id < |gen| && FreshFrom(gen, id, w)
    requires id !in w.slots || !w.slots[id].alive
    requires LiveDistinct(w.slots)
    ensures var r := Spawn(id, w, l, now, gen[id], reply, devs);
      LiveDistinct(r.world.slots) && FreshFrom(gen, id + 1, r.world)
  {
    var r := Spawn(id, w, l, now, gen[id], reply, devs);
    var used := UsedAddresses(w.slots);
    if r.started.Success? {
      var wallet := r.started.value.0;
      assert wallet.address !in used;
      forall a, b | a in r.world.slots && b in r.world.slots && a != b && r.world.slots[a].alive && r.world.slots[b].alive
        ensures r.world.slots[a].wallet.address != r.world.slots[b].wallet.address
      {
        if a == id {
          assert r.world.slots[b] == w.slots[b];
        } else if b == id {
          assert r.world.slots[a] == w.slots[a];
        }
      }
      forall i | id + 1 <= i < |gen|
        ensures gen[i].address !in UsedAddresses(r.world.slots)
      {
        forall k | k in r.world.slots && r.world.slots[k].alive
          ensures r.world.slots[k].wallet.address != gen[i].address
        {
          if k == id {
            if wallet != gen[id] {
              var m :| 0 <= m < |w.store.wallets| && w.store.wallets[m] == wallet;
              assert w.store.wallets[m].address != gen[i].address;
            }
          } else {
            assert w.slots[k] == r.world.slots[k];
          }
        }
      }
    }
  }

  /** How a supervisor pass ends: the new state, and the error that cut it short if one did. */
  datatype Pass = Pass(world: World, error: Option<string>)

  /** `spawn_worker` as the pass sees it: the slot number and the current state in, what it leaves behind out. */
  type Spawner = (nat, World) -> Spawned

  /**
   * One pass of `worker_manager` from slot `id` on: a slot with no worker or with an exited
   * worker is respawned by `spawn`; the first exception ends the pass.
   */
  function TickFrom(id: nat, n: nat, w: World, spawn: Spawner): Pass
    requires id <= n
    decreases n - id
  {
    if id == n then Pass(w, None)
    else if id in w.slots && w.slots[id].alive then TickFrom(id + 1, n, w, spawn)
    else
      var s := spawn(id, w);
      match s.started
      case Failure(e) => Pass(s.world, Some(e))
      case Success(_) => TickFrom(id + 1, n, s.world, spawn)
  }

  /**
   * `spawn_worker` for slot `id`, with that slot's generated wallet and registration reply; a
   * slot past the inputs given has nothing to spawn with and fails.
   */
  function SpawnWith(l: Ledger, now: int, gen: seq<Wallet>, replies: seq<Reply>, devs: seq<string>): Spawner {
    (id: nat, w: World) =>
      if id < |gen| && id < |replies| then Spawn(id, w, l, now, gen[id], replies[id], devs)
      else Spawned(w, Failure("no generated wallet for this slot"))
  }

  /** `worker_manager`'s check of slots `0 .. n-1`; the initial start-up is the same pass over empty slots. */
  function Tick(n: nat, w: World, l: Ledger, now: int, gen: seq<Wallet>, replies: seq<Reply>, devs: seq<string>): Pass
    requires n <= |gen| && n <= |replies|
  {
    TickFrom(0, n, w, SpawnWith(l, now, gen, replies, devs))
  }

  /** A spawn touches only its own slot: a live worker there on success, nothing changed on failure. */
  predicate InPlace(id: nat, w: World, s: Spawned) {
    && (s.started.Success? ==> s.world.slots == w.slots[id := Slot(true, s.started.value.0)])
    && (s.started.Failure? ==> s.world.slots == w.slots)
  }

  ghost predicate SpawnsInPlace(spawn: Spawner) {
    forall id: nat, w: World :: InPlace(id, w, spawn(id, w))
  }

  /** `spawn_worker` only ever writes the slot it was asked to fill. */
  lemma SpawnWithInPlace(l: Ledger, now: int, gen: seq<Wallet>, replies: seq<Reply>, devs: seq<string>)
    ensures SpawnsInPlace(SpawnWith(l, now, gen, replies, devs))
  {
    var spawn := SpawnWith(l, now, gen, replies, devs);
    forall id: nat, w: World
      ensures InPlace(id, w, spawn(id, w))
    {
      if id < |gen| && id < |replies| {
        var s := Spawn(id, w, l, now, gen[id], replies[id], devs);
        assert spawn(id, w) == s;
      }
    }
  }

  /** Every live worker of `before` is still there, unchanged, in `after`. */
  predicate KeepsLive(before: Slots, after: Slots) {
    forall k :: k in before && before[k].alive ==> k in after && after[k] == before[k]
  }

  /** Only slots `from .. to-1` may differ, and only they may be added. */
  predicate TouchesOnly(before: Slots, after: Slots, from: nat, to: nat) {
    forall k :: k in after && (k < from || k >= to) ==> k in before && after[k] == before[k]
  }

  /** No slot of `before` is missing from `after`. */
  predicate DropsNone(before: Slots, after: Slots) {
    forall k :: k in before ==> k in after
  }

  /** Every slot `from .. to-1` has a live worker. */
  predicate Filled(slots: Slots, from: nat, to: nat) {
    forall k :: from <= k < to ==> k in slots && slots[k].alive
  }

  lemma KeepsLiveTrans(a: Slots, b: Slots, c: Slots)
    requires KeepsLive(a, b) && KeepsLive(b, c)
    ensures KeepsLive(a, c)
  {
  }

  lemma TouchesOnlyTrans(a: Slots, b: Slots, c: Slots, id: nat, n: nat)
    requires id < n && TouchesOnly(a, b, id, id + 1) && TouchesOnly(b, c, id + 1, n)
    ensures TouchesOnly(a, c, id, n)
  {
  }

  lemma TouchesOnlyWiden(a: Slots, b: Slots, id: nat, n: nat)
    requires TouchesOnly(a, b, id + 1, n)
    ensures TouchesOnly(a, b, id, n)
  {
  }

  lemma DropsNoneTrans(a: Slots, b: Slots, c: Slots)
    requires DropsNone(a, b) && DropsNone(b, c)
    ensures DropsNone(a, c)
  {
  }

  /** Filling slot `id` and then `id+1 .. n-1` without touching `id` again fills `id .. n-1`. */
  lemma FilledStep(b: Slots, c: Slots, id: nat, n: nat)
    requires id < n && id in b && b[id].alive && DropsNone(b, c) && TouchesOnly(b, c, id + 1, n) && Filled(c, id + 1, n)
    ensures Filled(c, id, n)
  {
  }

  /** The slots after one spawn into an empty or exited slot. */
  lemma SpawnFrame(id: nat, w: World, s: Spawned)
    requires !(id in w.slots && w.slots[id].alive) && InPlace(id, w, s)
    ensures KeepsLive(w.slots, s.world.slots) && TouchesOnly(w.slots, s.world.slots, id, id + 1)
    ensures DropsNone(w.slots, s.world.slots)
    ensures s.started.Success? ==> id in s.world.slots && s.world.slots[id].alive
  {
  }

  /** A pass keeps every live worker. */
  lemma {:induction false} TickKeepsLive(id: nat, n: nat, w: World, spawn: Spawner)
    requires id <= n && SpawnsInPlace(spawn)
    ensures KeepsLive(w.slots, TickFrom(id, n, w, spawn).world.slots)
    decreases n - id
  {
    if id < n {
      if id in w.slots && w.slots[id].alive {
        TickKeepsLive(id + 1, n, w, spawn);
      } else {
        var s := spawn(id, w);
        SpawnFrame(id, w, s);
        if s.started.Success? {
          TickKeepsLive(id + 1, n, s.world, spawn);
          KeepsLiveTrans(w.slots, s.world.slots, TickFrom(id + 1, n, s.world, spawn).world.slots);
        }
      }
    }
  }

  /** A pass touches only slots `id .. n-1`. */
  lemma {:induction false} TickTouchesOnly(id: nat, n: nat, w: World, spawn: Spawner)
    requires id <= n && SpawnsInPlace(spawn)
    ensures TouchesOnly(w.slots, TickFrom(id, n, w, spawn).world.slots, id, n)
    decreases n - id
  {
    if id < n {
      if id in w.slots && w.slots[id].alive {
        TickTouchesOnly(id + 1, n, w, spawn);
        TouchesOnlyWiden(w.slots, TickFrom(id + 1, n, w, spawn).world.slots, id, n);
      } else {
        var s := spawn(id, w);
        SpawnFrame(id, w, s);
        if s.started.Success? {
          TickTouchesOnly(id + 1, n, s.world, spawn);
          TouchesOnlyTrans(w.slots, s.world.slots, TickFrom(id + 1, n, s.world, spawn).world.slots, id, n);
        }
      }
    }
  }

  /** A pass drops no slot. */
  lemma {:induction false} TickDropsNone(id: nat, n: nat, w: World, spawn: Spawner)
    requires id <= n && SpawnsInPlace(spawn)
    ensures DropsNone(w.slots, TickFrom(id, n, w, spawn).world.slots)
    decreases n - id
  {
    if id < n {
      if id in w.slots && w.slots[id].alive {
        TickDropsNone(id + 1, n, w, spawn);
      } else {
        var s := spawn(id, w);
        SpawnFrame(id, w, s);
        if s.started.Success? {
          TickDropsNone(id + 1, n, s.world, spawn);
          DropsNoneTrans(w.slots, s.world.slots, TickFrom(id + 1, n, s.world, spawn).world.slots);
        }
      }
    }
  }

  /** A pass that ends without an error leaves a live worker in every slot it covers. */
  lemma {:induction false} TickFills(id: nat, n: nat, w: World, spawn: Spawner)
    requires id <= n && SpawnsInPlace(spawn)
    ensures TickFrom(id, n, w, spawn).error.None? ==> Filled(TickFrom(id, n, w, spawn).world.slots, id, n)
    decreases n - id
  {
    if id < n {
      if id in w.slots && w.slots[id].alive {
        TickFills(id + 1, n, w, spawn);
        var r := TickFrom(id + 1, n, w, spawn);
        TickTouchesOnly(id + 1, n, w, spawn);
        TickDropsNone(id + 1, n, w, spawn);
        if r.error.None? {
          FilledStep(w.slots, r.world.slots, id, n);
        }
      } else {
        var s := spawn(id, w);
        SpawnFrame(id, w, s);
        if s.started.Success? {
          TickFills(id + 1, n, s.world, spawn);
          var r := TickFrom(id + 1, n, s.world, spawn);
          TickTouchesOnly(id + 1, n, s.world, spawn);
          TickDropsNone(id + 1, n, s.world, spawn);
          if r.error.None? {
            FilledStep(s.world.slots, r.world.slots, id, n);
          }
        }
      }
    }
  }

  /** The pass `miner.py` runs keeps live workers, touches only slots `0 .. n-1`, and fills them unless it raised. */
  lemma TickRespawnsOnlyMissing(n: nat, w: World, l: Ledger, now: int, gen: seq<Wallet>, replies: seq<Reply>, devs: seq<string>)
    requires n <= |gen| && n <= |replies|
    ensures var r := Tick(n, w, l, now, gen, replies, devs);
      && KeepsLive(w.slots, r.world.slots) && TouchesOnly(w.slots, r.world.slots, 0, n) && DropsNone(w.slots, r.world.slots)
      && (r.error.None? ==> Filled(r.world.slots, 0, n))
  {
    var spawn := SpawnWith(l, now, gen, replies, devs);
    SpawnWithInPlace(l, now, gen, replies, devs);
    TickKeepsLive(0, n, w, spawn);
    TickTouchesOnly(0, n, w, spawn);
    TickDropsNone(0, n, w, spawn);
    TickFills(0, n, w, spawn);
  }

  /** A spawn that keeps live workers distinct and the remaining generated wallets new, from any state where that holds. */
  ghost predicate SpawnsFresh(spawn: Spawner, gen: seq<Wallet>) {
    forall id: nat, w: World ::
      !(id in w.slots && w.slots[id].alive) && LiveDistinct(w.slots) && FreshFrom(gen, id, w) ==>
        LiveDistinct(spawn(id, w).world.slots) && FreshFrom(gen, id + 1, spawn(id, w).world)
  }

  lemma SpawnWithFresh(l: Ledger, now: int, gen: seq<Wallet>, replies: seq<Reply>, devs: seq<string>)
    ensures SpawnsFresh(SpawnWith(l, now, gen, replies, devs), gen)
  {
    var spawn := SpawnWith(l, now, gen, replies, devs);
    forall id: nat, w: World | !(id in w.slots && w.slots[id].alive) && LiveDistinct(w.slots) && FreshFrom(gen, id, w)
      ensures LiveDistinct(spawn(id, w).world.slots) && FreshFrom(gen, id + 1, spawn(id, w).world)
    {
      if id < |gen| && id < |replies| {
        SpawnKeepsLiveDistinct(id, w, l, now, gen, replies[id], devs);
        assert spawn(id, w) == Spawn(id, w, l, now, gen[id], replies[id], devs);
      } else {
        assert spawn(id, w).world == w;
      }
    }
  }

  /** A pass never puts two live workers on one wallet, provided the wallets it generates are new. */
  lemma {:induction false} TickKeepsLiveDistinct(id: nat, n: nat, w: World, spawn: Spawner, gen: seq<Wallet>)
    requires id <= n && SpawnsFresh(spawn, gen)
    requires LiveDistinct(w.slots) && FreshFrom(gen, id, w)
    ensures LiveDistinct(TickFrom(id, n, w, spawn).world.slots)
    decreases n - id
  {
    if id < n {
      if id in w.slots && w.slots[id].alive {
        FreshFromNext(gen, id, w);
        TickKeepsLiveDistinct(id + 1, n, w, spawn, gen);
      } else {
        var s := spawn(id, w);
        if s.started.Success? {
          TickKeepsLiveDistinct(id + 1, n, s.world, spawn, gen);
        }
      }
    }
  }

  /** The pass `miner.py` runs never puts two live workers on one wallet when the wallets it generates are new. */
  lemma TickDistinct(n: nat, w: World, l: Ledger, now: int, gen: seq<Wallet>, replies: seq<Reply>, devs: seq<string>)
    requires n <= |gen| && n <= |replies|
    requires LiveDistinct(w.slots) && FreshFrom(gen, 0, w)
    ensures LiveDistinct(Tick(n, w, l, now, gen, replies, devs).world.slots)
  {
    SpawnWithFresh(l, now, gen, replies, devs);
    TickKeepsLiveDistinct(0, n, w, SpawnWith(l, now, gen, replies, devs), gen);
  }

  lemma FreshFromNext(gen: seq<Wallet>, id: nat, w: World)
    requires FreshFrom(gen, id, w)
    ensures FreshFrom(gen, id + 1, w)
  {
  }
}

=== FILE: text.dfy ===
/**
 * String helpers with the semantics of the Python `str` methods the source relies on:
 * `strip`, `split(sep)`, `startswith`, `in`, `lower`, and `int(s, base)` parsing.
 */
module Text {
  import opened Wrappers

  /** The characters for which Python's `str.isspace()` holds, i.e. what `str.strip()` removes. */
  predicate IsSpace(c: char) {
    || c == ' '
    || ('\t' <= c <= '\r')
    || ('\U{1c}' <= c <= '\U{1f}')
    || c == '\U{85}' || c == '\U{a0}' || c == '\U{1680}'
    || ('\U{2000}' <= c <= '\U{200a}')
    || c == '\U{2028}' || c == '\U{2029}' || c == '\U{202f}' || c == '\U{205f}' || c == '\U{3000}'
  }

  /** `s.lstrip()`: drops the longest all-whitespace prefix. */
  function LStrip(s: string): (r: string)
    ensures |r| <= |s| && r == s[|s| - |r|..]
    ensures r == [] || !IsSpace(r[0])
    ensures forall i :: 0 <= i < |s| - |r| ==> IsSpace(s[i])
  {
    if |s| > 0 && IsSpace(s[0]) then LStrip(s[1..]) else s
  }

  /** `s.rstrip()`: drops the longest all-whitespace suffix. */
  function RStrip(s: string): (r: string)
    ensures |r| <= |s| && r == s[..|r|]
    ensures r == [] || !IsSpace(r[|r| - 1])
    ensures forall i :: |r| <= i < |s| ==> IsSpace(s[i])
  {
    if |s| > 0 && IsSpace(s[|s| - 1]) then RStrip(s[..|s| - 1]) else s
  }

  /** `s.strip()`. */
  function Strip(s: string): (r: string)
    ensures |r| <= |s|
    ensures r == [] || (!IsSpace(r[0]) && !IsSpace(r[|r| - 1]))
    ensures exists k: nat :: SliceAt(s, r, k)
  {
    var l := LStrip(s);
    var r := RStrip(l);
    var k := |s| - |l|;
    assert r == l[..|r|] && l == s[k..];
    assert l[..|r|] == s[k..k + |r|];
    assert SliceAt(s, r, k);
    r
  }

  /** `r` is the part of `s` starting at index `k`. */
  predicate SliceAt(s: string, r: string, k: nat) {
    k + |r| <= |s| && r == s[k..k + |r|]
  }

  /** A string with no whitespace at either end is its own `strip()`. */
  lemma StripTrimmed(s: string)
    requires s == [] || (!IsSpace(s[0]) && !IsSpace(s[|s| - 1]))
    ensures Strip(s) == s
  {
  }

  /** Index of the first occurrence of `c` in `s`. */
  function IndexOf(s: string, c: char): (i: nat)
    requires c in s
    ensures i < |s| && s[i] == c && c !in s[..i]
  {
    if s[0] == c then 0 else 1 + IndexOf(s[1..], c)
  }

  /** Glues `parts` back together with `sep` between consecutive parts: `sep.join(parts)`. */
  function Join(parts: seq<string>, sep: char): string
  {
    if |parts| == 0 then ""
    else if |parts| == 1 then parts[0]
    else parts[0] + [sep] + Join(parts[1..], sep)
  }

  /** Python's `s.split(sep)` for a one-character separator (never empty; `"".split(",") == [""]`). */
  function Split(s: string, sep: char): (parts: seq<string>)
    ensures |parts| >= 1
    ensures forall i :: 0 <= i < |parts| ==> sep !in parts[i]
    ensures Join(parts, sep) == s
    decreases |s|
  {
    if sep in s then
      var i := IndexOf(s, sep);
      var rest := Split(s[i + 1..], sep);
      assert s == s[..i] + [sep] + s[i + 1..];
      [s[..i]] + rest
    else
      [s]
  }

  /** Splitting a join of separator-free parts gives the parts back. */
  lemma {:induction false} SplitJoin(parts: seq<string>, sep: char)
    requires |parts| >= 1
    requires forall i :: 0 <= i < |parts| ==> sep !in parts[i]
    ensures Split(Join(parts, sep), sep) == parts
    decreases |parts|
  {
    if |parts| == 1 {
      assert Join(parts, sep) == parts[0];
    } else {
      var s := Join(parts, sep);
      assert s == parts[0] + [sep] + Join(parts[1..], sep);
      assert s[|parts[0]|] == sep;
      assert s[..|parts[0]|] == parts[0];
      assert sep in s;
      var i := IndexOf(s, sep);
      assert s[i + 1..] == Join(parts[1..], sep);
      SplitJoin(parts[1..], sep);
      assert parts == [parts[0]] + parts[1..];
    }
  }

  /** Joining two non-empty part lists is joining each and putting one separator between. */
  lemma {:induction false} JoinConcat(p: seq<string>, q: seq<string>, sep: char)
    requires |p| >= 1 && |q| >= 1
    ensures Join(p + q, sep) == Join(p, sep) + [sep] + Join(q, sep)
    decreases |p|
  {
    if |p| > 1 {
      assert (p + q)[1..] == p[1..] + q;
      JoinConcat(p[1..], q, sep);
    } else {
      assert (p + q)[1..] == q;
    }
  }

  /** A separator splits the text into the parts before it followed by the parts after it. */
  lemma SplitConcat(a: string, b: string, sep: char)
    ensures Split(a + [sep] + b, sep) == Split(a, sep) + Split(b, sep)
  {
    var p := Split(a, sep);
    var q := Split(b, sep);
    JoinConcat(p, q, sep);
    SplitJoin(p + q, sep);
  }

  /** `sub` occurs in `s` at index `i`. */
  predicate OccursAt(s: string, sub: string, i: nat) {
    i + |sub| <= |s| && s[i..i + |sub|] == sub
  }

  /** Python's `sub in s`. */
  predicate Contains(s: string, sub: string) {
    exists i: nat :: i <= |s| && OccursAt(s, sub, i)
  }

  /** Python's `s.startswith(p)`. */
  predicate StartsWith(s: string, p: string) {
    |p| <= |s| && s[..|p|] == p
  }

  function LowerChar(c: char): char {
    if 'A' <= c <= 'Z' then (c as int + 32) as char else c
  }

  /** `s.lower()`, for the ASCII letters. */
  function Lower(s: string): (r: string)
    ensures |r| == |s|
    ensures forall i :: 0 <= i < |s| ==> r[i] == LowerChar(s[i])
  {
    seq(|s|, i requires 0 <= i < |s| => LowerChar(s[i]))
  }

  /** Value of a hexadecimal digit (either case), as `int(c, 16)` reads it. */
  function HexDigit(c: char): Option<nat> {
    if '0' <= c <= '9' then Some(c as int - '0' as int)
    else if 'a' <= c <= 'f' then Some(c as int - 'a' as int + 10)
    else if 'A' <= c <= 'F' then Some(c as int - 'A' as int + 10)
    else None
  }

  predicate AllHex(s: string) {
    forall i :: 0 <= i < |s| ==> HexDigit(s[i]).Some?
  }

  function Pow(b: nat, n: nat): nat {
    if n == 0 then 1 else b * Pow(b, n - 1)
  }

  /** Big-endian value of a string of hexadecimal digits. */
  function HexValue(s: string): (v: nat)
    requires AllHex(s)
    ensures v < Pow(16, |s|)
  {
    if |s| == 0 then 0
    else
      var d := HexDigit(s[|s| - 1]).value;
      assert d < 16;
      var hi := HexValue(s[..|s| - 1]);
      assert hi + 1 <= Pow(16, |s| - 1);
      assert 16 * hi + d < 16 * (hi + 1) <= 16 * Pow(16, |s| - 1);
      16 * hi + d
  }

  /** `int(s, 16)` for plain digits: fails on the empty string and on any non-hex character. */
  function ParseHex(s: string): (r: Option<nat>)
    ensures r.Some? <==> |s| > 0 && AllHex(s)
    ensures r.Some? ==> r.value < Pow(16, |s|)
  {
    if |s| > 0 && AllHex(s) then Some(HexValue(s)) else None
  }

  function DecimalDigit(c: char): Option<nat> {
    if '0' <= c <= '9' then Some(c as int - '0' as int) else None
  }

  predicate AllDecimal(s: string) {
    forall i :: 0 <= i < |s| ==> DecimalDigit(s[i]).Some?
  }

  function DecimalValue(s: string): nat
    requires AllDecimal(s)
  {
    if |s| == 0 then 0 else 10 * DecimalValue(s[..|s| - 1]) + DecimalDigit(s[|s| - 1]).value
  }

  /**
   * `int(s)`: surrounding whitespace, an optional sign and at least one decimal digit.
   * (Python's underscores between digits and non-ASCII digits are not accepted here.)
   */
  function ParseInt(s: string): (r: Option<int>)
    ensures r.Some? ==> |Strip(s)| > 0
  {
    var t := Strip(s);
    if |t| > 0 && (t[0] == '-' || t[0] == '+') then
      if |t| > 1 && AllDecimal(t[1..]) then
        var n: int := DecimalValue(t[1..]);
        var v: int := if t[0] == '-' then -n else n;
        Some(v)
      else None
    else if |t| > 0 && AllDecimal(t) then Some(DecimalValue(t))
    else None
  }

  /** Decimal rendering of a natural number, as `str(n)`. */
  function NatToString(n: nat): (r: string)
    ensures |r| > 0 && AllDecimal(r)
  {
    var d := ['0' + (n % 10) as char];
    if n < 10 then d else NatToString(n / 10) + d
  }

  lemma {:induction false} DecimalValueOfString(n: nat)
    ensures DecimalValue(NatToString(n)) == n
  {
    var s := NatToString(n);
    if n >= 10 {
      DecimalValueOfString(n / 10);
      assert s[..|s| - 1] == NatToString(n / 10);
    }
  }

  lemma StripDigits(s: string)
    requires |s| > 0 && AllDecimal(s)
    ensures Strip(s) == s
  {
    assert DecimalDigit(s[0]).Some? && DecimalDigit(s[|s| - 1]).Some?;
    assert !IsSpace(s[0]) && !IsSpace(s[|s| - 1]);
    assert LStrip(s) == s;
    assert RStrip(s) == s;
  }

  /** `int(str(n)) == n`: decimal rendering and parsing are inverse on naturals. */
  lemma ParseIntRoundTrip(n: nat)
    ensures ParseInt(NatToString(n)) == Some(n)
  {
    var s := NatToString(n);
    StripDigits(s);
    assert DecimalDigit(s[0]).Some?;
    assert s[0] != '-' && s[0] != '+';
    DecimalValueOfString(n);
  }

  /** Python's `a <= b` on strings: lexicographic order on code points. */
  predicate StrLe(a: string, b: string) {
    if |a| == 0 then true
    else if |b| == 0 then false
    else if a[0] != b[0] then a[0] < b[0]
    else StrLe(a[1..], b[1..])
  }

  lemma {:induction false} StrLeTotal(a: string, b: string)
    ensures StrLe(a, b) || StrLe(b, a)
    decreases |a|
  {
    if |a| > 0 && |b| > 0 && a[0] == b[0] {
      StrLeTotal(a[1..], b[1..]);
    }
  }

  lemma {:induction false} StrLeTransitive(a: string, b: string, c: string)
    requires StrLe(a, b) && StrLe(b, c)
    ensures StrLe(a, c)
    decreases |a|
  {
    if |a| > 0 && |b| > 0 && |c| > 0 && a[0] == b[0] && b[0] == c[0] {
      StrLeTransitive(a[1..], b[1..], c[1..]);
    }
  }
}

=== FILE: wallets.dfy ===
/**
 * The wallet list of `miner/wallet_manager.py`: registration with bounded or unbounded retries,
 * start-up creation with all-or-nothing persistence, runtime appends, selection and the
 * consolidation result. Key generation and signing are inputs: a generated wallet is one the
 * caller generated.
 */
module Wallets {
  import opened Wrappers
  import opened Text
  import opened Json
  import opened Http
  import Ledger

  /** One wallet record as stored in `wallets.json`. */
  datatype Wallet = Wallet(address: string, pubkey: string, signingKey: string, signature: string, createdAt: string)

  // ---------------------------------------------------------------------------------------------
  // `_register_wallet_with_api`

  /** What one registration attempt runs into: an HTTP outcome, or the user pressing Ctrl-C. */
  datatype Attempt = Answered(reply: Reply) | Interrupted

  /**
   * How one attempt ends. `Raised` is an ordinary exception leaving the loop; `CtrlC` is the
   * re-raised KeyboardInterrupt, which no `except Exception` of a caller catches either.
   */
  datatype AttemptResult = Accepted | Failed | Raised | CtrlC

  /**
   * One attempt: a non-error status registers; an HTTP 400 whose JSON `message` contains
   * "already" in any case means registered before. Reading that message raises out of the
   * handler when the body is not a JSON object or the message is not a string.
   */
  function AttemptOnce(a: Attempt): (r: AttemptResult)
    ensures r == Accepted <==>
      (a.Answered? && a.reply.Response? &&
       (!IsHttpError(a.reply.status) || (a.reply.status == 400 && AlreadyMessage(a.reply.body))))
    ensures r == CtrlC <==> a.Interrupted?
  {
    match a
    case Interrupted => CtrlC
    case Answered(reply) =>
      match reply
      case Response(status, text, body) =>
        if !IsHttpError(status) then Accepted
        else if status != 400 then Failed
        else if body.None? || !body.value.JObj? then Raised
        else
          var msg := GetOr(body.value.members, "message", JStr(""));
          if !msg.JStr? then Raised
          else if Contains(Lower(msg.s), "already") then Accepted
          else Failed
      case TimedOut => Failed
      case TransportError(_) => Failed
  }

  /** The JSON body is an object whose string `message` contains "already", ignoring case. */
  predicate AlreadyMessage(body: Option<Json>) {
    && body.Some? && body.value.JObj?
    && GetOr(body.value.members, "message", JStr("")).JStr?
    && Contains(Lower(GetOr(body.value.members, "message", JStr("")).s), "already")
  }

  /** How a registration call ends, with the number of attempts it made. */
  datatype Registration =
    | Registered(attempts: nat)
    | GaveUp(attempts: nat)      // bounded mode: the last permitted attempt failed; an exception is raised
    | Escaped(attempts: nat)     // an exception left the retry loop
    | Aborted(attempts: nat)     // Ctrl-C: the KeyboardInterrupt was re-raised
    | Pending(attempts: nat)     // the injected attempts ran out while the loop would still retry

  function AttemptsOf(r: Registration): nat {
    match r
    case Registered(n) => n
    case GaveUp(n) => n
    case Escaped(n) => n
    case Aborted(n) => n
    case Pending(n) => n
  }

  /**
   * The retry loop from attempt number `done + 1` on: every failed attempt is retried, except
   * in bounded mode once the attempt number has reached `maxRetries`.
   */
  function RegisterFrom(script: seq<Attempt>, indefinitely: bool, maxRetries: int, done: nat): (r: Registration)
    requires done <= |script|
    ensures done <= AttemptsOf(r) <= |script|
    ensures !r.Pending? ==> AttemptsOf(r) > done
    ensures r.Pending? ==> AttemptsOf(r) == |script|
    ensures r.Registered? ==> AttemptOnce(script[AttemptsOf(r) - 1]) == Accepted
    ensures r.Escaped? ==> AttemptOnce(script[AttemptsOf(r) - 1]) == Raised
    ensures r.Aborted? ==> AttemptOnce(script[AttemptsOf(r) - 1]) == CtrlC
    ensures r.GaveUp? ==> !indefinitely && AttemptsOf(r) >= maxRetries
    ensures forall k :: done <= k < AttemptsOf(r) - (if r.Pending? then 0 else 1) ==> AttemptOnce(script[k]) == Failed
    ensures !indefinitely && done < maxRetries ==> AttemptsOf(r) <= maxRetries
    decreases |script| - done
  {
    if done == |script| then Pending(done)
    else
      match AttemptOnce(script[done])
      case Accepted => Registered(done + 1)
      case Raised => Escaped(done + 1)
      case CtrlC => Aborted(done + 1)
      case Failed =>
        if !indefinitely && done + 1 >= maxRetries then GaveUp(done + 1)
        else RegisterFrom(script, indefinitely, maxRetries, done + 1)
  }

  /** `_register_wallet_with_api(wallet, api_base, retry_indefinitely, max_retries)` over injected attempts. */
  function RegisterWallet(script: seq<Attempt>, indefinitely: bool, maxRetries: int): Registration {
    RegisterFrom(script, indefinitely, maxRetries, 0)
  }

  /**
   * The retry policy: bounded mode makes at most `max(1, max_retries)` attempts and, given that
   * many, always decides; unbounded mode never gives up.
   */
  lemma RetryPolicy(script: seq<Attempt>, indefinitely: bool, maxRetries: int)
    ensures var r := RegisterWallet(script, indefinitely, maxRetries);
      && (indefinitely ==> !r.GaveUp?)
      && (!indefinitely ==> AttemptsOf(r) <= (if maxRetries < 1 then 1 else maxRetries))
      && (!indefinitely && |script| >= (if maxRetries < 1 then 1 else maxRetries) ==> !r.Pending?)
      && (r.Registered? ==> exists k :: 0 <= k < |script| && AttemptOnce(script[k]) == Accepted)
  {
    var r := RegisterWallet(script, indefinitely, maxRetries);
    if !indefinitely && |script| >= (if maxRetries < 1 then 1 else maxRetries) {
      BoundedDecides(script, maxRetries, 0);
    }
  }

  lemma {:induction false} BoundedDecides(script: seq<Attempt>, maxRetries: int, done: nat)
    requires done <= |script| && |script| >= (if maxRetries < 1 then 1 else maxRetries)
    requires done == 0 || done < maxRetries
    ensures !RegisterFrom(script, false, maxRetries, done).Pending?
    decreases |script| - done
  {
    if done < |script| && AttemptOnce(script[done]) == Failed && done + 1 < maxRetries {
      BoundedDecides(script, maxRetries, done + 1);
    }
  }

  /** In unbounded mode the call can only end by registering, by an exception or by Ctrl-C. */
  lemma IndefiniteEndsRegisteredOrEscaped(script: seq<Attempt>, maxRetries: int)
    ensures var r := RegisterWallet(script, true, maxRetries);
      r.Registered? || r.Escaped? || r.Aborted? || (r.Pending? && forall k :: 0 <= k < |script| ==> AttemptOnce(script[k]) == Failed)
  {
  }

  // ---------------------------------------------------------------------------------------------
  // `_consolidate_wallet`

  /** True when no destination is configured, on a non-error answer, or on 409 (already consolidated). */
  function ConsolidateResult(destination: string, reply: Reply): (ok: bool)
    ensures ok <==> destination == "" || (reply.Response? && (!IsHttpError(reply.status) || reply.status == 409))
  {
    if destination == "" then true
    else match reply
      case Response(status, _, _) => !IsHttpError(status) || status == 409
      case TimedOut => false
      case TransportError(_) => false
  }

  // ---------------------------------------------------------------------------------------------
  // The list and its file

  /** The wallet list in memory and what was last written to `wallets.json` (None: not written by this call). */
  datatype Store = Store(wallets: seq<Wallet>, written: Option<seq<Wallet>>)

  /**
   * How `load_or_create_wallets` ends: with the list, through `sys.exit(1)` after a failed
   * registration, or with a KeyboardInterrupt passing through the `except Exception` around it.
   */
  datatype StartUp = Ready(store: Store) | Exit(code: int) | InterruptEscapes

  /** The number of wallets start-up has to create. */
  function ToCreate(existing: Option<seq<Wallet>>, num: int): (n: nat)
    ensures existing.Some? && |existing.value| >= num ==> n == 0
    ensures existing.Some? && |existing.value| < num ==> n == num - |existing.value|
    ensures existing.None? ==> n == (if num < 0 then 0 else num)
  {
    if existing.Some? then (if |existing.value| >= num then 0 else num - |existing.value|)
    else if num < 0 then 0 else num
  }

  /**
   * Bounded start-up registration of the wallet `scripts[i]` describes: at most three
   * attempts, so a script of three decides it.
   */
  function StartUpRegistration(script: seq<Attempt>): Registration {
    RegisterWallet(script, false, 3)
  }

  /** Wallet `i` is the first whose start-up registration does not succeed. */
  predicate FirstUnregistered(scripts: seq<seq<Attempt>>, i: int) {
    && 0 <= i < |scripts|
    && (forall j :: 0 <= j < i ==> StartUpRegistration(scripts[j]).Registered?)
    && !StartUpRegistration(scripts[i]).Registered?
  }

  /**
   * `load_or_create_wallets`: `existing` is the parsed file, if there is one; `generated[i]` is the
   * i-th generated wallet and `scripts[i]` what its bounded registration runs into, at least
   * as many attempts as the three it may make.
   */
  function LoadOrCreate(existing: Option<seq<Wallet>>, num: int, generated: seq<Wallet>, scripts: seq<seq<Attempt>>)
    : (r: StartUp)
    requires |scripts| == |generated| && |generated| >= ToCreate(existing, num)
    requires forall i :: 0 <= i < |scripts| ==> |scripts[i]| >= 3
    ensures existing.Some? && |existing.value| >= num ==> r == Ready(Store(existing.value, None))
    ensures r.Ready? ==> r.store.wallets == existing.GetOr([]) + generated[..ToCreate(existing, num)]
    ensures r.Ready? && ToCreate(existing, num) > 0 ==> r.store.written == Some(r.store.wallets)
    ensures r.Ready? <==> forall i :: 0 <= i < ToCreate(existing, num) ==> StartUpRegistration(scripts[i]).Registered?
    ensures r.Exit? ==> r.code == 1
    ensures r.Exit? <==>
      exists i :: i < ToCreate(existing, num) && FirstUnregistered(scripts, i) &&
        (StartUpRegistration(scripts[i]).GaveUp? || StartUpRegistration(scripts[i]).Escaped?)
    ensures r.InterruptEscapes? <==>
      exists i :: i < ToCreate(existing, num) && FirstUnregistered(scripts, i) && StartUpRegistration(scripts[i]).Aborted?
  {
    if existing.Some? && |existing.value| >= num then Ready(Store(existing.value, None))
    else
      var n := ToCreate(existing, num);
      var base := existing.GetOr([]);
      StartUpDecides(scripts[..n]);
      FirstUnregisteredPrefix(scripts, n);
      match CreateAll(generated[..n], scripts[..n])
      case AllRegistered(added) => Ready(Store(base + added, Some(base + added)))
      case RegistrationFailed => Exit(1)
      case CreationInterrupted => InterruptEscapes
  }

  /** Scripts of three attempts never leave a start-up registration pending. */
  lemma StartUpDecides(scripts: seq<seq<Attempt>>)
    requires forall i :: 0 <= i < |scripts| ==> |scripts[i]| >= 3
    ensures forall i :: 0 <= i < |scripts| ==> !StartUpRegistration(scripts[i]).Pending?
  {
    forall i | 0 <= i < |scripts|
      ensures !StartUpRegistration(scripts[i]).Pending?
    {
      BoundedDecides(scripts[i], 3, 0);
    }
  }

  lemma FirstUnregisteredPrefix(scripts: seq<seq<Attempt>>, n: nat)
    requires n <= |scripts|
    ensures forall i :: FirstUnregistered(scripts[..n], i) <==> i < n && FirstUnregistered(scripts, i)
  {
  }

  /** How the creation loop ends. */
  datatype Creation = AllRegistered(added: seq<Wallet>) | RegistrationFailed | CreationInterrupted

  /**
   * The creation loop: every wallet registered in turn, appended only after its registration
   * succeeds; the first failure ends the loop, through `sys.exit(1)` unless it was Ctrl-C.
   */
  function CreateAll(generated: seq<Wallet>, scripts: seq<seq<Attempt>>): (r: Creation)
    requires |scripts| == |generated|
    ensures r.AllRegistered? <==> forall i :: 0 <= i < |generated| ==> StartUpRegistration(scripts[i]).Registered?
    ensures r.AllRegistered? ==> r.added == generated
    ensures r.CreationInterrupted? <==> exists i :: FirstUnregistered(scripts, i) && StartUpRegistration(scripts[i]).Aborted?
    ensures r.RegistrationFailed? <==> exists i :: FirstUnregistered(scripts, i) && !StartUpRegistration(scripts[i]).Aborted?
  {
    if |generated| == 0 then AllRegistered([])
    else if !StartUpRegistration(scripts[0]).Registered? then
      assert FirstUnregistered(scripts, 0);
      FirstUnregisteredUnique(scripts, 0);
      if StartUpRegistration(scripts[0]).Aborted? then CreationInterrupted else RegistrationFailed
    else
      FirstUnregisteredShift(scripts);
      match CreateAll(generated[1..], scripts[1..])
      case AllRegistered(rest) =>
        assert generated == [generated[0]] + generated[1..];
        AllRegistered([generated[0]] + rest)
      case RegistrationFailed => RegistrationFailed
      case CreationInterrupted => CreationInterrupted
  }

  lemma FirstUnregisteredUnique(scripts: seq<seq<Attempt>>, i: int)
    requires FirstUnregistered(scripts, i)
    ensures forall k :: FirstUnregistered(scripts, k) ==> k == i
  {
  }

  /** Past a registered first wallet, the first failure of the rest is one place further on. */
  lemma FirstUnregisteredShift(scripts: seq<seq<Attempt>>)
    requires |scripts| > 0 && StartUpRegistration(scripts[0]).Registered?
    ensures forall i :: FirstUnregistered(scripts, i) <==> i > 0 && FirstUnregistered(scripts[1..], i - 1)
  {
  }

  /** On success the list has exactly `num` wallets when it had fewer, and nothing is written when it had enough. */
  lemma StartUpCount(existing: Option<seq<Wallet>>, num: int, generated: seq<Wallet>, scripts: seq<seq<Attempt>>)
    requires |scripts| == |generated| && |generated| >= ToCreate(existing, num)
    requires forall i :: 0 <= i < |scripts| ==> |scripts[i]| >= 3
    ensures var r := LoadOrCreate(existing, num, generated, scripts);
      r.Ready? ==> |r.store.wallets| == (if existing.Some? && |existing.value| >= num then |existing.value|
                                         else if num < 0 then 0 else num)
  {
  }

  /** `add_wallet`: the wallet goes last and the whole list is written. */
  function AddWallet(st: Store, w: Wallet): (r: Store)
    ensures |r.wallets| == |st.wallets| + 1 && r.wallets[..|st.wallets|] == st.wallets && r.wallets[|st.wallets|] == w
    ensures r.written == Some(r.wallets)
  {
    Store(st.wallets + [w], Some(st.wallets + [w]))
  }

  /**
   * `create_new_wallet`: registration retried without limit; once it succeeds the wallet is
   * appended and the list written. None when registration escaped or never concluded.
   */
  function CreateNewWallet(st: Store, w: Wallet, script: seq<Attempt>): (r: Option<Store>)
    ensures r.Some? <==> RegisterWallet(script, true, 3).Registered?
    ensures r.Some? ==> |r.value.wallets| == |st.wallets| + 1 && r.value.wallets[..|st.wallets|] == st.wallets
                        && r.value.wallets[|st.wallets|] == w && r.value.written == Some(r.value.wallets)
  {
    if RegisterWallet(script, true, 3).Registered? then Some(AddWallet(st, w)) else None
  }

  /**
   * `get_wallet_with_unsolved_challenges`: the first wallet in list order for which the
   * package scheduler has an eligible challenge.
   */
  function WalletWithUnsolved(ws: seq<Wallet>, l: Ledger.Ledger, now: int): (r: Option<nat>)
    ensures r.Some? ==> r.value < |ws| && Ledger.GetUnsolvedChallenge(l, ws[r.value].address, now).Some?
    ensures r.Some? ==> forall j :: 0 <= j < r.value ==> Ledger.GetUnsolvedChallenge(l, ws[j].address, now).None?
    ensures r.None? ==> forall j :: 0 <= j < |ws| ==> Ledger.GetUnsolvedChallenge(l, ws[j].address, now).None?
  {
    FirstEligible(ws, 0, a => Ledger.GetUnsolvedChallenge(l, a, now).Some?)
  }

  /** The first wallet from position `k` on whose address is eligible. */
  function FirstEligible(ws: seq<Wallet>, k: nat, eligible: string -> bool): (r: Option<nat>)
    requires k <= |ws|
    ensures r.Some? ==> k <= r.value < |ws| && eligible(ws[r.value].address)
    ensures r.Some? ==> forall j :: k <= j < r.value ==> !eligible(ws[j].address)
    ensures r.None? ==> forall j :: k <= j < |ws| ==> !eligible(ws[j].address)
    decreases |ws| - k
  {
    if k == |ws| then None
    else if eligible(ws[k].address) then Some(k)
    else FirstEligible(ws, k + 1, eligible)
  }
}

=== FILE: worker.dfy ===
/**
 * One pass of `MinerWorker.run` in `miner.py` as a step function. The pass takes the worker's
 * retry state, the challenge ledger and the dead-letter file, plus every outside input (the
 * announced challenge, two clock readings, the donation draw, the search result and the
 * submission reply). It returns the new state, ledger and file, and how the loop goes on.
 */
module Worker {
  import opened Wrappers
  import opened Text
  import opened Json
  import opened Http
  import opened Ledger
  import opened LegacyTracker
  import opened Outbox
  import Mining

  /** `DONATION_RATE`: the share of passes mined for the developer address. */
  const DonationRate: real := 0.05

  /** Transient submission failures tolerated before a solution is dead-lettered. */
  const MaxSubmissionAttempts: nat := 2

  // ---------------------------------------------------------------------------------------------
  // `submit_solution`

  /** `(success, should_mark_solved, already_exists)`. */
  datatype Verdict = Verdict(success: bool, shouldMarkSolved: bool, alreadyExists: bool)

  /** The server's marker for a solution it has already recorded. */
  const AlreadyExistsText: string := "Solution already exists"

  /** The server answered with a client or server error whose text lacks the duplicate marker. */
  predicate DefinitiveRejection(reply: Reply) {
    reply.Response? && IsHttpError(reply.status) && !Contains(reply.text, AlreadyExistsText)
  }

  /** A non-error response whose JSON object carries a non-null `crypto_receipt`. */
  predicate HasReceipt(reply: Reply) {
    && reply.Response? && !IsHttpError(reply.status)
    && reply.body.Some? && reply.body.value.JObj?
    && Get(reply.body.value.members, "crypto_receipt").Some?
    && Get(reply.body.value.members, "crypto_receipt").value != JNull
  }

  /**
   * `submit_solution`: the verdict triple, and the dead-letter file with the solution appended
   * when the server definitively rejected it.
   */
  function SubmitSolution(reply: Reply, address: string, challengeId: string, nonce: string, outbox: string)
    : (r: (Verdict, string))
    ensures r.0 in {Verdict(true, true, false), Verdict(false, true, false),
                    Verdict(false, true, true), Verdict(false, false, false)}
    ensures r.0.success <==> HasReceipt(reply)
    ensures r.0.shouldMarkSolved <==>
      reply.Response? && (IsHttpError(reply.status) || (reply.body.Some? && reply.body.value.JObj?))
    ensures r.0.alreadyExists <==>
      reply.Response? && IsHttpError(reply.status) && Contains(reply.text, AlreadyExistsText)
    ensures DefinitiveRejection(reply) ==> r.1 == AppendSolution(outbox, Record(address, challengeId, nonce))
    ensures !DefinitiveRejection(reply) ==> r.1 == outbox
  {
    match reply
    case Response(status, text, body) =>
      if IsHttpError(status) then
        var already := Contains(text, AlreadyExistsText);
        var out := if already then outbox else AppendSolution(outbox, Record(address, challengeId, nonce));
        (Verdict(false, true, already), out)
      else if body.Some? && body.value.JObj? then
        var receipt := Get(body.value.members, "crypto_receipt");
        (Verdict(receipt.Some? && receipt.value != JNull, true, false), outbox)
      else
        // `response.json()` raised, or the body has no `.get`
        (Verdict(false, false, false), outbox)
    case TimedOut => (Verdict(false, false, false), outbox)
    case TransportError(_) => (Verdict(false, false, false), outbox)
  }

  // ---------------------------------------------------------------------------------------------
  // The worker loop

  datatype WorkerConfig = WorkerConfig(address: string, devAddress: string, donationEnabled: bool)

  /**
   * `current_challenge_id`, `current_challenge_data`, `current_nonce` and
   * `submission_retry_count`: what a worker keeps between passes to retry a submission.
   */
  datatype WorkerState = WorkerState(
    challengeId: Option<string>,
    challengeData: Option<ChallengeRecord>,
    nonce: Option<string>,
    retryCount: nat)

  /** A new worker's state. */
  function Initial(): WorkerState {
    WorkerState(None, None, None, 0)
  }

  /** Forgets the stored nonce and challenge and the retry count; the current id is kept. */
  function Cleared(s: WorkerState): (c: WorkerState)
    ensures c.nonce.None? && c.challengeData.None? && c.retryCount == 0 && c.challengeId == s.challengeId
  {
    s.(challengeData := None, nonce := None, retryCount := 0)
  }

  /** Everything a pass learns from outside. */
  datatype Inputs = Inputs(
    announced: Option<Challenge>,   // `get_current_challenge()`
    discoveredAt: Stamp,            // the clock when a new challenge is registered
    selectNow: int,                 // the clock inside `get_unsolved_challenge`
    checkNow: int,                  // the clock at the deadline check
    draw: real,                     // `random.random()`
    search: Option<string>,         // what `mine_challenge_native` returns
    reply: Reply)                   // the answer to the submission

  /** How the loop goes on after a pass. */
  datatype Status =
    | Exited                            // nothing left for this wallet: `run` returns
    | Continued                         // next pass
    | Crashed                           // an exception: logged, sleep, next pass
    | AwaitingNewChallenge(last: string) // poll until a challenge other than `last` is announced

  datatype Pass = Pass(state: WorkerState, ledger: Ledger, outbox: string, status: Status, donationReported: bool)

  /** In retry mode: a nonce and its challenge are stored from an earlier pass. */
  predicate Retrying(s: WorkerState) {
    s.nonce.Some? && s.challengeData.Some?
  }

  /** `if nonce:` */
  predicate FoundNonce(search: Option<string>) {
    search.Some? && search.value != ""
  }

  /** The donation decision: donations on, the draw under the rate, and the developer address not yet credited. */
  predicate MineForDeveloper(cfg: WorkerConfig, l: Ledger, id: string, draw: real) {
    cfg.donationEnabled && draw < DonationRate && !IsDevSolved(l, id, cfg.devAddress)
  }

  /** What the first part of a pass settles on: the challenge to work on, or why the pass ends early. */
  datatype Start = Start(state: WorkerState, ledger: Ledger, chosen: Option<ChallengeRecord>, status: Status)

  /**
   * The head of a pass. In retry mode the stored challenge is used and nothing is read. Otherwise
   * the announced challenge is registered, the legacy selector picks one for the worker's wallet,
   * and the retry state is reset when the pick differs from the current challenge id.
   */
  function Begin(cfg: WorkerConfig, s: WorkerState, l: Ledger, inp: Inputs): (b: Start)
    ensures Retrying(s) ==> b.state == s && b.ledger == l && b.chosen == s.challengeData
    ensures !Retrying(s) ==> Keys(b.ledger) == Keys(l) + (if inp.announced.Some? then {inp.announced.value.challengeId} else {})
    ensures !Retrying(s) && b.chosen.Some? ==> var rec := b.chosen.value;
      && cfg.address !in rec.solvedBy
      && LegacyDeadline(rec).Some? && LegacyDeadline(rec).value > inp.selectNow
      && (exists i :: 0 <= i < |b.ledger| && b.ledger[i].rec == rec)
      && b.state.challengeId == Some(rec.challengeId)
      && (s.challengeId == Some(rec.challengeId) ==> b.state == s)
      && (s.challengeId != Some(rec.challengeId) ==> b.state.nonce.None? && b.state.challengeData.None? && b.state.retryCount == 0)
    ensures b.chosen.None? ==> b.state == s && (b.status == Exited || b.status == Crashed)
  {
    if Retrying(s) then Start(s, l, s.challengeData, Continued)
    else
      var l1 := if inp.announced.Some? then Register(l, inp.announced.value, inp.discoveredAt).ledger else l;
      match LegacyGetUnsolvedChallenge(l1, cfg.address, inp.selectNow)
      case Failure(_) => Start(s, l1, None, Crashed)
      case Success(None) => Start(s, l1, None, Exited)
      case Success(Some(rec)) =>
        var s1 := if s.challengeId != Some(rec.challengeId) then WorkerState(Some(rec.challengeId), None, None, 0) else s;
        Start(s1, l1, Some(rec), Continued)
  }

  /**
   * One pass of the loop. `clearOnExpiry` selects what the expiry branch does with the retry
   * state: `false` is the code as written, `true` the corrected behaviour (see `RunPass`).
   */
  function PassWith(cfg: WorkerConfig, s: WorkerState, l: Ledger, outbox: string, inp: Inputs, clearOnExpiry: bool): Pass {
    var b := Begin(cfg, s, l, inp);
    match b.chosen
    case None => Pass(b.state, b.ledger, outbox, b.status, false)
    case Some(rec) => Work(cfg, b.state, rec, b.ledger, outbox, inp, clearOnExpiry)
  }

  /** The part of a pass after the challenge is chosen: deadline check, donation choice, mining or reuse. */
  function Work(cfg: WorkerConfig, s: WorkerState, rec: ChallengeRecord, l: Ledger, outbox: string, inp: Inputs,
                clearOnExpiry: bool): Pass
  {
    var id := rec.challengeId;
    match LegacyDeadline(rec)
    case None => Pass(s, l, outbox, Crashed, false)
    case Some(deadline) =>
      if deadline - inp.checkNow <= 0 then
        Pass(if clearOnExpiry then Cleared(s) else s, MarkOwn(l, id, cfg.address), outbox, Continued, false)
      else
        var forDev := MineForDeveloper(cfg, l, id, inp.draw);
        var mining := if forDev then Some(cfg.devAddress) else None;
        if s.nonce.Some? then
          Settle(cfg, s, id, s.nonce.value, mining, forDev, l, outbox, inp.reply)
        else if DifficultyValue(rec.difficulty).None? then
          // `int(challenge["difficulty"][:8], 16)` raises before the search starts
          Pass(s, l, outbox, Crashed, false)
        else if FoundNonce(inp.search) then
          var s1 := s.(nonce := inp.search, challengeData := Some(rec));
          Settle(cfg, s1, id, inp.search.value, mining, forDev, l, outbox, inp.reply)
        else
          Pass(Cleared(s), MarkOwn(l, id, cfg.address), outbox, Continued, false)
  }

  /** The `dev_solved_by` lists of the ledger, record by record. */
  function DevLists(l: Ledger): seq<Option<seq<string>>> {
    seq(|l|, i requires 0 <= i < |l| => l[i].rec.devSolvedBy)
  }

  /** The submission failed for a transient reason (no answer, or an answer that could not be read). */
  predicate Transient(reply: Reply) {
    !HasReceipt(reply) && !(reply.Response? && (IsHttpError(reply.status) || (reply.body.Some? && reply.body.value.JObj?)))
  }

  /**
   * The settle step: submit `nonce` (found or stored) and decide what is marked, whether the
   * retry state is cleared and whether a dead-letter line is written.
   */
  function Settle(cfg: WorkerConfig, s: WorkerState, id: string, nonce: string, mining: Option<string>, forDev: bool,
                  l: Ledger, outbox: string, reply: Reply): Pass
    requires mining == (if forDev then Some(cfg.devAddress) else None)
  {
    var address := Mining.SubmissionAddress(cfg.address, mining);
    var (v, out) := SubmitSolution(reply, address, id, nonce, outbox);
    if forDev && v.alreadyExists then
      Pass(Cleared(s), MarkBoth(l, id, cfg.address, cfg.devAddress, true), out, AwaitingNewChallenge(id), false)
    else if v.success then
      if forDev then
        Pass(Cleared(s), MarkBoth(l, id, cfg.address, cfg.devAddress, false), out, Continued, forDev)
      else
        Pass(Cleared(s), MarkOwn(l, id, cfg.address), out, Continued, forDev)
    else if v.shouldMarkSolved then
      Pass(Cleared(s), MarkOwn(l, id, cfg.address), out, Continued, false)
    else if s.retryCount + 1 >= MaxSubmissionAttempts then
      var out1 := AppendSolution(out, Record(address, id, nonce));
      Pass(Cleared(s), MarkOwn(l, id, cfg.address), out1, Continued, false)
    else
      Pass(s.(retryCount := s.retryCount + 1), l, out, Continued, false)
  }

  /** `mark_solved` for the worker's own address: no challenge added or removed, no developer list touched. */
  function MarkOwn(l: Ledger, id: string, own: string): (r: Ledger)
    ensures Keys(r) == Keys(l) && DevLists(r) == DevLists(l)
    ensures id in Keys(l) ==> SolvedBy(r, id, own)
  {
    var r := MarkSolved(l, id, own).ledger;
    FindSameKeys(l, r, id);
    assert forall j :: 0 <= j < |l| ==> DevLists(r)[j] == DevLists(l)[j];
    r
  }

  /**
   * `mark_solved` for the worker's own address and `mark_dev_solved` for the developer's, in the
   * order the branch calls them (`devFirst` on a duplicate): both are recorded on a known id.
   */
  function MarkBoth(l: Ledger, id: string, own: string, dev: string, devFirst: bool): (r: Ledger)
    ensures Keys(r) == Keys(l)
    ensures id in Keys(l) ==> SolvedBy(r, id, own) && IsDevSolved(r, id, dev)
  {
    if devFirst then
      var l1 := MarkDevSolved(l, id, dev).ledger;
      var l2 := MarkSolved(l1, id, own).ledger;
      FindSameKeys(l, l1, id);
      FindSameKeys(l1, l2, id);
      l2
    else
      var l1 := MarkSolved(l, id, own).ledger;
      var l2 := MarkDevSolved(l1, id, dev).ledger;
      FindSameKeys(l, l1, id);
      FindSameKeys(l1, l2, id);
      l2
  }

  /** A duplicate on a donation pass makes the worker wait for a new challenge; a donation is reported exactly when a donation pass got a receipt. */
  lemma SettleStatus(cfg: WorkerConfig, s: WorkerState, id: string, nonce: string, mining: Option<string>, forDev: bool,
                     l: Ledger, outbox: string, reply: Reply)
    requires mining == (if forDev then Some(cfg.devAddress) else None)
    ensures var r := Settle(cfg, s, id, nonce, mining, forDev, l, outbox, reply);
      && (r.status == AwaitingNewChallenge(id) <==> forDev && reply.Response? && IsHttpError(reply.status)
                                                    && Contains(reply.text, AlreadyExistsText))
      && (r.donationReported <==> forDev && HasReceipt(reply))
  {
  }

  /** The developer address is credited on a donation pass that got a receipt or a duplicate. */
  lemma SettleCreditsDeveloper(cfg: WorkerConfig, s: WorkerState, id: string, nonce: string, mining: Option<string>, forDev: bool,
                               l: Ledger, outbox: string, reply: Reply)
    requires mining == (if forDev then Some(cfg.devAddress) else None)
    ensures var r := Settle(cfg, s, id, nonce, mining, forDev, l, outbox, reply);
      && (r.status.AwaitingNewChallenge? && id in Keys(l) ==> IsDevSolved(r.ledger, id, cfg.devAddress))
      && (forDev && HasReceipt(reply) && id in Keys(l) ==> IsDevSolved(r.ledger, id, cfg.devAddress))
  {
  }

  /** No challenge is added or removed, and the developer lists change only on a donation pass. */
  lemma SettleKeepsShape(cfg: WorkerConfig, s: WorkerState, id: string, nonce: string, mining: Option<string>, forDev: bool,
                         l: Ledger, outbox: string, reply: Reply)
    requires mining == (if forDev then Some(cfg.devAddress) else None)
    ensures var r := Settle(cfg, s, id, nonce, mining, forDev, l, outbox, reply);
      && Keys(r.ledger) == Keys(l)
      && (!forDev ==> DevLists(r.ledger) == DevLists(l))
  {
  }

  /** The retry state after the settle step: one more attempt on a transient failure below the limit, cleared otherwise. */
  lemma SettleState(cfg: WorkerConfig, s: WorkerState, id: string, nonce: string, mining: Option<string>, forDev: bool,
                    l: Ledger, outbox: string, reply: Reply)
    requires mining == (if forDev then Some(cfg.devAddress) else None)
    ensures var r := Settle(cfg, s, id, nonce, mining, forDev, l, outbox, reply);
      if Transient(reply) && s.retryCount + 1 < MaxSubmissionAttempts
      then r.state == s.(retryCount := s.retryCount + 1) && r.ledger == l && r.outbox == outbox && r.status == Continued
      else r.state == Cleared(s)
  {
  }

  /** A transient failure below the limit keeps the nonce, counts the attempt and touches nothing else. */
  lemma SettleRetries(cfg: WorkerConfig, s: WorkerState, id: string, nonce: string, mining: Option<string>, forDev: bool,
                      l: Ledger, outbox: string, reply: Reply)
    requires mining == (if forDev then Some(cfg.devAddress) else None)
    ensures var r := Settle(cfg, s, id, nonce, mining, forDev, l, outbox, reply);
      Transient(reply) && s.retryCount + 1 < MaxSubmissionAttempts ==>
        r.state == s.(retryCount := s.retryCount + 1) && r.ledger == l && r.outbox == outbox && r.status == Continued
  {
    SettleState(cfg, s, id, nonce, mining, forDev, l, outbox, reply);
  }

  /** Every outcome but a transient failure below the limit leaves the wallet's own address marked on a known id. */
  lemma SettleMarksOwn(cfg: WorkerConfig, s: WorkerState, id: string, nonce: string, mining: Option<string>, forDev: bool,
                       l: Ledger, outbox: string, reply: Reply)
    requires mining == (if forDev then Some(cfg.devAddress) else None)
    ensures var r := Settle(cfg, s, id, nonce, mining, forDev, l, outbox, reply);
      !(Transient(reply) && s.retryCount + 1 < MaxSubmissionAttempts) && id in Keys(l) ==> SolvedBy(r.ledger, id, cfg.address)
  {
  }

  /** Every other outcome marks the wallet's own address and clears the retry state. */
  lemma SettleMarks(cfg: WorkerConfig, s: WorkerState, id: string, nonce: string, mining: Option<string>, forDev: bool,
                    l: Ledger, outbox: string, reply: Reply)
    requires mining == (if forDev then Some(cfg.devAddress) else None)
    ensures var r := Settle(cfg, s, id, nonce, mining, forDev, l, outbox, reply);
      !(Transient(reply) && s.retryCount + 1 < MaxSubmissionAttempts) ==>
        r.state == Cleared(s) && (id in Keys(l) ==> SolvedBy(r.ledger, id, cfg.address))
  {
    SettleState(cfg, s, id, nonce, mining, forDev, l, outbox, reply);
    SettleMarksOwn(cfg, s, id, nonce, mining, forDev, l, outbox, reply);
  }

  /** Exactly one dead-letter line, with the submission address, is written on a definitive rejection or on the last transient failure. */
  lemma SettleOutbox(cfg: WorkerConfig, s: WorkerState, id: string, nonce: string, mining: Option<string>, forDev: bool,
                     l: Ledger, outbox: string, reply: Reply)
    requires mining == (if forDev then Some(cfg.devAddress) else None)
    ensures var r := Settle(cfg, s, id, nonce, mining, forDev, l, outbox, reply);
      var line := Record(Mining.SubmissionAddress(cfg.address, mining), id, nonce);
      if DefinitiveRejection(reply) || (Transient(reply) && s.retryCount + 1 >= MaxSubmissionAttempts)
      then r.outbox == AppendSolution(outbox, line)
      else r.outbox == outbox
  {
  }

  /** The loop pass as written in `miner.py`. */
  function RunPassAsWritten(cfg: WorkerConfig, s: WorkerState, l: Ledger, outbox: string, inp: Inputs): Pass {
    PassWith(cfg, s, l, outbox, inp, false)
  }

  /** The loop pass with the expiry branch also clearing the retry state, as every other branch that marks does. */
  function RunPass(cfg: WorkerConfig, s: WorkerState, l: Ledger, outbox: string, inp: Inputs): Pass {
    PassWith(cfg, s, l, outbox, inp, true)
  }

  /** After the duplicate-donation branch: the first announced challenge with another id is registered. */
  function EndWait(l: Ledger, last: string, announced: Challenge, discoveredAt: Stamp): (r: Option<Ledger>)
    ensures r.None? <==> announced.challengeId == last
    ensures r.Some? ==> announced.challengeId in Keys(r.value) && Keys(r.value) == Keys(l) + {announced.challengeId}
  {
    if announced.challengeId != last then Some(Register(l, announced, discoveredAt).ledger) else None
  }

  // ---------------------------------------------------------------------------------------------
  // Properties of a pass

  /**
   * What holds of the retry state between passes: a nonce is stored exactly together with its
   * challenge (under the current id), and only after one transient failure.
   */
  predicate Consistent(s: WorkerState) {
    && (s.nonce.Some? <==> s.challengeData.Some?)
    && (s.nonce.Some? ==> s.nonce.value != "" && s.retryCount == 1
                          && s.challengeId == Some(s.challengeData.value.challengeId))
    && (s.nonce.None? ==> s.retryCount == 0)
  }

  lemma InitialConsistent()
    ensures Consistent(Initial()) && !Retrying(Initial())
  {
  }

  /** Every pass, as written or corrected, keeps the retry state consistent. */
  lemma PassKeepsConsistent(cfg: WorkerConfig, s: WorkerState, l: Ledger, outbox: string, inp: Inputs, clear: bool)
    requires Consistent(s)
    ensures Consistent(PassWith(cfg, s, l, outbox, inp, clear).state)
  {
    var b := Begin(cfg, s, l, inp);
    if b.chosen.Some? {
      var rec := b.chosen.value;
      assert Consistent(b.state) && b.state.challengeId == Some(rec.challengeId);
      WorkKeepsConsistent(cfg, b.state, rec, b.ledger, outbox, inp, clear);
    }
  }

  /** The part of a pass after the choice keeps the retry state consistent when the state belongs to the chosen challenge. */
  lemma WorkKeepsConsistent(cfg: WorkerConfig, s: WorkerState, rec: ChallengeRecord, l: Ledger, outbox: string,
                            inp: Inputs, clear: bool)
    requires Consistent(s) && s.challengeId == Some(rec.challengeId)
    ensures Consistent(Work(cfg, s, rec, l, outbox, inp, clear).state)
  {
    var id := rec.challengeId;
    if LegacyDeadline(rec).Some? && LegacyDeadline(rec).value - inp.checkNow > 0 {
      var forDev := MineForDeveloper(cfg, l, id, inp.draw);
      var mining := if forDev then Some(cfg.devAddress) else None;
      if s.nonce.Some? {
        SettleKeepsConsistent(cfg, s, id, s.nonce.value, mining, forDev, l, outbox, inp.reply);
      } else if DifficultyValue(rec.difficulty).Some? && FoundNonce(inp.search) {
        var s1 := s.(nonce := inp.search, challengeData := Some(rec));
        SettleKeepsConsistent(cfg, s1, id, inp.search.value, mining, forDev, l, outbox, inp.reply);
      }
    }
  }

  /** The settle step keeps a consistent state with a nonce consistent: it clears it, or counts the single retry. */
  lemma SettleKeepsConsistent(cfg: WorkerConfig, s: WorkerState, id: string, nonce: string, mining: Option<string>,
                              forDev: bool, l: Ledger, outbox: string, reply: Reply)
    requires mining == (if forDev then Some(cfg.devAddress) else None)
    requires s.nonce.Some? && s.nonce.value != "" && s.challengeData.Some?
    requires s.challengeId == Some(s.challengeData.value.challengeId) && s.retryCount <= 1
    ensures Consistent(Settle(cfg, s, id, nonce, mining, forDev, l, outbox, reply).state)
  {
    SettleState(cfg, s, id, nonce, mining, forDev, l, outbox, reply);
  }

  /**
   * Without a submission: an expired challenge, or a search that found nothing, marks the
   * wallet's own address and writes no dead-letter line; the no-nonce case also clears the state.
   */
  lemma MarkWithoutSubmitting(cfg: WorkerConfig, s: WorkerState, rec: ChallengeRecord, l: Ledger, outbox: string,
                              inp: Inputs, clear: bool)
    requires LegacyDeadline(rec).Some?
    requires LegacyDeadline(rec).value <= inp.checkNow
          || (s.nonce.None? && DifficultyValue(rec.difficulty).Some? && !FoundNonce(inp.search))
    ensures var r := Work(cfg, s, rec, l, outbox, inp, clear);
      && r.outbox == outbox && r.status == Continued && !r.donationReported
      && (rec.challengeId in Keys(l) ==> SolvedBy(r.ledger, rec.challengeId, cfg.address))
      && (LegacyDeadline(rec).value > inp.checkNow ==> r.state == Cleared(s))
  {
  }

  /** A donation pass happens only with donations on, a draw under the rate and an uncredited developer address. */
  lemma DonationOnlyWhenAllowed(cfg: WorkerConfig, s: WorkerState, rec: ChallengeRecord, l: Ledger, outbox: string,
                                inp: Inputs, clear: bool)
    ensures var r := Work(cfg, s, rec, l, outbox, inp, clear);
      r.donationReported || r.status.AwaitingNewChallenge? ==>
        cfg.donationEnabled && inp.draw < DonationRate && !IsDevSolved(l, rec.challengeId, cfg.devAddress)
  {
    var id := rec.challengeId;
    if LegacyDeadline(rec).Some? && LegacyDeadline(rec).value - inp.checkNow > 0 {
      var forDev := MineForDeveloper(cfg, l, id, inp.draw);
      var mining := if forDev then Some(cfg.devAddress) else None;
      if s.nonce.Some? {
        SettleStatus(cfg, s, id, s.nonce.value, mining, forDev, l, outbox, inp.reply);
      } else if DifficultyValue(rec.difficulty).Some? && FoundNonce(inp.search) {
        var s1 := s.(nonce := inp.search, challengeData := Some(rec));
        SettleStatus(cfg, s1, id, inp.search.value, mining, forDev, l, outbox, inp.reply);
      }
    }
  }

  /** Passes one after another, until the loop returns or starts waiting for a new challenge. */
  function Iterate(cfg: WorkerConfig, s: WorkerState, l: Ledger, outbox: string, inps: seq<Inputs>, clear: bool): Pass
    decreases |inps|
  {
    if |inps| == 0 then Pass(s, l, outbox, Continued, false)
    else
      var p := PassWith(cfg, s, l, outbox, inps[0], clear);
      if p.status.Exited? || p.status.AwaitingNewChallenge? then p
      else Iterate(cfg, p.state, p.ledger, p.outbox, inps[1..], clear)
  }

  /**
   * As written, a worker still retrying a submission whose challenge has expired marks it solved
   * and goes round again with the same stored nonce: for every later clock reading past the
   * deadline it neither submits, nor selects another challenge, nor exits.
   */
  lemma {:induction false} ExpiredRetryLivelock(cfg: WorkerConfig, s: WorkerState, l: Ledger, outbox: string,
                                                inps: seq<Inputs>)
    requires Consistent(s) && Retrying(s) && LegacyDeadline(s.challengeData.value).Some?
    requires forall k :: 0 <= k < |inps| ==> inps[k].checkNow >= LegacyDeadline(s.challengeData.value).value
    ensures var r := Iterate(cfg, s, l, outbox, inps, false);
      r.state == s && r.outbox == outbox && r.status == Continued && Keys(r.ledger) == Keys(l)
    decreases |inps|
  {
    if |inps| > 0 {
      var p := PassWith(cfg, s, l, outbox, inps[0], false);
      assert p.state == s && p.outbox == outbox && p.status == Continued;
      ExpiredRetryLivelock(cfg, s, p.ledger, outbox, inps[1..]);
    }
  }

  /** The corrected expiry branch leaves retry mode and credits the wallet, so the next pass selects afresh. */
  lemma ExpiryLeavesRetryMode(cfg: WorkerConfig, s: WorkerState, l: Ledger, outbox: string, inp: Inputs)
    requires Consistent(s) && Retrying(s) && LegacyDeadline(s.challengeData.value).Some?
    requires inp.checkNow >= LegacyDeadline(s.challengeData.value).value
    ensures var r := RunPass(cfg, s, l, outbox, inp);
      && !Retrying(r.state) && Consistent(r.state) && r.outbox == outbox && r.status == Continued
      && (s.challengeData.value.challengeId in Keys(l) ==> SolvedBy(r.ledger, s.challengeData.value.challengeId, cfg.address))
  {
  }

  /** A registration keeps every existing record's solvers. */
  lemma RegisterKeepsSolved(l: Ledger, c: Challenge, now: Stamp, id: string, w: string)
    requires Keyed(l) && SolvedBy(l, id, w)
    ensures SolvedBy(Register(l, c, now).ledger, id, w)
  {
    var l1 := Register(l, c, now).ledger;
    var i := Find(l, id).value;
    RegisterKeepsKeyed(l, c, now);
    assert l1[i] == l[i];
    FindKeyed(l1, i);
  }

  /** A non-retrying pass never picks a challenge its wallet is already credited with. */
  lemma NoReselectOfSolved(cfg: WorkerConfig, s: WorkerState, l: Ledger, inp: Inputs, id: string)
    requires Keyed(l) && KeysMatch(l) && !Retrying(s) && SolvedBy(l, id, cfg.address)
    ensures var b := Begin(cfg, s, l, inp);
      b.chosen.Some? ==> b.chosen.value.challengeId != id
  {
    var b := Begin(cfg, s, l, inp);
    var l1 := if inp.announced.Some? then Register(l, inp.announced.value, inp.discoveredAt).ledger else l;
    if inp.announced.Some? {
      RegisterKeepsSolved(l, inp.announced.value, inp.discoveredAt, id, cfg.address);
      RegisterKeepsShape(l, inp.announced.value, inp.discoveredAt);
    }
    assert b.ledger == l1;
    if b.chosen.Some? {
      SolvedNotListed(l1, b.chosen.value, id, cfg.address);
    }
  }

  /** A record of a well-formed ledger that does not list `w` is not the challenge `w` is credited with. */
  lemma SolvedNotListed(l: Ledger, rec: ChallengeRecord, id: string, w: string)
    requires Keyed(l) && KeysMatch(l) && SolvedBy(l, id, w)
    requires w !in rec.solvedBy && exists i :: 0 <= i < |l| && l[i].rec == rec
    ensures rec.challengeId != id
  {
    var j :| 0 <= j < |l| && l[j].rec == rec;
    FindKeyed(l, j);
  }

  /** With the correction, once a retried challenge expires the worker moves on to a different one. */
  lemma CorrectedExpiryMovesOn(cfg: WorkerConfig, s: WorkerState, l: Ledger, outbox: string, inp: Inputs, next: Inputs)
    requires Keyed(l) && KeysMatch(l)
    requires Consistent(s) && Retrying(s) && LegacyDeadline(s.challengeData.value).Some?
    requires s.challengeData.value.challengeId in Keys(l)
    requires inp.checkNow >= LegacyDeadline(s.challengeData.value).value
    ensures var r := RunPass(cfg, s, l, outbox, inp);
      var b := Begin(cfg, r.state, r.ledger, next);
      b.chosen.Some? ==> b.chosen.value.challengeId != s.challengeData.value.challengeId
  {
    var id := s.challengeData.value.challengeId;
    var r := RunPass(cfg, s, l, outbox, inp);
    ExpiryLeavesRetryMode(cfg, s, l, outbox, inp);
    assert r.ledger == MarkSolved(l, id, cfg.address).ledger;
    UpdatesKeepShape(l, inp.announced.GetOr(Challenge("", None, None, "", "", "", inp.discoveredAt)), inp.discoveredAt, id, cfg.address);
    NoReselectOfSolved(cfg, r.state, r.ledger, next, id);
  }
}

=== FILE: wrappers.dfy ===
/** Failure-compatible result types shared by every module of the model. */
module Wrappers {

  /** The conventional Some/None datatype: `None` stands for Python's `None`. */
  datatype Option<+T> = None | Some(value: T) {

    /** `x if x is not None else default`. */
    function GetOr(default: T): T {
      match this
      case Some(v) => v
      case None => default
    }
  }

  /** Either a computed value or the error the source would raise or report. */
  datatype Result<+R, +E> = Success(value: R) | Failure(error: E) {

    predicate IsFailure() {
      Failure?
    }

    function PropagateFailure<U>(): Result<U, E>
      requires Failure?
    {
      Failure(error)
    }

    function Extract(): R
      requires Success?
    {
      value
    }
  }
}
